=== FILE: README.md ===
# RoadWatch core in Dafny

RoadWatch is an Android driving assistant. It keeps a list of road hazards: speed bumps, rumble strips, potholes and speed-limit zones. The list comes from three places: a bundled CSV seed asset, the user's own reports and a RoadWatch server. While the car moves, the app warns the driver by voice and on a heads-up display. A small Python server collects the app's debug logs.

This project models the core logic of the app and the log server as immutable datatypes and pure functions, and proves properties of them. The modules follow the source files. `Hazards` covers both `Hazard.kt` and `HazardType.kt`, `AlertManager.kt` is split into four modules, and the shared helper modules have no source file of their own:

- **Hazards, Entities:** the hazard types, the hazard record and the database entity.
- **HazardStore, SeedRepository, SeedLoader, HazardDao, HazardRepository:** the stored hazard list, including its CSV line format and its de-duplicating add.
- **SeedOverrides, CommunityVotes, AppPrefs:** the key-value preferences.
- **ImportExport, SettingsFragment, SettingsImport:** CSV export and import of hazards and settings.
- **AlertManager, AlertClusters, AlertDistances, AlertZones:** what the alert loop says and when.
- **ProximityAlertEngine:** the domain-level alert engine.
- **TtsManager:** the speech preferences and the spoken phrases.
- **DriveHud, LocationsScreen, LocationsViewModel, AdminLocations, PassengerReport:** the screens' decision logic.
- **ApiClient, AdminClient, RemoteHazardCache:** the HTTP client, the token-refreshing admin client and the throttled server cache.
- **RemoteLogger, LogServer:** the remote log client and the log server.
- **Wrappers, Numbers, Text, Seqs, Json:** shared helpers.

Several things are inputs rather than part of the model: the clock, positions, geometry, the server's answers, file contents and the formatters. Geometry means distances, bearings and the corridor test; the formatters are Base64, URL encoding and date formatting. These inputs appear as values or function-typed parameters. A Kotlin `Double` is modelled as a canonical decimal numeral printed without an exponent, so printing and reading back round-trip. Kotlin prints very small and very large values in scientific notation and reads more spellings than plain numerals; "## Left out" lists both differences. Java instants are a comma-free textual stand-in with the same round-trip property.

## Model

| member | source | states |
|---|---|---|
| LogServer.Append | logging_server.py:46-51 | the new record is last; a store within capacity stays within 1000 records and equals the last 1000 of the old store plus the record, so exactly the oldest entry is evicted |
| LogServer.AppendAllKeepsLatest | logging_server.py:46-51 | after any number of posts the store is exactly the last 1000 records ever received, in arrival order |
| LogServer.Stamp | logging_server.py:42-44 | the stored record has the client's keys plus `server_timestamp` and `client_ip`, both set by the server whatever the client sent; every other field is unchanged |
| LogServer.Ingest | logging_server.py:36-62 | the answer is 200 exactly when the body decodes to a JSON object, which is then stamped and appended, with body `{"status": "ok"}`; any other body gets a 500 and the store is untouched |
| LogServer.FieldOr | logging_server.py:113-117 | a missing field shows its default, and a string field shows its own text |
| LogServer.RenderDashboard | logging_server.py:98-124 | the page reports the store's size and shows min(size, 50) entries, entry i being the record i places from the newest |
| LogServer.EntryClassIsLevel | logging_server.py:78-120 | the entry's element opens with class `log-entry` followed by the level verbatim, so the four styled levels pick up their style and any other level still renders |
| LogServer.Handle | logging_server.py:20-34 | POST /log ingests; GET / renders the dashboard and GET /logs exports the store oldest first, neither changing it; GET /clear empties the store and answers 302 with Location "/"; other paths answer 404 and other methods 501, all without changing the store (also lines 136-150) |
| LogServer.PostThenDashboard | logging_server.py:47 | a record that has just been posted is the first dashboard entry, showing the client address the server recorded (also lines 112) |
| LogServer.ReplayBounded | logging_server.py:49-51 | no sequence of requests makes the store exceed 1000 records |
| LogServer.HandleAsWritten | logging_server.py:16-17 | with a non-empty shared store a request acts on it; with an empty one the shared store is never changed |
| LogServer.AsWrittenLosesEveryRecord | logging_server.py:17 | as written, a server that starts empty stays empty whatever requests arrive (also lines 156-162) |
| LogServer.AsWrittenPostIsLost | logging_server.py:17 | as written, a post is answered 200 yet the export that follows is empty (also lines 47, 141) |
| LogServer.SharedStoreKeepsPost | logging_server.py:47 | with one shared store, a posted record is the last record of the export that follows (also lines 141) |
| RemoteLogger.ServerUrl | app/src/main/java/com/roadwatch/core/util/RemoteLogger.kt:22-33 | the target is the device address exactly when `useDeviceUrl` is on, and the emulator address exactly when it is off |
| RemoteLogger.ServerUrlPath | app/src/main/java/com/roadwatch/core/util/RemoteLogger.kt:22-23 | both addresses end in the `/log` path that the logging server accepts posts on |
| RemoteLogger.LogRecord | app/src/main/java/com/roadwatch/core/util/RemoteLogger.kt:43-52 | a record always has timestamp, level, tag and message; the exception and stack-trace keys are present exactly when a throwable is given, and carry its text |
| RemoteLogger.Log | app/src/main/java/com/roadwatch/core/util/RemoteLogger.kt:38-54 | something is sent exactly when the logger is enabled, and it is the record for the call, posted to the configured address |
| RemoteLogger.LogAt | app/src/main/java/com/roadwatch/core/util/RemoteLogger.kt:66-69 | `d`, `i`, `w` and `e` send at DEBUG, INFO, WARN and ERROR; `d` and `i` never carry an exception |
| RemoteLogger.LevelNamesStyled | app/src/main/java/com/roadwatch/core/util/RemoteLogger.kt:66-69 | the four levels are distinct, and each is one that the dashboard styles |
| RemoteLogger.AppEventMessage | app/src/main/java/com/roadwatch/core/util/RemoteLogger.kt:75 | the message is "App Event: E", followed by " - d" only when details are given |
| RemoteLogger.ScreenViewMessage | app/src/main/java/com/roadwatch/core/util/RemoteLogger.kt:83 | the message is "Screen View: S", followed by " (from: s)" only when a source is given |
| RemoteLogger.UserActionMessage | app/src/main/java/com/roadwatch/core/util/RemoteLogger.kt:91 | the message is "User Action: A", followed by " - d" only when details are given |
| RemoteLogger.LogAppEvent | app/src/main/java/com/roadwatch/core/util/RemoteLogger.kt:74-77 | when enabled, sends an INFO record under tag AppLifecycle with the event message and no exception |
| RemoteLogger.LogScreenView | app/src/main/java/com/roadwatch/core/util/RemoteLogger.kt:82-85 | when enabled, sends an INFO record under tag Navigation with the screen-view message |
| RemoteLogger.LogUserAction | app/src/main/java/com/roadwatch/core/util/RemoteLogger.kt:90-93 | when enabled, sends an INFO record under tag UserAction with the action message |
| RemoteLogger.LogError | app/src/main/java/com/roadwatch/core/util/RemoteLogger.kt:98-101 | when enabled, sends an ERROR record under tag AppError with "Error in C: E", carrying the throwable when one is given |
| RemoteLogger.LoggedRecordOnDashboard | app/src/main/java/com/roadwatch/core/util/RemoteLogger.kt:43-47 | once the server accepts a record the logger sent, its dashboard entry shows the client's timestamp, level, tag and message, with no default substituted |
| Hazards.ValueOf | app/src/main/java/com/roadwatch/data/HazardType.kt:3-7 | the lookup finds the constant with exactly that name, and finds nothing only when no constant is so named |
| Hazards.FromString | app/src/main/java/com/roadwatch/data/HazardType.kt:10-13 | a type is found exactly when some constant's name equals the trimmed, upper-cased, space-to-underscore key, and the type found is that constant |
| Hazards.FromStringName | app/src/main/java/com/roadwatch/data/HazardType.kt:3-12 | each of the four constants is found again from its own name |
| Hazards.FromStringAcceptsNames | app/src/main/java/com/roadwatch/data/HazardType.kt:10-12 | each constant is also found from its lower-case, space-separated spelling padded with spaces (" speed bump " and the like) |
| Hazards.FromStringRejectsDoubleSpace | app/src/main/java/com/roadwatch/data/HazardType.kt:11-12 | text with two spaces in a row, such as "speed  bump", yields no type |
| Hazards.NormalizeName | app/src/main/java/com/roadwatch/data/HazardType.kt:11 | a constant-style name normalises to itself |
| Hazards.NormalizeSpacedName | app/src/main/java/com/roadwatch/data/HazardType.kt:11 | the spaced, lower-case, padded spelling of a constant-style name normalises to the name |
| Hazards.TypeNameInjective | app/src/main/java/com/roadwatch/data/HazardType.kt:3-7 | the four names are distinct, so looking a name up returns its constant |
| Hazards.NewHazard | app/src/main/java/com/roadwatch/data/Hazard.kt:5-16 | a new hazard carries the declared defaults: bearing side and directionality "UNKNOWN", active, source "SEED", created at the epoch, no speed limit or zone length |
| HazardStore.ParseBoolStrict | app/src/main/java/com/roadwatch/data/HazardStore.kt:57 | "true" and "false" read as themselves and nothing else reads as a boolean (the caller then defaults to active) |
| HazardStore.Fields | app/src/main/java/com/roadwatch/data/HazardStore.kt:24-34 | an entry is written as exactly nine fields |
| HazardStore.Init | app/src/main/java/com/roadwatch/data/HazardStore.kt:13-17 | after construction the file exists, and an existing file is left as it was |
| HazardStore.Add | app/src/main/java/com/roadwatch/data/HazardStore.kt:20-41 | a successful add appends exactly one line, id-stamped with the current time, after the unchanged earlier lines; a failed one writes nothing and answers false |
| HazardStore.Entry | app/src/main/java/com/roadwatch/data/HazardStore.kt:51-63 | an entry read from fields carries the first field as its id |
| HazardStore.ParseLine | app/src/main/java/com/roadwatch/data/HazardStore.kt:46-65 | a line yields an entry only when it does not start with "id," and has at least nine fields |
| HazardStore.Persisted | app/src/main/java/com/roadwatch/data/HazardStore.kt:53-62 | the file keeps type, coordinates, active flag, bearing side, directionality, source and creation time; every other field returns at its default |
| HazardStore.LineStartsLikeHeader | app/src/main/java/com/roadwatch/data/HazardStore.kt:47-100 | a written line starts like the header exactly when its id is "id" |
| HazardStore.FieldsClean | app/src/main/java/com/roadwatch/data/HazardStore.kt:24-34 | the fields of a storable entry contain no comma |
| HazardStore.EntryOfFields | app/src/main/java/com/roadwatch/data/HazardStore.kt:24-63 | the fields written for an entry convert back to its persisted part |
| HazardStore.ParseLineOfLine | app/src/main/java/com/roadwatch/data/HazardStore.kt:20-65 | every line the store writes for a storable entry reads back as that entry's persisted part |
| HazardStore.HeaderSkipped | app/src/main/java/com/roadwatch/data/HazardStore.kt:16-47 | the header line is never read as an entry |
| HazardStore.ParsedIsStorable | app/src/main/java/com/roadwatch/data/HazardStore.kt:46-65 | every entry read from a file holds no comma in its text fields and carries only stored fields |
| HazardStore.AllLines | app/src/main/java/com/roadwatch/data/HazardStore.kt:84-102 | a rewrite produces the header and then one line per entry |
| HazardStore.WriteAll | app/src/main/java/com/roadwatch/data/HazardStore.kt:84-108 | the rewrite reports success exactly when no write throws, and then the file is the header plus one line per entry; otherwise the file holds the lines written before the failure |
| HazardStore.PersistedAll | app/src/main/java/com/roadwatch/data/HazardStore.kt:84-102 | keeps each entry's id and persisted part, position by position |
| HazardStore.ParseAllLines | app/src/main/java/com/roadwatch/data/HazardStore.kt:43-68 | the lines written for storable entries parse back to their persisted parts, in order (also lines 84-108) |
| HazardStore.ListAfterWriteAll | app/src/main/java/com/roadwatch/data/HazardStore.kt:43-68 | writing entries whose text fields hold no comma and listing them back gives the same entries in the same order (also lines 84-108) |
| HazardStore.ListAfterWriteAllClean | app/src/main/java/com/roadwatch/data/HazardStore.kt:43-68 | entries that hold only stored fields are listed back exactly as written (also lines 84-108) |
| HazardStore.ParsedLinesClean | app/src/main/java/com/roadwatch/data/HazardStore.kt:43-68 | whatever a listing returns can be rewritten without loss |
| HazardStore.RewriteKeepsList | app/src/main/java/com/roadwatch/data/HazardStore.kt:72-81 | rewriting what was listed leaves the listing unchanged |
| HazardStore.ToggleIn | app/src/main/java/com/roadwatch/data/HazardStore.kt:78-80 | the active flag flips on exactly the entries with that id; ids, order and every other field are unchanged |
| HazardStore.ToggleTwice | app/src/main/java/com/roadwatch/data/HazardStore.kt:76-82 | flipping the same id twice restores every entry |
| HazardStore.ToggleKeepsClean | app/src/main/java/com/roadwatch/data/HazardStore.kt:78-80 | toggling keeps entries rewritable without loss |
| HazardStore.ToggleActiveTwice | app/src/main/java/com/roadwatch/data/HazardStore.kt:76-82 | after a successful toggle the listing has that id's entries flipped, and toggling again restores the old listing |
| HazardStore.Delete | app/src/main/java/com/roadwatch/data/HazardStore.kt:70-74 | deleting from a missing file answers false and creates nothing |
| HazardStore.DeleteRemovesId | app/src/main/java/com/roadwatch/data/HazardStore.kt:70-74 | after a successful delete the listing is exactly the old entries with a different id, in their original order |
| HazardStore.ListAfterAdd | app/src/main/java/com/roadwatch/data/HazardStore.kt:20-68 | after a successful add the listing is the old one followed by the new entry under its time-stamp id |
| HazardStore.TimestampIdStorable | app/src/main/java/com/roadwatch/data/HazardStore.kt:22 | a time-stamp id contains no comma and is never the header's "id" |
| SeedRepository.HeaderCells | app/src/main/java/com/roadwatch/data/SeedRepository.kt:18-19 | the header cells are the comma-separated cells, each trimmed and lower-cased |
| SeedRepository.ColumnsOf | app/src/main/java/com/roadwatch/data/SeedRepository.kt:20-25 | type and lat are found by their first occurrence; lng falls back to "lon" exactly when no "lng" cell exists |
| SeedRepository.Directionality | app/src/main/java/com/roadwatch/data/SeedRepository.kt:27-42 | the directionality cell when that column exists and the cell is present and not blank; otherwise BIDIRECTIONAL for a speed-limit zone and ONE_WAY for any other type |
| SeedRepository.SeedOf | app/src/main/java/com/roadwatch/data/SeedRepository.kt:38-57 | a row gives a hazard exactly when its type cell is present and names a type and both coordinate cells are present and numeric; the hazard has that type and those coordinates, and is an active "SEED" hazard created at load time |
| SeedRepository.ParseSeedRow | app/src/main/java/com/roadwatch/data/SeedRepository.kt:34-36 | a blank row gives nothing, and any other row is read after trimming |
| SeedRepository.ParseSeedRows | app/src/main/java/com/roadwatch/data/SeedRepository.kt:32-61 | the rows give at most one hazard each |
| SeedRepository.ParsedSeeds | app/src/main/java/com/roadwatch/data/SeedRepository.kt:32-61 | every loaded seed comes from some data row and is an active "SEED" hazard; rows that fail to parse are dropped without stopping the load |
| SeedRepository.LoadSeeds | app/src/main/java/com/roadwatch/data/SeedRepository.kt:13-74 | the count always equals the number of hazards returned; a missing file loads zero seeds, any other failure reports not loaded with no seeds |
| SeedRepository.ParseSeedLines | app/src/main/java/com/roadwatch/data/SeedRepository.kt:18-33 | a file with only a header, or no lines at all, yields no seeds |
| SeedRepository.ThreeFieldLine | app/src/main/java/com/roadwatch/data/SeedRepository.kt:34-36 | a row of three comma-free fields with visible ends needs no trimming, is not blank and splits back into its fields |
| SeedRepository.SeedLineShape | app/src/main/java/com/roadwatch/data/SeedRepository.kt:34-36 | a row written as type name and two numerals splits back into those three fields |
| SeedRepository.SeedOfCells | app/src/main/java/com/roadwatch/data/SeedRepository.kt:38-45 | cells that read as a type and two coordinates under the columns type, lat, lng give that hazard with the default directionality |
| SeedRepository.SeedOfFields | app/src/main/java/com/roadwatch/data/SeedRepository.kt:38-45 | the fields of a written row under the columns type, lat, lng give back the type and coordinates |
| SeedRepository.SeedRowRoundTrip | app/src/main/java/com/roadwatch/data/SeedRepository.kt:34-57 | a row written as "TYPE,lat,lng" parses back to that type and those coordinates, with the default directionality |
| SeedRepository.ActiveHazards | app/src/main/java/com/roadwatch/data/SeedRepository.kt:86-92 | a hazard is visible exactly when it is an active seed whose key is not disabled, or an active user hazard |
| SeedRepository.Shown | app/src/main/java/com/roadwatch/data/SeedRepository.kt:89-91 | the result holds exactly the seeds the filter lets through and the active user hazards |
| SeedRepository.AddUserHazardWithDedup | app/src/main/java/com/roadwatch/data/SeedRepository.kt:100-108 | DUPLICATE_NEARBY, with nothing written, exactly when a visible hazard of the same type lies strictly within the threshold; otherwise ADDED exactly when the store's write succeeds, and only ADDED changes the file |
| SeedLoader.ParseHazardType | app/src/main/java/com/roadwatch/data/repository/SeedLoader.kt:75-85 | each of the six types is returned exactly when the lower-cased text is its spaced name |
| SeedLoader.UnderscoreRefused | app/src/main/java/com/roadwatch/data/repository/SeedLoader.kt:75-85 | any spelling containing an underscore, such as "SPEED_BUMP", is refused |
| SeedLoader.ParseSeedRow | app/src/main/java/com/roadwatch/data/repository/SeedLoader.kt:46-62 | a row yields a hazard exactly when it has at least three fields, its trimmed type is one of the six names and both trimmed coordinates parse; the hazard has those values and defaults elsewhere |
| SeedLoader.ParseSeedsCsv | app/src/main/java/com/roadwatch/data/repository/SeedLoader.kt:31-73 | a missing file yields no seeds; otherwise a hazard is among the seeds exactly when some line after the header, and before the line whose read throws, parses to it |
| SeedLoader.ParsedAreSeeds | app/src/main/java/com/roadwatch/data/repository/SeedLoader.kt:40-62 | every parsed seed is an active SEED row asking for a fresh id |
| SeedLoader.SeedRowsParsed | app/src/main/java/com/roadwatch/data/repository/SeedLoader.kt:40-62 | with the first line skipped as a header, a hazard is kept exactly when some later line parses to it |
| SeedLoader.FailureKeepsPrefix | app/src/main/java/com/roadwatch/data/repository/SeedLoader.kt:34-72 | a read that throws at line k returns exactly the seeds of the lines before it |
| SeedLoader.LoadSeedsIfEmpty | app/src/main/java/com/roadwatch/data/repository/SeedLoader.kt:18-29 | when seeds exist and no replacement is asked for, the table is unchanged |
| SeedLoader.LoadSeedsEffect | app/src/main/java/com/roadwatch/data/repository/SeedLoader.kt:18-29 | every row after a load is an old row or a new active seed, and a failed insert adds none; in a valid table the table stays valid, non-seed rows are kept, a replacing load leaves no old seed, and a successful load stores every parsed seed under an id of its own |
| SeedLoader.ReplaceDropsOldSeeds | app/src/main/java/com/roadwatch/data/repository/SeedLoader.kt:21-26 | after a replacing load no seed row from before survives, and every row that is not a seed is kept unchanged |
| Entities.TypeValueOf | app/src/main/java/com/roadwatch/data/entities/Hazard.kt:32-39 | the lookup finds the database type with exactly that name, and finds nothing only when no type is so named |
| Entities.SourceValueOf | app/src/main/java/com/roadwatch/data/entities/Hazard.kt:41-45 | the lookup finds the source with exactly that name, and finds nothing only when none is so named |
| Entities.NamesRoundTrip | app/src/main/java/com/roadwatch/data/entities/Hazard.kt:32-45 | each type and each source is found again from its own name |
| Entities.NamesUpper | app/src/main/java/com/roadwatch/data/entities/Hazard.kt:32-45 | the enum names are already upper case, need no trimming and hold no comma |
| Entities.NewHazard | app/src/main/java/com/roadwatch/data/entities/Hazard.kt:8-24 | a new row asks for a fresh id and has the declared defaults: no heading, tolerance 30, radius 120, active, source SEED, both times now |
| Entities.ZoneEnd | app/src/main/java/com/roadwatch/data/entities/Hazard.kt:28-29 | the zone end exists exactly when both end coordinates do |
| HazardDao.GetAllActive | app/src/main/java/com/roadwatch/data/dao/HazardDao.kt:14-15 | returns exactly the active rows |
| HazardDao.GetInBounds | app/src/main/java/com/roadwatch/data/dao/HazardDao.kt:17-18 | returns exactly the active rows whose latitude and longitude lie in the box, edges included |
| HazardDao.IdFor | app/src/main/java/com/roadwatch/data/dao/HazardDao.kt:20-21 | a row with an id keeps it; id 0 gets the next counter value, and the insert fails once the counter is exhausted |
| HazardDao.Upsert | app/src/main/java/com/roadwatch/data/dao/HazardDao.kt:20-21 | the row is stored under its id, replacing any row with that id and leaving every other row alone; a fresh id never collides with a stored row |
| HazardDao.UpsertAll | app/src/main/java/com/roadwatch/data/dao/HazardDao.kt:23-24 | the counter never decreases, and a valid table stays valid |
| HazardDao.UpsertAllOrigin | app/src/main/java/com/roadwatch/data/dao/HazardDao.kt:23-24 | every row afterwards was there before or is one of the inserted hazards under its id |
| HazardDao.UpsertAllKeeps | app/src/main/java/com/roadwatch/data/dao/HazardDao.kt:23-24 | every row whose id none of the inserted hazards names is kept unchanged |
| HazardDao.UpsertAllNewIdsFresh | app/src/main/java/com/roadwatch/data/dao/HazardDao.kt:23-24 | inserting hazards that all ask for fresh ids adds rows only above the old counter |
| HazardDao.UpsertAllStoresAll | app/src/main/java/com/roadwatch/data/dao/HazardDao.kt:23-24 | a successful batch of fresh-id hazards stores every one of them under an id of its own |
| HazardDao.Update | app/src/main/java/com/roadwatch/data/dao/HazardDao.kt:26-27 | replaces the row with the same id and changes nothing when there is none; the set of ids is unchanged |
| HazardDao.Delete | app/src/main/java/com/roadwatch/data/dao/HazardDao.kt:29-30 | removes exactly the row with that id |
| HazardDao.DeleteAllSeeds | app/src/main/java/com/roadwatch/data/dao/HazardDao.kt:32-36 | removes exactly the seed rows, leaving the seed count at 0 |
| HazardRepository.GetHazardsInBounds | app/src/main/java/com/roadwatch/data/repository/HazardRepository.kt:22-24 | a hazard is returned exactly when it is a stored row, active, with latitude and longitude inside the inclusive box |
| HazardRepository.AddHazard | app/src/main/java/com/roadwatch/data/repository/HazardRepository.kt:26-28 | whatever its source, the hazard is stored as the user's under the id returned |
| HazardRepository.UpdateHazard | app/src/main/java/com/roadwatch/data/repository/HazardRepository.kt:30-32 | the row with the hazard's id becomes the hazard with `updatedAt` set to now; every other row is unchanged, and an unknown id changes nothing |
| HazardRepository.DeleteHazard | app/src/main/java/com/roadwatch/data/repository/HazardRepository.kt:34-36 | afterwards no row has that id, and every other row is present exactly when it was, unchanged |
| HazardRepository.ReloadSeeds | app/src/main/java/com/roadwatch/data/repository/HazardRepository.kt:38-40 | without replacement and with seeds present nothing changes; otherwise every row is an old row or a new active seed and a failed insert adds none; in a valid table non-seed rows are kept, a replacing load leaves no old seed, and a successful load stores every parsed seed |
| HazardRepository.AsImported | app/src/main/java/com/roadwatch/data/repository/HazardRepository.kt:49 | each input hazard is relabelled with source IMPORT and nothing else changes |
| HazardRepository.ImportHazards | app/src/main/java/com/roadwatch/data/repository/HazardRepository.kt:42-52 | reports every input as added, with none updated or skipped |
| HazardRepository.ImportMarksSource | app/src/main/java/com/roadwatch/data/repository/HazardRepository.kt:49 | after an import every row is an old one, unchanged, or carries source IMPORT |
| HazardRepository.ExportHazards | app/src/main/java/com/roadwatch/data/repository/HazardRepository.kt:54-58 | returns exactly the active hazards whose source is not SEED |
| HazardRepository.AddedIsExported | app/src/main/java/com/roadwatch/data/repository/HazardRepository.kt:26-58 | an active hazard added through the repository is among the exported ones |
| LocationsViewModel.Insert | app/src/main/java/com/roadwatch/feature/locations/LocationsViewModel.kt:26 | inserting into a newest-first list keeps it newest first and adds exactly that one element |
| LocationsViewModel.SortNewestFirst | app/src/main/java/com/roadwatch/feature/locations/LocationsViewModel.kt:26 | the result is newest first and a permutation of the input |
| LocationsViewModel.UserHazards | app/src/main/java/com/roadwatch/feature/locations/LocationsViewModel.kt:23-27 | the list is sorted by creation time, newest first, and is a permutation of the USER hazards among the active ones: nothing added, nothing lost |
| LocationsViewModel.UserHazardsMembers | app/src/main/java/com/roadwatch/feature/locations/LocationsViewModel.kt:23-25 | a hazard is listed exactly when it is active and its source is USER |
| LocationsViewModel.InsertSameTime | app/src/main/java/com/roadwatch/feature/locations/LocationsViewModel.kt:26 | inserting leaves the order among hazards of any one creation time as it was, the inserted one going ahead of its equals |
| LocationsViewModel.SortStable | app/src/main/java/com/roadwatch/feature/locations/LocationsViewModel.kt:26 | the sort is stable: hazards created at the same time keep their relative order |
| LocationsViewModel.DeleteHazard | app/src/main/java/com/roadwatch/feature/locations/LocationsViewModel.kt:34-43 | the loading flag is false afterwards even when the repository call throws; a throwing call leaves the table as it was and is rethrown, a successful one removes exactly that id and keeps every other row |
| LocationsViewModel.UpdateHazard | app/src/main/java/com/roadwatch/feature/locations/LocationsViewModel.kt:45-54 | the loading flag is false afterwards even when the call throws; a throwing call leaves the table as it was and is rethrown; a successful call stores the hazard stamped with the update time, keeps every other row, and changes nothing for an unknown id |
| CommunityVotes.Upvote | app/src/main/java/com/roadwatch/data/CommunityVotes.kt:13-20 | afterwards the key is marked voted; an already-voted key is left alone; otherwise its count goes up by one, wrapping at Int.MAX_VALUE; every other key's count and mark are unchanged |
| CommunityVotes.Downvote | app/src/main/java/com/roadwatch/data/CommunityVotes.kt:22-29 | afterwards the key is unmarked; an unvoted key is left alone; otherwise its count drops by one, floored at 0; every other key is unchanged |
| CommunityVotes.SetVotes | app/src/main/java/com/roadwatch/data/CommunityVotes.kt:34-37 | stores the count floored at 0 and leaves the voted set and every other key unchanged |
| CommunityVotes.NothingWritten | app/src/main/java/com/roadwatch/data/CommunityVotes.kt:11-32 | a key never written reads 0 votes and is not marked voted |
| CommunityVotes.UpvoteDownvoteRestores | app/src/main/java/com/roadwatch/data/CommunityVotes.kt:13-29 | voting up and then down on an unvoted key with a non-negative count restores its count and mark and every other key |
| CommunityVotes.CountsStayNonNegative | app/src/main/java/com/roadwatch/data/CommunityVotes.kt:26-35 | non-negative counts stay non-negative under downvote and setVotes, and under upvote below Int.MAX_VALUE |
| CommunityVotes.UpvoteAtMaxWraps | app/src/main/java/com/roadwatch/data/CommunityVotes.kt:17 | voting up a count of Int.MAX_VALUE wraps it to Int.MIN_VALUE |
| SeedOverrides.KeyOfIdentifies | app/src/main/java/com/roadwatch/data/SeedOverrides.kt:12-27 | two hazards share a key exactly when they agree on type and on both coordinates printed to six decimals |
| SeedOverrides.AddOrRemove | app/src/main/java/com/roadwatch/data/SeedOverrides.kt:23-25 | always reports true; the value's membership flips and nothing else changes |
| SeedOverrides.Toggle | app/src/main/java/com/roadwatch/data/SeedOverrides.kt:17-21 | the key's disabled state flips and every other key's is unchanged, the set always being written back |
| SeedOverrides.ToggleTwice | app/src/main/java/com/roadwatch/data/SeedOverrides.kt:17-25 | toggling the same key twice restores the set |
| AppPrefs.SetMutedForMinutes | app/src/main/java/com/roadwatch/prefs/AppPrefs.kt:19-25 | the stored mute time is now plus the minutes in milliseconds, whenever that fits in a Long; no other key changes |
| AppPrefs.ClearMute | app/src/main/java/com/roadwatch/prefs/AppPrefs.kt:27-32 | the mute time is removed and no other key changes |
| AppPrefs.MutedWindow | app/src/main/java/com/roadwatch/prefs/AppPrefs.kt:19-38 | after muting m minutes at t, the app is muted at t' exactly when t + m·60000 > t' |
| AppPrefs.NotMutedAfterClear | app/src/main/java/com/roadwatch/prefs/AppPrefs.kt:27-38 | after clearMute, or when nothing was ever stored, the app is not muted at any time from the epoch on |
| AppPrefs.Defaults | app/src/main/java/com/roadwatch/prefs/AppPrefs.kt:47-111 | unset getters read audio focus "DUCK", speed curve "NORMAL", the two zone messages, repeat 60000 ms, audio and visual on, background off, passenger on, default mute 20 and mute time 0 |
| AppPrefs.KeysDistinct | app/src/main/java/com/roadwatch/prefs/AppPrefs.kt:7-17 | the eleven preference keys are pairwise distinct |
| AppPrefs.SetAudioFocusMode | app/src/main/java/com/roadwatch/prefs/AppPrefs.kt:43-49 | the getter returns the stored mode and no other key changes |
| AppPrefs.SetBackgroundAlerts | app/src/main/java/com/roadwatch/prefs/AppPrefs.kt:51-57 | the getter returns the stored flag and no other key changes |
| AppPrefs.SetPassengerEnabled | app/src/main/java/com/roadwatch/prefs/AppPrefs.kt:59-65 | the getter returns the stored flag and no other key changes |
| AppPrefs.SetSpeedCurve | app/src/main/java/com/roadwatch/prefs/AppPrefs.kt:67-73 | the getter returns the stored curve and no other key changes |
| AppPrefs.SetZoneConfig | app/src/main/java/com/roadwatch/prefs/AppPrefs.kt:75-90 | all three zone getters return the values written together, and no other key changes |
| AppPrefs.SetAlertChannels | app/src/main/java/com/roadwatch/prefs/AppPrefs.kt:92-103 | both channel getters return the values written together, and no other key changes |
| AppPrefs.SetDefaultMuteMinutes | app/src/main/java/com/roadwatch/prefs/AppPrefs.kt:105-111 | the getter returns the stored minutes and no other key changes |
| AppPrefs.SpeedCurveKeepsMute | app/src/main/java/com/roadwatch/prefs/AppPrefs.kt:34-70 | setting the speed curve leaves the mute state, the audio focus and the zone repeat as they were |
| ImportExport.ParseHazardType | app/src/main/java/com/roadwatch/core/util/ImportExportManager.kt:141-156 | an enum name in any ASCII letter case gives its constant; otherwise the six spaced aliases in any ASCII letter case; otherwise null, and null exactly when neither matches |
| ImportExport.ParseHazardTypeAliases | app/src/main/java/com/roadwatch/core/util/ImportExportManager.kt:146-153 | each of the six lower-case aliases, typed in any ASCII letter case, parses to its constant |
| ImportExport.ParseHazardTypeName | app/src/main/java/com/roadwatch/core/util/ImportExportManager.kt:141-143 | every exported type name parses back to its own constant |
| ImportExport.ParseHazardSource | app/src/main/java/com/roadwatch/core/util/ImportExportManager.kt:158-164 | an enum name in any ASCII letter case gives its source, anything else gives IMPORT |
| ImportExport.CsvFields | app/src/main/java/com/roadwatch/core/util/ImportExportManager.kt:98-113 | a line has one field per header column |
| ImportExport.CsvFieldsClean | app/src/main/java/com/roadwatch/core/util/ImportExportManager.kt:98-113 | no field of a built line contains the separator comma |
| ImportExport.BuildCsvLineFields | app/src/main/java/com/roadwatch/core/util/ImportExportManager.kt:98-113 | a built line splits back into exactly its twelve fields, and each optional column is empty exactly when the value is null |
| ImportExport.NonBlankField | app/src/main/java/com/roadwatch/core/util/ImportExportManager.kt:129-134 | a field is taken exactly when the index exists and the text is not blank |
| ImportExport.OptionalDouble | app/src/main/java/com/roadwatch/core/util/ImportExportManager.kt:129-134 | a present, non-blank field that parses gives its value, and any other field gives null |
| ImportExport.OptionalInt | app/src/main/java/com/roadwatch/core/util/ImportExportManager.kt:132 | a present, non-blank field that parses as an Int gives its value, and any other field gives null |
| ImportExport.DoubleOr | app/src/main/java/com/roadwatch/core/util/ImportExportManager.kt:130 | a present field that parses gives its value, otherwise the default 30 |
| ImportExport.IntOr | app/src/main/java/com/roadwatch/core/util/ImportExportManager.kt:131 | a present field that parses as an Int gives its value, otherwise the default 120 |
| ImportExport.DateOr | app/src/main/java/com/roadwatch/core/util/ImportExportManager.kt:136-172 | a present field that parses as a date gives its time; a missing or unparsable one gives the clock |
| ImportExport.SourceField | app/src/main/java/com/roadwatch/core/util/ImportExportManager.kt:135 | the tenth field, trimmed, gives the source; a line without it gives IMPORT |
| ImportExport.ParseFields | app/src/main/java/com/roadwatch/core/util/ImportExportManager.kt:115-139 | null exactly when there are fewer than three fields or the type, lat or lon does not parse; otherwise every column maps to its hazard field with the defaults of the code |
| ImportExport.ParseCsvLine | app/src/main/java/com/roadwatch/core/util/ImportExportManager.kt:115-123 | a line is rejected exactly when its first three comma-separated fields are missing or unreadable |
| ImportExport.WholeSecond | app/src/main/java/com/roadwatch/core/util/ImportExportManager.kt:110-168 | the date text keeps the time rounded down to a whole second |
| ImportExport.Reimported | app/src/main/java/com/roadwatch/core/util/ImportExportManager.kt:125-138 | a re-imported hazard keeps the type, coordinates and source |
| ImportExport.ParseBuiltLine | app/src/main/java/com/roadwatch/core/util/ImportExportManager.kt:98-139 | parsing a built line gives the hazard back, with a fresh id, active, and times to the second |
| ImportExport.ParsedPlusInvalid | app/src/main/java/com/roadwatch/core/util/ImportExportManager.kt:65-83 | every data line is either imported or counted as invalid |
| ImportExport.ImportHazards | app/src/main/java/com/roadwatch/core/util/ImportExportManager.kt:54-96 | the header is skipped; parsed hazards go to the repository in one batch when there are any; unparsable lines join the skipped count; added plus skipped equals the data lines; a read failure changes nothing and reports its message |
| ImportExport.ExportLines | app/src/main/java/com/roadwatch/core/util/ImportExportManager.kt:34-45 | the written lines are the header followed by one built line per hazard |
| ImportExport.ExportHazards | app/src/main/java/com/roadwatch/core/util/ImportExportManager.kt:34-52 | the corrected export, on the first list the flow emits: the count is reported even when no stream opens; only an open stream receives the lines; a failure reports its message |
| ImportExport.Collect | app/src/main/java/com/roadwatch/core/util/ImportExportManager.kt:30-32 | `collect` returns only when the flow completes, with what was gathered before extended by the emitted lists |
| ImportExport.CollectNeverReturns | app/src/main/java/com/roadwatch/core/util/ImportExportManager.kt:30-32 | on a flow that only emits, `collect` never returns, however many lists arrive |
| ImportExport.CollectGathersEmissions | app/src/main/java/com/roadwatch/core/util/ImportExportManager.kt:30-32 | if the flow did complete, every emitted list would be appended in turn |
| ImportExport.ExportAsWritten | app/src/main/java/com/roadwatch/core/util/ImportExportManager.kt:26-52 | the export as written gets past `collect` exactly when the flow completes, and only then reports a count |
| ImportExport.AsWrittenNeverFinishes | app/src/main/java/com/roadwatch/core/util/ImportExportManager.kt:30-32 | on the repository's query flow the export as written never writes a file or reports a result |
| ImportExport.ParseBuiltLines | app/src/main/java/com/roadwatch/core/util/ImportExportManager.kt:40-83 | parsing the lines of an export gives every hazard back in order and finds no invalid line |
| ImportExport.ExportThenImport | app/src/main/java/com/roadwatch/core/util/ImportExportManager.kt:26-96 | importing a file the corrected export wrote adds all its hazards and skips none, and stores them as the repository's batch import of their re-imported forms |
| SettingsFragment.OptInstantText | app/src/main/java/com/roadwatch/feature/settings/SettingsFragment.kt:333 | an optional time is written as empty text exactly when it is null |
| SettingsFragment.ExportRow | app/src/main/java/com/roadwatch/feature/settings/SettingsFragment.kt:326-357 | every written row has one field per header column |
| SettingsFragment.SeedRows | app/src/main/java/com/roadwatch/feature/settings/SettingsFragment.kt:359-365 | each seed gets one row, in order, active only when it is active and its key is not switched off, with the votes stored under its key |
| SettingsFragment.UserRows | app/src/main/java/com/roadwatch/feature/settings/SettingsFragment.kt:366-372 | each user hazard gets one row, in order, with its own active flag and the store's id when it carries none |
| SettingsFragment.ExportRows | app/src/main/java/com/roadwatch/feature/settings/SettingsFragment.kt:297-372 | the file is the header, then every seed's row, then every user hazard's row |
| SettingsFragment.ExportRowsWidth | app/src/main/java/com/roadwatch/feature/settings/SettingsFragment.kt:297-372 | every row of the file, the header included, is 19 columns wide |
| SettingsFragment.ExportFile | app/src/main/java/com/roadwatch/feature/settings/SettingsFragment.kt:318-356 | one written line per row: the header plus one per seed and per user hazard |
| SettingsFragment.ExportStatus | app/src/main/java/com/roadwatch/feature/settings/SettingsFragment.kt:391-393 | the status names the total of seeds and user hazards when the seeds loaded, and the failure otherwise |
| SettingsFragment.ExportRowClean | app/src/main/java/com/roadwatch/feature/settings/SettingsFragment.kt:335-356 | when the source, directionality and id hold no comma, no column of a row does |
| SettingsFragment.ExportLineColumns | app/src/main/java/com/roadwatch/feature/settings/SettingsFragment.kt:335-356 | such a row splits back into the same 19 columns, and its active column reads "true" exactly when the row is on |
| SettingsFragment.ActiveColumn | app/src/main/java/com/roadwatch/feature/settings/SettingsFragment.kt:340 | the active column is the override when one is given, else the hazard's own flag |
| SettingsFragment.DisabledSeedExportedInactive | app/src/main/java/com/roadwatch/feature/settings/SettingsFragment.kt:360-364 | a seed whose key is switched off is written inactive, whatever its own flag |
| SettingsFragment.FocusPosition | app/src/main/java/com/roadwatch/feature/settings/SettingsFragment.kt:449 | the audio-focus spinner shows position 1 exactly for EXCLUSIVE, else 0 |
| SettingsFragment.FocusFromPosition | app/src/main/java/com/roadwatch/feature/settings/SettingsFragment.kt:489 | position 1 stores EXCLUSIVE and every other position stores DUCK |
| SettingsFragment.CurvePosition | app/src/main/java/com/roadwatch/feature/settings/SettingsFragment.kt:450-451 | CONSERVATIVE shows at 0, AGGRESSIVE at 2, anything else at 1 |
| SettingsFragment.CurveFromPosition | app/src/main/java/com/roadwatch/feature/settings/SettingsFragment.kt:495 | position 0 stores CONSERVATIVE, 2 stores AGGRESSIVE, any other NORMAL |
| SettingsFragment.SpinnersRoundTrip | app/src/main/java/com/roadwatch/feature/settings/SettingsFragment.kt:449-497 | a spinner position stores a value that shows at that same position, and each of the listed values shows at the position that stores it |
| SettingsFragment.UnknownCurveShowsNormal | app/src/main/java/com/roadwatch/feature/settings/SettingsFragment.kt:451 | a stored curve that is not one of the two named ones shows as NORMAL |
| SettingsFragment.SpinnerThroughPrefs | app/src/main/java/com/roadwatch/feature/settings/SettingsFragment.kt:449-497 | moving a spinner and reading the preference back puts the spinner at the same position |
| SettingsFragment.SpinnerDefaults | app/src/main/java/com/roadwatch/feature/settings/SettingsFragment.kt:449-451 | with nothing stored the spinners show DUCK and NORMAL |
| SettingsFragment.ClusterSpeedInput | app/src/main/java/com/roadwatch/feature/settings/SettingsFragment.kt:476 | the typed Int is used, and unreadable text gives 50 |
| SettingsFragment.SaveDefaultMute | app/src/main/java/com/roadwatch/feature/settings/SettingsFragment.kt:481-485 | the typed Int, or 20 when unreadable, is stored and reported, and no other preference changes |
| SettingsFragment.SaveZoneConfig | app/src/main/java/com/roadwatch/feature/settings/SettingsFragment.kt:500-504 | both messages are stored as typed, the repeat is the typed Long or 60000, and no other preference changes |
| SettingsImport.CleanLines | app/src/main/java/com/roadwatch/feature/settings/SettingsFragment.kt:616-618 | each line loses its trailing carriage returns and nothing else, one line for one |
| SettingsImport.FirstNonBlank | app/src/main/java/com/roadwatch/feature/settings/SettingsFragment.kt:619 | the header found is a non-blank line at or after the start |
| SettingsImport.FirstNonBlankSkips | app/src/main/java/com/roadwatch/feature/settings/SettingsFragment.kt:619-625 | every line before the header is blank, and no header is found exactly when every line is blank |
| SettingsImport.CountNonBlankZero | app/src/main/java/com/roadwatch/feature/settings/SettingsFragment.kt:628-634 | no row is counted exactly when every data line is blank |
| SettingsImport.TrimAll | app/src/main/java/com/roadwatch/feature/settings/SettingsFragment.kt:626 | each header name is trimmed, one for one |
| SettingsImport.IndexHasName | app/src/main/java/com/roadwatch/feature/settings/SettingsFragment.kt:638 | every header column's lower-cased name is in the index |
| SettingsImport.IndexPointsAtName | app/src/main/java/com/roadwatch/feature/settings/SettingsFragment.kt:638 | every name in the index points at a column with that lower-cased name |
| SettingsImport.IndexLastWins | app/src/main/java/com/roadwatch/feature/settings/SettingsFragment.kt:638 | of two columns sharing a lower-cased name, the later one is kept |
| SettingsImport.Cell | app/src/main/java/com/roadwatch/feature/settings/SettingsFragment.kt:646-650 | a cell is taken only when its trimmed text is not empty |
| SettingsImport.CellByHeader | app/src/main/java/com/roadwatch/feature/settings/SettingsFragment.kt:638-650 | a key finds the trimmed cell under the last header column with its name up to case |
| SettingsImport.ValueForNone | app/src/main/java/com/roadwatch/feature/settings/SettingsFragment.kt:644-653 | the lookup gives null exactly when no alias's cell holds text |
| SettingsImport.ValueForFirst | app/src/main/java/com/roadwatch/feature/settings/SettingsFragment.kt:644-653 | the lookup answers with the first alias, in order, whose cell holds text |
| SettingsImport.OptDouble | app/src/main/java/com/roadwatch/feature/settings/SettingsFragment.kt:670-696 | a number is produced only from present text that parses |
| SettingsImport.OptInt | app/src/main/java/com/roadwatch/feature/settings/SettingsFragment.kt:668-698 | an Int is produced exactly from present text that parses as one |
| SettingsImport.CreatedAt | app/src/main/java/com/roadwatch/feature/settings/SettingsFragment.kt:672-683 | a missing creation time is the clock reading, and an ISO instant is taken as written |
| SettingsImport.UpdatedAt | app/src/main/java/com/roadwatch/feature/settings/SettingsFragment.kt:684-690 | an ISO instant is taken as written, and anything else falls back to the creation time |
| SettingsImport.ActiveOf | app/src/main/java/com/roadwatch/feature/settings/SettingsFragment.kt:667 | a missing flag is true; a present one is true exactly for "true" in any ASCII letter case or "1" |
| SettingsImport.ParseRow | app/src/main/java/com/roadwatch/feature/settings/SettingsFragment.kt:662-719 | a row without a type fails with "Missing type"; a parsed row's type, lat and lng come from their columns; every failure reason is one of the four the code throws; missing optional cells give the defaults USER, active, UNKNOWN, 0 votes, the clock and the creation time |
| SettingsImport.StoreAction | app/src/main/java/com/roadwatch/feature/settings/SettingsFragment.kt:721-730 | a USER row is upserted under its key; any other row only switches the seed off exactly when the row is inactive |
| SettingsImport.MergeVotes | app/src/main/java/com/roadwatch/feature/settings/SettingsFragment.kt:722-725 | the local vote count is replaced only by a strictly larger one, never goes down, and nothing else changes |
| SettingsImport.Apply | app/src/main/java/com/roadwatch/feature/settings/SettingsFragment.kt:660 | each row is counted once, as imported with its store action or as skipped with a failure line naming its file line; earlier lines and actions are kept (also lines 731-740) |
| SettingsImport.Step | app/src/main/java/com/roadwatch/feature/settings/SettingsFragment.kt:655-659 | a blank line changes nothing; any other is counted once with the line parser's verdict (the parser trims it and splits it into at most as many cells as the header has) |
| SettingsImport.ProcessRows | app/src/main/java/com/roadwatch/feature/settings/SettingsFragment.kt:655-741 | every non-blank data line is processed once and ends up imported or skipped, with one failure line per skip and one action per import, and no vote count goes down |
| SettingsImport.RowFailure | app/src/main/java/com/roadwatch/feature/settings/SettingsFragment.kt:734-737 | a data line adds at most one failure line, only when it is not blank, and that line starts with "Row n: " for its own line number |
| SettingsImport.StepFailures | app/src/main/java/com/roadwatch/feature/settings/SettingsFragment.kt:655-740 | a step adds exactly its own line's failure line to the earlier ones, and nothing else |
| SettingsImport.RowsFailures | app/src/main/java/com/roadwatch/feature/settings/SettingsFragment.kt:655-741 | the failure lines are the earlier ones followed, in file order, by one line per rejected non-blank row with its line number and reason; none is added for an accepted row and none recorded is changed |
| SettingsImport.RejectedLineRow | app/src/main/java/com/roadwatch/feature/settings/SettingsFragment.kt:655-656 | each rejection line names the file line of a non-blank data line (also line 737) |
| SettingsImport.FailureRow | app/src/main/java/com/roadwatch/feature/settings/SettingsFragment.kt:655-656 | every failure line names the file line of a non-blank data line (also lines 737) |
| SettingsImport.Summary | app/src/main/java/com/roadwatch/feature/settings/SettingsFragment.kt:752-757 | the status starts with the imported and total counts, and says more exactly when some row was skipped |
| SettingsImport.NothingImported | app/src/main/java/com/roadwatch/feature/settings/SettingsFragment.kt:620-634 | with no rows the status is "No rows imported" and no store changes |
| SettingsImport.ImportRows | app/src/main/java/com/roadwatch/feature/settings/SettingsFragment.kt:638-741 | the rows after the header are all counted, one failure per skip and one action per import, and no vote count goes down |
| SettingsImport.ImportCsv | app/src/main/java/com/roadwatch/feature/settings/SettingsFragment.kt:615-761 | the imported and skipped counts add up to the total; the error file is written exactly when some row failed; no vote count goes down |
| SettingsImport.ImportLines | app/src/main/java/com/roadwatch/feature/settings/SettingsFragment.kt:619-761 | with no header nothing is imported, and otherwise the total is the non-blank lines after it |
| SettingsImport.ImportAfter | app/src/main/java/com/roadwatch/feature/settings/SettingsFragment.kt:626-761 | once the header is found, the total is the non-blank lines after it and the report holds their outcomes |
| SettingsImport.Finish | app/src/main/java/com/roadwatch/feature/settings/SettingsFragment.kt:743-757 | the report holds the counts and failures, and the error text joins the failure lines when there are any |
| SettingsImport.CleanBlank | app/src/main/java/com/roadwatch/feature/settings/SettingsFragment.kt:617-619 | dropping the carriage returns does not change whether a line is blank |
| SettingsImport.CountClean | app/src/main/java/com/roadwatch/feature/settings/SettingsFragment.kt:616-628 | cleaning the lines keeps the number of non-blank ones |
| SettingsImport.CountAfterHeader | app/src/main/java/com/roadwatch/feature/settings/SettingsFragment.kt:619-628 | the non-blank lines after the header are all the non-blank lines but one |
| SettingsImport.LinesTotal | app/src/main/java/com/roadwatch/feature/settings/SettingsFragment.kt:615-634 | the row total is one less than the non-blank lines of the file, or zero, whatever the row parser |
| SettingsImport.ImportTotal | app/src/main/java/com/roadwatch/feature/settings/SettingsFragment.kt:615-634 | the import counts as rows exactly the non-blank lines after the header |
| SettingsImport.RowsFailureLine | app/src/main/java/com/roadwatch/feature/settings/SettingsFragment.kt:655-656 | a failure after the header names a non-blank line below it, counting from 1 (also lines 737) |
| SettingsImport.ImportFailures | app/src/main/java/com/roadwatch/feature/settings/SettingsFragment.kt:619-627 | any failure means a header was found, and the failures are those of its rows (also lines 742) |
| SettingsImport.LinesFailureLine | app/src/main/java/com/roadwatch/feature/settings/SettingsFragment.kt:615-656 | every failure line names a non-blank line of the original file below the header (also lines 737) |
| AlertManager.AheadOf | app/src/main/java/com/roadwatch/alerts/AlertManager.kt:394-410 | a hazard is kept only when it does not face the other way and lies within the lead distance; with a heading it must also be in the corridor and not behind |
| AlertManager.AheadHazards | app/src/main/java/com/roadwatch/alerts/AlertManager.kt:390-413 | the kept hazards, exactly those of the one-hazard filter counted with multiplicity, come out sorted by distance along the heading |
| AlertManager.AheadWithinLead | app/src/main/java/com/roadwatch/alerts/AlertManager.kt:397 | every hazard ahead lies within the lead distance |
| AlertManager.UpcomingHazard | app/src/main/java/com/roadwatch/alerts/AlertManager.kt:248-280 | without a heading there is none; otherwise it is a candidate, no candidate lies strictly nearer along the heading, no earlier candidate ties it, and none is found exactly when no hazard qualifies |
| AlertManager.NextHazardAfter | app/src/main/java/com/roadwatch/alerts/AlertManager.kt:282-312 | without a heading there is none; otherwise it is another hazard more than 15 m beyond the current one, the nearest along the heading, the first of equals, and none exactly when no hazard qualifies |
| AlertManager.StampAll | app/src/main/java/com/roadwatch/alerts/AlertManager.kt:73 | every key of the cluster is stamped with the time and every other key keeps its value |
| AlertManager.KeysOf | app/src/main/java/com/roadwatch/alerts/AlertManager.kt:70 | one hazard key per cluster member, in order (also lines 73, 356) |
| AlertManager.StampCluster | app/src/main/java/com/roadwatch/alerts/AlertManager.kt:69-74 | stamping a cluster none of whose members is still quiet fires for exactly its keys |
| AlertManager.ClusterTextSingle | app/src/main/java/com/roadwatch/alerts/AlertManager.kt:77-78 | a one-hazard cluster is announced by its label alone |
| AlertManager.ClusterTextMultiple | app/src/main/java/com/roadwatch/alerts/AlertManager.kt:79-81 | several hazards without a bump or rumble strip are "Multiple hazards" (also lines 445) |
| AlertManager.ClusterTextBump | app/src/main/java/com/roadwatch/alerts/AlertManager.kt:79-81 | several hazards with a bump among them are a "Speed bump cluster" (also lines 441) |
| AlertManager.ClusterTextRumble | app/src/main/java/com/roadwatch/alerts/AlertManager.kt:79-81 | several hazards with a rumble strip and no bump are a "Rumble strip cluster" (also lines 442) |
| AlertManager.SecondCluster | app/src/main/java/com/roadwatch/alerts/AlertManager.kt:84-91 | a second sentence is only given when a second cluster starts beyond the lead distance |
| AlertManager.ClusterCallout | app/src/main/java/com/roadwatch/alerts/AlertManager.kt:62-108 | with hazards ahead, a callout is made exactly when no member of the first cluster is still quiet; it names exactly that cluster's keys and stamps them and the cooldown |
| AlertManager.NextFollowUp | app/src/main/java/com/roadwatch/alerts/AlertManager.kt:133-148 | a second sentence is given exactly when there is a next hazard within the lead distance of its target point |
| AlertManager.NextQuiet | app/src/main/java/com/roadwatch/alerts/AlertManager.kt:143-146 | below 40 km/h the named next hazard is kept quiet for 20 s; otherwise nothing changes |
| AlertManager.SingleFor | app/src/main/java/com/roadwatch/alerts/AlertManager.kt:115-128 | the upcoming hazard is called out exactly when it is not pre-quieted and its 30 s window has passed; the callout names only it and stamps it and the cooldown |
| AlertManager.SingleCallout | app/src/main/java/com/roadwatch/alerts/AlertManager.kt:113-163 | a single callout names the upcoming hazard and needs a heading; it stamps the timers and leaves the zone state |
| AlertManager.HazardCallout | app/src/main/java/com/roadwatch/alerts/AlertManager.kt:46-163 | nothing below 1.5 m/s, within the 10 s cooldown or without a heading; a callout stamps the timers of exactly the hazards it names |
| AlertManager.OnLocationUpdate | app/src/main/java/com/roadwatch/alerts/AlertManager.kt:42-164 | muted changes nothing; otherwise the zone machine runs first; a callout needs speed, the cooldown passed and a heading; without one only the zone fields change |
| AlertManager.CalloutCues | app/src/main/java/com/roadwatch/alerts/AlertManager.kt:98-103 | the text always goes to the overlay and is spoken exactly when speech is available, with the second sentence after it |
| AlertManager.QuietWindowHolds | app/src/main/java/com/roadwatch/alerts/AlertManager.kt:70 | a hazard named at one moment is not named by a later callout within 30 s (also lines 119-125, 453) |
| AlertManager.UpdatesRespectQuietWindow | app/src/main/java/com/roadwatch/alerts/AlertManager.kt:42-164 | across two updates less than 30 s apart, a hazard called out by the first is not named by the second (also lines 453) |
| AlertManager.NoSecondClusterSentence | app/src/main/java/com/roadwatch/alerts/AlertManager.kt:84-91 | the second-cluster sentence is never produced, since every hazard ahead already lies within the lead distance (also lines 397) |
| AlertClusters.Gap | app/src/main/java/com/roadwatch/alerts/AlertManager.kt:417 | the gap is 30% of the lead distance, kept between 30 m and 150 m |
| AlertClusters.Clusters | app/src/main/java/com/roadwatch/alerts/AlertManager.kt:415-434 | there are no clusters exactly when there are no hazards, and the last cluster ends with the last hazard |
| AlertClusters.FlattenEnds | app/src/main/java/com/roadwatch/alerts/AlertManager.kt:415-434 | the last cluster is the tail of the hazards and the ones before it hold the rest |
| AlertClusters.FlattenMember | app/src/main/java/com/roadwatch/alerts/AlertManager.kt:415-434 | every member of a cluster is one of the hazards |
| AlertClusters.JoinLast | app/src/main/java/com/roadwatch/alerts/AlertManager.kt:425-426 | a hazard within the gap of its predecessor joins the current cluster |
| AlertClusters.OpenCluster | app/src/main/java/com/roadwatch/alerts/AlertManager.kt:427-429 | a hazard more than the gap past its predecessor opens a new cluster |
| AlertClusters.ClustersValid | app/src/main/java/com/roadwatch/alerts/AlertManager.kt:415-434 | the clusters cover the hazards in order, are non-empty, have close neighbours inside and are cut exactly at gaps wider than the limit |
| AlertClusters.DropSingleton | app/src/main/java/com/roadwatch/alerts/AlertManager.kt:427-432 | removing a last cluster of one hazard leaves a clustering of the rest that ends more than the gap before it |
| AlertClusters.DropFromLast | app/src/main/java/com/roadwatch/alerts/AlertManager.kt:425-426 | removing the last hazard from a longer last cluster leaves a clustering of the rest within the gap of it |
| AlertClusters.ClusteringUnique | app/src/main/java/com/roadwatch/alerts/AlertManager.kt:415-434 | any clustering with the same gap is this one: the cut points are decided by the gaps alone |
| AlertClusters.BuildClusters | app/src/main/java/com/roadwatch/alerts/AlertManager.kt:415-434 | the loop's clusters, extended while steps stay within the gap, are a valid clustering of the hazards, and empty input gives no clusters |
| AlertClusters.ClusterLabel | app/src/main/java/com/roadwatch/alerts/AlertManager.kt:436-447 | a bump wins, then a rumble strip, else the first member's type; one hazard always shows its type, several only for a bump or rumble strip |
| AlertClusters.FriendlyBump | app/src/main/java/com/roadwatch/alerts/AlertManager.kt:441-443 | the fixed bump label is the spoken name of SPEED_BUMP |
| AlertClusters.FriendlyRumble | app/src/main/java/com/roadwatch/alerts/AlertManager.kt:442-443 | the fixed rumble label is the spoken name of RUMBLE_STRIP |
| AlertClusters.LabelNamesMember | app/src/main/java/com/roadwatch/alerts/AlertManager.kt:436-447 | the label is always the spoken type name of some member of the cluster |
| AlertDistances.CurveOf | app/src/main/java/com/roadwatch/alerts/AlertManager.kt:322-344 | CONSERVATIVE and AGGRESSIVE select their curves and any other stored name selects normal |
| AlertDistances.LeadDistance | app/src/main/java/com/roadwatch/alerts/AlertManager.kt:320-345 | the lead distance stays between the curve's standstill and top values, and takes them at or below 0 and above 120 km/h |
| AlertDistances.LeadMonotone | app/src/main/java/com/roadwatch/alerts/AlertManager.kt:320-345 | a faster car never looks less far ahead |
| AlertDistances.LeadJumpPast120 | app/src/main/java/com/roadwatch/alerts/AlertManager.kt:327-342 | past 120 km/h every curve jumps 100 m above its value at 120 km/h |
| AlertDistances.CurvesOrdered | app/src/main/java/com/roadwatch/alerts/AlertManager.kt:320-345 | at every speed the conservative curve is below normal and normal below aggressive |
| AlertDistances.RoundDown | app/src/main/java/com/roadwatch/alerts/AlertManager.kt:361-362 | the integer division rounds down to a multiple of the step |
| AlertDistances.KmTenths | app/src/main/java/com/roadwatch/alerts/AlertManager.kt:363 | the kilometre text holds the nearest tenth, halves rounded up |
| AlertDistances.NiceDistance | app/src/main/java/com/roadwatch/alerts/AlertManager.kt:358-365 | below 50 m "<50 m"; whole tens below 200 m; whole fifties below 1 km; then tenths of a kilometre |
| AlertDistances.NearestNice | app/src/main/java/com/roadwatch/alerts/AlertManager.kt:538-545 | the distance is truncated to metres, then "<50 m", whole tens below 200 m, and the plain number above |
| AlertZones.Announce | app/src/main/java/com/roadwatch/alerts/AlertManager.kt:485-486 | a message always goes to the overlay and is spoken exactly when speech is available |
| AlertZones.NearestZone | app/src/main/java/com/roadwatch/alerts/AlertManager.kt:468-470 | there is none exactly when no hazard is a zone; otherwise it is a zone no other zone is nearer than |
| AlertZones.InsideIffZoneNear | app/src/main/java/com/roadwatch/alerts/AlertManager.kt:470-472 | the driver is inside exactly when some zone lies within 100 m |
| AlertZones.Enter | app/src/main/java/com/roadwatch/alerts/AlertManager.kt:475-486 | entering records the entry point, the zone's length and limit, starts the repeat clock and announces the limit, or the custom message when there is none |
| AlertZones.Leave | app/src/main/java/com/roadwatch/alerts/AlertManager.kt:529-535 | leaving announces the exit, clears every entry field and keeps the repeat clock |
| AlertZones.Repeat | app/src/main/java/com/roadwatch/alerts/AlertManager.kt:488-494 | the limit is repeated and the clock restarted exactly when the repeat interval has passed |
| AlertZones.ZoneAhead | app/src/main/java/com/roadwatch/alerts/AlertManager.kt:509-518 | the chosen zone point lies between 50 m and 2 km and less than 30 degrees off the heading, no such point is nearer, and none is chosen exactly when no zone point qualifies |
| AlertZones.WarnExit | app/src/main/java/com/roadwatch/alerts/AlertManager.kt:495-528 | once warned nothing happens; a warning is given at most once, is recorded, and without a known length needs a zone point ahead |
| AlertZones.Stay | app/src/main/java/com/roadwatch/alerts/AlertManager.kt:487-528 | staying inside keeps the entry fields, restarts the repeat clock only when due, and never forgets an exit warning |
| AlertZones.HandleZones | app/src/main/java/com/roadwatch/alerts/AlertManager.kt:467-536 | no zones change nothing; afterwards the driver is inside exactly when a zone is within 100 m; outside and staying outside changes nothing; an exit warning needs staying inside without an earlier one |
| AlertZones.InsideStep | app/src/main/java/com/roadwatch/alerts/AlertManager.kt:475-528 | an update inside a zone leaves the machine inside |
| AlertZones.WarnedAtMostOnce | app/src/main/java/com/roadwatch/alerts/AlertManager.kt:495-528 | while the driver stays inside, the exit warning is given at most once, and not again once given |
| ProximityAlertEngine.WarnDistance | app/src/main/java/com/roadwatch/domain/usecases/ProximityAlertEngine.kt:276-281 | the warning distance is the distance covered in 1.2 s times the multiplier, truncated and kept between 120 m and 600 m |
| ProximityAlertEngine.WideToleranceAcceptsAll | app/src/main/java/com/roadwatch/domain/usecases/ProximityAlertEngine.kt:262-269 | a tolerance of 180 degrees or more accepts every heading less than a full turn away |
| ProximityAlertEngine.AlertMessage | app/src/main/java/com/roadwatch/domain/usecases/ProximityAlertEngine.kt:283-296 | a zone with a limit reads the limit as a speed; every other hazard gets a sentence ending in the distance |
| ProximityAlertEngine.MessageMatchesBuilder | app/src/main/java/com/roadwatch/domain/usecases/ProximityAlertEngine.kt:283-296 | the engine's sentence equals the speech manager's builder for the type's spoken name, except that for a zone the engine reads the limit and the builder the distance |
| ProximityAlertEngine.ClearsBeyond | app/src/main/java/com/roadwatch/domain/usecases/ProximityAlertEngine.kt:164 | since the warning distance is at least 120 m, an alert clears exactly when the driver is more than 100 m away (also lines 276-281) |
| ProximityAlertEngine.Visit | app/src/main/java/com/roadwatch/domain/usecases/ProximityAlertEngine.kt:153-201 | the hazard's record is refreshed and no other hazard's record changes; an alerted hazard keeps showing until it clears, and then its suppression is dropped; a new alert needs no suppression, the warning distance and the 2 s gap, and stamps the suppression |
| ProximityAlertEngine.Scan | app/src/main/java/com/roadwatch/domain/usecases/ProximityAlertEngine.kt:153-201 | at most one alert comes out, the alerts on display are untouched, no announcement leaves the speech time alone, and unvisited hazards keep their records |
| ProximityAlertEngine.ScanLoop | app/src/main/java/com/roadwatch/domain/usecases/ProximityAlertEngine.kt:153-201 | the loop that breaks at the first alert computes the same as visiting until one stops |
| ProximityAlertEngine.PruneStates | app/src/main/java/com/roadwatch/domain/usecases/ProximityAlertEngine.kt:204-207 | exactly the records seen in the last ten minutes are kept, unchanged |
| ProximityAlertEngine.Relevant | app/src/main/java/com/roadwatch/domain/usecases/ProximityAlertEngine.kt:138-148 | the hazards visited are exactly the nearby ones in the corridor facing the driver's way, nearest first |
| ProximityAlertEngine.Sightings | app/src/main/java/com/roadwatch/domain/usecases/ProximityAlertEngine.kt:153-155 | each visited hazard carries its distance truncated to whole metres |
| ProximityAlertEngine.ProcessLocationUpdate | app/src/main/java/com/roadwatch/domain/usecases/ProximityAlertEngine.kt:123-210 | at most one alert is shown, it names a relevant hazard, the speech time moves only with an alert, and no stale record survives |
| ProximityAlertEngine.ScanNames | app/src/main/java/com/roadwatch/domain/usecases/ProximityAlertEngine.kt:153-201 | the alert a scan shows is for a hazard it visited |
| ProximityAlertEngine.AlertedIsNotReannounced | app/src/main/java/com/roadwatch/domain/usecases/ProximityAlertEngine.kt:162-175 | a hazard still alerted is never spoken again: it keeps showing silently or is released |
| ProximityAlertEngine.CleanupOldAlerts | app/src/main/java/com/roadwatch/domain/usecases/ProximityAlertEngine.kt:307-312 | exactly the suppression stamps older than five minutes are dropped and nothing else changes |
| ProximityAlertEngine.CleanupKeepsSuppression | app/src/main/java/com/roadwatch/domain/usecases/ProximityAlertEngine.kt:271-312 | cleanup never changes whether a hazard counts as recently alerted |
| ProximityAlertEngine.ClearAlert | app/src/main/java/com/roadwatch/domain/usecases/ProximityAlertEngine.kt:314-317 | the hazard's suppression is dropped and exactly its alerts leave the display; nothing else changes |
| TtsManager.VoiceEnabled | app/src/main/java/com/roadwatch/core/tts/TextToSpeechManager.kt:42-44 | voice is on unless switched off |
| TtsManager.VibrationEnabled | app/src/main/java/com/roadwatch/core/tts/TextToSpeechManager.kt:46-48 | vibration is on unless switched off |
| TtsManager.AlertDistance | app/src/main/java/com/roadwatch/core/tts/TextToSpeechManager.kt:50-52 | the multiplier is 1.0 unless set |
| TtsManager.SetVoiceEnabled | app/src/main/java/com/roadwatch/core/tts/TextToSpeechManager.kt:157-161 | the voice flag reads back as stored and the other two preferences are unchanged |
| TtsManager.SetVibrationEnabled | app/src/main/java/com/roadwatch/core/tts/TextToSpeechManager.kt:163-167 | the vibration flag reads back as stored and the other two preferences are unchanged |
| TtsManager.SetAlertDistance | app/src/main/java/com/roadwatch/core/tts/TextToSpeechManager.kt:169-173 | the multiplier reads back as stored and the two flags are unchanged |
| TtsManager.SpeakAlert | app/src/main/java/com/roadwatch/core/tts/TextToSpeechManager.kt:127-138 | the message is spoken under the hazard's id exactly when voice is on, a 500 ms vibration happens exactly when vibration is on, and nothing else |
| TtsManager.DefaultsSpeakAndVibrate | app/src/main/java/com/roadwatch/core/tts/TextToSpeechManager.kt:42-48 | with nothing stored an alert is both spoken and felt (also lines 127-138) |
| TtsManager.HazardAlertMessage | app/src/main/java/com/roadwatch/core/tts/TextToSpeechManager.kt:181-191 | the zone name reads the number as a speed; every other name gets a sentence ending in the distance, and an unknown name is a generic hazard |
| TtsManager.MessageIgnoresCase | app/src/main/java/com/roadwatch/core/tts/TextToSpeechManager.kt:182 | names equal up to case give the same message |
| TtsManager.EnterExitPair | app/src/main/java/com/roadwatch/core/tts/TextToSpeechManager.kt:188-195 | entering and leaving messages for the same limit differ only in their first word |
| DriveHud.FormatNiceDistance | app/src/main/java/com/roadwatch/feature/drive/DriveHudFragment.kt:620-628 | the distance is truncated to whole metres, then "<50 m", whole tens below 200 m, whole fifties below 1 km, and tenths of a kilometre from there |
| DriveHud.NiceDistanceTruncates | app/src/main/java/com/roadwatch/feature/drive/DriveHudFragment.kt:621-623 | every distance short of 50 m, fractions included, reads "<50 m" |
| DriveHud.LeadDistance | app/src/main/java/com/roadwatch/feature/drive/DriveHudFragment.kt:597-605 | the head-up look-ahead stays between 150 m and 900 m and takes those values at standstill and above 120 km/h |
| DriveHud.LeadDistanceMonotone | app/src/main/java/com/roadwatch/feature/drive/DriveHudFragment.kt:597-605 | the look-ahead never shrinks as the car speeds up |
| DriveHud.TargetPointZoneOnly | app/src/main/java/com/roadwatch/feature/drive/DriveHudFragment.kt:576-580 | the measured point differs from the hazard's own position only for a zone whose start is known, and then it is that start |
| DriveHud.Unwind | app/src/main/java/com/roadwatch/feature/drive/DriveHudFragment.kt:517-518 | a negative bearing is lifted into [0, 360) by whole turns; a non-negative one is left alone |
| DriveHud.Turns | app/src/main/java/com/roadwatch/feature/drive/DriveHudFragment.kt:518 | the number of whole turns that lift a negative bearing into [0, 360) |
| DriveHud.Sector | app/src/main/java/com/roadwatch/feature/drive/DriveHudFragment.kt:519 | the sector index is one of the sixteen points |
| DriveHud.DegToCompass | app/src/main/java/com/roadwatch/feature/drive/DriveHudFragment.kt:515-521 | the result is always one of the sixteen compass points |
| DriveHud.UnwindLoop | app/src/main/java/com/roadwatch/feature/drive/DriveHudFragment.kt:517-518 | the loop adding whole turns while the bearing is negative ends with the unwound bearing |
| DriveHud.DegToCompassLoop | app/src/main/java/com/roadwatch/feature/drive/DriveHudFragment.kt:515-521 | the function, loop included, names the compass point of the unwound bearing |
| DriveHud.CompassNearest | app/src/main/java/com/roadwatch/feature/drive/DriveHudFragment.kt:515-521 | within one turn the point named is the nearest: the bearing lies within 11.25 degrees of it, north covering both ends |
| DriveHud.CompassPeriodic | app/src/main/java/com/roadwatch/feature/drive/DriveHudFragment.kt:517-519 | a negative bearing names the same point as the bearing one turn further round |
| DriveHud.DisplayedSpeed | app/src/main/java/com/roadwatch/feature/drive/DriveHudFragment.kt:501 | the speed shown is km/h truncated toward zero and never negative |
| DriveHud.SpeedTextSize | app/src/main/java/com/roadwatch/feature/drive/DriveHudFragment.kt:504-508 | the text is 56 at 80 km/h and over, 40 below 50 km/h, and 48 between |
| DriveHud.BearingTextSize | app/src/main/java/com/roadwatch/feature/drive/DriveHudFragment.kt:510 | the bearing text is twelve below the speed's, but never below 28 |
| DriveHud.UpdateHud | app/src/main/java/com/roadwatch/feature/drive/DriveHudFragment.kt:500-512 | the speed text is the displayed speed, the bearing is a compass point ("N" without a bearing) in smaller text than the speed |
| DriveHud.HudSizesMonotone | app/src/main/java/com/roadwatch/feature/drive/DriveHudFragment.kt:500-512 | a faster car never gets smaller text, for the speed or the bearing |
| DriveHud.EvaluateIdleStop | app/src/main/java/com/roadwatch/feature/drive/DriveHudFragment.kt:363-389 | the first fix sets the baseline; moving 100 m or more resets it; otherwise drive mode stops exactly when two minutes have passed since the baseline was set |
| DriveHud.MoveTimeIsNeverRead | app/src/main/java/com/roadwatch/feature/drive/DriveHudFragment.kt:51 | the last-move time is written but never read: it does not affect the decision or the baseline (also lines 381) |
| DriveHud.Replay | app/src/main/java/com/roadwatch/feature/drive/DriveHudFragment.kt:57-70 | replaying fixes stops at most at one of them (also lines 363-389) |
| DriveHud.NoStopWithinTimeout | app/src/main/java/com/roadwatch/feature/drive/DriveHudFragment.kt:53 | drive mode never stops less than two minutes after the baseline was set, whatever the distances (also lines 382-383) |
| LocationsScreen.BearingDirection | app/src/main/java/com/roadwatch/feature/locations/LocationsScreen.kt:259-271 | each bearing gets the one of eight sectors whose half-open 45 degree range holds it, north covering both ends |
| LocationsScreen.SectorIndex | app/src/main/java/com/roadwatch/feature/locations/LocationsScreen.kt:259-271 | the arithmetic sector is one of the eight |
| LocationsScreen.BearingMatchesSector | app/src/main/java/com/roadwatch/feature/locations/LocationsScreen.kt:259-271 | on a full turn the chain of comparisons picks the sector found by shifting half a sector and dividing |
| LocationsScreen.DisplayName | app/src/main/java/com/roadwatch/feature/locations/LocationsScreen.kt:248-257 | every type has a non-empty display name and POLICE is "Police Checkpoint" |
| LocationsScreen.DisplayNameInjective | app/src/main/java/com/roadwatch/feature/locations/LocationsScreen.kt:248-257 | distinct types have distinct display names |
| AdminClient.WithRefresh | app/src/main/java/com/roadwatch/network/AdminClient.kt:9-23 | without both stored tokens nothing is called and "admin not logged in" fails; the first call uses the stored access token and its result stands unless it is a 401; a failed refresh ends in its failure with the tokens kept; a successful one is stored and the retry, with the new token, decides |
| AdminClient.CallBudget | app/src/main/java/com/roadwatch/network/AdminClient.kt:9-67 | each operation calls the API at most twice and refreshes at most once, and only after a 401 |
| AdminClient.ServerRejectionRefreshes | app/src/main/java/com/roadwatch/network/AdminClient.kt:6-17 | a first call the server answers with status 401 always leads to a refresh with the stored refresh token |
| AdminClient.Discard | app/src/main/java/com/roadwatch/network/AdminClient.kt:14-22 | success is reported without the payload, and a failure passes on its message |
| AdminClient.DiscardingWithRefresh | app/src/main/java/com/roadwatch/network/AdminClient.kt:9-38 | patch and delete report the protocol's success or failure, with the same calls and tokens |
| AdminClient.ListHazardsWithRefresh | app/src/main/java/com/roadwatch/network/AdminClient.kt:40-67 | the listing returns the first answer or the retry's, unchanged: without both tokens it fails as not logged in; a first answer other than a 401 is returned with the tokens kept; after a 401 a failed refresh's failure is returned with the tokens kept, and a successful refresh stores the new pair and returns the retry |
| ApiClient.AcceptedIsSuccessStatus | app/src/main/java/com/roadwatch/network/ApiClient.kt:40 | every call accepts only a 2xx status: 200 or 201 exactly, except the calls that take any 2xx; a missing status (-1) is never accepted (also lines 117, 126, 157) |
| ApiClient.Respond | app/src/main/java/com/roadwatch/network/ApiClient.kt:27-47 | a thrown exception becomes a failure carrying its message; a status the call does not accept becomes "HTTP code: body"; a success always came from a 2xx answer |
| ApiClient.UnauthorizedNamesItself | app/src/main/java/com/roadwatch/network/ApiClient.kt:46 | a 401 answer fails every call, and its message contains "HTTP 401" (also lines 100, 109, 117) |
| ApiClient.Base | app/src/main/java/com/roadwatch/network/ApiClient.kt:37 | the trimmed base URL is a prefix of the configured one, does not end in '/', and only slashes were cut |
| ApiClient.PathsStartAtRoot | app/src/main/java/com/roadwatch/network/ApiClient.kt:37 | every address continues the base with a path under "/v1/" (also lines 52, 80, 106, 115, 123, 135, 155, 163, 196, 214) |
| ApiClient.BaseIgnoresTrailingSlash | app/src/main/java/com/roadwatch/network/ApiClient.kt:37 | adding a trailing slash to the configured base never changes an address |
| ApiClient.Params | app/src/main/java/com/roadwatch/network/ApiClient.kt:81-91 | the optional query parameters sent are at most the ones that exist |
| ApiClient.ParamsSplit | app/src/main/java/com/roadwatch/network/ApiClient.kt:81-91 | the optional parameters are appended one after another, so the query of a list of filters is the query of its front followed by that of its back |
| ApiClient.ParamsPresence | app/src/main/java/com/roadwatch/network/ApiClient.kt:81-91 | with distinct names, a parameter name=value is sent exactly when that filter holds that value |
| ApiClient.NameAbsent | app/src/main/java/com/roadwatch/network/ApiClient.kt:81-91 | no parameter is sent under a name that is not a filter |
| ApiClient.NonEmpty | app/src/main/java/com/roadwatch/network/ApiClient.kt:81-83 | a text filter is sent exactly when it is present and not empty (also lines 197) |
| ApiClient.DoubleParam | app/src/main/java/com/roadwatch/network/ApiClient.kt:84-89 | a number or boolean filter is sent exactly when it is present |
| ApiClient.AdminValues | app/src/main/java/com/roadwatch/network/ApiClient.kt:80-91 | the admin listing has one slot per filter; the cursor is sent only when non-empty, the active flag and the bounds whenever given |
| ApiClient.AdminQueryUnfiltered | app/src/main/java/com/roadwatch/network/ApiClient.kt:62-80 | with no filters the admin listing asks for the limit alone |
| ApiClient.NoneParams | app/src/main/java/com/roadwatch/network/ApiClient.kt:81-91 | when no filter is given no parameter is appended |
| ApiClient.AdminFilterSent | app/src/main/java/com/roadwatch/network/ApiClient.kt:81-91 | each admin filter name is sent with a value exactly when that filter has that value |
| ApiClient.TokenOf | app/src/main/java/com/roadwatch/network/ApiClient.kt:21 | an anonymous call has no token; a password call always has one (also lines 130-136, 198) |
| ApiClient.Authorization | app/src/main/java/com/roadwatch/network/ApiClient.kt:21 | the Authorization header is present exactly when a token is given, and then starts with "Bearer " |
| ApiClient.RequestFor | app/src/main/java/com/roadwatch/network/ApiClient.kt:15-37 | a request goes to the trimmed base, then the call's path, then its query, and carries an Authorization header exactly when it has a token |
| ApiClient.PasswordHeader | app/src/main/java/com/roadwatch/network/ApiClient.kt:21 | password calls send "Bearer Basic " followed by the Base64 of "email:password" (also lines 130-131, 136) |
| RemoteHazardCache.InstantOr | app/src/main/java/com/roadwatch/data/RemoteHazardCache.kt:88-95 | an instant text that does not parse becomes the epoch |
| RemoteHazardCache.ToHazard | app/src/main/java/com/roadwatch/data/RemoteHazardCache.kt:77-97 | a listed hazard keeps its id, type and position, a missing heading becomes 0, the bearing is cleared, the instants are parsed with the epoch as fallback, and the vote count is kept |
| RemoteHazardCache.ToHazardKeepsInstants | app/src/main/java/com/roadwatch/data/RemoteHazardCache.kt:88-95 | instants the server prints in the standard text form come through the mapping unchanged |
| RemoteHazardCache.MapHazards | app/src/main/java/com/roadwatch/data/RemoteHazardCache.kt:77 | the mapped list has one hazard per listed one, in the same order |
| RemoteHazardCache.GetNearby | app/src/main/java/com/roadwatch/data/RemoteHazardCache.kt:62-129 | without a base URL or a position the cached list is served and nothing is sent; a request goes out exactly when never fetched, moved over 200 m or more than 15 s passed; the throttle fields are stamped before the request; the list changes only by a successful answer, which replaces it; the listing is anonymous |
| RemoteHazardCache.ThrottleHoldsBack | app/src/main/java/com/roadwatch/data/RemoteHazardCache.kt:66-70 | right after a fetch, a call within 200 m and within 15 s of it sends nothing and serves the same list, whatever the first answer was |
| AdminLocations.NiceType | app/src/main/java/com/roadwatch/feature/admin/AdminLocationsFragment.kt:516 | the shown type name has the stored name's length; each character is the stored one in lower case, or a space for an underscore, and the first is then upper-cased |
| AdminLocations.NiceDirection | app/src/main/java/com/roadwatch/feature/admin/AdminLocationsFragment.kt:518-523 | the direction is one of "One-way", "Two-way", "Opposite" and "Unknown", and is "Unknown" exactly when the stored value, upper-cased, is none of the three known ones |
| AdminLocations.AngleText | app/src/main/java/com/roadwatch/feature/admin/AdminLocationsFragment.kt:524-525 | an absent angle shows a dash; a present one shows its truncated whole degrees and a degree sign |
| AdminLocations.BuildLabel | app/src/main/java/com/roadwatch/feature/admin/AdminLocationsFragment.kt:512-531 | when the type name and the formatted date hold no line break, a row built from the label shows the top line as its title and the bottom line as its subtitle |
| AdminLocations.NiceTypeKeepsOut | app/src/main/java/com/roadwatch/feature/admin/AdminLocationsFragment.kt:516 | the shown type name gains no character that the stored name lacks, apart from spaces and case |
| AdminLocations.TopHasNoBreak | app/src/main/java/com/roadwatch/feature/admin/AdminLocationsFragment.kt:527 | the top line holds no line break when the type name holds none |
| AdminLocations.AngleHasNoBreak | app/src/main/java/com/roadwatch/feature/admin/AdminLocationsFragment.kt:524-525 | an angle's text holds no line break |
| AdminLocations.BottomHasNoBreak | app/src/main/java/com/roadwatch/feature/admin/AdminLocationsFragment.kt:513-529 | the bottom line holds no line break when the formatted date holds none |
| AdminLocations.LabelSplitsIntoLines | app/src/main/java/com/roadwatch/feature/admin/AdminLocationsFragment.kt:356-358 | the top and bottom lines joined by a line break split back into title and subtitle when neither line holds a break (also lines 512-531) |
| AdminLocations.LabelShowsCreation | app/src/main/java/com/roadwatch/feature/admin/AdminLocationsFragment.kt:273 | a stored hazard's label shows its own creation instant, not the epoch fallback (also lines 513, 529) |
| AdminLocations.SeedRows | app/src/main/java/com/roadwatch/feature/admin/AdminLocationsFragment.kt:267-286 | at most one row per seed; every seed row is not the user's, is named by a seed's key, and that key is not switched off |
| AdminLocations.UserRows | app/src/main/java/com/roadwatch/feature/admin/AdminLocationsFragment.kt:287-303 | one row per user hazard, in order, each marked as the user's and carrying the store's id |
| AdminLocations.LocalRows | app/src/main/java/com/roadwatch/feature/admin/AdminLocationsFragment.kt:266-303 | the local list holds at most the seeds and user hazards, and no switched-off seed |
| AdminLocations.ShownRows | app/src/main/java/com/roadwatch/feature/admin/AdminLocationsFragment.kt:266-303 | the list has one row per shown seed plus one per user hazard, and no switched-off seed |
| AdminLocations.VisibleSeedListed | app/src/main/java/com/roadwatch/feature/admin/AdminLocationsFragment.kt:267-286 | every seed that is not switched off has a row named by its key |
| AdminLocations.Actions | app/src/main/java/com/roadwatch/feature/admin/AdminLocationsFragment.kt:376-381 | the vote action comes first and reads "Remove Vote" exactly when voted; Toggle Active and Edit are offered exactly to an admin, Delete exactly to an admin on a user row |
| AdminLocations.StrLessIrreflexive | app/src/main/java/com/roadwatch/feature/admin/AdminLocationsFragment.kt:327 | the name order never puts a name before itself |
| AdminLocations.StrLessTrans | app/src/main/java/com/roadwatch/feature/admin/AdminLocationsFragment.kt:327 | the name order is transitive |
| AdminLocations.StrLessTotal | app/src/main/java/com/roadwatch/feature/admin/AdminLocationsFragment.kt:327 | any two different names are ordered one way or the other |
| AdminLocations.BelowFirstAbsent | app/src/main/java/com/roadwatch/feature/admin/AdminLocationsFragment.kt:325-327 | in a sorted tally a name below the first entry has no count |
| AdminLocations.Bump | app/src/main/java/com/roadwatch/feature/admin/AdminLocationsFragment.kt:325-326 | counting one more occurrence keeps the tally sorted, adds one to that name's count alone and one to the total |
| AdminLocations.TallyOf | app/src/main/java/com/roadwatch/feature/admin/AdminLocationsFragment.kt:324-327 | the per-type tally is sorted by name, counts each name as often as it occurs, and adds up to the number of names |
| AdminLocations.CountActive | app/src/main/java/com/roadwatch/feature/admin/AdminLocationsFragment.kt:323 | the active count never exceeds the row count; it equals it exactly when every row is active, and is zero exactly when none is |
| AdminLocations.TypeNames | app/src/main/java/com/roadwatch/feature/admin/AdminLocationsFragment.kt:324 | one type name per seed, in order |
| AdminLocations.UserTypeNames | app/src/main/java/com/roadwatch/feature/admin/AdminLocationsFragment.kt:324 | one type name per user hazard |
| AdminLocations.VisibleSeeds | app/src/main/java/com/roadwatch/feature/admin/AdminLocationsFragment.kt:268-270 | a seed is shown exactly when it is a seed whose key is not switched off |
| AdminLocations.SeedRowsCount | app/src/main/java/com/roadwatch/feature/admin/AdminLocationsFragment.kt:267-286 | the seed rows are exactly as many as the shown seeds |
| AdminLocations.SummaryAsWritten | app/src/main/java/com/roadwatch/feature/admin/AdminLocationsFragment.kt:305-328 | as written: "No hazards" exactly for an empty list; otherwise the total is the row count, the active count at most that, but the per-type lines add up to every seed and user hazard, hidden seeds included |
| AdminLocations.AsWrittenCountsHiddenSeeds | app/src/main/java/com/roadwatch/feature/admin/AdminLocationsFragment.kt:270-328 | with one shown and one switched-off seed, the summary's total is 1 while its per-type lines add up to 2 |
| AdminLocations.Summarize | app/src/main/java/com/roadwatch/feature/admin/AdminLocationsFragment.kt:305-328 | corrected: "No hazards" exactly for an empty list; otherwise total and active as written, and the sorted per-type lines add up to the total |
| PassengerReport.DirectionalityFor | app/src/main/java/com/roadwatch/feature/report/PassengerReportSheet.kt:75-84 | a report is bidirectional exactly when the box is ticked or it is a speed-limit zone, and one-way otherwise |
| PassengerReport.SpeedOf | app/src/main/java/com/roadwatch/feature/report/PassengerReportSheet.kt:89 | the speed limit is present exactly when the field reads as an integer, and is then that integer |
| PassengerReport.Base | app/src/main/java/com/roadwatch/feature/report/PassengerReportSheet.kt:79-87 | the report is placed at the device's position, active, from the user, created now, with its directionality and without any zone field |
| PassengerReport.MakeDraft | app/src/main/java/com/roadwatch/feature/report/PassengerReportSheet.kt:73-107 | no position is refused with "Location unavailable"; a spot hazard is then always ready; a zone is ready exactly when both ends are set at least 100 m apart (missing ends give "Set start and end of zone"), and only a zone carries the speed, the length and the ends |
| PassengerReport.SpokenName | app/src/main/java/com/roadwatch/feature/report/PassengerReportSheet.kt:116 | the warning's type name has the type name's length, no underscore and no capital |
| PassengerReport.TextsDiffer | app/src/main/java/com/roadwatch/feature/report/PassengerReportSheet.kt:111-117 | the three texts "Reported …", "Similar … within 30 m" and "Report failed" differ whatever the names are |
| PassengerReport.ResultNoticesDistinct | app/src/main/java/com/roadwatch/feature/report/PassengerReportSheet.kt:109-118 | the store's three answers are announced with pairwise different texts, and success and duplicate in different styles |
| PassengerReport.Submit | app/src/main/java/com/roadwatch/feature/report/PassengerReportSheet.kt:71-120 | the sheet closes exactly when the report passes the checks; a refused report writes nothing and shows the refusal; the store changes only by a successful de-duplicated add of the drafted hazard; a closed sheet always announced the store's answer in an alert style |

## Left out

- Floating-point geometry is an input everywhere: haversine distances, bearings, angle deltas, the corridor test and the lateral and along-track offsets. Results are stated for whatever the geometry function returns.
- Double and Float arithmetic, `%.1f`/`%.5f` formatting, date formatting in the device's zone, URL encoding and Base64 are not modelled. Numbers are exact reals or canonical decimal numerals, and the formatters are function parameters.
- Android views, dialogs, toasts, haptics, notifications, map markers and camera, permission flows, services and coroutines are left out. Only the decisions they display are modelled.
- SharedPreferences, DataStore, Room and files are maps, sets and line sequences. Reads and writes are pure state transitions, and a failed write is an input flag.
- HttpURLConnection and org.json are left out. The server's answer (status and body, or the exception) is an input, and JSON decoding is the caller's decoder.
- The device-registration call in `ApiClient.kt` (lines 176-191) is not modelled, because it has no function header.
- `AdminLocationsFragment`'s server listing (lines 225-265) and the admin actions' server calls are not modelled. Only the local list, its labels, its actions and its summary are.
- `updateNextHazardChip` in `DriveHudFragment.kt` (lines 523-575) is not modelled. Its selection is the corridor search that `AlertManager.UpcomingHazard` models, with different constants, over the same geometry inputs.
- The on-disk JSON copy that `RemoteHazardCache` reads at start-up and writes after each fetch is not modelled.
- `PassengerReportSheet`'s start and end buttons and their `%.5f` status line are not modelled, nor is its `onResume` dismissal. The last known location is a parameter.
- `ProximityAlertEngine.kt` holds leftover diff markers. The model follows the added ("+") lines. It uses one `now` for a whole update, including the cleanup that the source reads from an undeclared variable. The endless cleanup coroutine is a plain step.
- The log server's threading and HTTP framing are left out. Each request is one step on the store.
- Methods other than GET and POST are not handled by `BaseHTTPRequestHandler`, so the model answers 501 for them, as the code does, and not 404.
- Members that callers use but that the source does not define are parameters or emitted actions. These are `AppPrefs.getBaseUrl`, the admin tokens, the cluster and haptics preferences, `SeedOverrides.setDisabled` and `HazardStore.upsertByKey`.
- Hazard fields that `Hazard.kt` does not declare are fields of `Hazards.Hazard` with a chosen default, since their callers (RemoteHazardCache.kt lines 29-45 and 79-96, PassengerReportSheet.kt lines 99-106, and SettingsFragment.kt lines 297-372, which reads them by reflection) need them. `Hazards.NewHazard` sets `reportedHeadingDeg` to 0, and `userBearing`, `roadBearing`, `zoneStartLat`, `zoneStartLng`, `zoneEndLat`, `zoneEndLng`, `id`, `updatedAt` and `votesCount` to absent. The entity those callers compile against is not part of this model, so these defaults are an assumption.
- `AdminClient.IsUnauthorized` looks for "HTTP 401" in the failure's message. A failure without a message is modelled with the message "".
- `LocationsScreen` bearings are reals, so the source's NaN fallback for a missing heading cannot arise and is not modelled.
- `Double.MAX_VALUE` as the "no candidate yet" distance is an `Option`. This affects `AlertManager.kt` lines 251, 286 and 471.
- SeedRepository.ActiveHazards: states which hazards are active (membership), not their order within the seed part and the user part.
- AlertManager.NoSecondClusterSentence: the follow-up sentence about a second cluster can never be spoken, because every candidate lies within the lead distance, so this branch of the source is proved dead rather than modelled as reachable.
- AlertManager.OnLocationUpdate: keeps the source's redundant tests as written. The `nextDist <= lead` test (AlertManager.kt line 139) repeats a condition `nextHazardAfter` already imposes. The slow-speed exception to the quiet window (lines 119-125) can never apply, so the model has only the quiet test. A cluster whose members were alerted recently falls through to the single-hazard path, as in the code. One `now` stands for the two clock readings of one update (AlertManager.kt lines 53 and 474), so the zone handling and the hazard alerts see the same time.
- TtsManager.HazardAlertMessage: for "speed limit zone" the number passed as the distance is spoken as a speed in km/h (TextToSpeechManager.kt line 188), as the code does.
- DriveHud.FormatNiceDistance: truncates to whole metres, while `AlertManager`'s `nearestNiceDistance` rounds. Both are modelled as written.
- DriveHud.EvaluateIdleStop: `lastMoveTime` is written but never read. `DriveHud.MoveTimeIsNeverRead` proves that it never changes the decision.
- PassengerReport.MakeDraft: models the speed-limit-zone branch (PassengerReportSheet.kt lines 88-107). The sheet's buttons only offer a speed bump, a pothole and a rumble strip (lines 39-42), so the branch is reached only through the form given to the model.
- ImportExport.ExportHazards: models the export on the first list the repository's flow emits. As written, `exportHazards(uri)` collects a Room query flow (ImportExportManager.kt lines 30-32, HazardDao.kt lines 14-15), which never completes, so the code never writes the file (see "## Findings"). `ImportExport.ExportThenImport` is stated for the corrected export.
- ImportExport.ExportAsWritten: the flow is a finite list of events, so "never returns" is stated as "still collecting after any number of emissions". The app's wait on it (SettingsViewModel.kt line 91), which has no timeout, is not modelled.
- LocationsViewModel.DeleteHazard: the exception a throwing repository call rethrows is recorded as a flag. What the coroutine scope then does with it is not modelled.
- Text.Upper: letter-case folding is ASCII only. Kotlin's `uppercase()`, `lowercase()` and `equals(ignoreCase = true)` also fold other Unicode letters ("ſpeed_bump".uppercase() is "SPEED_BUMP"). So `Hazards.FromString`, `ImportExport.ParseHazardType`, `ImportExport.ParseHazardSource`, the `SettingsImport` header index and `ActiveOf`, `TtsManager.HazardAlertMessage` and `AdminLocations.NiceDirection` refuse some spellings that the app accepts.
- ApiClient.DoubleParam: numbers are printed as plain decimal numerals. Kotlin's `Double.toString` switches to scientific notation below 0.001 and from 10^7 on ("5.0E-4", "1.0E7"). For such values the query parameters the app sends (ApiClient.kt lines 86-89 and 196) and the CSV cells it writes differ from the model's.
- ImportExport.OptionalDouble: reads plain decimal numerals only. Kotlin's `toDoubleOrNull` also accepts exponents ("1e-4"), "NaN", "Infinity", hexadecimal ("0x1p3") and a type suffix ("1.5f"). A CSV cell or input field written that way is read by the app and refused by the model. This applies to every numeric field parsed through the same numeral reader.
- LogServer.FieldOr: JSON numbers are integers, so a fractional field such as `"level": 1.5` (printed "1.5" by the dashboard) cannot be represented. Arrays and objects print as "[...]" and "{...}" rather than Python's full `str()` of them.
- SeedRepository.ParsedSeeds: one clock reading `now` stands for the `Instant.now()` that SeedRepository.kt reads for each row (line 56). All seeds of one load therefore carry the same creation time, where the app's may differ.
- SeedLoader.ParseSeedRow: one `now` fills both `createdAt` and `updatedAt` of every row. The entity's defaults (entities/Hazard.kt lines 22-23) read the clock twice per row.
- ImportExport.DateOr: one `now` stands for every clock reading of an import. The code reads the clock afresh for each missing or unreadable date on each line (ImportExportManager.kt lines 136-137 and 165-171).
- SettingsImport.CreatedAt: one `now` stands for the `Instant.now()` that SettingsFragment.kt reads afresh for each row whose creation time is missing or unreadable (lines 680 and 683), and `ParseRow` and `ImportCsv` pass that one `now` to every row. Rows of one import therefore share a fallback creation time, where the app's may differ.
- AppPrefs.GetLong: a key stored with a value of another type reads as the default. This holds for `GetInt`, `GetBool` and `GetString` too. Android's SharedPreferences throws ClassCastException instead. The app writes each key with one type, so this case arises only for a store written by something else.
- SettingsImport: the import lemmas are stated for every row parser and key function given as parameters, not only for the ones the fragment passes.
- CommunityVotes.CountsStayNonNegative: counts are 32-bit and wrap at `Int.MAX_VALUE`, as in the code. Non-negative counts are proved to stay non-negative only when the voted-up count is below the maximum. `CommunityVotes.UpvoteAtMaxWraps` shows the wrap.

## Findings

| source | as written | input that shows it | evidently intended | confidence | as-written member | corrected member |
|---|---|---|---|---|---|---|
| logging_server.py:17 | each handler takes `log_storage or []`, so while the shared store is empty every request gets a fresh private list | a server started with an empty store that receives POST /log and then GET /logs exports no records | every handler works on the one shared store, so a posted record appears in the next export | not executed | LogServer.AsWrittenLosesEveryRecord | LogServer.SharedStoreKeepsPost |
| app/src/main/java/com/roadwatch/core/util/ImportExportManager.kt:30-32 | the export collects the repository's export flow, a Room query flow that emits on every change and never completes, so the lines that open the stream, write the file and report success are never reached | any table: the flow emits the current rows and `collect` waits for the next change forever; the settings screen waits on the call with no timeout | take the flow's first list (`first()`), then write it | not executed | ImportExport.AsWrittenNeverFinishes | ImportExport.ExportThenImport |
| app/src/main/java/com/roadwatch/feature/admin/AdminLocationsFragment.kt:324-328 | the per-type lines count every seed and user hazard, while the list hides switched-off seeds (line 270) | one shown seed and one switched-off seed: "Total: 1" above per-type lines adding up to 2 | the per-type lines count the hazards the list shows | not executed | AdminLocations.AsWrittenCountsHiddenSeeds | AdminLocations.Summarize |

=== FILE: admin_client.dfy ===
/** `AdminClient`: an admin call that, when the server answers 401, refreshes the token pair
    once, stores the new pair and retries once. The server's answers are inputs (what it
    would say to the first call, to the refresh and to the retry); the model records which
    of them were asked for, in order, and what the stored tokens become. */
module AdminClient {
  import opened Wrappers
  import opened Text
  import opened ApiClient

  /** The stored admin token pair. */
  datatype Tokens = Tokens(access: Option<string>, refresh: Option<string>)

  /** The calls made to the server, in order. */
  datatype Call = Api(accessToken: string) | Refresh(refreshToken: string)

  /** The answers the server would give: to the first call, to the refresh (the new access
      and refresh tokens), and to the retry. */
  datatype Answers<T> = Answers(first: Result<T>, refreshed: Result<(string, string)>, retry: Result<T>)

  datatype Outcome<T> = Outcome(result: Result<T>, tokens: Tokens, calls: seq<Call>)

  /** `isUnauthorized`: the failure's message mentions "HTTP 401" (a missing message is ""). */
  predicate IsUnauthorized(message: string) {
    Contains(message, "HTTP 401")
  }

  predicate Usable(t: Option<string>) {
    t.Some? && t.value != ""
  }

  function CountApi(calls: seq<Call>): nat {
    if |calls| == 0 then 0 else (if calls[0].Api? then 1 else 0) + CountApi(calls[1..])
  }

  function CountRefresh(calls: seq<Call>): nat {
    if |calls| == 0 then 0 else (if calls[0].Refresh? then 1 else 0) + CountRefresh(calls[1..])
  }

  /** The protocol shared by `patchHazardWithRefresh`, `deleteHazardWithRefresh` and
      `listHazardsWithRefresh`: the first call's result is returned unless it is a 401; a
      failed refresh ends in its failure; a successful refresh is stored before the retry,
      whose result is returned. */
  function WithRefresh<T>(stored: Tokens, a: Answers<T>): (o: Outcome<T>)
    ensures !Usable(stored.access) || !Usable(stored.refresh)
            ==> o == Outcome(Failure("admin not logged in"), stored, [])
    ensures Usable(stored.access) && Usable(stored.refresh) ==> |o.calls| >= 1 && o.calls[0] == Api(stored.access.value)
    ensures a.first.Success? || !IsUnauthorized(a.first.message) ==> o.tokens == stored && |o.calls| <= 1
    ensures |o.calls| == 1 ==> o.result == a.first
    ensures o.tokens != stored ==> a.refreshed.Success? && o.tokens == Tokens(Some(a.refreshed.value.0), Some(a.refreshed.value.1))
    ensures |o.calls| == 2 ==> a.refreshed.Failure? && o.result == Failure(a.refreshed.message) && o.tokens == stored
    ensures |o.calls| == 3 ==> a.refreshed.Success? && o.result == a.retry && o.calls[2] == Api(a.refreshed.value.0)
    ensures |o.calls| <= 3
  {
    if !Usable(stored.access) || !Usable(stored.refresh) then Outcome(Failure("admin not logged in"), stored, [])
    else
      var first := [Api(stored.access.value)];
      if a.first.Success? || !IsUnauthorized(a.first.message) then Outcome(a.first, stored, first)
      else
        var asked := first + [Refresh(stored.refresh.value)];
        match a.refreshed
        case Failure(m) => Outcome(Failure(m), stored, asked)
        case Success(pair) =>
          Outcome(a.retry, Tokens(Some(pair.0), Some(pair.1)), asked + [Api(pair.0)])
  }

  /** Each operation calls the API at most twice and refreshes at most once; a refresh is
      only ever asked for after a 401. */
  lemma CallBudget<T>(stored: Tokens, a: Answers<T>)
    ensures CountApi(WithRefresh(stored, a).calls) <= 2
    ensures CountRefresh(WithRefresh(stored, a).calls) <= 1
    ensures CountRefresh(WithRefresh(stored, a).calls) == 1 ==> a.first.Failure? && IsUnauthorized(a.first.message)
  {
    var o := WithRefresh(stored, a);
    if Usable(stored.access) && Usable(stored.refresh) && a.first.Failure? && IsUnauthorized(a.first.message) {
      var api := Api(stored.access.value);
      var ask := Refresh(stored.refresh.value);
      if a.refreshed.Success? {
        var retry := Api(a.refreshed.value.0);
        assert o.calls == [api, ask, retry];
        assert o.calls[1..] == [ask, retry] && o.calls[1..][1..] == [retry] && o.calls[1..][1..][1..] == [];
        assert CountApi(o.calls[1..][1..]) == 1 && CountRefresh(o.calls[1..][1..]) == 0;
      } else {
        assert o.calls == [api, ask];
        assert o.calls[1..] == [ask] && o.calls[1..][1..] == [];
        assert CountApi(o.calls[1..]) == 0 && CountRefresh(o.calls[1..]) == 1;
      }
    } else if |o.calls| == 1 {
      assert o.calls[1..] == [];
    }
  }

  /** A server that rejects the first call with a 401 status always triggers the refresh. */
  lemma ServerRejectionRefreshes<T>(stored: Tokens, e: Endpoint, body: Option<string>, decode: Option<string> -> Result<T>,
                                    refreshed: Result<(string, string)>, retry: Result<T>)
    requires Usable(stored.access) && Usable(stored.refresh)
    ensures |WithRefresh(stored, Answers(Respond(e, Answered(401, body), decode), refreshed, retry)).calls| >= 2
    ensures WithRefresh(stored, Answers(Respond(e, Answered(401, body), decode), refreshed, retry)).calls[1]
            == Refresh(stored.refresh.value)
  {
    UnauthorizedNamesItself(e, body, decode);
  }

  /** `patchHazardWithRefresh` and `deleteHazardWithRefresh` report success without the
      server's payload, and pass any failure on. */
  function Discard<T>(r: Result<T>): (u: Result<()>)
    ensures u.Success? <==> r.Success?
    ensures r.Failure? ==> u == Failure(r.message)
  {
    match r
    case Success(_) => Success(())
    case Failure(m) => Failure(m)
  }

  /** `patchHazardWithRefresh` and `deleteHazardWithRefresh`: the protocol, with the
      server's payload dropped from a success. */
  function DiscardingWithRefresh<T>(stored: Tokens, a: Answers<T>): (o: Outcome<()>)
    ensures o.tokens == WithRefresh(stored, a).tokens && o.calls == WithRefresh(stored, a).calls
    ensures o.result.Success? <==> WithRefresh(stored, a).result.Success?
    ensures o.result.Failure? ==> o.result.message == WithRefresh(stored, a).result.message
  {
    var w := WithRefresh(stored, a);
    Outcome(Discard(w.result), w.tokens, w.calls)
  }

  /** `listHazardsWithRefresh` returns the listing result unchanged. */
  function ListHazardsWithRefresh<T>(stored: Tokens, a: Answers<T>): (o: Outcome<T>)
    ensures o.result.Success? ==> o.result == a.first || o.result == a.retry
    ensures !Usable(stored.access) || !Usable(stored.refresh) ==> o.result == Failure("admin not logged in") && o.tokens == stored
    ensures Usable(stored.access) && Usable(stored.refresh) && (a.first.Success? || !IsUnauthorized(a.first.message))
            ==> o.result == a.first && o.tokens == stored
    ensures Usable(stored.access) && Usable(stored.refresh) && a.first.Failure? && IsUnauthorized(a.first.message)
            ==> if a.refreshed.Failure? then o.result == Failure(a.refreshed.message) && o.tokens == stored
                else o.result == a.retry && o.tokens == Tokens(Some(a.refreshed.value.0), Some(a.refreshed.value.1))
  {
    WithRefresh(stored, a)
  }
}

=== FILE: admin_locations.dfy ===
/** The local side of `AdminLocationsFragment`: the two-line label of a hazard row, how a
    row's label is shown as title and subtitle, the actions offered for a row, and the
    summary above the list (totals and a count per type, sorted by type name). Date-time
    formatting in the device's zone is a function parameter. */
module AdminLocations {
  import opened Wrappers
  import opened Numbers
  import opened Text
  import opened Seqs
  import opened Hazards
  import SeedOverrides
  import CommunityVotes

  // ---------------------------------------------------------------------------------
  // Labels

  /** The type as shown: lower case, spaces for underscores, first letter capitalised. */
  function NiceType(name: string): (r: string)
    ensures |r| == |name|
    ensures |name| > 0 ==> r[0] == UpperChar(if name[0] == '_' then ' ' else LowerChar(name[0]))
    ensures forall i :: 0 < i < |name| ==> r[i] == (if name[i] == '_' then ' ' else LowerChar(name[i]))
  {
    CapitalizeFirst(ReplaceChar(Lower(name), '_', ' '))
  }

  /** The direction as shown, whatever the ASCII letter case of the stored value. */
  function NiceDirection(directionality: string): (r: string)
    ensures r in {"One-way", "Two-way", "Opposite", "Unknown"}
    ensures r == "Unknown" <==> Upper(directionality) !in {"ONE_WAY", "BIDIRECTIONAL", "OPPOSITE"}
  {
    var d := Upper(directionality);
    if d == "ONE_WAY" then "One-way"
    else if d == "BIDIRECTIONAL" then "Two-way"
    else if d == "OPPOSITE" then "Opposite"
    else "Unknown"
  }

  /** An optional angle: whole degrees and a degree sign, or a dash when absent. */
  function AngleText(a: Option<real>): (r: string)
    ensures a.None? ==> r == "—"
    ensures a.Some? ==> r == IntStr(ToInt(a.value)) + "°"
  {
    if a.None? then "—" else IntStr(ToInt(a.value)) + "°"
  }

  /** The first line: type, status, votes and direction. */
  function Top(name: string, active: bool, votes: int, directionality: string): string {
    NiceType(name) + " • " + (if active then "Active" else "Inactive") + " • votes: " + IntStr(votes)
      + " • " + NiceDirection(directionality)
  }

  /** The second line: creation date (the epoch when unreadable) and the two bearings. */
  function Bottom(created: string, heading: Option<real>, userBearing: Option<real>, formatDate: Instant -> string): string {
    formatDate(ParseInstant(created).GetOr(EPOCH)) + " • User Bearing: " + AngleText(userBearing)
      + " • Heading: " + AngleText(heading)
  }

  /** `buildLabel`: the two lines joined by a line break. A row shows the first line as its
      title and the second as its subtitle, provided the type name and the formatted date
      hold no line break. */
  function BuildLabel(name: string, active: bool, votes: int, created: string, directionality: string,
                      heading: Option<real>, userBearing: Option<real>, formatDate: Instant -> string): (r: string)
    ensures '\n' !in name && '\n' !in formatDate(ParseInstant(created).GetOr(EPOCH)) ==>
      TitleAndSubtitle(r) == (Top(name, active, votes, directionality), Bottom(created, heading, userBearing, formatDate))
  {
    LabelSplitsIntoLines(name, active, votes, created, directionality, heading, userBearing, formatDate);
    Top(name, active, votes, directionality) + "\n" + Bottom(created, heading, userBearing, formatDate)
  }

  /** The title and subtitle a row shows: the first two pieces of the label split at line
      breaks (the whole label, and "", when they are missing). */
  function TitleAndSubtitle(text: string): (r: (string, string))
  {
    var parts := Split(text, '\n');
    (GetOrNull(parts, 0).GetOr(text), GetOrNull(parts, 1).GetOr(""))
  }

  lemma NiceTypeKeepsOut(name: string, c: char)
    requires c !in name && UpperChar(c) == c && LowerChar(c) == c && c != ' '
    ensures c !in NiceType(name)
  {
    var l := Lower(name);
    var rp := ReplaceChar(l, '_', ' ');
    assert c !in l by {
      forall i | 0 <= i < |l| ensures l[i] != c {
        assert l[i] == LowerChar(name[i]);
        assert name[i] != c;
      }
    }
    assert c !in rp;
  }

  lemma TopHasNoBreak(name: string, active: bool, votes: int, directionality: string)
    requires '\n' !in name
    ensures '\n' !in Top(name, active, votes, directionality)
  {
    NiceTypeKeepsOut(name, '\n');
    NumeralExcludes(IntStr(votes), '\n');
  }

  lemma AngleHasNoBreak(a: Option<real>)
    ensures '\n' !in AngleText(a)
  {
    if a.Some? { NumeralExcludes(IntStr(ToInt(a.value)), '\n'); }
  }

  lemma BottomHasNoBreak(created: string, heading: Option<real>, userBearing: Option<real>, formatDate: Instant -> string)
    requires '\n' !in formatDate(ParseInstant(created).GetOr(EPOCH))
    ensures '\n' !in Bottom(created, heading, userBearing, formatDate)
  {
    AngleHasNoBreak(heading);
    AngleHasNoBreak(userBearing);
  }

  /** The label's two lines split back apart, so the row's title is the first line and its
      subtitle the second, provided the type name and the formatted date hold no line break. */
  lemma LabelSplitsIntoLines(name: string, active: bool, votes: int, created: string, directionality: string,
                             heading: Option<real>, userBearing: Option<real>, formatDate: Instant -> string)
    ensures var top := Top(name, active, votes, directionality);
      var bottom := Bottom(created, heading, userBearing, formatDate);
      '\n' !in name && '\n' !in formatDate(ParseInstant(created).GetOr(EPOCH)) ==>
        TitleAndSubtitle(top + "\n" + bottom) == (top, bottom)
  {
    var top := Top(name, active, votes, directionality);
    var bottom := Bottom(created, heading, userBearing, formatDate);
    if '\n' !in name && '\n' !in formatDate(ParseInstant(created).GetOr(EPOCH)) {
      TopHasNoBreak(name, active, votes, directionality);
      BottomHasNoBreak(created, heading, userBearing, formatDate);
      SplitJoin([top, bottom], '\n');
      assert Join([top, bottom], '\n') == top + "\n" + bottom;
    }
  }

  // ---------------------------------------------------------------------------------
  // Rows and actions

  /** A row of the local list. Seeds are named by their key; user hazards also carry the
      store's id. */
  datatype Row = Row(id: string, text: string, active: bool, votes: Int32, directionality: string,
                     isUser: bool, userId: Option<string>, seedKey: Option<string>, voteKey: string)

  function HazardLabel(h: Hazard, votes: Int32, formatDate: Instant -> string): string {
    BuildLabel(TypeName(h.hazardType), h.active, votes, InstantText(h.createdAt), h.directionality,
               Some(Value(h.reportedHeadingDeg)),
               if h.userBearing.Some? then Some(Value(h.userBearing.value)) else None, formatDate)
  }

  /** A label built from a stored hazard shows its creation date: the text the hazard
      prints reads back as the same instant. */
  lemma LabelShowsCreation(h: Hazard, heading: Option<real>, userBearing: Option<real>, formatDate: Instant -> string)
    ensures Bottom(InstantText(h.createdAt), heading, userBearing, formatDate)
            == formatDate(h.createdAt) + " • User Bearing: " + AngleText(userBearing) + " • Heading: " + AngleText(heading)
  {
    ParseInstantText(h.createdAt);
  }

  function SeedRows(seeds: seq<Hazard>, disabled: set<string>, votes: CommunityVotes.Votes, keyOf: Hazard -> string, labelOf: (Hazard, Int32) -> string): (rows: seq<Row>)
    ensures |rows| <= |seeds|
    ensures forall i :: 0 <= i < |rows| ==> !rows[i].isUser && rows[i].voteKey !in disabled
    ensures forall i :: 0 <= i < |rows| ==> exists j :: 0 <= j < |seeds| && rows[i].voteKey == keyOf(seeds[j])
  {
    if |seeds| == 0 then []
    else
      var h := seeds[0];
      var key := keyOf(h);
      var rest := SeedRows(seeds[1..], disabled, votes, keyOf, labelOf);
      assert forall i :: 0 <= i < |rest| ==> exists j :: 0 <= j < |seeds| && rest[i].voteKey == keyOf(seeds[j]) by {
        forall i | 0 <= i < |rest|
          ensures exists j :: 0 <= j < |seeds| && rest[i].voteKey == keyOf(seeds[j])
        {
          var j :| 0 <= j < |seeds[1..]| && rest[i].voteKey == keyOf(seeds[1..][j]);
          assert seeds[1..][j] == seeds[j + 1];
        }
      }
      if SeedOverrides.IsDisabled(disabled, key) then rest
      else
        var n := CommunityVotes.GetVotes(votes, key);
        [Row(key, labelOf(h, n), h.active, n, h.directionality, false, None, Some(key), key)] + rest
  }

  function UserRows(users: seq<UserHazard>, votes: CommunityVotes.Votes, keyOf: Hazard -> string, labelOf: (Hazard, Int32) -> string): (rows: seq<Row>)
    ensures |rows| == |users|
    ensures forall i :: 0 <= i < |rows| ==> rows[i].isUser && rows[i].userId == Some(users[i].id)
                                             && rows[i].active == users[i].hazard.active
  {
    seq(|users|, i requires 0 <= i < |users| =>
      var h := users[i].hazard;
      var key := keyOf(h);
      var n := CommunityVotes.GetVotes(votes, key);
      Row(key, labelOf(h, n), h.active, n, h.directionality, true, Some(users[i].id), None, key))
  }

  /** The local list: the seeds that are not switched off, then the user's own hazards. */
  function LocalRows(seeds: seq<Hazard>, users: seq<UserHazard>, disabled: set<string>,
                     votes: CommunityVotes.Votes, keyOf: Hazard -> string, labelOf: (Hazard, Int32) -> string): (rows: seq<Row>)
    ensures |rows| <= |seeds| + |users|
    ensures forall i :: 0 <= i < |rows| && !rows[i].isUser ==> rows[i].voteKey !in disabled
  {
    SeedRows(seeds, disabled, votes, keyOf, labelOf) + UserRows(users, votes, keyOf, labelOf)
  }

  /** The local list as the screen builds it: seeds named by their override key, every row
      labelled from its hazard and its community vote count. One row per shown seed and one
      per user hazard. */
  function ShownRows(seeds: seq<Hazard>, users: seq<UserHazard>, disabled: set<string>,
                     votes: CommunityVotes.Votes, formatDate: Instant -> string): (rows: seq<Row>)
    ensures |rows| == |VisibleSeeds(seeds, disabled, SeedOverrides.KeyOf)| + |users|
    ensures forall i :: 0 <= i < |rows| && !rows[i].isUser ==> rows[i].voteKey !in disabled
  {
    var labelOf := (h: Hazard, n: Int32) => HazardLabel(h, n, formatDate);
    SeedRowsCount(seeds, disabled, votes, SeedOverrides.KeyOf, labelOf);
    LocalRows(seeds, users, disabled, votes, SeedOverrides.KeyOf, labelOf)
  }

  /** Every seed that is not switched off has its row: the `i`-th, named by the seed's key. */
  lemma {:induction false} VisibleSeedListed(seeds: seq<Hazard>, disabled: set<string>, votes: CommunityVotes.Votes,
                                             keyOf: Hazard -> string, labelOf: (Hazard, Int32) -> string, j: nat)
    returns (i: nat)
    requires j < |seeds| && keyOf(seeds[j]) !in disabled
    ensures i < |SeedRows(seeds, disabled, votes, keyOf, labelOf)|
    ensures SeedRows(seeds, disabled, votes, keyOf, labelOf)[i].voteKey == keyOf(seeds[j])
    decreases j
  {
    var rows := SeedRows(seeds, disabled, votes, keyOf, labelOf);
    var rest := SeedRows(seeds[1..], disabled, votes, keyOf, labelOf);
    if j == 0 {
      i := 0;
    } else {
      assert seeds[1..][j - 1] == seeds[j];
      var k := VisibleSeedListed(seeds[1..], disabled, votes, keyOf, labelOf, j - 1);
      if keyOf(seeds[0]) in disabled {
        i := k;
      } else {
        i := k + 1;
        assert rows[i] == rest[k];
      }
    }
  }

  /** The actions offered for a local row: the vote action always, first; an admin may also
      toggle, edit and, for a user hazard, delete. */
  function Actions(isAdmin: bool, isUser: bool, voted: bool): (r: seq<string>)
    ensures |r| >= 1 && r[0] == (if voted then "Remove Vote" else "Add Vote")
    ensures "Toggle Active" in r <==> isAdmin
    ensures "Edit" in r <==> isAdmin
    ensures "Delete" in r <==> isAdmin && isUser
    ensures |r| == (if !isAdmin then 1 else if isUser then 4 else 3)
  {
    var vote := if voted then "Remove Vote" else "Add Vote";
    if isAdmin && isUser then [vote, "Toggle Active", "Delete", "Edit"]
    else if isAdmin then [vote, "Toggle Active", "Edit"]
    else [vote]
  }

  // ---------------------------------------------------------------------------------
  // Summary

  /** `String.compareTo`: character by character, a proper prefix first. */
  predicate StrLess(a: string, b: string)
    decreases |a|
  {
    if |a| == 0 then |b| > 0
    else if |b| == 0 then false
    else a[0] < b[0] || (a[0] == b[0] && StrLess(a[1..], b[1..]))
  }

  lemma {:induction false} StrLessIrreflexive(a: string)
    ensures !StrLess(a, a)
    decreases |a|
  {
    if |a| > 0 { StrLessIrreflexive(a[1..]); }
  }

  lemma {:induction false} StrLessTrans(a: string, b: string, c: string)
    requires StrLess(a, b) && StrLess(b, c)
    ensures StrLess(a, c)
    decreases |a|
  {
    if |a| > 0 && a[0] == b[0] && b[0] == c[0] {
      StrLessTrans(a[1..], b[1..], c[1..]);
    }
  }

  lemma {:induction false} StrLessTotal(a: string, b: string)
    requires a != b
    ensures StrLess(a, b) || StrLess(b, a)
    decreases |a|
  {
    if |a| > 0 && |b| > 0 && a[0] == b[0] {
      assert a == [a[0]] + a[1..] && b == [b[0]] + b[1..];
      StrLessTotal(a[1..], b[1..]);
    }
  }

  /** A count per name, as `groupingBy { it }.eachCount()` sorted by name. */
  type Tally = seq<(string, nat)>

  predicate SortedNames(t: Tally) {
    forall i :: 0 < i < |t| ==> StrLess(t[i - 1].0, t[i].0)
  }

  /** The count recorded for a name, 0 when absent. */
  function CountIn(t: Tally, name: string): nat {
    if |t| == 0 then 0 else if t[0].0 == name then t[0].1 else CountIn(t[1..], name)
  }

  function TallyTotal(t: Tally): nat {
    if |t| == 0 then 0 else t[0].1 + TallyTotal(t[1..])
  }

  /** In a sorted tally, a name below the first entry's has no entry. */
  lemma {:induction false} BelowFirstAbsent(t: Tally, name: string)
    requires SortedNames(t) && |t| > 0 && StrLess(name, t[0].0)
    ensures CountIn(t, name) == 0
    decreases |t|
  {
    StrLessIrreflexive(name);
    assert t[0].0 != name;
    if |t| > 1 {
      StrLessTrans(name, t[0].0, t[1].0);
      BelowFirstAbsent(t[1..], name);
    }
  }

  /** Counts one more occurrence of `name`, keeping the names sorted. */
  function Bump(t: Tally, name: string): (r: Tally)
    requires SortedNames(t)
    ensures SortedNames(r)
    ensures |r| > 0 && (r[0].0 == name || (|t| > 0 && r[0].0 == t[0].0))
    ensures forall m :: CountIn(r, m) == CountIn(t, m) + (if m == name then 1 else 0)
    ensures TallyTotal(r) == TallyTotal(t) + 1
    decreases |t|
  {
    if |t| == 0 then [(name, 1)]
    else if t[0].0 == name then [(name, t[0].1 + 1)] + t[1..]
    else if StrLess(name, t[0].0) then
      BelowFirstAbsent(t, name);
      [(name, 1)] + t
    else
      StrLessTotal(name, t[0].0);
      var rest := Bump(t[1..], name);
      assert forall m :: CountIn([t[0]] + rest, m) == (if t[0].0 == m then t[0].1 else CountIn(rest, m));
      [t[0]] + rest
  }

  /** The per-name counts of a list of names. */
  function TallyOf(names: seq<string>): (t: Tally)
    ensures SortedNames(t)
    ensures forall m :: CountIn(t, m) == multiset(names)[m]
    ensures TallyTotal(t) == |names|
  {
    if |names| == 0 then []
    else
      assert names == [names[0]] + names[1..];
      Bump(TallyOf(names[1..]), names[0])
  }

  /** What the summary shows: "No hazards" for an empty list, else the totals and the
      per-type lines. */
  datatype Summary = NoHazards | Totals(total: nat, active: nat, byType: Tally)

  /** `count { it.active }`: all rows are counted exactly when all are active, and none
      exactly when none is. */
  function CountActive(rows: seq<Row>): (n: nat)
    ensures n <= |rows|
    ensures n == |rows| <==> forall i :: 0 <= i < |rows| ==> rows[i].active
    ensures n == 0 <==> forall i :: 0 <= i < |rows| ==> !rows[i].active
    decreases |rows|
  {
    if |rows| == 0 then 0 else (if rows[0].active then 1 else 0) + CountActive(rows[1..])
  }

  function TypeNames(hs: seq<Hazard>): (r: seq<string>)
    ensures |r| == |hs|
    ensures forall i :: 0 <= i < |hs| ==> r[i] == TypeName(hs[i].hazardType)
  {
    seq(|hs|, i requires 0 <= i < |hs| => TypeName(hs[i].hazardType))
  }

  function UserTypeNames(us: seq<UserHazard>): (r: seq<string>)
    ensures |r| == |us|
  {
    seq(|us|, i requires 0 <= i < |us| => TypeName(us[i].hazard.hazardType))
  }

  /** The summary as the fragment computes it: totals over the listed rows, but the per-type
      counts over every seed, switched off or not, and every user hazard. */
  function SummaryAsWritten(seeds: seq<Hazard>, users: seq<UserHazard>, rows: seq<Row>): (s: Summary)
    ensures |rows| == 0 <==> s.NoHazards?
    ensures s.Totals? ==> s.total == |rows| && s.active <= s.total
    ensures s.Totals? ==> SortedNames(s.byType) && TallyTotal(s.byType) == |seeds| + |users|
  {
    if |rows| == 0 then NoHazards
    else Totals(|rows|, CountActive(rows), TallyOf(TypeNames(seeds) + UserTypeNames(users)))
  }

  /** The seeds the list shows. */
  function VisibleSeeds(seeds: seq<Hazard>, disabled: set<string>, keyOf: Hazard -> string): (r: seq<Hazard>)
    ensures forall h :: h in r <==> h in seeds && keyOf(h) !in disabled
  {
    Filter(seeds, h => keyOf(h) !in disabled)
  }

  lemma {:induction false} SeedRowsCount(seeds: seq<Hazard>, disabled: set<string>, votes: CommunityVotes.Votes, keyOf: Hazard -> string, labelOf: (Hazard, Int32) -> string)
    ensures |SeedRows(seeds, disabled, votes, keyOf, labelOf)| == |VisibleSeeds(seeds, disabled, keyOf)|
    decreases |seeds|
  {
    if |seeds| > 0 {
      SeedRowsCount(seeds[1..], disabled, votes, keyOf, labelOf);
      assert seeds == [seeds[0]] + seeds[1..];
    }
  }

  /** The summary with the per-type counts taken over the hazards the list shows. */
  function Summarize(seeds: seq<Hazard>, users: seq<UserHazard>, disabled: set<string>,
                     votes: CommunityVotes.Votes, keyOf: Hazard -> string, labelOf: (Hazard, Int32) -> string): (s: Summary)
    ensures var rows := LocalRows(seeds, users, disabled, votes, keyOf, labelOf);
            (|rows| == 0 <==> s.NoHazards?)
            && (s.Totals? ==> s.total == |rows| && s.active <= s.total && TallyTotal(s.byType) == s.total
                              && SortedNames(s.byType))
  {
    var rows := LocalRows(seeds, users, disabled, votes, keyOf, labelOf);
    SeedRowsCount(seeds, disabled, votes, keyOf, labelOf);
    if |rows| == 0 then NoHazards
    else Totals(|rows|, CountActive(rows), TallyOf(TypeNames(VisibleSeeds(seeds, disabled, keyOf)) + UserTypeNames(users)))
  }

  /** One shown seed and one switched-off seed: the summary says one hazard in total, while
      its per-type lines add up to two. */
  lemma AsWrittenCountsHiddenSeeds(a: Hazard, b: Hazard, votes: CommunityVotes.Votes, keyOf: Hazard -> string, labelOf: (Hazard, Int32) -> string)
    requires keyOf(a) != keyOf(b)
    ensures var disabled := {keyOf(b)};
            var rows := LocalRows([a, b], [], disabled, votes, keyOf, labelOf);
            var s := SummaryAsWritten([a, b], [], rows);
            s.Totals? && s.total == 1 && TallyTotal(s.byType) == 2
  {
    var disabled := {keyOf(b)};
    var rows := LocalRows([a, b], [], disabled, votes, keyOf, labelOf);
    SeedRowsCount([a, b], disabled, votes, keyOf, labelOf);
    assert VisibleSeeds([a, b], disabled, keyOf) == [a] by {
      var v := VisibleSeeds([a, b], disabled, keyOf);
      assert a in v && b !in v;
      assert [a, b][1..] == [b];
      assert Filter([b], (h: Hazard) => keyOf(h) !in disabled) == [];
    }
    assert |rows| == 1;
  }
}

=== FILE: alert_clusters.dfy ===
/** `AlertManager`'s clustering of the hazards ahead: the hazards, sorted by their distance
    along the heading, are cut wherever two neighbours lie more than a gap apart, and each
    cluster is announced under one label. */
module AlertClusters {
  import opened Text
  import opened Hazards

  /** `Ahead`: a hazard with its straight-line distance and its distance along the heading. */
  datatype Ahead = Ahead(h: Hazard, dist: real, along: real)

  function Last<T>(s: seq<T>): T
    requires |s| > 0
  {
    s[|s| - 1]
  }

  function Init<T>(s: seq<T>): seq<T>
    requires |s| > 0
  {
    s[..|s| - 1]
  }

  /** The gap that separates clusters: 30% of the lead distance, kept within 30 m and 150 m. */
  function Gap(lead: real): (g: real)
    ensures 30.0 <= g <= 150.0
    ensures lead <= 100.0 ==> g == 30.0
    ensures lead >= 500.0 ==> g == 150.0
    ensures 100.0 <= lead <= 500.0 ==> g == 0.3 * lead
  {
    var m := if 0.3 * lead < 150.0 then 0.3 * lead else 150.0;
    if 30.0 > m then 30.0 else m
  }

  // ---------------------------------------------------------------------------------
  // What a clustering is

  /** The clusters laid end to end. */
  function Flatten(cs: seq<seq<Ahead>>): seq<Ahead> {
    if |cs| == 0 then [] else Flatten(Init(cs)) + Last(cs)
  }

  predicate NonEmpty(cs: seq<seq<Ahead>>) {
    forall k :: 0 <= k < |cs| ==> |cs[k]| > 0
  }

  /** Neighbours inside a cluster lie at most `gap` apart along the heading. */
  predicate Close(c: seq<Ahead>, gap: real) {
    forall j :: 0 < j < |c| ==> c[j].along - c[j - 1].along <= gap
  }

  /** Each cluster starts more than `gap` beyond the end of the one before it. */
  predicate Apart(cs: seq<seq<Ahead>>, gap: real)
    requires NonEmpty(cs)
  {
    forall k :: 0 < k < |cs| ==> cs[k][0].along - Last(cs[k - 1]).along > gap
  }

  /** `cs` cuts `xs` into non-empty runs of close neighbours, cut exactly at the wide gaps. */
  predicate IsClustering(xs: seq<Ahead>, cs: seq<seq<Ahead>>, gap: real) {
    && NonEmpty(cs)
    && Flatten(cs) == xs
    && (forall k :: 0 <= k < |cs| ==> Close(cs[k], gap))
    && Apart(cs, gap)
  }

  /** The clustering, built from the back: the last hazard joins the last cluster when it is
      close to its predecessor and opens a new one otherwise. */
  function Clusters(xs: seq<Ahead>, gap: real): (r: seq<seq<Ahead>>)
    ensures |r| == 0 <==> |xs| == 0
    ensures |xs| > 0 ==> |Last(r)| > 0 && Last(Last(r)) == Last(xs)
    decreases |xs|
  {
    if |xs| == 0 then []
    else if |xs| == 1 then [xs]
    else
      var cs := Clusters(Init(xs), gap);
      if Last(xs).along - Last(Init(xs)).along <= gap then Init(cs) + [Last(cs) + [Last(xs)]]
      else cs + [[Last(xs)]]
  }

  lemma FlattenSnoc(cs: seq<seq<Ahead>>, c: seq<Ahead>)
    ensures Flatten(cs + [c]) == Flatten(cs) + c
  {
    assert Init(cs + [c]) == cs;
  }

  /** A non-empty clustering ends with the last hazard, and the clusters before the last one
      hold everything before the last cluster. */
  lemma FlattenEnds(xs: seq<Ahead>, cs: seq<seq<Ahead>>)
    requires NonEmpty(cs) && Flatten(cs) == xs && |cs| > 0
    ensures |xs| >= |Last(cs)| > 0
    ensures Flatten(Init(cs)) == xs[..|xs| - |Last(cs)|]
    ensures Last(cs) == xs[|xs| - |Last(cs)|..]
  {
    assert xs == Flatten(Init(cs)) + Last(cs);
  }

  /** A sequence flattens to nothing only when it has no non-empty cluster. */
  lemma FlattenEmpty(cs: seq<seq<Ahead>>)
    requires NonEmpty(cs) && |cs| > 0
    ensures |Flatten(cs)| > 0
  {
    assert Flatten(cs) == Flatten(Init(cs)) + Last(cs);
  }

  /** Every member of every cluster is in the flattened sequence. */
  lemma {:induction false} FlattenMember(cs: seq<seq<Ahead>>, k: nat, j: nat)
    requires k < |cs| && j < |cs[k]|
    ensures cs[k][j] in Flatten(cs)
    decreases |cs|
  {
    assert Flatten(cs) == Flatten(Init(cs)) + Last(cs);
    if k == |cs| - 1 {
      assert Last(cs)[j] == cs[k][j];
    } else {
      assert Init(cs)[k] == cs[k];
      FlattenMember(Init(cs), k, j);
    }
  }

  /** A hazard close to the end of a clustering joins its last cluster. */
  lemma JoinLast(p: seq<Ahead>, cs: seq<seq<Ahead>>, x: Ahead, gap: real)
    requires IsClustering(p, cs, gap) && |p| > 0
    requires x.along - Last(p).along <= gap
    ensures |cs| > 0 && IsClustering(p + [x], Init(cs) + [Last(cs) + [x]], gap)
  {
    var lc := Last(cs);
    FlattenEnds(p, cs);
    var c := lc + [x];
    var r := Init(cs) + [c];
    FlattenSnoc(Init(cs), c);
    assert Flatten(r) == p + [x] by {
      assert Flatten(cs) == Flatten(Init(cs)) + lc;
    }
    assert Close(c, gap) by {
      assert Close(lc, gap);
      assert c[|c| - 2] == Last(lc) == Last(p);
    }
    assert forall k :: 0 <= k < |r| - 1 ==> r[k] == cs[k];
    assert Apart(r, gap) by {
      assert Apart(cs, gap);
      forall k | 0 < k < |r|
        ensures r[k][0].along - Last(r[k - 1]).along > gap
      {
        assert r[k][0] == cs[k][0];
        assert r[k - 1] == cs[k - 1];
      }
    }
  }

  /** A hazard far from the end of a clustering opens a cluster of its own. */
  lemma OpenCluster(p: seq<Ahead>, cs: seq<seq<Ahead>>, x: Ahead, gap: real)
    requires IsClustering(p, cs, gap) && |p| > 0
    requires x.along - Last(p).along > gap
    ensures IsClustering(p + [x], cs + [[x]], gap)
  {
    FlattenEnds(p, cs);
    var r := cs + [[x]];
    FlattenSnoc(cs, [x]);
    assert forall k :: 0 <= k < |cs| ==> r[k] == cs[k];
    assert Apart(r, gap) by {
      assert Apart(cs, gap);
      assert Last(r[|r| - 2]) == Last(p);
    }
  }

  /** The clustering built from the back is a clustering. */
  lemma {:induction false} ClustersValid(xs: seq<Ahead>, gap: real)
    ensures IsClustering(xs, Clusters(xs, gap), gap)
    decreases |xs|
  {
    if |xs| == 1 {
      FlattenSnoc([], xs);
    } else if |xs| > 1 {
      var p, x := Init(xs), Last(xs);
      assert p + [x] == xs;
      ClustersValid(p, gap);
      var cs := Clusters(p, gap);
      if x.along - Last(p).along <= gap {
        JoinLast(p, cs, x, gap);
      } else {
        OpenCluster(p, cs, x, gap);
      }
    }
  }

  /** Removing a last cluster of one hazard leaves a clustering of the rest, whose end lies
      more than the gap before that hazard. */
  lemma DropSingleton(xs: seq<Ahead>, cs: seq<seq<Ahead>>, gap: real)
    requires IsClustering(xs, cs, gap) && |cs| > 0 && |Last(cs)| == 1
    ensures |xs| > 0 && Last(cs) == [Last(xs)]
    ensures IsClustering(Init(xs), Init(cs), gap)
    ensures |Init(xs)| > 0 ==> Last(xs).along - Last(Init(xs)).along > gap
  {
    FlattenEnds(xs, cs);
    var cs' := Init(cs);
    assert Flatten(cs') == Init(xs);
    assert forall k :: 0 <= k < |cs'| ==> cs'[k] == cs[k];
    assert Apart(cs', gap) by {
      assert Apart(cs, gap);
    }
    if |Init(xs)| > 0 {
      FlattenEnds(Init(xs), cs');
      assert Last(Last(cs')) == Last(Init(xs));
      assert cs[|cs| - 1][0].along - Last(cs[|cs| - 2]).along > gap;
    }
  }

  /** Removing the last hazard from a longer last cluster leaves a clustering of the rest,
      whose end lies within the gap before that hazard. */
  lemma DropFromLast(xs: seq<Ahead>, cs: seq<seq<Ahead>>, gap: real)
    requires IsClustering(xs, cs, gap) && |cs| > 0 && |Last(cs)| > 1
    ensures |xs| > 1 && Last(Last(cs)) == Last(xs)
    ensures IsClustering(Init(xs), Init(cs) + [Init(Last(cs))], gap)
    ensures Last(xs).along - Last(Init(xs)).along <= gap
  {
    FlattenEnds(xs, cs);
    var lc := Last(cs);
    var c' := Init(lc);
    var cs' := Init(cs) + [c'];
    assert forall k :: 0 <= k < |cs'| - 1 ==> cs'[k] == cs[k];
    FlattenSnoc(Init(cs), c');
    assert Flatten(cs) == Flatten(Init(cs)) + lc;
    assert Flatten(cs') == Init(xs);
    assert Close(c', gap) by {
      assert Close(lc, gap);
    }
    assert Apart(cs', gap) by {
      assert Apart(cs, gap);
      forall k | 0 < k < |cs'|
        ensures cs'[k][0].along - Last(cs'[k - 1]).along > gap
      {
        assert cs'[k][0] == cs[k][0];
        assert cs'[k - 1] == cs[k - 1];
      }
    }
    assert Last(Init(xs)) == lc[|lc| - 2];
    assert Close(lc, gap);
  }

  /** Any clustering of `xs` with the same gap is the one built from the back: the
      partition is determined by the gaps alone. */
  lemma {:induction false} ClusteringUnique(xs: seq<Ahead>, cs: seq<seq<Ahead>>, gap: real)
    requires IsClustering(xs, cs, gap)
    ensures cs == Clusters(xs, gap)
    decreases |xs|
  {
    if |xs| == 0 {
      if |cs| > 0 {
        FlattenEmpty(cs);
        assert false;
      }
    } else {
      var p, x := Init(xs), Last(xs);
      if |Last(cs)| == 1 {
        DropSingleton(xs, cs, gap);
        ClusteringUnique(p, Init(cs), gap);
        if |p| == 0 {
          assert cs == [xs];
        } else {
          assert cs == Init(cs) + [[x]];
        }
      } else {
        DropFromLast(xs, cs, gap);
        var cs' := Init(cs) + [Init(Last(cs))];
        ClusteringUnique(p, cs', gap);
        assert Init(cs') == Init(cs) && Last(cs') == Init(Last(cs));
        assert Last(cs) == Init(Last(cs)) + [x];
        assert cs == Init(cs') + [Last(cs') + [x]];
      }
    }
  }

  /** `buildClusters`: walks the sorted hazards once, extending the current cluster while the
      step from the previous hazard is at most the gap and starting a new one otherwise. */
  method BuildClusters(ahead: seq<Ahead>, lead: real) returns (clusters: seq<seq<Ahead>>)
    ensures |ahead| == 0 ==> clusters == []
    ensures IsClustering(ahead, clusters, Gap(lead))
  {
    if |ahead| == 0 {
      return [];
    }
    var gap := Gap(lead);
    clusters := [];
    var current := [ahead[0]];
    assert ahead[..1] == [ahead[0]];
    for i := 1 to |ahead|
      invariant clusters + [current] == Clusters(ahead[..i], gap)
    {
      var prev, cur := ahead[i - 1], ahead[i];
      assert Init(ahead[..i + 1]) == ahead[..i];
      assert Last(ahead[..i + 1]) == cur && Last(ahead[..i]) == prev;
      if cur.along - prev.along <= gap {
        current := current + [cur];
      } else {
        clusters := clusters + [current];
        current := [cur];
      }
    }
    clusters := clusters + [current];
    assert ahead[..|ahead|] == ahead;
    ClustersValid(ahead, gap);
  }

  // ---------------------------------------------------------------------------------
  // Labels

  /** A type's name as the alerts speak it: underscores spaced out, lower case, first
      letter capitalised. */
  function Friendly(t: HazardType): string {
    CapitalizeFirst(Lower(ReplaceChar(TypeName(t), '_', ' ')))
  }

  /** Some member of the cluster has type `t`. */
  predicate HasType(c: seq<Ahead>, t: HazardType) {
    exists i :: 0 <= i < |c| && c[i].h.hazardType == t
  }

  /** `clusterLabel`: the label and whether the type is worth announcing. */
  function ClusterLabel(c: seq<Ahead>): (r: (string, bool))
    requires |c| > 0
    ensures HasType(c, SPEED_BUMP) ==> r.0 == "Speed bump"
    ensures !HasType(c, SPEED_BUMP) && HasType(c, RUMBLE_STRIP) ==> r.0 == "Rumble strip"
    ensures !HasType(c, SPEED_BUMP) && !HasType(c, RUMBLE_STRIP) ==> r.0 == Friendly(c[0].h.hazardType)
    ensures |c| == 1 ==> r.1
    ensures |c| > 1 ==> (r.1 <==> HasType(c, SPEED_BUMP) || HasType(c, RUMBLE_STRIP))
  {
    var hasBump := exists i :: 0 <= i < |c| && c[i].h.hazardType == SPEED_BUMP;
    var hasRumble := exists i :: 0 <= i < |c| && c[i].h.hazardType == RUMBLE_STRIP;
    var top := if hasBump then "Speed bump" else if hasRumble then "Rumble strip" else Friendly(c[0].h.hazardType);
    var showType := |c| > 1 && (hasBump || hasRumble);
    if |c| == 1 then (top, true) else (top, showType)
  }

  lemma SpacedOut(s: string, t: string)
    requires |s| == |t| && forall i :: 0 <= i < |s| ==> t[i] == (if s[i] == '_' then ' ' else s[i])
    ensures ReplaceChar(s, '_', ' ') == t
  {
  }

  lemma LowerCased(s: string, t: string)
    requires |s| == |t| && forall i :: 0 <= i < |s| ==> t[i] == LowerChar(s[i])
    ensures Lower(s) == t
  {
  }

  lemma Capitalized(s: string, t: string)
    requires |s| > 0 && |t| == |s| && t[0] == UpperChar(s[0]) && t[1..] == s[1..]
    ensures CapitalizeFirst(s) == t
  {
  }

  lemma BumpCapitalized()
    ensures CapitalizeFirst("speed bump") == "Speed bump"
  {
    Capitalized("speed bump", "Speed bump");
  }

  lemma RumbleCapitalized()
    ensures CapitalizeFirst("rumble strip") == "Rumble strip"
  {
    Capitalized("rumble strip", "Rumble strip");
  }

  lemma BumpSpacedOut()
    ensures ReplaceChar("SPEED_BUMP", '_', ' ') == "SPEED BUMP"
  {
    SpacedOut("SPEED_BUMP", "SPEED BUMP");
  }

  lemma BumpLowerCased()
    ensures Lower("SPEED BUMP") == "speed bump"
  {
    LowerCased("SPEED BUMP", "speed bump");
  }

  lemma RumbleSpacedOut()
    ensures ReplaceChar("RUMBLE_STRIP", '_', ' ') == "RUMBLE STRIP"
  {
    SpacedOut("RUMBLE_STRIP", "RUMBLE STRIP");
  }

  lemma RumbleLowerCased()
    ensures Lower("RUMBLE STRIP") == "rumble strip"
  {
    LowerCased("RUMBLE STRIP", "rumble strip");
  }

  /** The fixed label of a cluster with a bump is the spoken name of the type. */
  lemma FriendlyBump()
    ensures Friendly(SPEED_BUMP) == "Speed bump"
  {
    BumpSpacedOut();
    BumpLowerCased();
    BumpCapitalized();
  }

  /** The fixed label of a cluster with a rumble strip is the spoken name of the type. */
  lemma FriendlyRumble()
    ensures Friendly(RUMBLE_STRIP) == "Rumble strip"
  {
    RumbleSpacedOut();
    RumbleLowerCased();
    RumbleCapitalized();
  }

  /** The label is always the spoken name of the type of some member of the cluster. */
  lemma LabelNamesMember(c: seq<Ahead>) returns (i: nat)
    requires |c| > 0
    ensures i < |c| && ClusterLabel(c).0 == Friendly(c[i].h.hazardType)
  {
    FriendlyBump();
    FriendlyRumble();
    if HasType(c, SPEED_BUMP) {
      i :| 0 <= i < |c| && c[i].h.hazardType == SPEED_BUMP;
    } else if HasType(c, RUMBLE_STRIP) {
      i :| 0 <= i < |c| && c[i].h.hazardType == RUMBLE_STRIP;
    } else {
      i := 0;
    }
  }
}

=== FILE: alert_distances.dfy ===
/** The distances `AlertManager` works with: how far ahead to look at a given speed (the
    lead distance, one curve per speed-curve preference) and how a distance is spoken
    ("<50 m", "120 m", "450 m", "1.3 km"). Speeds and distances are real numbers. */
module AlertDistances {
  import opened Numbers

  /** The three speed curves of the preference; any other stored name reads as `Normal`. */
  datatype Curve = Conservative | Normal | Aggressive

  /** The `when` over `AppPrefs.getSpeedCurve`. */
  function CurveOf(pref: string): (c: Curve)
    ensures c == Conservative <==> pref == "CONSERVATIVE"
    ensures c == Aggressive <==> pref == "AGGRESSIVE"
  {
    if pref == "CONSERVATIVE" then Conservative
    else if pref == "AGGRESSIVE" then Aggressive
    else Normal
  }

  /** The shortest lead distance of a curve, used at or below standstill. */
  function MinLead(c: Curve): real {
    match c
    case Conservative => 100.0
    case Normal => 150.0
    case Aggressive => 200.0
  }

  /** The lead distance past 120 km/h. */
  function MaxLead(c: Curve): real {
    match c
    case Conservative => 700.0
    case Normal => 900.0
    case Aggressive => 1200.0
  }

  /** `leadDistanceMeters`: piecewise linear in the speed (km/h) up to 120 km/h, with
      breakpoints at 0, 50, 100 and 120, then a constant. */
  function LeadDistance(c: Curve, kph: real): (r: real)
    ensures MinLead(c) <= r <= MaxLead(c)
    ensures kph <= 0.0 ==> r == MinLead(c)
    ensures kph > 120.0 ==> r == MaxLead(c)
  {
    match c
    case Conservative =>
      if kph <= 0.0 then 100.0
      else if kph <= 50.0 then 100.0 + (kph / 50.0) * 100.0
      else if kph <= 100.0 then 200.0 + ((kph - 50.0) / 50.0) * 250.0
      else if kph <= 120.0 then 450.0 + ((kph - 100.0) / 20.0) * 150.0
      else 700.0
    case Aggressive =>
      if kph <= 0.0 then 200.0
      else if kph <= 50.0 then 200.0 + (kph / 50.0) * 200.0
      else if kph <= 100.0 then 400.0 + ((kph - 50.0) / 50.0) * 400.0
      else if kph <= 120.0 then 800.0 + ((kph - 100.0) / 20.0) * 300.0
      else 1200.0
    case Normal =>
      if kph <= 0.0 then 150.0
      else if kph <= 50.0 then 150.0 + (kph / 50.0) * 150.0
      else if kph <= 100.0 then 300.0 + ((kph - 50.0) / 50.0) * 300.0
      else if kph <= 120.0 then 600.0 + ((kph - 100.0) / 20.0) * 200.0
      else 900.0
  }

  /** A faster car never looks less far ahead. */
  lemma LeadMonotone(c: Curve, a: real, b: real)
    requires a <= b
    ensures LeadDistance(c, a) <= LeadDistance(c, b)
  {
  }

  /** Past 120 km/h every curve jumps 100 m above its value at 120 km/h. */
  lemma LeadJumpPast120(c: Curve, kph: real)
    requires kph > 120.0
    ensures LeadDistance(c, kph) == LeadDistance(c, 120.0) + 100.0
  {
  }

  /** The curves are ordered: conservative below normal below aggressive. */
  lemma CurvesOrdered(kph: real)
    ensures LeadDistance(Conservative, kph) < LeadDistance(Normal, kph) < LeadDistance(Aggressive, kph)
  {
  }

  // ---------------------------------------------------------------------------------
  // Spoken distances

  /** The multiple of `step` at or below `m`: Kotlin's `(m / step) * step` on a
      non-negative `Int`, for the two steps the source uses. */
  function RoundDown(m: nat, step: nat): (r: nat)
    requires step == 10 || step == 50
    ensures r % step == 0
    ensures r <= m < r + step
  {
    if step == 10 then (m / 10) * 10 else (m / 50) * 50
  }

  /** The tenths of a kilometre that `%.1f` prints for `m / 1000.0`: the nearest tenth,
      halves rounded up. */
  function KmTenths(m: nat): (t: nat)
    ensures t * 100 <= m + 50 < t * 100 + 100
  {
    (m + 50) / 100
  }

  /** The `%.1f km` text of a whole number of tenths. */
  function KmText(t: nat): string {
    NatStr(t / 10) + "." + [DigitChar(t % 10)] + " km"
  }

  /** `nearestNiceDistance`: "<50 m" below 50 m, whole tens below 200 m, whole fifties
      below 1 km, tenths of a kilometre from there on. */
  function NiceDistance(meters: int): (r: string)
    ensures meters < 50 ==> r == "<50 m"
    ensures 50 <= meters < 200 ==> exists v: nat :: v % 10 == 0 && v <= meters < v + 10 && r == NatStr(v) + " m"
    ensures 200 <= meters < 1000 ==> exists v: nat :: v % 50 == 0 && v <= meters < v + 50 && r == NatStr(v) + " m"
    ensures meters >= 1000 ==> exists t: nat :: t * 100 <= meters + 50 < t * 100 + 100 && r == KmText(t)
  {
    if meters < 50 then "<50 m"
    else if meters < 200 then NatStr(RoundDown(meters, 10)) + " m"
    else if meters < 1000 then NatStr(RoundDown(meters, 50)) + " m"
    else KmText(KmTenths(meters))
  }

  /** `nearestNice`, used for the zone-exit warning: the distance is truncated to whole
      metres, then "<50 m", whole tens below 200 m and the plain number above. */
  function NearestNice(m: real): (r: string)
    ensures ToInt(m) < 50 ==> r == "<50 m"
    ensures 50 <= ToInt(m) < 200 ==> exists v: nat :: v % 10 == 0 && v <= ToInt(m) < v + 10 && r == NatStr(v) + " m"
    ensures ToInt(m) >= 200 ==> r == NatStr(ToInt(m)) + " m"
  {
    var meters := ToInt(m);
    if meters < 50 then "<50 m"
    else if meters < 200 then NatStr(RoundDown(meters, 10)) + " m"
    else NatStr(meters) + " m"
  }
}

=== FILE: alert_manager.dfy ===
/** `AlertManager.onLocationUpdate`: on each location fix, the zone machine runs, then at most
    one hazard callout is made, either for the first cluster of hazards ahead or for the
    single upcoming hazard, subject to a global cooldown and per-hazard quiet windows.
    Distances, bearings and offsets come from a `Geometry` the caller supplies. */
module AlertManager {
  import opened Wrappers
  import opened Numbers
  import opened Seqs
  import opened Hazards
  import SeedOverrides
  import AlertDistances
  import opened AlertClusters
  import opened AlertZones

  /** No two callouts within this many milliseconds. */
  const MIN_GAP_MS: int := 10_000
  /** A hazard already called out is not called out again within this many milliseconds. */
  const QUIET_MS: int := 30_000
  /** How long the next hazard stays quiet after it was mentioned at low speed. */
  const NEXT_QUIET_SLOW_MS: int := 20_000
  const MIN_HEADING_AGREE_DEG: real := 15.0
  const ONE_WAY_MAX_HEADING_DEG: real := 10.0
  const MAX_LATERAL_OFFSET_METERS: real := 7.0
  /** Below this speed (m/s) only the zone machine runs. */
  const MIN_SPEED_MPS: real := 1.5

  /** The geometry of a fix and a point: the distance (metres), how far the bearing to the
      point is off the heading (degrees, absolute), the lateral offset and the distance
      along the heading (metres). */
  datatype Geometry = Geometry(
    distance: (Double, Double, Double, Double) -> real,
    offHeadingDeg: (Fix, Double, Double) -> real,
    lateral: (Fix, Double, Double) -> real,
    along: (Fix, Double, Double) -> real)

  function DistanceAt(g: Geometry, fix: Fix, p: (Double, Double)): real {
    g.distance(fix.lat, fix.lng, p.0, p.1)
  }

  function Abs(x: real): real {
    if x < 0.0 then -x else x
  }

  /** The dual-carriageway filter: the point's bearing agrees with the heading (tighter on
      one-way hazards) and the point lies close to the line of travel. */
  predicate InCorridor(g: Geometry, fix: Fix, p: (Double, Double), directionality: string) {
    var diff := g.offHeadingDeg(fix, p.0, p.1);
    && !(directionality == "ONE_WAY" && diff > ONE_WAY_MAX_HEADING_DEG)
    && diff <= MIN_HEADING_AGREE_DEG
    && Abs(g.lateral(fix, p.0, p.1)) <= MAX_LATERAL_OFFSET_METERS
  }

  // ---------------------------------------------------------------------------------
  // The hazards ahead, for clustering

  /** `aheadHazards` on one hazard: kept unless it faces the other way, lies beyond the lead
      distance, leaves the corridor or lies behind. */
  function AheadOf(g: Geometry, fix: Fix, lead: real, h: Hazard): (r: Option<Ahead>)
    ensures r.Some? ==> r.value.h == h && r.value.dist <= lead && h.directionality != "OPPOSITE"
    ensures r.Some? && fix.heading.Some? ==> r.value.along >= 0.0 && InCorridor(g, fix, (h.lat, h.lng), h.directionality)
  {
    var d := DistanceAt(g, fix, (h.lat, h.lng));
    if h.directionality == "OPPOSITE" || d > lead then None
    else if fix.heading.Some? then
      var along := g.along(fix, h.lat, h.lng);
      if !InCorridor(g, fix, (h.lat, h.lng), h.directionality) || along < 0.0 then None
      else Some(Ahead(h, d, along))
    else Some(Ahead(h, d, d))
  }

  function AlongOf(a: Ahead): real {
    a.along
  }

  /** `aheadHazards`: the kept hazards, nearest first along the heading. */
  function AheadHazards(g: Geometry, fix: Fix, lead: real, hazards: seq<Hazard>): (r: seq<Ahead>)
    ensures SortedBy(r, AlongOf)
    ensures multiset(r) == multiset(FilterMap(hazards, (h: Hazard) => AheadOf(g, fix, lead, h)))
  {
    SortBy(FilterMap(hazards, (h: Hazard) => AheadOf(g, fix, lead, h)), AlongOf)
  }

  /** Every hazard ahead lies within the lead distance. */
  lemma AheadWithinLead(g: Geometry, fix: Fix, lead: real, hazards: seq<Hazard>, a: Ahead)
    requires a in AheadHazards(g, fix, lead, hazards)
    ensures a.dist <= lead
  {
    var f := (h: Hazard) => AheadOf(g, fix, lead, h);
    var xs := FilterMap(hazards, f);
    assert a in multiset(xs);
    var i :| 0 <= i < |xs| && xs[i] == a;
    FilterMapOrigin(hazards, f, i);
  }

  // ---------------------------------------------------------------------------------
  // The single upcoming hazard and the one after it (positions in the hazard list stand
  // for the objects the source compares by reference)

  /** `upcomingHazard` on one hazard (of the non-zone hazards): in front, within the lead
      distance, in the corridor and strictly ahead. */
  predicate UpcomingCandidate(g: Geometry, fix: Fix, lead: real, h: Hazard) {
    var p := (h.lat, h.lng);
    && h.hazardType != SPEED_LIMIT_ZONE
    && h.directionality != "OPPOSITE"
    && DistanceAt(g, fix, p) <= lead
    && InCorridor(g, fix, p, h.directionality)
    && g.along(fix, p.0, p.1) > 0.0
  }

  function AlongAt(g: Geometry, fix: Fix, p: (Double, Double)): real {
    g.along(fix, p.0, p.1)
  }

  /** `upcomingHazard`: none without a heading; otherwise the first candidate that is nearest
      along the heading. */
  function UpcomingHazard(g: Geometry, fix: Fix, lead: real, hazards: seq<Hazard>): (r: Option<nat>)
    ensures fix.heading.None? ==> r.None?
    ensures r.Some? ==> r.value < |hazards| && UpcomingCandidate(g, fix, lead, hazards[r.value])
    ensures r.Some? ==> forall j :: 0 <= j < |hazards| && UpcomingCandidate(g, fix, lead, hazards[j]) ==>
      AlongAt(g, fix, (hazards[r.value].lat, hazards[r.value].lng)) <= AlongAt(g, fix, (hazards[j].lat, hazards[j].lng))
    ensures r.Some? ==> forall j :: 0 <= j < r.value && UpcomingCandidate(g, fix, lead, hazards[j]) ==>
      AlongAt(g, fix, (hazards[j].lat, hazards[j].lng)) > AlongAt(g, fix, (hazards[r.value].lat, hazards[r.value].lng))
    ensures r.None? && fix.heading.Some? ==> forall j :: 0 <= j < |hazards| ==> !UpcomingCandidate(g, fix, lead, hazards[j])
  {
    if fix.heading.None? then None
    else
      var p := (i: nat) => i < |hazards| && UpcomingCandidate(g, fix, lead, hazards[i]);
      var key := (i: nat) => if i < |hazards| then AlongAt(g, fix, (hazards[i].lat, hazards[i].lng)) else 0.0;
      var r := FirstMin(|hazards|, p, key);
      assert forall j :: 0 <= j < |hazards| ==> (p(j) <==> UpcomingCandidate(g, fix, lead, hazards[j]));
      r
  }

  /** `nextHazardAfter` on one hazard: any other hazard (zones included), approached at its
      target point, more than 15 m beyond the current one, within the lead distance, in the
      corridor and strictly ahead. */
  predicate NextCandidate(g: Geometry, fix: Fix, lead: real, hazards: seq<Hazard>, cur: nat, j: nat)
    requires cur < |hazards| && j < |hazards|
  {
    var h := hazards[j];
    var p := TargetPoint(h);
    var currentDist := DistanceAt(g, fix, (hazards[cur].lat, hazards[cur].lng));
    && j != cur
    && h.directionality != "OPPOSITE"
    && DistanceAt(g, fix, p) > currentDist + 15.0
    && DistanceAt(g, fix, p) <= lead
    && InCorridor(g, fix, p, h.directionality)
    && AlongAt(g, fix, p) > 0.0
  }

  /** `nextHazardAfter`: the first candidate that is nearest along the heading. */
  function NextHazardAfter(g: Geometry, fix: Fix, lead: real, hazards: seq<Hazard>, cur: nat): (r: Option<nat>)
    requires cur < |hazards|
    ensures fix.heading.None? ==> r.None?
    ensures r.Some? ==> r.value < |hazards| && NextCandidate(g, fix, lead, hazards, cur, r.value)
    ensures r.Some? ==> forall j :: 0 <= j < |hazards| && NextCandidate(g, fix, lead, hazards, cur, j) ==>
      AlongAt(g, fix, TargetPoint(hazards[r.value])) <= AlongAt(g, fix, TargetPoint(hazards[j]))
    ensures r.Some? ==> forall j :: 0 <= j < r.value && NextCandidate(g, fix, lead, hazards, cur, j) ==>
      AlongAt(g, fix, TargetPoint(hazards[j])) > AlongAt(g, fix, TargetPoint(hazards[r.value]))
    ensures r.None? && fix.heading.Some? ==> forall j :: 0 <= j < |hazards| ==> !NextCandidate(g, fix, lead, hazards, cur, j)
  {
    if fix.heading.None? then None
    else
      var p := (i: nat) => i < |hazards| && NextCandidate(g, fix, lead, hazards, cur, i);
      var key := (i: nat) => if i < |hazards| then AlongAt(g, fix, TargetPoint(hazards[i])) else 0.0;
      var r := FirstMin(|hazards|, p, key);
      assert forall j :: 0 <= j < |hazards| ==> (p(j) <==> NextCandidate(g, fix, lead, hazards, cur, j));
      r
  }

  // ---------------------------------------------------------------------------------
  // Callouts

  /** The manager's fields. The two maps are keyed by `hazardKey`, the same
      "TYPE|lat|lng" text as the seed overrides' key. */
  datatype AlertState = AlertState(
    lastAlertTime: int,
    lastPerHazard: map<string, int>,
    preQuietUntil: map<string, int>,
    zone: ZoneState)

  const START: AlertState := AlertState(0, map[], map[], INITIAL)

  /** `map[key] ?: 0`. */
  function Get(m: map<string, int>, key: string): int {
    if key in m then m[key] else 0
  }

  /** A callout: its text, the optional second sentence, the keys of the hazards it names
      and the directionality it stores as the last hazard direction. */
  datatype Callout = Callout(text: string, followUp: Option<string>, keys: seq<string>, direction: string, clustered: bool)

  /** The preferences and device state an update reads. */
  datatype Settings = Settings(
    muted: bool,
    curve: AlertDistances.Curve,
    clusterEnabled: bool,
    clusterSpeedKph: real,
    zoneRepeatMs: int,
    zoneEnter: string,
    zoneExit: string,
    audible: bool)

  /** Whether `key` has been quiet for the full window. */
  predicate QuietPassed(s: AlertState, key: string, now: int) {
    now - Get(s.lastPerHazard, key) >= QUIET_MS
  }

  /** What a callout naming `keys` does to the timers: it needed every key to be quiet, it
      stamps them and the global cooldown with `now`, and leaves every other key's time. */
  ghost predicate Fires(s: AlertState, s2: AlertState, keys: seq<string>, now: int) {
    && s2.lastAlertTime == now
    && (forall k :: k in keys ==> QuietPassed(s, k, now) && Get(s2.lastPerHazard, k) == now)
    && (forall k :: k !in keys ==> Get(s2.lastPerHazard, k) == Get(s.lastPerHazard, k))
  }

  /** Every key of the list stamped with `now`; the rest of the map as it was. */
  function StampAll(m: map<string, int>, keys: seq<string>, now: int): (r: map<string, int>)
    ensures forall k :: k in keys ==> k in r && r[k] == now
    ensures forall k :: k !in keys ==> (k in r <==> k in m) && (k in m ==> r[k] == m[k])
    decreases |keys|
  {
    if |keys| == 0 then m else StampAll(m[keys[0] := now], keys[1..], now)
  }

  /** The keys of a cluster's members, in order. */
  function KeysOf(c: seq<Ahead>): (r: seq<string>)
    ensures |r| == |c| && forall i :: 0 <= i < |c| ==> r[i] == SeedOverrides.KeyOf(c[i].h)
  {
    seq(|c|, i requires 0 <= i < |c| => SeedOverrides.KeyOf(c[i].h))
  }

  /** Whether some member of the cluster is still quiet (`first.any { ... < QUIET_MS }`). */
  predicate Suppressed(s: AlertState, c: seq<Ahead>, now: int) {
    exists i :: 0 <= i < |c| && !QuietPassed(s, SeedOverrides.KeyOf(c[i].h), now)
  }

  /** Stamping an unsuppressed cluster fires for exactly its keys. */
  lemma StampCluster(s: AlertState, c: seq<Ahead>, now: int)
    requires !Suppressed(s, c, now)
    ensures Fires(s, s.(lastAlertTime := now, lastPerHazard := StampAll(s.lastPerHazard, KeysOf(c), now)), KeysOf(c), now)
  {
    var keys := KeysOf(c);
    forall k | k in keys
      ensures QuietPassed(s, k, now)
    {
      var i :| 0 <= i < |keys| && keys[i] == k;
      assert k == SeedOverrides.KeyOf(c[i].h);
    }
  }

  /** The sentence for the first cluster: the label alone for one hazard; for several, the
      label with "cluster" when the type is worth announcing, else "Multiple hazards". */
  function ClusterText(c: seq<Ahead>, nice: string): string
    requires |c| > 0
  {
    var named := ClusterLabel(c);
    if |c| == 1 then named.0 + " in " + nice
    else (if named.1 then named.0 + " cluster" else "Multiple hazards") + " in " + nice
  }

  /** A lone hazard is announced by its label alone. */
  lemma ClusterTextSingle(c: seq<Ahead>, nice: string)
    requires |c| == 1
    ensures ClusterText(c, nice) == ClusterLabel(c).0 + " in " + nice
  {
  }

  /** Several hazards without a bump or a rumble strip are "Multiple hazards". */
  lemma ClusterTextMultiple(c: seq<Ahead>, nice: string)
    requires |c| > 1 && !HasType(c, SPEED_BUMP) && !HasType(c, RUMBLE_STRIP)
    ensures ClusterText(c, nice) == "Multiple hazards" + " in " + nice
  {
  }

  /** Several hazards with a bump among them are a "Speed bump cluster". */
  lemma ClusterTextBump(c: seq<Ahead>, nice: string)
    requires |c| > 1 && HasType(c, SPEED_BUMP)
    ensures ClusterText(c, nice) == "Speed bump cluster in " + nice
  {
  }

  /** Several hazards with a rumble strip and no bump are a "Rumble strip cluster". */
  lemma ClusterTextRumble(c: seq<Ahead>, nice: string)
    requires |c| > 1 && !HasType(c, SPEED_BUMP) && HasType(c, RUMBLE_STRIP)
    ensures ClusterText(c, nice) == "Rumble strip cluster in " + nice
  {
  }

  /** The second sentence of a cluster callout: the start of the second cluster, when it lies
      beyond the lead distance but within twice it. */
  function SecondCluster(clusters: seq<seq<Ahead>>, lead: real): (r: Option<string>)
    requires NonEmpty(clusters)
    ensures r.Some? ==> |clusters| >= 2 && lead < clusters[1][0].dist
  {
    if |clusters| >= 2 && lead < clusters[1][0].dist <= 2.0 * lead then
      Some("Then another cluster " + AlertDistances.NiceDistance(RoundToInt(clusters[1][0].dist)) + " away")
    else None
  }

  /** The cluster path: the clusters of the hazards ahead; a callout for the first one unless
      one of its members is still quiet. */
  function ClusterCallout(s: AlertState, now: int, lead: real, ahead: seq<Ahead>): (r: Option<(AlertState, Callout)>)
    ensures |ahead| == 0 ==> r.None?
    ensures |ahead| > 0 ==> (r.None? <==> Suppressed(s, Clusters(ahead, Gap(lead))[0], now))
    ensures r.Some? ==> r.value.1.keys == KeysOf(Clusters(ahead, Gap(lead))[0]) && |r.value.1.keys| > 0
    ensures r.Some? ==> Fires(s, r.value.0, r.value.1.keys, now) && r.value.1.clustered
    ensures r.Some? ==> r.value.0.preQuietUntil == s.preQuietUntil && r.value.0.zone == s.zone
  {
    if |ahead| == 0 then None
    else
      var clusters := Clusters(ahead, Gap(lead));
      ClustersValid(ahead, Gap(lead));
      var first := clusters[0];
      if Suppressed(s, first, now) then None
      else
        StampCluster(s, first, now);
        var nice := AlertDistances.NiceDistance(RoundToInt(first[0].dist));
        Some((s.(lastAlertTime := now, lastPerHazard := StampAll(s.lastPerHazard, KeysOf(first), now)),
              Callout(ClusterText(first, nice), SecondCluster(clusters, lead), KeysOf(first), first[0].h.directionality, true)))
  }

  /** "<name> in <distance>". */
  function InPhrase(name: string, meters: int): string {
    name + " in " + AlertDistances.NiceDistance(meters)
  }

  /** "Next, <type> <distance> away". */
  function NextPhrase(t: HazardType, meters: int): string {
    "Next, " + Friendly(t) + " " + AlertDistances.NiceDistance(meters) + " away"
  }

  /** The second sentence of a single callout: the next hazard, when it lies within the lead
      distance. */
  function NextFollowUp(g: Geometry, fix: Fix, lead: real, hazards: seq<Hazard>, next: Option<nat>): (r: Option<string>)
    requires next.Some? ==> next.value < |hazards|
    ensures r.Some? <==> next.Some? && DistanceAt(g, fix, TargetPoint(hazards[next.value])) <= lead
  {
    match next
    case None => None
    case Some(j) =>
      var nextDist := DistanceAt(g, fix, TargetPoint(hazards[j]));
      if nextDist <= lead then Some(NextPhrase(hazards[j].hazardType, RoundToInt(nextDist))) else None
  }

  /** The pre-quiet map after a single callout: below 40 km/h the next hazard named in the
      second sentence stays quiet for 20 seconds. */
  function NextQuiet(s: AlertState, g: Geometry, fix: Fix, now: int, kph: real, lead: real, hazards: seq<Hazard>, next: Option<nat>): (r: map<string, int>)
    requires next.Some? ==> next.value < |hazards|
    ensures NextFollowUp(g, fix, lead, hazards, next).None? || kph >= 40.0 ==> r == s.preQuietUntil
    ensures NextFollowUp(g, fix, lead, hazards, next).Some? && kph < 40.0 ==>
      r == s.preQuietUntil[SeedOverrides.KeyOf(hazards[next.value]) := now + NEXT_QUIET_SLOW_MS]
  {
    match next
    case None => s.preQuietUntil
    case Some(j) =>
      if DistanceAt(g, fix, TargetPoint(hazards[j])) <= lead && kph < 40.0 then
        s.preQuietUntil[SeedOverrides.KeyOf(hazards[j]) := now + NEXT_QUIET_SLOW_MS]
      else s.preQuietUntil
  }

  /** The callout for the upcoming hazard `i` unless it is pre-quieted or still quiet; `next`
      is the hazard after it. */
  function SingleFor(s: AlertState, g: Geometry, fix: Fix, now: int, kph: real, lead: real, hazards: seq<Hazard>, i: nat, next: Option<nat>): (r: Option<(AlertState, Callout)>)
    requires i < |hazards| && (next.Some? ==> next.value < |hazards|)
    ensures r.Some? <==> Get(s.preQuietUntil, SeedOverrides.KeyOf(hazards[i])) <= now && QuietPassed(s, SeedOverrides.KeyOf(hazards[i]), now)
    ensures r.Some? ==> r.value.1.keys == [SeedOverrides.KeyOf(hazards[i])] && !r.value.1.clustered
    ensures r.Some? ==> Fires(s, r.value.0, r.value.1.keys, now) && r.value.0.zone == s.zone
    ensures r.Some? && kph >= 40.0 ==> r.value.0.preQuietUntil == s.preQuietUntil
  {
    var target := hazards[i];
    var key := SeedOverrides.KeyOf(target);
    if Get(s.preQuietUntil, key) > now then None
    else if now - Get(s.lastPerHazard, key) < QUIET_MS then None
    else
      var text := InPhrase(Friendly(target.hazardType), RoundToInt(DistanceAt(g, fix, (target.lat, target.lng))));
      Some((AlertState(now, s.lastPerHazard[key := now], NextQuiet(s, g, fix, now, kph, lead, hazards, next), s.zone),
            Callout(text, NextFollowUp(g, fix, lead, hazards, next), [key], target.directionality, false)))
  }

  /** The single path: the upcoming hazard, unless it is pre-quieted or still quiet; the
      hazard after it, if any, becomes a second sentence. */
  function SingleCallout(s: AlertState, g: Geometry, fix: Fix, now: int, kph: real, lead: real, hazards: seq<Hazard>): (r: Option<(AlertState, Callout)>)
    ensures fix.heading.None? ==> r.None?
    ensures r.Some? ==> var up := UpcomingHazard(g, fix, lead, hazards);
      && up.Some?
      && r.value.1.keys == [SeedOverrides.KeyOf(hazards[up.value])]
      && Get(s.preQuietUntil, r.value.1.keys[0]) <= now
    ensures r.Some? ==> Fires(s, r.value.0, r.value.1.keys, now) && !r.value.1.clustered && r.value.0.zone == s.zone
    ensures r.Some? && kph >= 40.0 ==> r.value.0.preQuietUntil == s.preQuietUntil
  {
    match UpcomingHazard(g, fix, lead, hazards)
    case None => None
    case Some(i) => SingleFor(s, g, fix, now, kph, lead, hazards, i, NextHazardAfter(g, fix, lead, hazards, i))
  }

  /** The result of an update: the new fields, the zone machine's cues and the callout. */
  datatype Outcome = Outcome(state: AlertState, zoneCues: seq<Cue>, callout: Option<Callout>)

  function ZoneEnvOf(g: Geometry, st: Settings): ZoneEnv {
    ZoneEnv(g.distance, (f: Fix, h: Hazard) => g.offHeadingDeg(f, h.lat, h.lng),
            st.zoneRepeatMs, st.zoneEnter, st.zoneExit, st.audible)
  }

  /** The hazard path of an update, after the zone machine: nothing below walking speed or
      within the global cooldown; otherwise the cluster path when enabled, fast enough and
      with a heading, falling back to the single path when it produced no callout. */
  function HazardCallout(s: AlertState, g: Geometry, fix: Fix, speed: real, now: int, st: Settings, hazards: seq<Hazard>): (r: Option<(AlertState, Callout)>)
    ensures speed < MIN_SPEED_MPS ==> r.None?
    ensures now - s.lastAlertTime < MIN_GAP_MS ==> r.None?
    ensures fix.heading.None? ==> r.None?
    ensures r.Some? ==> Fires(s, r.value.0, r.value.1.keys, now) && r.value.0.zone == s.zone
  {
    if speed < MIN_SPEED_MPS then None
    else
      var kph := speed * 3.6;
      if now - s.lastAlertTime < MIN_GAP_MS then None
      else
        var lead := AlertDistances.LeadDistance(st.curve, kph);
        var clustered :=
          if st.clusterEnabled && kph >= st.clusterSpeedKph && fix.heading.Some? then
            var nonZones := Filter(hazards, (h: Hazard) => h.hazardType != SPEED_LIMIT_ZONE);
            ClusterCallout(s, now, lead, AheadHazards(g, fix, lead, nonZones))
          else None;
        if clustered.Some? then clustered
        else SingleCallout(s, g, fix, now, kph, lead, hazards)
  }

  /** `onLocationUpdate`: nothing while muted; otherwise the zone machine, then the hazard
      path. */
  function OnLocationUpdate(s: AlertState, g: Geometry, fix: Fix, speed: real, now: int, st: Settings, hazards: seq<Hazard>): (r: Outcome)
    ensures st.muted ==> r == Outcome(s, [], None)
    ensures !st.muted ==> var z := HandleZones(s.zone, fix, hazards, now, ZoneEnvOf(g, st));
      r.state.zone == z.state && r.zoneCues == z.cues
    ensures r.callout.None? ==> r.state == s.(zone := r.state.zone)
    ensures r.callout.Some? ==> !st.muted && speed >= MIN_SPEED_MPS && now - s.lastAlertTime >= MIN_GAP_MS && fix.heading.Some?
    ensures r.callout.Some? ==> Fires(s, r.state, r.callout.value.keys, now)
  {
    if st.muted then Outcome(s, [], None)
    else
      var z := HandleZones(s.zone, fix, hazards, now, ZoneEnvOf(g, st));
      match HazardCallout(s, g, fix, speed, now, st, hazards)
      case None => Outcome(s.(zone := z.state), z.cues, None)
      case Some((s', c)) => Outcome(s'.(zone := z.state), z.cues, Some(c))
  }

  /** The cues of a callout: the text (and its second sentence) spoken when speech is
      available, and the text on the overlay. */
  function CalloutCues(c: Callout, audible: bool): (r: seq<Cue>)
    ensures Overlay(c.text) in r
    ensures audible <==> Speak(c.text) in r
    ensures c.followUp.Some? && audible ==> Speak(c.followUp.value) in r
  {
    var spoken := if !audible then [] else [Speak(c.text)] + (if c.followUp.Some? then [Speak(c.followUp.value)] else []);
    spoken + [Overlay(c.text)]
  }

  /** A hazard named by a callout at `now` is named by no callout before `now + 30000`. */
  lemma QuietWindowHolds(s: AlertState, s2: AlertState, s3: AlertState, keys: seq<string>, keys2: seq<string>,
                         now: int, later: int, k: string)
    requires Fires(s, s2, keys, now) && Fires(s2, s3, keys2, later)
    requires k in keys && later < now + QUIET_MS
    ensures k !in keys2
  {
    assert Get(s2.lastPerHazard, k) == now;
  }

  /** The same for two consecutive updates of the manager. */
  lemma UpdatesRespectQuietWindow(s: AlertState, g: Geometry, fix: Fix, speed: real, now: int, st: Settings, hazards: seq<Hazard>,
                                  g2: Geometry, fix2: Fix, speed2: real, later: int, hazards2: seq<Hazard>, k: string)
    requires OnLocationUpdate(s, g, fix, speed, now, st, hazards).callout.Some?
    requires k in OnLocationUpdate(s, g, fix, speed, now, st, hazards).callout.value.keys
    requires later < now + QUIET_MS
    ensures var s2 := OnLocationUpdate(s, g, fix, speed, now, st, hazards).state;
      var r2 := OnLocationUpdate(s2, g2, fix2, speed2, later, st, hazards2);
      r2.callout.Some? ==> k !in r2.callout.value.keys
  {
    var r := OnLocationUpdate(s, g, fix, speed, now, st, hazards);
    var r2 := OnLocationUpdate(r.state, g2, fix2, speed2, later, st, hazards2);
    if r2.callout.Some? {
      QuietWindowHolds(s, r.state, r2.state, r.callout.value.keys, r2.callout.value.keys, now, later, k);
    }
  }

  /** The second-cluster sentence is never spoken: every hazard ahead lies within the lead
      distance, so no cluster starts beyond it. */
  lemma NoSecondClusterSentence(s: AlertState, g: Geometry, fix: Fix, now: int, lead: real, hazards: seq<Hazard>)
    requires ClusterCallout(s, now, lead, AheadHazards(g, fix, lead, hazards)).Some?
    ensures ClusterCallout(s, now, lead, AheadHazards(g, fix, lead, hazards)).value.1.followUp.None?
  {
    var ahead := AheadHazards(g, fix, lead, hazards);
    var clusters := Clusters(ahead, Gap(lead));
    ClustersValid(ahead, Gap(lead));
    if |clusters| >= 2 {
      var a := clusters[1][0];
      assert a in ahead by {
        FlattenMember(clusters, 1, 0);
      }
      AheadWithinLead(g, fix, lead, hazards, a);
    }
  }
}

=== FILE: alert_zones.dfy ===
/** `AlertManager`'s speed-limit-zone machine (`handleZones`): entering a zone, repeating its
    limit, warning once before its end, and leaving it. Distances and the heading offset
    come from the geometry the caller supplies; speech and the overlay broadcast are the
    cues a step emits. */
module AlertZones {
  import opened Wrappers
  import opened Numbers
  import opened Seqs
  import opened Hazards
  import AlertDistances

  /** What a step tells the driver: spoken (when speech is ready and audio enabled) or
      shown on the overlay. */
  datatype Cue = Speak(text: string) | Overlay(text: string)

  /** The location fix: position, and the heading when the fix has one. */
  datatype Fix = Fix(lat: Double, lng: Double, heading: Option<real>)

  /** Everything a step reads besides the fix and the hazards: the distance between two
      points (metres), how far the bearing to a hazard is off the heading (degrees), the
      zone preferences and whether speech is available. */
  datatype ZoneEnv = ZoneEnv(
    distance: (Double, Double, Double, Double) -> real,
    offHeadingDeg: (Fix, Hazard) -> real,
    repeatMs: int,
    enterMsg: string,
    exitMsg: string,
    audible: bool)

  /** The manager's zone fields. */
  datatype ZoneState = ZoneState(
    inZone: bool,
    lastZoneRepeat: int,
    entryLat: Option<Double>,
    entryLng: Option<Double>,
    exitWarned: bool,
    zoneLength: Option<Int32>,
    zoneLimitKph: Option<Int32>)

  /** The fields of a freshly constructed manager. */
  const INITIAL: ZoneState := ZoneState(false, 0, None, None, false, None, None)

  /** The radius around the nearest zone point that counts as inside. */
  const INSIDE_METERS: real := 100.0

  /** The result of a step: the new fields, the cues in order, and whether the step gave
      the warning that the zone ends soon. */
  datatype ZoneStep = ZoneStep(state: ZoneState, cues: seq<Cue>, exitWarning: bool)

  predicate IsZone(h: Hazard) {
    h.hazardType == SPEED_LIMIT_ZONE
  }

  function DistanceTo(env: ZoneEnv, fix: Fix, h: Hazard): real {
    env.distance(fix.lat, fix.lng, h.lat, h.lng)
  }

  /** A message spoken when speech is available and always broadcast to the overlay. */
  function Announce(env: ZoneEnv, msg: string): (r: seq<Cue>)
    ensures Overlay(msg) in r
    ensures Speak(msg) in r <==> env.audible
  {
    (if env.audible then [Speak(msg)] else []) + [Overlay(msg)]
  }

  /** The nearest zone (first of the nearest on a tie), when there is a zone at all. */
  function NearestZone(env: ZoneEnv, fix: Fix, hazards: seq<Hazard>): (r: Option<Hazard>)
    ensures r.None? <==> forall h :: h in hazards ==> !IsZone(h)
    ensures r.Some? ==> r.value in hazards && IsZone(r.value)
    ensures r.Some? ==> forall h :: h in hazards && IsZone(h) ==> DistanceTo(env, fix, r.value) <= DistanceTo(env, fix, h)
  {
    var zones := Filter(hazards, IsZone);
    if |zones| == 0 then None
    else
      var i := MinBy(zones, (h: Hazard) => DistanceTo(env, fix, h));
      assert forall h :: h in hazards && IsZone(h) ==> exists j :: 0 <= j < |zones| && zones[j] == h;
      Some(zones[i])
  }

  /** Inside: the nearest zone lies within 100 m. */
  predicate Inside(env: ZoneEnv, fix: Fix, hazards: seq<Hazard>) {
    var n := NearestZone(env, fix, hazards);
    n.Some? && DistanceTo(env, fix, n.value) < INSIDE_METERS
  }

  /** Inside exactly when some zone at all lies within 100 m. */
  lemma InsideIffZoneNear(env: ZoneEnv, fix: Fix, hazards: seq<Hazard>)
    ensures Inside(env, fix, hazards) <==> exists h :: h in hazards && IsZone(h) && DistanceTo(env, fix, h) < INSIDE_METERS
  {
  }

  // ---------------------------------------------------------------------------------
  // The four transitions

  /** Outside to inside: the entry point, the zone's length and limit are recorded, the
      repeat clock starts, and the limit is announced. */
  function Enter(fix: Fix, zone: Hazard, now: int, env: ZoneEnv): (r: ZoneStep)
    ensures r.state.inZone && r.state.lastZoneRepeat == now && !r.state.exitWarned
    ensures r.state.entryLat == Some(fix.lat) && r.state.entryLng == Some(fix.lng)
    ensures r.state.zoneLength == zone.zoneLengthMeters && r.state.zoneLimitKph == zone.speedLimitKph
    ensures !r.exitWarning
    ensures zone.speedLimitKph.None? ==> r.cues == Announce(env, env.enterMsg)
    ensures zone.speedLimitKph.Some? ==>
      r.cues == Announce(env, "Entering speed limit zone: limit is " + IntStr(zone.speedLimitKph.value) + " km/h")
  {
    var limit := zone.speedLimitKph;
    var msg := if limit.Some? then "Entering speed limit zone: limit is " + IntStr(limit.value) + " km/h" else env.enterMsg;
    ZoneStep(ZoneState(true, now, Some(fix.lat), Some(fix.lng), false, zone.zoneLengthMeters, limit), Announce(env, msg), false)
  }

  /** Inside to outside: the limit-less or custom exit message, and every entry field cleared;
      the repeat clock keeps its value. */
  function Leave(s: ZoneState, env: ZoneEnv): (r: ZoneStep)
    ensures !r.state.inZone && !r.state.exitWarned
    ensures r.state.entryLat.None? && r.state.entryLng.None?
    ensures r.state.zoneLength.None? && r.state.zoneLimitKph.None?
    ensures r.state.lastZoneRepeat == s.lastZoneRepeat
    ensures !r.exitWarning
    ensures r.cues == Announce(env, if s.zoneLimitKph.Some? then "Exiting speed limit zone" else env.exitMsg)
  {
    var msg := if s.zoneLimitKph.Some? then "Exiting speed limit zone" else env.exitMsg;
    ZoneStep(ZoneState(false, s.lastZoneRepeat, None, None, false, None, None), Announce(env, msg), false)
  }

  /** Inside and staying: the limit is repeated once `repeatMs` has passed since the last
      announcement. */
  function Repeat(s: ZoneState, now: int, env: ZoneEnv): (r: (ZoneState, seq<Cue>))
    ensures r.0 == s.(lastZoneRepeat := r.0.lastZoneRepeat)
    ensures now - s.lastZoneRepeat >= env.repeatMs ==> r.0.lastZoneRepeat == now && |r.1| > 0
    ensures now - s.lastZoneRepeat < env.repeatMs ==> r == (s, [])
  {
    if now - s.lastZoneRepeat >= env.repeatMs then
      var msg := if s.zoneLimitKph.Some? then "Speed limit " + IntStr(s.zoneLimitKph.value) + " km/h" else env.enterMsg;
      (s.(lastZoneRepeat := now), Announce(env, msg))
    else (s, [])
  }

  /** The text of the warning that the zone ends soon. */
  function ExitSoonText(remaining: real): string {
    "Exiting speed limit zone in " + AlertDistances.NearestNice(remaining)
  }

  /** Between 1 m and 200 m left. */
  predicate Soon(remaining: real) {
    1.0 <= remaining <= 200.0
  }

  /** A zone point between 50 m and 2 km away and less than 30° off the heading. */
  predicate AheadCandidate(env: ZoneEnv, fix: Fix, h: Hazard) {
    50.0 < DistanceTo(env, fix, h) < 2000.0 && env.offHeadingDeg(fix, h) < 30.0
  }

  /** The zone ahead when the length is unknown: among the zone points between 50 m and
      2 km away and less than 30° off the heading, the nearest. */
  function ZoneAhead(env: ZoneEnv, fix: Fix, hazards: seq<Hazard>): (r: Option<Hazard>)
    ensures r.Some? ==> r.value in hazards && IsZone(r.value)
    ensures r.Some? ==> AheadCandidate(env, fix, r.value)
    ensures r.None? <==> forall h :: h in hazards && IsZone(h) ==> !AheadCandidate(env, fix, h)
    ensures r.Some? ==> forall h :: h in hazards && IsZone(h) && AheadCandidate(env, fix, h) ==>
      DistanceTo(env, fix, r.value) <= DistanceTo(env, fix, h)
  {
    var cands := Filter(hazards, (h: Hazard) => IsZone(h) && AheadCandidate(env, fix, h));
    if |cands| == 0 then None
    else
      var i := MinBy(cands, (h: Hazard) => DistanceTo(env, fix, h));
      assert forall h :: h in hazards && IsZone(h) && AheadCandidate(env, fix, h) ==>
        exists j :: 0 <= j < |cands| && cands[j] == h;
      Some(cands[i])
  }

  /** The warning that the zone ends soon: from the travelled distance when the zone's length
      is known (spoken only), otherwise from a zone point ahead when the fix has a heading
      (spoken and shown); at most once, since it sets `exitWarned`. */
  function WarnExit(s: ZoneState, fix: Fix, hazards: seq<Hazard>, env: ZoneEnv): (r: ZoneStep)
    ensures s.exitWarned ==> r == ZoneStep(s, [], false)
    ensures r.exitWarning <==> r.state.exitWarned && !s.exitWarned
    ensures r.state == s.(exitWarned := r.state.exitWarned)
    ensures !r.exitWarning ==> r.cues == []
    ensures !s.exitWarned && s.zoneLength.Some? && s.entryLat.Some? && s.entryLng.Some? ==>
      var travelled := env.distance(s.entryLat.value, s.entryLng.value, fix.lat, fix.lng);
      (r.exitWarning <==> Soon(s.zoneLength.value as real - travelled))
    ensures !s.exitWarned && s.zoneLength.None? && fix.heading.None? ==> !r.exitWarning
    ensures r.exitWarning && s.zoneLength.None? ==> exists h :: h in hazards && IsZone(h) && AheadCandidate(env, fix, h)
  {
    if s.exitWarned then ZoneStep(s, [], false)
    else if s.zoneLength.Some? && s.entryLat.Some? && s.entryLng.Some? then
      var travelled := env.distance(s.entryLat.value, s.entryLng.value, fix.lat, fix.lng);
      var remaining := s.zoneLength.value as real - travelled;
      if Soon(remaining) then
        var msg := ExitSoonText(remaining);
        ZoneStep(s.(exitWarned := true), if env.audible then [Speak(msg)] else [], true)
      else ZoneStep(s, [], false)
    else if s.zoneLength.None? && fix.heading.Some? then
      match ZoneAhead(env, fix, hazards)
      case Some(z) =>
        var remaining := DistanceTo(env, fix, z);
        if Soon(remaining) then ZoneStep(s.(exitWarned := true), Announce(env, ExitSoonText(remaining)), true)
        else ZoneStep(s, [], false)
      case None => ZoneStep(s, [], false)
    else ZoneStep(s, [], false)
  }

  /** Inside and staying: the repeat, then the exit warning. */
  function Stay(s: ZoneState, fix: Fix, hazards: seq<Hazard>, now: int, env: ZoneEnv): (r: ZoneStep)
    ensures r.state.inZone == s.inZone
    ensures r.state.entryLat == s.entryLat && r.state.entryLng == s.entryLng
    ensures r.state.zoneLength == s.zoneLength && r.state.zoneLimitKph == s.zoneLimitKph
    ensures r.state.lastZoneRepeat == (if now - s.lastZoneRepeat >= env.repeatMs then now else s.lastZoneRepeat)
    ensures r.exitWarning <==> r.state.exitWarned && !s.exitWarned
    ensures s.exitWarned ==> r.state.exitWarned
  {
    var (s1, repeatCues) := Repeat(s, now, env);
    var w := WarnExit(s1, fix, hazards, env);
    ZoneStep(w.state, repeatCues + w.cues, w.exitWarning)
  }

  /** `handleZones`: nothing without zones; otherwise the transition that the old flag and
      the new inside test select. */
  function HandleZones(s: ZoneState, fix: Fix, hazards: seq<Hazard>, now: int, env: ZoneEnv): (r: ZoneStep)
    ensures NearestZone(env, fix, hazards).None? ==> r == ZoneStep(s, [], false)
    ensures NearestZone(env, fix, hazards).Some? ==> (r.state.inZone <==> Inside(env, fix, hazards))
    ensures !s.inZone && !Inside(env, fix, hazards) ==> r == ZoneStep(s, [], false)
    ensures r.exitWarning ==> s.inZone && Inside(env, fix, hazards) && !s.exitWarned
    ensures s.inZone && Inside(env, fix, hazards) ==> (s.exitWarned ==> r.state.exitWarned)
  {
    match NearestZone(env, fix, hazards)
    case None => ZoneStep(s, [], false)
    case Some(nearest) =>
      var inside := DistanceTo(env, fix, nearest) < INSIDE_METERS;
      if !s.inZone && inside then Enter(fix, nearest, now, env)
      else if s.inZone && inside then Stay(s, fix, hazards, now, env)
      else if s.inZone && !inside then Leave(s, env)
      else ZoneStep(s, [], false)
  }

  // ---------------------------------------------------------------------------------
  // Runs of updates

  /** One update of a run: the fix, the hazards and the clock at that moment. */
  datatype Update = Update(fix: Fix, hazards: seq<Hazard>, now: int)

  /** The number of exit warnings a run of updates gives. */
  function Warnings(s: ZoneState, run: seq<Update>, env: ZoneEnv): nat
    decreases |run|
  {
    if |run| == 0 then 0
    else
      var r := HandleZones(s, run[0].fix, run[0].hazards, run[0].now, env);
      (if r.exitWarning then 1 else 0) + Warnings(r.state, run[1..], env)
  }

  /** An update from inside a zone leaves the state inside; a warning it gives is recorded,
      and is given only when none was recorded before. */
  lemma InsideStep(s: ZoneState, fix: Fix, hazards: seq<Hazard>, now: int, env: ZoneEnv)
    requires Inside(env, fix, hazards)
    ensures var r := HandleZones(s, fix, hazards, now, env);
      r.state.inZone
      && (r.exitWarning ==> r.state.exitWarned && !(s.inZone && s.exitWarned))
      && (s.inZone && s.exitWarned ==> r.state.exitWarned)
  {
    var n := NearestZone(env, fix, hazards).value;
    assert DistanceTo(env, fix, n) < INSIDE_METERS;
  }

  /** While the driver stays inside, the exit warning is given at most once, and not at all
      once it has been given. */
  lemma {:induction false} WarnedAtMostOnce(s: ZoneState, run: seq<Update>, env: ZoneEnv)
    requires forall k :: 0 <= k < |run| ==> Inside(env, run[k].fix, run[k].hazards)
    ensures Warnings(s, run, env) <= (if s.inZone && s.exitWarned then 0 else 1)
    decreases |run|
  {
    if |run| > 0 {
      var u := run[0];
      var r := HandleZones(s, u.fix, u.hazards, u.now, env);
      assert Inside(env, u.fix, u.hazards);
      InsideStep(s, u.fix, u.hazards, u.now, env);
      var rest := run[1..];
      assert forall k :: 0 <= k < |rest| ==> rest[k] == run[k + 1];
      WarnedAtMostOnce(r.state, rest, env);
      assert Warnings(s, run, env) == (if r.exitWarning then 1 else 0) + Warnings(r.state, rest, env);
    }
  }
}

=== FILE: api_client.dfy ===
/** `ApiClient`: how each call of the RoadWatch HTTP API is addressed and authorised, and
    how the answer (or the exception on the way) becomes a result. The connection, the
    JSON codec, URL encoding and Base64 are outside the model: the exchange with the server
    is an input, and the encoders are function parameters. */
module ApiClient {
  import opened Wrappers
  import opened Numbers
  import opened Text

  /** Kotlin's `Result`: a value, or the failure's message (an absent message reads as ""). */
  datatype Result<T> = Success(value: T) | Failure(message: string)

  /** What came back from `request`: the status code (-1 when none could be read) and the
      body, if any stream could be read; or the exception thrown on the way. */
  datatype Exchange = Answered(code: int, body: Option<string>) | Threw(message: string)

  /** The calls of the client. */
  datatype Endpoint =
    | AdminLogin
    | AdminRefresh
    | AdminListHazards
    | AdminPatchHazard(id: string)
    | AdminDeleteHazard(id: string)
    | RegisterAccount
    | GetAccountSettings
    | PutAccountSettings
    | CreateHazard
    | Upvote(hazardId: string)
    | Unvote(hazardId: string)
    | ListHazards
    | VoteStatus(hazardId: string)
    | VoteStatusWithBasic(hazardId: string)

  /** The fixed path of each call, after the base URL. */
  function Path(e: Endpoint): string {
    match e
    case AdminLogin => "/v1/admin/login"
    case AdminRefresh => "/v1/admin/refresh"
    case AdminListHazards => "/v1/admin/hazards"
    case AdminPatchHazard(id) => "/v1/admin/hazards/" + id
    case AdminDeleteHazard(id) => "/v1/admin/hazards/" + id
    case RegisterAccount => "/v1/account/register"
    case GetAccountSettings => "/v1/account/settings"
    case PutAccountSettings => "/v1/account/settings"
    case CreateHazard => "/v1/hazards"
    case Upvote(h) => "/v1/hazards/" + h + "/votes"
    case Unvote(h) => "/v1/hazards/" + h + "/votes"
    case ListHazards => "/v1/hazards"
    case VoteStatus(h) => "/v1/hazards/" + h + "/votes"
    case VoteStatusWithBasic(h) => "/v1/hazards/" + h + "/votes"
  }

  function Verb(e: Endpoint): string {
    match e
    case AdminLogin => "POST"
    case AdminRefresh => "POST"
    case AdminListHazards => "GET"
    case AdminPatchHazard(_) => "PATCH"
    case AdminDeleteHazard(_) => "DELETE"
    case RegisterAccount => "POST"
    case GetAccountSettings => "GET"
    case PutAccountSettings => "PUT"
    case CreateHazard => "POST"
    case Upvote(_) => "PUT"
    case Unvote(_) => "DELETE"
    case ListHazards => "GET"
    case VoteStatus(_) => "GET"
    case VoteStatusWithBasic(_) => "GET"
  }

  /** Which answers a call takes as success. */
  datatype Acceptance = OkWithBody | CreatedOnly | CreatedWithBody | AnySuccess

  function AcceptanceOf(e: Endpoint): Acceptance {
    match e
    case AdminLogin => OkWithBody
    case AdminRefresh => OkWithBody
    case AdminListHazards => OkWithBody
    case AdminPatchHazard(_) => OkWithBody
    case AdminDeleteHazard(_) => AnySuccess
    case RegisterAccount => CreatedOnly
    case GetAccountSettings => OkWithBody
    case PutAccountSettings => AnySuccess
    case CreateHazard => CreatedWithBody
    case Upvote(_) => AnySuccess
    case Unvote(_) => AnySuccess
    case ListHazards => OkWithBody
    case VoteStatus(_) => OkWithBody
    case VoteStatusWithBasic(_) => OkWithBody
  }

  predicate Accepts(a: Acceptance, code: int, body: Option<string>) {
    match a
    case OkWithBody => code == 200 && body.Some?
    case CreatedOnly => code == 201
    case CreatedWithBody => code == 201 && body.Some?
    case AnySuccess => 200 <= code <= 299
  }

  /** No call accepts anything outside 2xx, and none accepts a missing status. */
  lemma AcceptedIsSuccessStatus(e: Endpoint, code: int, body: Option<string>)
    requires Accepts(AcceptanceOf(e), code, body)
    ensures 200 <= code <= 299
    ensures code == 200 || code == 201 || AcceptanceOf(e) == AnySuccess
  {
  }

  /** The message of every rejected answer: the status and the body as Kotlin prints them
      (an absent body prints as "null"). */
  function HttpFailure(code: int, body: Option<string>): string {
    "HTTP " + IntStr(code) + ": " + body.GetOr("null")
  }

  /** The `try`/`catch` shape shared by every call: an exception becomes a failure carrying
      its message; a rejected status becomes `HttpFailure`; an accepted answer is decoded
      (a decoding exception is the decoder's failure). */
  function Respond<T>(e: Endpoint, x: Exchange, decode: Option<string> -> Result<T>): (r: Result<T>)
    ensures x.Threw? ==> r == Failure(x.message)
    ensures x.Answered? && !Accepts(AcceptanceOf(e), x.code, x.body) ==> r == Failure(HttpFailure(x.code, x.body))
    ensures r.Success? ==> x.Answered? && 200 <= x.code <= 299
  {
    match x
    case Threw(m) => Failure(m)
    case Answered(code, body) =>
      if Accepts(AcceptanceOf(e), code, body) then
        AcceptedIsSuccessStatus(e, code, body);
        var d := decode(body);
        if d.Success? then d else Failure(d.message)
      else Failure(HttpFailure(code, body))
  }

  /** A 401 answer always fails with a message holding "HTTP 401", whichever call it was. */
  lemma UnauthorizedNamesItself<T>(e: Endpoint, body: Option<string>, decode: Option<string> -> Result<T>)
    ensures Respond(e, Answered(401, body), decode).Failure?
    ensures Contains(Respond(e, Answered(401, body), decode).message, "HTTP 401")
  {
    assert IntStr(401) == "401" by { NatStrValue(401); }
    var m := Respond(e, Answered(401, body), decode).message;
    assert m == "HTTP 401" + (": " + body.GetOr("null"));
    assert m[0..|"HTTP 401"|] == "HTTP 401";
    ContainsAt(m, "HTTP 401", 0);
  }

  // ---------------------------------------------------------------------------------
  // Addresses

  /** `baseUrl.trimEnd('/')`. */
  function Base(baseUrl: string): (b: string)
    ensures |b| <= |baseUrl| && b == baseUrl[..|b|]
    ensures |b| > 0 ==> b[|b| - 1] != '/'
    ensures forall i :: |b| <= i < |baseUrl| ==> baseUrl[i] == '/'
  {
    TrimEndChar(baseUrl, '/')
  }

  /** Every path starts at the API's version root. */
  lemma PathsStartAtRoot(e: Endpoint)
    ensures StartsWith(Path(e), "/v1/")
  {
  }

  /** Trailing slashes on the configured base never change an address. */
  lemma {:induction false} BaseIgnoresTrailingSlash(baseUrl: string)
    ensures Base(baseUrl + "/") == Base(baseUrl)
  {
    assert (baseUrl + "/")[..|baseUrl|] == baseUrl;
  }

  /** A query parameter: a name and its (already encoded) value. */
  type Param = (string, string)

  /** The parameters that are present, in the order of `names`; an absent value adds nothing. */
  function Params(names: seq<string>, vals: seq<Option<string>>): (r: seq<Param>)
    requires |names| == |vals|
    ensures |r| <= |names|
    decreases |names|
  {
    if |names| == 0 then []
    else (if vals[0].Some? then [(names[0], vals[0].value)] else []) + Params(names[1..], vals[1..])
  }

  /** The parameters of the first slots all come before those of the later slots. */
  lemma {:induction false} ParamsSplit(names: seq<string>, vals: seq<Option<string>>, k: nat)
    requires |names| == |vals| && k <= |names|
    ensures Params(names, vals) == Params(names[..k], vals[..k]) + Params(names[k..], vals[k..])
    decreases k
  {
    if k > 0 {
      ParamsSplit(names[1..], vals[1..], k - 1);
      assert names[..k][1..] == names[1..][..k - 1];
      assert vals[..k][1..] == vals[1..][..k - 1];
      assert names[1..][k - 1..] == names[k..];
      assert vals[1..][k - 1..] == vals[k..];
    }
  }

  /** A name that occurs once among the slots is sent, with its value, exactly when its slot
      holds a value. */
  lemma {:induction false} ParamsPresence(names: seq<string>, vals: seq<Option<string>>, i: nat, v: string)
    requires |names| == |vals| && i < |names|
    requires forall j :: 0 <= j < |names| && j != i ==> names[j] != names[i]
    ensures (names[i], v) in Params(names, vals) <==> vals[i] == Some(v)
    decreases |names|
  {
    if i == 0 {
      NameAbsent(names[1..], vals[1..], names[0], v);
    } else {
      ParamsPresence(names[1..], vals[1..], i - 1, v);
    }
  }

  lemma {:induction false} NameAbsent(names: seq<string>, vals: seq<Option<string>>, n: string, v: string)
    requires |names| == |vals|
    requires n !in names
    ensures (n, v) !in Params(names, vals)
    decreases |names|
  {
    if |names| > 0 {
      NameAbsent(names[1..], vals[1..], n, v);
    }
  }

  /** The parameters after the fixed part of a query: `&name=value` each. */
  function Render(ps: seq<Param>): string {
    if |ps| == 0 then "" else "&" + ps[0].0 + "=" + ps[0].1 + Render(ps[1..])
  }

  /** An optional string is sent only when it is present and non-empty. */
  function NonEmpty(s: Option<string>, encode: string -> string): (r: Option<string>)
    ensures r.Some? <==> s.Some? && s.value != ""
  {
    if s.Some? && s.value != "" then Some(encode(s.value)) else None
  }

  function DoubleParam(d: Option<Double>): (r: Option<string>)
    ensures r.Some? <==> d.Some?
  {
    if d.Some? then Some(FormatDouble(d.value)) else None
  }

  /** The optional filters of `adminListHazards`. */
  datatype AdminFilters = AdminFilters(
    cursor: Option<string>, hazardType: Option<string>, source: Option<string>,
    active: Option<bool>, search: Option<string>,
    minLat: Option<Double>, minLng: Option<Double>, maxLat: Option<Double>, maxLng: Option<Double>,
    createdAfter: Option<string>, createdBefore: Option<string>)

  const ADMIN_KEYS: seq<string> := ["cursor", "type", "source", "active", "search", "min_lat",
                                    "min_lng", "max_lat", "max_lng", "created_after", "created_before"]

  /** The value, if any, sent for each of `ADMIN_KEYS`. */
  function AdminValues(f: AdminFilters, encode: string -> string): (r: seq<Option<string>>)
    ensures |r| == |ADMIN_KEYS|
    ensures r[0].Some? <==> f.cursor.Some? && f.cursor.value != ""
    ensures r[3].Some? <==> f.active.Some?
    ensures r[5].Some? <==> f.minLat.Some?
  {
    [NonEmpty(f.cursor, encode), NonEmpty(f.hazardType, encode), NonEmpty(f.source, encode),
     if f.active.Some? then Some(if f.active.value then "true" else "false") else None,
     NonEmpty(f.search, encode), DoubleParam(f.minLat), DoubleParam(f.minLng),
     DoubleParam(f.maxLat), DoubleParam(f.maxLng),
     NonEmpty(f.createdAfter, encode), NonEmpty(f.createdBefore, encode)]
  }

  /** The query of `adminListHazards`: the limit always, then each filter that is given. */
  function AdminQuery(limit: Int32, f: AdminFilters, encode: string -> string): string {
    "?limit=" + IntStr(limit) + Render(Params(ADMIN_KEYS, AdminValues(f, encode)))
  }

  /** The query of `listHazards`: position, radius and limit always, the cursor when given. */
  function ListQuery(lat: Double, lng: Double, radiusM: Int32, limit: Int32, cursor: Option<string>, encode: string -> string): string {
    "?lat=" + FormatDouble(lat) + "&lng=" + FormatDouble(lng) + "&radius_m=" + IntStr(radiusM)
      + "&limit=" + IntStr(limit) + Render(Params(["cursor"], [NonEmpty(cursor, encode)]))
  }

  /** With no filters given, the admin listing asks for the limit alone. */
  lemma AdminQueryUnfiltered(limit: Int32, encode: string -> string)
    ensures AdminQuery(limit, AdminFilters(None, None, None, None, None, None, None, None, None, None, None), encode)
            == "?limit=" + IntStr(limit)
  {
    var f := AdminFilters(None, None, None, None, None, None, None, None, None, None, None);
    var vs := AdminValues(f, encode);
    assert forall j :: 0 <= j < |vs| ==> vs[j].None?;
    NoneParams(ADMIN_KEYS, vs);
  }

  lemma {:induction false} NoneParams(names: seq<string>, vals: seq<Option<string>>)
    requires |names| == |vals|
    requires forall j :: 0 <= j < |vals| ==> vals[j].None?
    ensures Params(names, vals) == []
    decreases |names|
  {
    if |names| > 0 {
      NoneParams(names[1..], vals[1..]);
    }
  }

  /** Every admin filter name is sent at most once, and exactly when its filter is given. */
  lemma AdminFilterSent(f: AdminFilters, encode: string -> string, i: nat, v: string)
    requires i < |ADMIN_KEYS|
    ensures (ADMIN_KEYS[i], v) in Params(ADMIN_KEYS, AdminValues(f, encode)) <==> AdminValues(f, encode)[i] == Some(v)
  {
    ParamsPresence(ADMIN_KEYS, AdminValues(f, encode), i, v);
  }

  // ---------------------------------------------------------------------------------
  // Requests

  /** How a call identifies its user: not at all, by a (possibly absent) bearer token, or by
      e-mail and password. */
  datatype Credentials = Anonymous | Token(token: Option<string>) | Password(email: string, password: string)

  /** `basic(email, password)`: the Base64 of "email:password" after "Basic ". */
  function BasicToken(email: string, password: string, base64: string -> string): string {
    "Basic " + base64(email + ":" + password)
  }

  /** The token `request` is given. */
  function TokenOf(c: Credentials, base64: string -> string): (t: Option<string>)
    ensures c.Anonymous? ==> t.None?
    ensures c.Password? ==> t.Some?
  {
    match c
    case Anonymous => None
    case Token(t) => t
    case Password(e, p) => Some(BasicToken(e, p, base64))
  }

  /** The `Authorization` header `request` sets: present exactly when a token is given. */
  function Authorization(token: Option<string>): (h: Option<string>)
    ensures h.Some? <==> token.Some?
    ensures h.Some? ==> StartsWith(h.value, "Bearer ")
  {
    if token.Some? then Some("Bearer " + token.value) else None
  }

  /** A request as `request` issues it. */
  datatype Request = Request(verb: string, url: string, authorization: Option<string>)

  function RequestFor(baseUrl: string, e: Endpoint, query: string, c: Credentials, base64: string -> string): (q: Request)
    ensures q.url == Base(baseUrl) + Path(e) + query
    ensures q.authorization.Some? <==> TokenOf(c, base64).Some?
  {
    Request(Verb(e), Base(baseUrl) + Path(e) + query, Authorization(TokenOf(c, base64)))
  }

  /** Password calls send their Basic credentials inside a Bearer header. */
  lemma PasswordHeader(baseUrl: string, e: Endpoint, query: string, email: string, password: string, base64: string -> string)
    ensures RequestFor(baseUrl, e, query, Password(email, password), base64).authorization
            == Some("Bearer Basic " + base64(email + ":" + password))
  {
    var b := base64(email + ":" + password);
    assert "Bearer " + ("Basic " + b) == "Bearer Basic " + b;
  }
}

=== FILE: app_prefs.dfy ===
/** The app's preference file (`AppPrefs`): a key-value store of typed values, with a
    default for every getter. The clock is a parameter. */
module AppPrefs {
  import opened Numbers

  datatype Value = LongValue(l: Int64) | IntValue(i: Int32) | BoolValue(b: bool) | StringValue(s: string)

  type Prefs = map<string, Value>

  const KEY_MUTED_UNTIL: string := "muted_until"
  const KEY_AUDIO_FOCUS: string := "audio_focus"
  const KEY_BG_ALERTS: string := "background_alerts"
  const KEY_PASSENGER_ENABLED: string := "passenger_enabled"
  const KEY_SPEED_CURVE: string := "speed_curve"
  const KEY_ZONE_ENTER: string := "zone_enter_msg"
  const KEY_ZONE_EXIT: string := "zone_exit_msg"
  const KEY_ZONE_REPEAT_MS: string := "zone_repeat_ms"
  const KEY_AUDIO_ENABLED: string := "audio_enabled"
  const KEY_VISUAL_ENABLED: string := "visual_enabled"
  const KEY_DEFAULT_MUTE_MIN: string := "default_mute_min"

  const KEYS: seq<string> := [KEY_MUTED_UNTIL, KEY_AUDIO_FOCUS, KEY_BG_ALERTS, KEY_PASSENGER_ENABLED,
    KEY_SPEED_CURVE, KEY_ZONE_ENTER, KEY_ZONE_EXIT, KEY_ZONE_REPEAT_MS, KEY_AUDIO_ENABLED,
    KEY_VISUAL_ENABLED, KEY_DEFAULT_MUTE_MIN]

  const DEFAULT_AUDIO_FOCUS: string := "DUCK"
  const DEFAULT_SPEED_CURVE: string := "NORMAL"
  const DEFAULT_ZONE_ENTER: string := "Entering speed limit zone"
  const DEFAULT_ZONE_EXIT: string := "Exiting speed limit zone"
  const DEFAULT_ZONE_REPEAT_MS: Int64 := 60_000
  const DEFAULT_MUTE_MINUTES: Int32 := 20
  const MINUTE_MS: int := 60_000

  /** `getLong(key, default)`; a value of another type reads as the default. */
  function GetLong(p: Prefs, key: string, default: Int64): Int64 {
    if key in p && p[key].LongValue? then p[key].l else default
  }

  /** `getInt(key, default)`. */
  function GetInt(p: Prefs, key: string, default: Int32): Int32 {
    if key in p && p[key].IntValue? then p[key].i else default
  }

  /** `getBoolean(key, default)`. */
  function GetBool(p: Prefs, key: string, default: bool): bool {
    if key in p && p[key].BoolValue? then p[key].b else default
  }

  /** `getString(key, default) ?: default`. */
  function GetString(p: Prefs, key: string, default: string): string {
    if key in p && p[key].StringValue? then p[key].s else default
  }

  /** `r` differs from `p` at most at the keys in `changed`. */
  ghost predicate OnlyChanged(p: Prefs, r: Prefs, changed: set<string>) {
    forall k :: k !in changed ==> (k in r <==> k in p) && (k in p ==> r[k] == p[k])
  }

  /** `setMutedForMinutes`: mutes until `now + minutes` minutes, in `Long` arithmetic. */
  function SetMutedForMinutes(p: Prefs, now: Int64, minutes: Int32): (r: Prefs)
    ensures LONG_MIN <= now + minutes * MINUTE_MS <= LONG_MAX ==>
      GetMutedUntil(r) == now + minutes * MINUTE_MS
    ensures OnlyChanged(p, r, {KEY_MUTED_UNTIL})
  {
    p[KEY_MUTED_UNTIL := LongValue(Wrap64(now + minutes * MINUTE_MS))]
  }

  /** `clearMute`: forgets the mute time. */
  function ClearMute(p: Prefs): (r: Prefs)
    ensures KEY_MUTED_UNTIL !in r
    ensures OnlyChanged(p, r, {KEY_MUTED_UNTIL})
  {
    p - {KEY_MUTED_UNTIL}
  }

  /** `getMutedUntilMillis`: 0 when never muted. */
  function GetMutedUntil(p: Prefs): Int64 {
    GetLong(p, KEY_MUTED_UNTIL, 0)
  }

  /** `isMuted` at time `now`. */
  predicate IsMuted(p: Prefs, now: Int64) {
    GetMutedUntil(p) > now
  }

  /** Muting for `m` minutes at `t` mutes exactly the instants before `t + m` minutes. */
  lemma MutedWindow(p: Prefs, t: Int64, m: Int32, later: Int64)
    requires LONG_MIN <= t + m * MINUTE_MS <= LONG_MAX
    ensures IsMuted(SetMutedForMinutes(p, t, m), later) <==> t + m * MINUTE_MS > later
  {
  }

  /** Cleared or never set, the app is not muted at any time that is not negative. */
  lemma NotMutedAfterClear(p: Prefs, now: Int64)
    requires now >= 0
    ensures !IsMuted(ClearMute(p), now)
    ensures !IsMuted(map[], now)
  {
  }

  function GetAudioFocusMode(p: Prefs): string { GetString(p, KEY_AUDIO_FOCUS, DEFAULT_AUDIO_FOCUS) }
  function IsBackgroundAlerts(p: Prefs): bool { GetBool(p, KEY_BG_ALERTS, false) }
  function IsPassengerEnabled(p: Prefs): bool { GetBool(p, KEY_PASSENGER_ENABLED, true) }
  function GetSpeedCurve(p: Prefs): string { GetString(p, KEY_SPEED_CURVE, DEFAULT_SPEED_CURVE) }
  function GetZoneEnter(p: Prefs): string { GetString(p, KEY_ZONE_ENTER, DEFAULT_ZONE_ENTER) }
  function GetZoneExit(p: Prefs): string { GetString(p, KEY_ZONE_EXIT, DEFAULT_ZONE_EXIT) }
  function GetZoneRepeatMs(p: Prefs): Int64 { GetLong(p, KEY_ZONE_REPEAT_MS, DEFAULT_ZONE_REPEAT_MS) }
  function IsAudioEnabled(p: Prefs): bool { GetBool(p, KEY_AUDIO_ENABLED, true) }
  function IsVisualEnabled(p: Prefs): bool { GetBool(p, KEY_VISUAL_ENABLED, true) }
  function GetDefaultMuteMinutes(p: Prefs): Int32 { GetInt(p, KEY_DEFAULT_MUTE_MIN, DEFAULT_MUTE_MINUTES) }

  /** An empty preference file reads every default. */
  lemma Defaults()
    ensures GetAudioFocusMode(map[]) == "DUCK" && GetSpeedCurve(map[]) == "NORMAL"
    ensures GetZoneEnter(map[]) == "Entering speed limit zone"
    ensures GetZoneExit(map[]) == "Exiting speed limit zone"
    ensures GetZoneRepeatMs(map[]) == 60_000
    ensures IsAudioEnabled(map[]) && IsVisualEnabled(map[]) && !IsBackgroundAlerts(map[])
    ensures IsPassengerEnabled(map[]) && GetDefaultMuteMinutes(map[]) == 20
    ensures GetMutedUntil(map[]) == 0
  {
  }

  /** The eleven keys are pairwise distinct, so no setter disturbs another getter. */
  lemma KeysDistinct()
    ensures forall i, j :: 0 <= i < j < |KEYS| ==> KEYS[i] != KEYS[j]
  {
  }

  function SetAudioFocusMode(p: Prefs, mode: string): (r: Prefs)
    ensures GetAudioFocusMode(r) == mode
    ensures OnlyChanged(p, r, {KEY_AUDIO_FOCUS})
  {
    p[KEY_AUDIO_FOCUS := StringValue(mode)]
  }

  function SetBackgroundAlerts(p: Prefs, enabled: bool): (r: Prefs)
    ensures IsBackgroundAlerts(r) == enabled
    ensures OnlyChanged(p, r, {KEY_BG_ALERTS})
  {
    p[KEY_BG_ALERTS := BoolValue(enabled)]
  }

  function SetPassengerEnabled(p: Prefs, enabled: bool): (r: Prefs)
    ensures IsPassengerEnabled(r) == enabled
    ensures OnlyChanged(p, r, {KEY_PASSENGER_ENABLED})
  {
    p[KEY_PASSENGER_ENABLED := BoolValue(enabled)]
  }

  function SetSpeedCurve(p: Prefs, curve: string): (r: Prefs)
    ensures GetSpeedCurve(r) == curve
    ensures OnlyChanged(p, r, {KEY_SPEED_CURVE})
  {
    p[KEY_SPEED_CURVE := StringValue(curve)]
  }

  /** `setZoneConfig`: the three zone keys are written together. */
  function SetZoneConfig(p: Prefs, enter: string, exit: string, repeatMs: Int64): (r: Prefs)
    ensures GetZoneEnter(r) == enter && GetZoneExit(r) == exit && GetZoneRepeatMs(r) == repeatMs
    ensures OnlyChanged(p, r, {KEY_ZONE_ENTER, KEY_ZONE_EXIT, KEY_ZONE_REPEAT_MS})
  {
    p[KEY_ZONE_ENTER := StringValue(enter)][KEY_ZONE_EXIT := StringValue(exit)]
      [KEY_ZONE_REPEAT_MS := LongValue(repeatMs)]
  }

  /** `setAlertChannels`: both channel keys are written together. */
  function SetAlertChannels(p: Prefs, audio: bool, visual: bool): (r: Prefs)
    ensures IsAudioEnabled(r) == audio && IsVisualEnabled(r) == visual
    ensures OnlyChanged(p, r, {KEY_AUDIO_ENABLED, KEY_VISUAL_ENABLED})
  {
    p[KEY_AUDIO_ENABLED := BoolValue(audio)][KEY_VISUAL_ENABLED := BoolValue(visual)]
  }

  function SetDefaultMuteMinutes(p: Prefs, minutes: Int32): (r: Prefs)
    ensures GetDefaultMuteMinutes(r) == minutes
    ensures OnlyChanged(p, r, {KEY_DEFAULT_MUTE_MIN})
  {
    p[KEY_DEFAULT_MUTE_MIN := IntValue(minutes)]
  }

  /** Setting the speed curve leaves the mute state and every other preference as it was. */
  lemma SpeedCurveKeepsMute(p: Prefs, curve: string, now: Int64)
    ensures IsMuted(SetSpeedCurve(p, curve), now) <==> IsMuted(p, now)
    ensures GetAudioFocusMode(SetSpeedCurve(p, curve)) == GetAudioFocusMode(p)
    ensures GetZoneRepeatMs(SetSpeedCurve(p, curve)) == GetZoneRepeatMs(p)
  {
  }
}

=== FILE: community_votes.dfy ===
/** Community vote counts kept on the device (`CommunityVotes`): a count per hazard key and
    the set of keys this device has voted for. Counts are Kotlin `Int`s, so arithmetic on
    them wraps around. */
module CommunityVotes {
  import opened Numbers

  datatype Votes = Votes(counts: map<string, Int32>, voted: set<string>)

  /** A device that never voted. */
  const EMPTY: Votes := Votes(map[], {})

  /** `getVotes`: the stored count, 0 for a key never written. */
  function GetVotes(s: Votes, key: string): Int32 {
    if key in s.counts then s.counts[key] else 0
  }

  /** `hasVoted`. */
  predicate HasVoted(s: Votes, key: string) {
    key in s.voted
  }

  /** Every key other than `key` reads the same count and voted flag in both states. */
  ghost predicate OthersUnchanged(s: Votes, r: Votes, key: string) {
    forall k :: k != key ==> GetVotes(r, k) == GetVotes(s, k) && (HasVoted(r, k) <==> HasVoted(s, k))
  }

  /** `upvote`: a key already voted for is left alone; otherwise its count goes up by one
      (wrapping at `Int.MAX_VALUE`) and the key is marked voted. */
  function Upvote(s: Votes, key: string): (r: Votes)
    ensures HasVoted(r, key)
    ensures HasVoted(s, key) ==> r == s
    ensures !HasVoted(s, key) ==> GetVotes(r, key) == Wrap32(GetVotes(s, key) + 1)
    ensures !HasVoted(s, key) && GetVotes(s, key) < INT_MAX ==> GetVotes(r, key) == GetVotes(s, key) + 1
    ensures OthersUnchanged(s, r, key)
  {
    if key in s.voted then s
    else Votes(s.counts[key := Wrap32(GetVotes(s, key) + 1)], s.voted + {key})
  }

  /** `downvote`: a key not voted for is left alone; otherwise its count goes down by one,
      never below zero, and the mark is removed. */
  function Downvote(s: Votes, key: string): (r: Votes)
    ensures !HasVoted(r, key)
    ensures !HasVoted(s, key) ==> r == s
    ensures HasVoted(s, key) ==> GetVotes(r, key) >= 0
    ensures HasVoted(s, key) && GetVotes(s, key) > 0 ==> GetVotes(r, key) == GetVotes(s, key) - 1
    ensures HasVoted(s, key) && GetVotes(s, key) == 0 ==> GetVotes(r, key) == 0
    ensures OthersUnchanged(s, r, key)
  {
    if key !in s.voted then s
    else
      var v := Wrap32(GetVotes(s, key) - 1);
      Votes(s.counts[key := if v < 0 then 0 else v], s.voted - {key})
  }

  /** `setVotes`: stores the count floored at zero; the voted set is untouched. */
  function SetVotes(s: Votes, key: string, votes: Int32): (r: Votes)
    ensures GetVotes(r, key) == if votes < 0 then 0 else votes
    ensures HasVoted(r, key) <==> HasVoted(s, key)
    ensures OthersUnchanged(s, r, key)
  {
    Votes(s.counts[key := if votes < 0 then 0 else votes], s.voted)
  }

  /** A fresh device has no votes and no marks. */
  lemma NothingWritten(key: string)
    ensures GetVotes(EMPTY, key) == 0 && !HasVoted(EMPTY, key)
  {
  }

  /** Voting and then retracting the vote on a key not yet voted for, with a count that is
      not negative, restores every key's count and mark, even at `Int.MAX_VALUE`, where the
      increment wraps and the decrement wraps back. */
  lemma UpvoteDownvoteRestores(s: Votes, key: string)
    requires !HasVoted(s, key) && GetVotes(s, key) >= 0
    ensures var r := Downvote(Upvote(s, key), key);
      GetVotes(r, key) == GetVotes(s, key) && !HasVoted(r, key) && OthersUnchanged(s, r, key)
  {
    var v := GetVotes(s, key);
    var u := Upvote(s, key);
    if v == INT_MAX {
      assert GetVotes(u, key) == INT_MIN;
      assert Wrap32(INT_MIN - 1) == INT_MAX;
    }
  }

  /** Counts that are not negative stay so, as long as no count sits at `Int.MAX_VALUE`
      when it is voted up. */
  predicate NonNegative(s: Votes) {
    forall k :: k in s.counts ==> s.counts[k] >= 0
  }

  lemma CountsStayNonNegative(s: Votes, key: string, votes: Int32)
    requires NonNegative(s)
    ensures NonNegative(Downvote(s, key)) && NonNegative(SetVotes(s, key, votes))
    ensures GetVotes(s, key) < INT_MAX ==> NonNegative(Upvote(s, key))
  {
  }

  /** The one input that breaks the non-negative count: voting up a count of
      `Int.MAX_VALUE` wraps to `Int.MIN_VALUE`. */
  lemma UpvoteAtMaxWraps(s: Votes, key: string)
    requires !HasVoted(s, key) && GetVotes(s, key) == INT_MAX
    ensures GetVotes(Upvote(s, key), key) == INT_MIN
  {
  }
}

=== FILE: drive_hud.dfy ===
/** The helpers of `DriveHudFragment`: the speed and compass read-out of the head-up
    display, its distance wording and look-ahead curve, and the idle-stop machine that ends
    drive mode when the car has not moved for two minutes. Distances between fixes are
    given by the caller; reals stand for the source's doubles and floats. */
module DriveHud {
  import opened Wrappers
  import opened Numbers
  import opened Hazards
  import AlertDistances

  // ---------------------------------------------------------------------------------
  // Distances

  /** `formatNiceDistance`: the distance is first truncated to whole metres, then worded
      exactly as the alert callouts word a whole number of metres. */
  function FormatNiceDistance(meters: real): (r: string)
    ensures ToInt(meters) < 50 ==> r == "<50 m"
    ensures 50 <= ToInt(meters) < 200 ==> exists v: nat :: v % 10 == 0 && v <= ToInt(meters) < v + 10 && r == NatStr(v) + " m"
    ensures 200 <= ToInt(meters) < 1000 ==> exists v: nat :: v % 50 == 0 && v <= ToInt(meters) < v + 50 && r == NatStr(v) + " m"
    ensures ToInt(meters) >= 1000 ==> exists t: nat :: t * 100 <= ToInt(meters) + 50 < t * 100 + 100 && r == AlertDistances.KmText(t)
  {
    AlertDistances.NiceDistance(ToInt(meters))
  }

  /** Whole metres below the 50 m floor of the wording, including every fraction of a metre
      short of 50, read "<50 m": truncation never rounds a distance up into the next band. */
  lemma NiceDistanceTruncates(meters: real)
    requires 0.0 <= meters < 50.0
    ensures FormatNiceDistance(meters) == "<50 m"
  {
    assert TruncReal(meters) == meters.Floor;
    assert meters.Floor < 50;
  }

  /** `leadDistanceMeters`: the head-up display always looks ahead along the normal curve. */
  function LeadDistance(kph: real): (r: real)
    ensures 150.0 <= r <= 900.0
    ensures kph <= 0.0 ==> r == 150.0
    ensures kph > 120.0 ==> r == 900.0
  {
    AlertDistances.LeadDistance(AlertDistances.Normal, kph)
  }

  /** The look-ahead never shrinks as the car speeds up. */
  lemma LeadDistanceMonotone(a: real, b: real)
    requires a <= b
    ensures LeadDistance(a) <= LeadDistance(b)
  {
    AlertDistances.LeadMonotone(AlertDistances.Normal, a, b);
  }

  /** `targetPoint`: the point the chip measures to moves off the hazard's own position only
      for a speed-limit zone whose start is known, and then to that start. */
  lemma TargetPointZoneOnly(h: Hazard)
    ensures TargetPoint(h) != (h.lat, h.lng) ==> h.hazardType == SPEED_LIMIT_ZONE && h.zoneStartLat.Some? && h.zoneStartLng.Some?
    ensures h.hazardType == SPEED_LIMIT_ZONE && h.zoneStartLat.Some? && h.zoneStartLng.Some?
            ==> TargetPoint(h) == (h.zoneStartLat.value, h.zoneStartLng.value)
  {
  }

  // ---------------------------------------------------------------------------------
  // Compass

  /** The sixteen compass points, clockwise from north. */
  const COMPASS: seq<string> := ["N", "NNE", "NE", "ENE", "E", "ESE", "SE", "SSE",
                                 "S", "SSW", "SW", "WSW", "W", "WNW", "NW", "NNW"]

  /** The bearing brought to `[0, 360)` by whole turns when it is negative; a non-negative
      bearing is left alone, however large. */
  function Unwind(bearing: real): (b: real)
    ensures bearing >= 0.0 ==> b == bearing
    ensures bearing < 0.0 ==> 0.0 <= b < 360.0
    ensures b == bearing + 360.0 * TurnsOf(bearing) as real
  {
    if bearing >= 0.0 then bearing else bearing + 360.0 * Turns(bearing) as real
  }

  /** The whole turns `Unwind` adds. */
  function TurnsOf(bearing: real): nat {
    if bearing >= 0.0 then 0 else Turns(bearing)
  }

  /** The number of whole turns that lift a negative bearing to `[0, 360)`. */
  function Turns(bearing: real): (n: nat)
    requires bearing < 0.0
    ensures 0.0 <= bearing + 360.0 * n as real < 360.0
  {
    var f := (bearing / 360.0).Floor;
    assert f as real <= bearing / 360.0 < f as real + 1.0;
    assert 360.0 * f as real <= bearing < 360.0 * f as real + 360.0;
    -f
  }

  /** Two angles of `[0, 360)` a whole number of turns apart are the same angle. */
  lemma SameTurn(x: real, y: real, k: int)
    requires 0.0 <= x < 360.0 && 0.0 <= y < 360.0
    requires x == y + 360.0 * k as real
    ensures k == 0
  {
  }

  /** The sector of a non-negative bearing: sectors are 22.5 degrees wide and centred on the
      compass points, and the count wraps after sixteen. */
  function Sector(b: real): (i: nat)
    requires b >= 0.0
    ensures i < 16
  {
    ToInt((b + 11.25) / 22.5) % 16
  }

  /** `degToCompass`: the point whose sector holds the unwound bearing. */
  function DegToCompass(bearing: real): (r: string)
    ensures r in COMPASS
  {
    COMPASS[Sector(Unwind(bearing))]
  }

  /** The loop of `degToCompass`: whole turns are added while the bearing is negative. */
  method UnwindLoop(bearing: real) returns (b: real)
    ensures b == Unwind(bearing)
  {
    b := bearing;
    ghost var n: nat := 0;
    ghost var k: nat := if bearing < 0.0 then Turns(bearing) else 0;
    while b < 0.0
      invariant b == bearing + 360.0 * n as real
      invariant n <= k
      invariant bearing < 0.0 ==> b < 360.0
      invariant bearing >= 0.0 ==> b == bearing
      decreases k - n
    {
      b := b + 360.0;
      n := n + 1;
    }
    if bearing < 0.0 {
      assert n == k;
    }
  }

  /** `degToCompass` as the source computes it, loop included. */
  method DegToCompassLoop(bearing: real) returns (r: string)
    ensures r == DegToCompass(bearing)
  {
    var b := UnwindLoop(bearing);
    r := COMPASS[Sector(b)];
  }

  /** Within a turn, the chosen point is the nearest one: the bearing lies within 11.25
      degrees of the point's direction, north covering both ends of the circle. */
  lemma CompassNearest(b: real)
    requires 0.0 <= b < 360.0
    ensures var i := Sector(b);
            (i as real * 22.5 - 11.25 <= b < i as real * 22.5 + 11.25)
            || (i == 0 && 348.75 <= b)
  {
    var x := (b + 11.25) / 22.5;
    assert 0.0 < x < 17.0;
    assert TruncReal(x) == x.Floor;
    var f := x.Floor;
    assert 0 <= f <= 16;
    assert f as real <= x < f as real + 1.0;
    assert ToInt(x) == f;
    if f == 16 {
      assert Sector(b) == 0;
    } else {
      assert Sector(b) == f;
    }
  }

  /** A negative bearing names the same point as the bearing one turn further round. */
  lemma CompassPeriodic(bearing: real)
    requires bearing < 0.0
    ensures DegToCompass(bearing) == DegToCompass(bearing + 360.0)
  {
    var u := Unwind(bearing);
    var v := Unwind(bearing + 360.0);
    if bearing + 360.0 >= 0.0 {
      SameTurn(u, bearing + 360.0, TurnsOf(bearing) - 1);
    } else {
      SameTurn(u, v, TurnsOf(bearing) - 1 - TurnsOf(bearing + 360.0));
    }
  }

  // ---------------------------------------------------------------------------------
  // Read-out

  /** The speed shown: km/h truncated toward zero, never below zero. */
  function DisplayedSpeed(speedMps: real): (r: Int32)
    ensures r >= 0
    ensures speedMps <= 0.0 ==> r == 0
    ensures 0.0 <= speedMps * 3.6 < INT_MAX as real ==> r as real <= speedMps * 3.6 < r as real + 1.0
  {
    var k := ToInt(speedMps * 3.6);
    if k < 0 then 0 else k
  }

  /** The speed's text size, larger at higher speeds. */
  function SpeedTextSize(kph: int): (sp: int)
    ensures sp == 40 || sp == 48 || sp == 56
    ensures sp == 56 <==> kph >= 80
    ensures sp == 40 <==> kph < 50
  {
    if kph >= 80 then 56 else if kph >= 50 then 48 else 40
  }

  /** The bearing's text size: twelve below the speed's, but never below 28. */
  function BearingTextSize(sp: int): (r: int)
    ensures r >= 28 && r >= sp - 12
    ensures r == sp - 12 || r == 28
  {
    if sp - 12 < 28 then 28 else sp - 12
  }

  /** What `updateHudFrom` puts on screen. A fix without a bearing shows "N". */
  datatype Hud = Hud(speedText: string, speedSize: int, bearingText: string, bearingSize: int)

  function UpdateHud(speedMps: real, bearing: Option<real>): (h: Hud)
    ensures h.speedText == IntStr(DisplayedSpeed(speedMps))
    ensures h.bearingText in COMPASS
    ensures bearing.None? ==> h.bearingText == "N"
    ensures h.bearingSize < h.speedSize
  {
    var kph := DisplayedSpeed(speedMps);
    var sp := SpeedTextSize(kph);
    Hud(IntStr(kph), sp, if bearing.None? then "N" else DegToCompass(bearing.value), BearingTextSize(sp))
  }

  /** Faster never means smaller text, for the speed or for the bearing. */
  lemma HudSizesMonotone(a: real, b: real)
    requires a <= b
    ensures UpdateHud(a, None).speedSize <= UpdateHud(b, None).speedSize
    ensures UpdateHud(a, None).bearingSize <= UpdateHud(b, None).bearingSize
  {
    var ka := DisplayedSpeed(a);
    var kb := DisplayedSpeed(b);
    assert TruncReal(a * 3.6) <= TruncReal(b * 3.6) by {
      assert a * 3.6 <= b * 3.6;
      TruncMonotone(a * 3.6, b * 3.6);
    }
    assert ka <= kb;
  }

  lemma TruncMonotone(x: real, y: real)
    requires x <= y
    ensures TruncReal(x) <= TruncReal(y)
  {
    if x < 0.0 && y >= 0.0 {
      assert (-x).Floor >= 0;
    } else if x < 0.0 {
      assert -y <= -x;
    }
  }

  // ---------------------------------------------------------------------------------
  // Idle stop

  const IDLE_DISTANCE_METERS: real := 100.0
  const IDLE_TIMEOUT_MS: int := 120000
  /** A move further than this from the baseline counts as movement for `lastMoveTime`. */
  const MOVE_METERS: real := 10.0

  /** A position fix. */
  datatype Fix = Fix(lat: real, lng: real)

  /** The idle-tracking fields of the fragment. */
  datatype IdleState = IdleState(baseline: Option<Fix>, baselineTime: int, lastMoveTime: int)

  const IDLE_START: IdleState := IdleState(None, 0, 0)

  /** One run of `evaluateIdleStop`. When `stop` holds, drive mode ends: the fix is recorded
      as the auto-stop point, the service is stopped and the screen is left. */
  datatype IdleOutcome = IdleOutcome(state: IdleState, stop: bool)

  function EvaluateIdleStop(s: IdleState, fix: Fix, now: int, distance: (Fix, Fix) -> real): (o: IdleOutcome)
    ensures s.baseline.None? ==> o == IdleOutcome(IdleState(Some(fix), now, now), false)
    ensures s.baseline.Some? && distance(s.baseline.value, fix) >= IDLE_DISTANCE_METERS
            ==> o == IdleOutcome(IdleState(Some(fix), now, now), false)
    ensures o.stop <==> s.baseline.Some? && distance(s.baseline.value, fix) < IDLE_DISTANCE_METERS
                        && now - s.baselineTime >= IDLE_TIMEOUT_MS
    ensures !o.stop ==> o.state.baseline.Some?
    ensures o.state.baseline == s.baseline || o.state == IdleState(Some(fix), now, now)
  {
    match s.baseline
    case None => IdleOutcome(IdleState(Some(fix), now, now), false)
    case Some(base) =>
      var d := distance(base, fix);
      if d >= IDLE_DISTANCE_METERS then IdleOutcome(IdleState(Some(fix), now, now), false)
      else
        var moved := if d > MOVE_METERS then s.(lastMoveTime := now) else s;
        IdleOutcome(moved, now - s.baselineTime >= IDLE_TIMEOUT_MS)
  }

  /** `lastMoveTime` is written but never read: two states that differ only there take the
      same decision and keep the same baseline. */
  lemma MoveTimeIsNeverRead(s: IdleState, t: int, fix: Fix, now: int, distance: (Fix, Fix) -> real)
    ensures EvaluateIdleStop(s, fix, now, distance).stop == EvaluateIdleStop(s.(lastMoveTime := t), fix, now, distance).stop
    ensures EvaluateIdleStop(s, fix, now, distance).state.baseline == EvaluateIdleStop(s.(lastMoveTime := t), fix, now, distance).state.baseline
    ensures EvaluateIdleStop(s, fix, now, distance).state.baselineTime == EvaluateIdleStop(s.(lastMoveTime := t), fix, now, distance).state.baselineTime
  {
  }

  /** Replays a run of fixes, stopping at the first that ends drive mode. The result is the
      final state and the index of the stopping fix, if any. */
  function Replay(s: IdleState, fixes: seq<(Fix, int)>, distance: (Fix, Fix) -> real): (r: (IdleState, Option<nat>))
    ensures r.1.Some? ==> r.1.value < |fixes|
    decreases |fixes|
  {
    if |fixes| == 0 then (s, None)
    else
      var o := EvaluateIdleStop(s, fixes[0].0, fixes[0].1, distance);
      if o.stop then (o.state, Some(0))
      else
        var rest := Replay(o.state, fixes[1..], distance);
        (rest.0, if rest.1.Some? then Some(rest.1.value + 1) else None)
  }

  /** Drive mode never stops sooner than two minutes after the baseline was last set: while
      the clock stays below that mark, no fix stops it, whatever the distances. */
  lemma {:induction false} NoStopWithinTimeout(s: IdleState, fixes: seq<(Fix, int)>, distance: (Fix, Fix) -> real)
    requires s.baseline.Some?
    requires forall k :: 0 <= k < |fixes| ==> s.baselineTime <= fixes[k].1 < s.baselineTime + IDLE_TIMEOUT_MS
    requires forall i, j :: 0 <= i < j < |fixes| ==> fixes[i].1 <= fixes[j].1
    ensures Replay(s, fixes, distance).1.None?
    decreases |fixes|
  {
    if |fixes| > 0 {
      var o := EvaluateIdleStop(s, fixes[0].0, fixes[0].1, distance);
      assert !o.stop;
      assert s.baselineTime <= o.state.baselineTime;
      var rest := fixes[1..];
      forall k | 0 <= k < |rest|
        ensures o.state.baselineTime <= rest[k].1 < o.state.baselineTime + IDLE_TIMEOUT_MS
      {
        assert rest[k] == fixes[k + 1];
      }
      NoStopWithinTimeout(o.state, rest, distance);
    }
  }
}

=== FILE: entities.dfy ===
/** The database hazard record (`com.roadwatch.data.entities`), with its own six-constant
    type enum and the source enum. */
module Entities {
  import opened Wrappers
  import opened Numbers
  import opened Text

  /** The six database hazard types, in declaration order. */
  datatype HazardType = SPEED_BUMP | RUMBLE_STRIP | POTHOLE | DEBRIS | POLICE | SPEED_LIMIT_ZONE

  const ALL_TYPES: seq<HazardType> := [SPEED_BUMP, RUMBLE_STRIP, POTHOLE, DEBRIS, POLICE, SPEED_LIMIT_ZONE]

  function TypeName(t: HazardType): string {
    match t
    case SPEED_BUMP => "SPEED_BUMP"
    case RUMBLE_STRIP => "RUMBLE_STRIP"
    case POTHOLE => "POTHOLE"
    case DEBRIS => "DEBRIS"
    case POLICE => "POLICE"
    case SPEED_LIMIT_ZONE => "SPEED_LIMIT_ZONE"
  }

  /** `HazardType.valueOf`: exact name match. */
  function TypeValueOf(name: string): (r: Option<HazardType>)
    ensures r.Some? ==> TypeName(r.value) == name
    ensures r.None? ==> forall t :: TypeName(t) != name
  {
    if name == "SPEED_BUMP" then Some(SPEED_BUMP)
    else if name == "RUMBLE_STRIP" then Some(RUMBLE_STRIP)
    else if name == "POTHOLE" then Some(POTHOLE)
    else if name == "DEBRIS" then Some(DEBRIS)
    else if name == "POLICE" then Some(POLICE)
    else if name == "SPEED_LIMIT_ZONE" then Some(SPEED_LIMIT_ZONE)
    else None
  }

  datatype HazardSource = SEED | USER | IMPORT

  function SourceName(s: HazardSource): string {
    match s
    case SEED => "SEED"
    case USER => "USER"
    case IMPORT => "IMPORT"
  }

  /** `HazardSource.valueOf`: exact name match. */
  function SourceValueOf(name: string): (r: Option<HazardSource>)
    ensures r.Some? ==> SourceName(r.value) == name
    ensures r.None? ==> forall s :: SourceName(s) != name
  {
    if name == "SEED" then Some(SEED)
    else if name == "USER" then Some(USER)
    else if name == "IMPORT" then Some(IMPORT)
    else None
  }

  /** Names and `valueOf` are inverse for both enums. */
  lemma NamesRoundTrip(t: HazardType, s: HazardSource)
    ensures TypeValueOf(TypeName(t)) == Some(t)
    ensures SourceValueOf(SourceName(s)) == Some(s)
  {
  }

  /** Text of capitals and underscores, like every constant name. */
  predicate CapsName(n: string) {
    |n| > 0 && forall i :: 0 <= i < |n| ==> 'A' <= n[i] <= 'Z' || n[i] == '_'
  }

  /** A constant name is unchanged by upper-casing and trimming and holds no comma. */
  lemma CapsFixed(n: string)
    requires CapsName(n)
    ensures Upper(n) == n && Trim(n) == n && ',' !in n
  {
    TrimTrimmed(n);
  }

  lemma NamesAreCaps(t: HazardType, s: HazardSource)
    ensures CapsName(TypeName(t)) && CapsName(SourceName(s))
  {
    match t
    case SPEED_BUMP =>
    case RUMBLE_STRIP =>
    case POTHOLE =>
    case DEBRIS =>
    case POLICE =>
    case SPEED_LIMIT_ZONE =>
  }

  /** Both enums' names are already upper case and free of whitespace and commas. */
  lemma NamesUpper(t: HazardType, s: HazardSource)
    ensures Upper(TypeName(t)) == TypeName(t) && Upper(SourceName(s)) == SourceName(s)
    ensures Trim(TypeName(t)) == TypeName(t) && Trim(SourceName(s)) == SourceName(s)
    ensures ',' !in TypeName(t) && ',' !in SourceName(s)
  {
    NamesAreCaps(t, s);
    CapsFixed(TypeName(t));
    CapsFixed(SourceName(s));
  }

  const DEFAULT_BEARING_TOLERANCE: Double := Decimal(false, 30, "0")
  const DEFAULT_ALERT_RADIUS: Int32 := 120

  /** A row of the hazards table. `id` 0 asks the database to assign one; times are
      epoch milliseconds. */
  datatype Hazard = Hazard(
    id: Int64,
    hazardType: HazardType,
    lat: Double,
    lon: Double,
    headingDeg: Option<Double>,
    bearingToleranceDeg: Double,
    alertRadiusM: Int32,
    speedLimitKph: Option<Int32>,
    zoneEndLat: Option<Double>,
    zoneEndLon: Option<Double>,
    active: bool,
    source: HazardSource,
    createdAt: Int64,
    updatedAt: Int64)

  /** A row with every defaulted field at its default; both times are `now`. */
  function NewHazard(t: HazardType, lat: Double, lon: Double, now: Int64): (h: Hazard)
    ensures h.id == 0 && h.hazardType == t && h.lat == lat && h.lon == lon
    ensures h.headingDeg.None? && h.bearingToleranceDeg == DEFAULT_BEARING_TOLERANCE
    ensures h.alertRadiusM == DEFAULT_ALERT_RADIUS && h.active && h.source == SEED
    ensures h.createdAt == now && h.updatedAt == now
  {
    Hazard(0, t, lat, lon, None, DEFAULT_BEARING_TOLERANCE, DEFAULT_ALERT_RADIUS,
           None, None, None, true, SEED, now, now)
  }

  /** `zoneEndPosition`: present only when both end coordinates are. */
  function ZoneEnd(h: Hazard): (r: Option<(Double, Double)>)
    ensures r.Some? <==> h.zoneEndLat.Some? && h.zoneEndLon.Some?
  {
    if h.zoneEndLat.Some? && h.zoneEndLon.Some? then Some((h.zoneEndLat.value, h.zoneEndLon.value)) else None
  }
}

=== FILE: hazard_dao.dfy ===
/** The `hazards` table behind `HazardDao`: rows keyed by their id, and the table's
    AUTOINCREMENT counter (the largest id ever used). Queries without an ORDER BY give sets
    of rows. An id of 0 asks for a fresh id. */
module HazardDao {
  import opened Wrappers
  import opened Numbers
  import opened Entities

  datatype Table = Table(rows: map<Int64, Hazard>, sequence: Int64)

  const EMPTY_TABLE: Table := Table(map[], 0)

  /** Every row is stored under its own non-zero id, no larger than the counter. */
  predicate Valid(t: Table) {
    t.sequence >= 0 && forall id :: id in t.rows ==> t.rows[id].id == id && id != 0 && id <= t.sequence
  }

  /** `getAllActive`: `WHERE active = 1`. */
  function GetAllActive(t: Table): (r: set<Hazard>)
    ensures forall h :: h in r <==> exists id :: id in t.rows && t.rows[id] == h && h.active
  {
    set id | id in t.rows && t.rows[id].active :: t.rows[id]
  }

  /** SQL `BETWEEN`, inclusive at both ends. */
  predicate Between(x: Double, lo: Double, hi: Double) {
    Value(lo) <= Value(x) <= Value(hi)
  }

  /** `getInBounds`: the active rows inside the box, edges included. */
  function GetInBounds(t: Table, minLat: Double, maxLat: Double, minLon: Double, maxLon: Double): (r: set<Hazard>)
    ensures forall h :: h in r <==>
      h in GetAllActive(t) && Between(h.lat, minLat, maxLat) && Between(h.lon, minLon, maxLon)
  {
    set h | h in GetAllActive(t) && Between(h.lat, minLat, maxLat) && Between(h.lon, minLon, maxLon)
  }

  /** The id a row is stored under: a fresh one for id 0, `None` when the counter is
      exhausted (SQLite then fails the insert). */
  function IdFor(t: Table, h: Hazard): (r: Option<Int64>)
    ensures h.id != 0 ==> r == Some(h.id)
    ensures h.id == 0 && t.sequence < LONG_MAX ==> r == Some(t.sequence + 1)
    ensures h.id == 0 && t.sequence == LONG_MAX ==> r.None?
  {
    if h.id != 0 then Some(h.id) else if t.sequence < LONG_MAX then Some(t.sequence + 1) else None
  }

  /** `upsert` (`OnConflictStrategy.REPLACE`): stores the row under its id, replacing any
      row with that id, and returns the id. */
  function Upsert(t: Table, h: Hazard): (r: (Table, Option<Int64>))
    ensures r.1 == IdFor(t, h)
    ensures r.1.None? ==> r.0 == t
    ensures r.1.Some? ==> var id := r.1.value;
      id in r.0.rows && r.0.rows[id] == h.(id := id)
      && (forall k :: k != id ==> (k in r.0.rows <==> k in t.rows) && (k in t.rows ==> r.0.rows[k] == t.rows[k]))
    ensures Valid(t) ==> Valid(r.0)
    ensures Valid(t) && h.id == 0 && r.1.Some? ==> r.1.value !in t.rows
  {
    match IdFor(t, h)
    case None => (t, None)
    case Some(id) =>
      (Table(t.rows[id := h.(id := id)], if id > t.sequence then id else t.sequence), Some(id))
  }

  /** `upsertAll`: one transaction; if an insert fails nothing is stored. */
  function UpsertAll(t: Table, hs: seq<Hazard>): (r: Option<Table>)
    ensures r.Some? ==> r.value.sequence >= t.sequence
    ensures r.Some? && Valid(t) ==> Valid(r.value)
    decreases |hs|
  {
    if |hs| == 0 then Some(t)
    else
      match Upsert(t, hs[0])
      case (u, None) => None
      case (u, Some(_)) => UpsertAll(u, hs[1..])
  }

  /** Every row after `upsertAll` was there before, or is one of the inserted hazards under
      the id it got. */
  lemma {:induction false} UpsertAllOrigin(t: Table, hs: seq<Hazard>)
    requires UpsertAll(t, hs).Some?
    ensures var r := UpsertAll(t, hs).value;
      forall id :: id in r.rows ==>
        (id in t.rows && r.rows[id] == t.rows[id]) || exists i :: 0 <= i < |hs| && r.rows[id] == hs[i].(id := id)
    decreases |hs|
  {
    if |hs| > 0 {
      var u := Upsert(t, hs[0]).0;
      UpsertAllOrigin(u, hs[1..]);
      var r := UpsertAll(t, hs).value;
      forall id | id in r.rows
        ensures (id in t.rows && r.rows[id] == t.rows[id]) || exists i :: 0 <= i < |hs| && r.rows[id] == hs[i].(id := id)
      {
        if !(id in u.rows && r.rows[id] == u.rows[id]) {
          var i :| 0 <= i < |hs[1..]| && r.rows[id] == hs[1..][i].(id := id);
          assert hs[1..][i] == hs[i + 1];
        } else if id == Upsert(t, hs[0]).1.value {
          assert r.rows[id] == hs[0].(id := id);
        }
      }
    }
  }

  /** In a valid table, `upsertAll` keeps every row whose id none of the hazards names:
      fresh ids lie above every stored one. */
  lemma {:induction false} UpsertAllKeeps(t: Table, hs: seq<Hazard>)
    requires Valid(t) && UpsertAll(t, hs).Some?
    ensures var r := UpsertAll(t, hs).value;
      forall id :: id in t.rows && (forall i :: 0 <= i < |hs| ==> hs[i].id != id) ==>
        id in r.rows && r.rows[id] == t.rows[id]
    decreases |hs|
  {
    if |hs| > 0 {
      var u := Upsert(t, hs[0]).0;
      UpsertAllKeeps(u, hs[1..]);
      var r := UpsertAll(t, hs).value;
      forall id | id in t.rows && (forall i :: 0 <= i < |hs| ==> hs[i].id != id)
        ensures id in r.rows && r.rows[id] == t.rows[id]
      {
        assert hs[0].id != id;
        assert id in u.rows && u.rows[id] == t.rows[id];
        forall i | 0 <= i < |hs[1..]| ensures hs[1..][i].id != id {
          assert hs[1..][i] == hs[i + 1];
        }
      }
    }
  }

  /** Inserting hazards that all ask for a fresh id adds rows only above the counter. */
  lemma {:induction false} UpsertAllNewIdsFresh(t: Table, hs: seq<Hazard>)
    requires Valid(t) && UpsertAll(t, hs).Some?
    requires forall i :: 0 <= i < |hs| ==> hs[i].id == 0
    ensures forall id :: id in UpsertAll(t, hs).value.rows && id !in t.rows ==> id > t.sequence
    decreases |hs|
  {
    if |hs| > 0 {
      var u := Upsert(t, hs[0]).0;
      assert forall i :: 0 <= i < |hs[1..]| ==> hs[1..][i].id == hs[i + 1].id;
      UpsertAllNewIdsFresh(u, hs[1..]);
    }
  }

  /** In a valid table, a successful `upsertAll` of hazards that all ask for a fresh id
      stores every one of them, each under an id of its own. */
  lemma {:induction false} UpsertAllStoresAll(t: Table, hs: seq<Hazard>)
    requires Valid(t) && UpsertAll(t, hs).Some?
    requires forall i :: 0 <= i < |hs| ==> hs[i].id == 0
    ensures var r := UpsertAll(t, hs).value;
      forall i :: 0 <= i < |hs| ==> exists id :: id in r.rows && r.rows[id] == hs[i].(id := id)
    decreases |hs|
  {
    if |hs| > 0 {
      var (u, first) := Upsert(t, hs[0]);
      var id0 := first.value;
      var rest := hs[1..];
      assert forall i :: 0 <= i < |rest| ==> rest[i].id == hs[i + 1].id;
      UpsertAllStoresAll(u, rest);
      UpsertAllKeeps(u, rest);
      var r := UpsertAll(t, hs).value;
      assert r == UpsertAll(u, rest).value;
      forall i | 0 <= i < |hs| ensures exists id :: id in r.rows && r.rows[id] == hs[i].(id := id) {
        if i == 0 {
          assert id0 in r.rows && r.rows[id0] == hs[0].(id := id0);
        } else {
          assert rest[i - 1] == hs[i];
        }
      }
    }
  }

  /** `update`: replaces the row with the same id; with no such row nothing changes. */
  function Update(t: Table, h: Hazard): (r: Table)
    ensures h.id in t.rows ==> r.rows == t.rows[h.id := h]
    ensures h.id !in t.rows ==> r == t
    ensures r.sequence == t.sequence && r.rows.Keys == t.rows.Keys
  {
    if h.id in t.rows then Table(t.rows[h.id := h], t.sequence) else t
  }

  /** `delete(id)`. */
  function Delete(t: Table, id: Int64): (r: Table)
    ensures id !in r.rows
    ensures forall k :: k != id ==> (k in r.rows <==> k in t.rows) && (k in t.rows ==> r.rows[k] == t.rows[k])
  {
    Table(t.rows - {id}, t.sequence)
  }

  /** The ids of the rows from the seed file. */
  function SeedIds(t: Table): set<Int64> {
    set id | id in t.rows && t.rows[id].source == SEED
  }

  /** `getSeedCount`: `COUNT(*) WHERE source = 'SEED'`. */
  function GetSeedCount(t: Table): nat {
    |SeedIds(t)|
  }

  /** `deleteAllSeeds`: drops exactly the seed rows. */
  function DeleteAllSeeds(t: Table): (r: Table)
    ensures forall id :: id in r.rows <==> id in t.rows && t.rows[id].source != SEED
    ensures forall id :: id in r.rows ==> r.rows[id] == t.rows[id]
    ensures GetSeedCount(r) == 0
  {
    var r := Table(map id | id in t.rows && t.rows[id].source != SEED :: t.rows[id], t.sequence);
    assert SeedIds(r) == {};
    r
  }
}

=== FILE: hazard_repository.dfy ===
/** `HazardRepository`: the app's access to the hazards table, rewriting a hazard's source
    or update time on the way in and filtering on the way out. */
module HazardRepository {
  import opened Wrappers
  import opened Numbers
  import opened Entities
  import HazardDao
  import SeedLoader

  datatype ImportResult = ImportResult(added: nat, updated: nat, skipped: nat)

  /** `getAllActiveHazards`. */
  function GetAllActiveHazards(t: HazardDao.Table): set<Hazard> {
    HazardDao.GetAllActive(t)
  }

  /** `getHazardsInBounds`: exactly the active rows with both coordinates inside the
      inclusive box. */
  function GetHazardsInBounds(t: HazardDao.Table, minLat: Double, maxLat: Double, minLon: Double, maxLon: Double): (r: set<Hazard>)
    ensures forall h :: h in r <==>
      (exists id :: id in t.rows && t.rows[id] == h) && h.active
      && Value(minLat) <= Value(h.lat) <= Value(maxLat) && Value(minLon) <= Value(h.lon) <= Value(maxLon)
  {
    HazardDao.GetInBounds(t, minLat, maxLat, minLon, maxLon)
  }

  /** `addHazard`: whatever its source, the hazard is stored as the user's. */
  function AddHazard(t: HazardDao.Table, h: Hazard): (r: (HazardDao.Table, Option<Int64>))
    ensures r.1.Some? ==> (r.1.value in r.0.rows && r.0.rows[r.1.value].source == USER
                           && r.0.rows[r.1.value] == h.(source := USER, id := r.1.value))
  {
    HazardDao.Upsert(t, h.(source := USER))
  }

  /** `updateHazard`: the row with the hazard's id becomes the hazard, stamped `now`. */
  function UpdateHazard(t: HazardDao.Table, h: Hazard, now: Int64): (r: HazardDao.Table)
    ensures h.id in t.rows ==> h.id in r.rows && r.rows[h.id].updatedAt == now && r.rows[h.id] == h.(updatedAt := now)
    ensures forall id :: id != h.id && id in t.rows ==> id in r.rows && r.rows[id] == t.rows[id]
    ensures h.id !in t.rows ==> r == t
  {
    HazardDao.Update(t, h.(updatedAt := now))
  }

  /** `deleteHazard`: the row with that id goes, and every other row stays as it was. */
  function DeleteHazard(t: HazardDao.Table, id: Int64): (r: HazardDao.Table)
    ensures id !in r.rows
    ensures forall k :: k != id ==> (k in r.rows <==> k in t.rows) && (k in t.rows ==> r.rows[k] == t.rows[k])
  {
    HazardDao.Delete(t, id)
  }

  /** `reloadSeeds`: the seed loader's load. With seeds present and no replacement nothing
      changes. Otherwise every row afterwards is an old row or a freshly parsed active seed,
      and a failed insert adds none. In a valid table rows that are not seeds are kept, a
      replacing load leaves no old seed row, and a load that succeeds stores every parsed
      seed. */
  function ReloadSeeds(t: HazardDao.Table, replaceExisting: bool, file: SeedLoader.SeedFile, now: Int64): (r: (HazardDao.Table, bool))
    ensures !replaceExisting && HazardDao.GetSeedCount(t) > 0 ==> r == (t, true)
    ensures forall id :: id in r.0.rows ==>
      (id in t.rows && r.0.rows[id] == t.rows[id]) || (r.0.rows[id].source == SEED && r.0.rows[id].active)
    ensures !r.1 ==> forall id :: id in r.0.rows ==> id in t.rows && r.0.rows[id] == t.rows[id]
    ensures HazardDao.Valid(t) ==> HazardDao.Valid(r.0)
    ensures HazardDao.Valid(t) ==>
      forall id :: id in t.rows && t.rows[id].source != SEED ==> id in r.0.rows && r.0.rows[id] == t.rows[id]
    ensures HazardDao.Valid(t) && replaceExisting ==>
      forall id :: id in r.0.rows && r.0.rows[id].source == SEED ==> id !in t.rows || t.rows[id].source != SEED
    ensures HazardDao.Valid(t) && r.1 && (replaceExisting || HazardDao.GetSeedCount(t) == 0) ==>
      var seeds := SeedLoader.ParseSeedsCsv(file, now);
      forall i :: 0 <= i < |seeds| ==> exists id :: id in r.0.rows && r.0.rows[id] == seeds[i].(id := id)
  {
    SeedLoader.LoadSeedsEffect(t, replaceExisting, file, now);
    SeedLoader.LoadSeedsIfEmpty(t, replaceExisting, file, now)
  }

  /** The hazards re-labelled as imported. */
  function AsImported(hs: seq<Hazard>): (r: seq<Hazard>)
    ensures |r| == |hs| && forall i :: 0 <= i < |hs| ==> r[i] == hs[i].(source := IMPORT)
  {
    seq(|hs|, i requires 0 <= i < |hs| => hs[i].(source := IMPORT))
  }

  /** `importHazards`: every hazard is stored as imported and all are counted as added;
      nothing is compared with the rows already there. */
  function ImportHazards(t: HazardDao.Table, hs: seq<Hazard>): (r: (Option<HazardDao.Table>, ImportResult))
    ensures r.1 == ImportResult(|hs|, 0, 0)
  {
    (HazardDao.UpsertAll(t, AsImported(hs)), ImportResult(|hs|, 0, 0))
  }

  /** After an import every row is an old one or an imported hazard marked IMPORT. */
  lemma ImportMarksSource(t: HazardDao.Table, hs: seq<Hazard>)
    requires ImportHazards(t, hs).0.Some?
    ensures var u := ImportHazards(t, hs).0.value;
      forall id :: id in u.rows ==> (id in t.rows && u.rows[id] == t.rows[id]) || u.rows[id].source == IMPORT
  {
    HazardDao.UpsertAllOrigin(t, AsImported(hs));
  }

  /** `exportHazards`: the active rows that did not come from the seed file. */
  function ExportHazards(t: HazardDao.Table): (r: set<Hazard>)
    ensures forall h :: h in r <==> h in GetAllActiveHazards(t) && h.source != SEED
  {
    set h | h in HazardDao.GetAllActive(t) && h.source != SEED
  }

  /** A hazard added through the repository is exported while it stays active. */
  lemma AddedIsExported(t: HazardDao.Table, h: Hazard)
    requires h.active && AddHazard(t, h).1.Some?
    ensures AddHazard(t, h).0.rows[AddHazard(t, h).1.value] in ExportHazards(AddHazard(t, h).0)
  {
    var (u, id) := AddHazard(t, h);
    assert u.rows[id.value].active;
  }
}

=== FILE: hazard_store.dfy ===
/** The user's own hazards, kept in a nine-column comma-separated file (`user_hazards.csv`):
    appending a report, listing the file back, deleting by id and toggling the active flag.
    The file is modelled as its sequence of lines; `None` is a missing file. */
module HazardStore {
  import opened Wrappers
  import opened Text
  import opened Numbers
  import opened Hazards
  import opened Seqs

  const HEADER_FIELDS: seq<string> :=
    ["id", "type", "lat", "lng", "active", "bearingSide", "directionality", "source", "createdAt"]
  /** The header line: "id,type,lat,lng,active,bearingSide,directionality,source,createdAt". */
  const HEADER: string := Join(HEADER_FIELDS, ',')
  const COLUMNS: nat := 9

  type File = Option<seq<string>>

  /** `Boolean.toString()`. */
  function BoolText(b: bool): string {
    if b then "true" else "false"
  }

  /** `toBooleanStrictOrNull()`: exactly "true" or "false". */
  function ParseBoolStrict(s: string): (r: Option<bool>)
    ensures r == Some(true) <==> s == "true"
    ensures r == Some(false) <==> s == "false"
  {
    if s == "true" then Some(true) else if s == "false" then Some(false) else None
  }

  /** The nine fields written for one entry, in header order. */
  function Fields(id: string, h: Hazard): (r: seq<string>)
    ensures |r| == COLUMNS
  {
    [id, TypeName(h.hazardType), FormatDouble(h.lat), FormatDouble(h.lng), BoolText(h.active),
     h.bearingSide, h.directionality, h.source, InstantText(h.createdAt)]
  }

  /** One line of the file. */
  function Line(id: string, h: Hazard): string {
    Join(Fields(id, h), ',')
  }

  /** The store's constructor: a missing file is created holding only the header. */
  function Init(f: File): (r: File)
    ensures r.Some?
    ensures f.Some? ==> r == f
  {
    if f.None? then Some([HEADER]) else f
  }

  /** `add`: appends one line whose id is the current time in milliseconds. `ok` is false
      when the append throws, and then nothing is written. Appending creates a missing file. */
  function Add(f: File, h: Hazard, nowMillis: Int64, ok: bool): (r: (File, bool))
    ensures r.1 == ok
    ensures !ok ==> r.0 == f
    ensures ok ==> r.0 == Some(f.GetOr([]) + [Line(IntStr(nowMillis), h)])
  {
    if !ok then (f, false) else (Some(f.GetOr([]) + [Line(IntStr(nowMillis), h)]), true)
  }

  /** Builds an entry from the fields of a line; `None` where a conversion throws. */
  function Entry(parts: seq<string>): (r: Option<UserHazard>)
    requires |parts| >= COLUMNS
    ensures r.Some? ==> r.value.id == parts[0]
  {
    match (ValueOf(parts[1]), ParseDouble(parts[2]), ParseDouble(parts[3]), ParseInstant(parts[8]))
    case (Some(t), Some(lat), Some(lng), Some(created)) =>
      Some(UserHazard(parts[0], NewHazard(t, lat, lng).(
        active := ParseBoolStrict(parts[4]).GetOr(true),
        bearingSide := parts[5], directionality := parts[6], source := parts[7],
        createdAt := created)))
    case _ => None
  }

  /** Reading one line back: the header and lines with fewer than nine fields are skipped,
      and so is a line whose type, coordinates or time does not parse. An active field
      other than "true" or "false" reads as active. */
  function ParseLine(raw: string): (r: Option<UserHazard>)
    ensures r.Some? ==> !StartsWith(raw, "id,") && |Split(raw, ',')| >= COLUMNS
    ensures r.Some? ==> r == Entry(Split(raw, ','))
  {
    if StartsWith(raw, "id,") then None
    else
      var parts := Split(raw, ',');
      if |parts| < COLUMNS then None else Entry(parts)
  }

  /** The entries of a sequence of lines, in file order. */
  function ParseLines(lines: seq<string>): seq<UserHazard> {
    FilterMap(lines, ParseLine)
  }

  /** `list`: every well-formed entry of the file; a missing file lists nothing. */
  function List(f: File): seq<UserHazard> {
    match f
    case None => []
    case Some(lines) => ParseLines(lines)
  }

  /** The part of a hazard the file keeps: the nine stored fields, everything else at
      its default. */
  function Persisted(h: Hazard): (p: Hazard)
    ensures p.hazardType == h.hazardType && p.lat == h.lat && p.lng == h.lng && p.active == h.active
    ensures p.bearingSide == h.bearingSide && p.directionality == h.directionality
    ensures p.source == h.source && p.createdAt == h.createdAt
    ensures p.speedLimitKph.None? && p.zoneLengthMeters.None? && p.zoneEndLat.None? && p.id.None?
  {
    NewHazard(h.hazardType, h.lat, h.lng).(active := h.active, bearingSide := h.bearingSide,
      directionality := h.directionality, source := h.source, createdAt := h.createdAt)
  }

  /** An entry survives a write and a read: its free-text fields hold no comma and its id
      is not the header's first column name. */
  predicate Storable(u: UserHazard) {
    ',' !in u.id && u.id != "id" && ',' !in u.hazard.bearingSide
    && ',' !in u.hazard.directionality && ',' !in u.hazard.source
  }

  /** A line begins with the header's "id," exactly when its id is "id". */
  lemma LineStartsLikeHeader(id: string, h: Hazard)
    requires ',' !in id
    ensures StartsWith(Line(id, h), "id,") <==> id == "id"
  {
    var line := Line(id, h);
    var fs := Fields(id, h);
    assert fs[0] == id && |fs| == 9;
    assert Join(fs, ',') == fs[0] + [','] + Join(fs[1..], ',');
    assert line == id + [','] + Join(fs[1..], ',');
    if StartsWith(line, "id,") {
      assert line[..3] == "id,";
      assert line[0] == 'i' && line[1] == 'd' && line[2] == ',';
      assert forall k :: 0 <= k < |id| ==> line[k] == id[k];
      assert line[|id|] == ',';
      assert |id| == 2;
      assert id == line[..2];
    }
  }

  /** The fields of a stored entry hold no comma. */
  lemma FieldsClean(u: UserHazard)
    requires Storable(u)
    ensures NoSeparator(Fields(u.id, u.hazard), ',')
  {
    var h := u.hazard;
    TypeNameChars(h.hazardType, ',');
    NumeralExcludes(FormatDouble(h.lat), ',');
    NumeralExcludes(FormatDouble(h.lng), ',');
    InstantTextExcludes(h.createdAt, ',');
  }

  /** The fields of a stored entry convert back to the entry's persisted part. */
  lemma EntryOfFields(u: UserHazard)
    ensures Entry(Fields(u.id, u.hazard)) == Some(UserHazard(u.id, Persisted(u.hazard)))
  {
    var h := u.hazard;
    ParseFormatDouble(h.lat);
    ParseFormatDouble(h.lng);
    ParseInstantText(h.createdAt);
    TypeNameInjective(h.hazardType, h.hazardType);
  }

  /** Every line the store writes reads back as the persisted part of its entry. */
  lemma ParseLineOfLine(u: UserHazard)
    requires Storable(u)
    ensures ParseLine(Line(u.id, u.hazard)) == Some(UserHazard(u.id, Persisted(u.hazard)))
  {
    FieldsClean(u);
    SplitJoin(Fields(u.id, u.hazard), ',');
    LineStartsLikeHeader(u.id, u.hazard);
    EntryOfFields(u);
  }

  /** The header line is skipped. */
  lemma HeaderSkipped()
    ensures ParseLine(HEADER) == None
  {
    assert HEADER == "id" + [','] + Join(HEADER_FIELDS[1..], ',');
    assert HEADER[..3] == "id,";
  }

  /** Every entry read from a file can be written back unchanged. */
  lemma ParsedIsStorable(raw: string)
    requires ParseLine(raw).Some?
    ensures Storable(ParseLine(raw).value)
    ensures Persisted(ParseLine(raw).value.hazard) == ParseLine(raw).value.hazard
  {
    var parts := Split(raw, ',');
    SplitFieldsClean(raw, ',');
    assert ',' !in parts[0] && ',' !in parts[5] && ',' !in parts[6] && ',' !in parts[7];
    if parts[0] == "id" {
      JoinSplit(raw, ',');
    }
  }

  /** The lines `writeAll` produces: the header, then one line per entry. */
  function AllLines(items: seq<UserHazard>): (r: seq<string>)
    ensures |r| == |items| + 1 && r[0] == HEADER
  {
    if |items| == 0 then [HEADER] else AllLines(items[..|items| - 1]) + [Line(items[|items| - 1].id, items[|items| - 1].hazard)]
  }

  /** `writeAll`: rewrites the file. `failAt` is the index of the first write (header
      first, then one per entry) that throws; the writes before it stay in the file and
      the result is false. */
  function WriteAll(items: seq<UserHazard>, failAt: Option<nat>): (r: (File, bool))
    ensures r.0.Some?
    ensures r.1 <==> failAt.None? || failAt.value > |items|
    ensures r.1 ==> r.0 == Some(AllLines(items))
    ensures !r.1 ==> r.0 == Some(AllLines(items)[..failAt.value])
  {
    var lines := AllLines(items);
    match failAt
    case Some(k) => if k < |lines| then (Some(lines[..k]), false) else (Some(lines), true)
    case None => (Some(lines), true)
  }

  function PersistedAll(items: seq<UserHazard>): (r: seq<UserHazard>)
    ensures |r| == |items|
    ensures forall i :: 0 <= i < |items| ==> r[i] == UserHazard(items[i].id, Persisted(items[i].hazard))
  {
    if |items| == 0 then [] else PersistedAll(items[..|items| - 1]) + [UserHazard(items[|items| - 1].id, Persisted(items[|items| - 1].hazard))]
  }

  /** The lines written for some entries parse back to their persisted parts. */
  lemma {:induction false} ParseAllLines(items: seq<UserHazard>)
    requires forall u :: u in items ==> Storable(u)
    ensures ParseLines(AllLines(items)) == PersistedAll(items)
    decreases |items|
  {
    if |items| == 0 {
      HeaderSkipped();
      assert ParseLines([HEADER]) == [];
    } else {
      var init := items[..|items| - 1];
      var last := items[|items| - 1];
      var line := Line(last.id, last.hazard);
      var entry := UserHazard(last.id, Persisted(last.hazard));
      assert forall u :: u in init ==> u in items;
      ParseAllLines(init);
      var before := AllLines(init);
      assert AllLines(items) == before + [line];
      assert PersistedAll(items) == PersistedAll(init) + [entry];
      ParseLineOfLine(last);
      FilterMapSnoc(before, line, ParseLine, entry);
    }
  }

  /** Writing entries and listing them back gives their persisted parts, in order. */
  lemma ListAfterWriteAll(items: seq<UserHazard>)
    requires forall u :: u in items ==> Storable(u)
    ensures List(WriteAll(items, None).0) == PersistedAll(items)
  {
    ParseAllLines(items);
  }

  /** Entries that are storable and already hold only persisted fields. */
  predicate Clean(items: seq<UserHazard>) {
    forall u :: u in items ==> Storable(u) && Persisted(u.hazard) == u.hazard
  }

  /** Clean entries are listed back exactly as written. */
  lemma ListAfterWriteAllClean(items: seq<UserHazard>)
    requires Clean(items)
    ensures List(WriteAll(items, None).0) == items
  {
    ListAfterWriteAll(items);
    assert forall i :: 0 <= i < |items| ==> items[i] in items;
  }

  /** Entries read from a file are clean. */
  lemma ParsedLinesClean(lines: seq<string>)
    ensures Clean(ParseLines(lines))
  {
    var r := ParseLines(lines);
    forall u | u in r
      ensures Storable(u) && Persisted(u.hazard) == u.hazard
    {
      var i :| 0 <= i < |r| && r[i] == u;
      FilterMapOrigin(lines, ParseLine, i);
      var j :| 0 <= j < |lines| && ParseLine(lines[j]) == Some(r[i]);
      ParsedIsStorable(lines[j]);
    }
  }

  /** Rewriting what was read keeps the listing as it was. */
  lemma RewriteKeepsList(f: File)
    ensures List(WriteAll(List(f), None).0) == List(f)
  {
    match f
    case None =>
      ListAfterWriteAll([]);
    case Some(lines) =>
      ParsedLinesClean(lines);
      ListAfterWriteAllClean(List(f));
  }

  /** Flipping the active flag of every entry with the given id. */
  function ToggleIn(items: seq<UserHazard>, id: string): (r: seq<UserHazard>)
    ensures |r| == |items|
    ensures forall i :: 0 <= i < |items| ==> (r[i].id == items[i].id && r[i].hazard == (
      if items[i].id == id then items[i].hazard.(active := !items[i].hazard.active) else items[i].hazard))
  {
    if |items| == 0 then []
    else
      var u := items[0];
      [if u.id == id then UserHazard(u.id, u.hazard.(active := !u.hazard.active)) else u] + ToggleIn(items[1..], id)
  }

  /** Toggling twice restores every entry. */
  lemma ToggleTwice(items: seq<UserHazard>, id: string)
    ensures ToggleIn(ToggleIn(items, id), id) == items
  {
  }

  /** `toggleActive`. */
  function ToggleActive(f: File, id: string, failAt: Option<nat>): (File, bool) {
    WriteAll(ToggleIn(List(f), id), failAt)
  }

  /** Toggling keeps entries clean. */
  lemma ToggleKeepsClean(items: seq<UserHazard>, id: string)
    requires Clean(items)
    ensures Clean(ToggleIn(items, id))
  {
    var r := ToggleIn(items, id);
    forall u | u in r
      ensures Storable(u) && Persisted(u.hazard) == u.hazard
    {
      var i :| 0 <= i < |r| && r[i] == u;
      assert items[i] in items;
    }
  }

  /** After a successful toggle the listing is the old one with that id's entries flipped,
      and toggling again restores the old listing. */
  lemma ToggleActiveTwice(f: File, id: string)
    ensures List(ToggleActive(f, id, None).0) == ToggleIn(List(f), id)
    ensures List(ToggleActive(ToggleActive(f, id, None).0, id, None).0) == List(f)
  {
    var xs := List(f);
    if f.Some? {
      ParsedLinesClean(f.value);
    }
    ToggleKeepsClean(xs, id);
    var ys := ToggleIn(xs, id);
    ListAfterWriteAllClean(ys);
    ToggleKeepsClean(ys, id);
    ToggleTwice(xs, id);
    ListAfterWriteAllClean(ToggleIn(ys, id));
  }

  /** `delete`: a missing file answers false; otherwise every entry with that id is dropped. */
  function Delete(f: File, id: string, failAt: Option<nat>): (r: (File, bool))
    ensures f.None? ==> r == (f, false)
  {
    if f.None? then (f, false) else WriteAll(Filter(List(f), (u: UserHazard) => u.id != id), failAt)
  }

  /** After a successful delete the listing is the old one without that id's entries. */
  lemma DeleteRemovesId(lines: seq<string>, id: string)
    ensures List(Delete(Some(lines), id, None).0) == Filter(List(Some(lines)), (u: UserHazard) => u.id != id)
  {
    var xs := List(Some(lines));
    var kept := Filter(xs, (u: UserHazard) => u.id != id);
    ParsedLinesClean(lines);
    ListAfterWriteAllClean(kept);
  }

  /** A successful add lists the new entry last, under the time-stamp id, after the
      entries already there. */
  lemma ListAfterAdd(f: File, h: Hazard, nowMillis: Int64)
    requires Storable(UserHazard(IntStr(nowMillis), h))
    ensures List(Add(f, h, nowMillis, true).0) == List(f) + [UserHazard(IntStr(nowMillis), Persisted(h))]
  {
    var line := Line(IntStr(nowMillis), h);
    FilterMapAppend(f.GetOr([]), [line], ParseLine);
    ParseLineOfLine(UserHazard(IntStr(nowMillis), h));
  }

  /** A time-stamp id never contains a comma and is never the header's "id". */
  lemma TimestampIdStorable(nowMillis: Int64, h: Hazard)
    requires ',' !in h.bearingSide && ',' !in h.directionality && ',' !in h.source
    ensures Storable(UserHazard(IntStr(nowMillis), h))
  {
    var s := IntStr(nowMillis);
    NumeralExcludes(s, ',');
    NumeralExcludes(s, 'i');
    assert "id"[0] == 'i';
  }
}

=== FILE: hazards.dfy ===
/** The app-side hazard record (`com.roadwatch.data`): the four hazard types with their
    lenient name parser, the hazard itself and the stored user hazard. */
module Hazards {
  import opened Wrappers
  import opened Text
  import opened Numbers

  /** The four hazard types, in declaration order. */
  datatype HazardType = SPEED_BUMP | POTHOLE | RUMBLE_STRIP | SPEED_LIMIT_ZONE

  const ALL_TYPES: seq<HazardType> := [SPEED_BUMP, POTHOLE, RUMBLE_STRIP, SPEED_LIMIT_ZONE]

  /** The constant's `name`. */
  function TypeName(t: HazardType): string {
    match t
    case SPEED_BUMP => "SPEED_BUMP"
    case POTHOLE => "POTHOLE"
    case RUMBLE_STRIP => "RUMBLE_STRIP"
    case SPEED_LIMIT_ZONE => "SPEED_LIMIT_ZONE"
  }

  /** `HazardType.valueOf(name)`: exact name match; `None` where the source throws. */
  function ValueOf(name: string): (r: Option<HazardType>)
    ensures r.Some? ==> TypeName(r.value) == name
    ensures r.None? ==> forall t :: TypeName(t) != name
  {
    if name == "SPEED_BUMP" then Some(SPEED_BUMP)
    else if name == "POTHOLE" then Some(POTHOLE)
    else if name == "RUMBLE_STRIP" then Some(RUMBLE_STRIP)
    else if name == "SPEED_LIMIT_ZONE" then Some(SPEED_LIMIT_ZONE)
    else None
  }

  /** The key `fromString` looks up: trimmed, upper-cased, spaces turned into underscores. */
  function NormalizeTypeKey(raw: string): string {
    ReplaceChar(Upper(Trim(raw)), ' ', '_')
  }

  /** `HazardType.fromString`: the type whose name equals the normalised key. */
  function FromString(raw: string): (r: Option<HazardType>)
    ensures r.Some? <==> exists t :: TypeName(t) == NormalizeTypeKey(raw)
    ensures r.Some? ==> TypeName(r.value) == NormalizeTypeKey(raw)
  {
    ValueOf(NormalizeTypeKey(raw))
  }

  /** Text made of capital letters and underscores, like every constant name. */
  predicate UpperSnake(s: string) {
    forall i :: 0 <= i < |s| ==> ('A' <= s[i] <= 'Z') || s[i] == '_'
  }

  /** Lower-casing a constant name and spacing it out is undone by the parser's
      upper-casing and underscoring. */
  lemma SpacedSpellingRoundTrip(n: string)
    requires UpperSnake(n)
    ensures ReplaceChar(Upper(ReplaceChar(Lower(n), '_', ' ')), ' ', '_') == n
  {
  }

  /** Trimming strips one space of padding on either side of a word. */
  lemma TrimPadded(x: string)
    requires |x| > 0 && !IsWhitespace(x[0]) && !IsWhitespace(x[|x| - 1])
    ensures Trim(" " + x + " ") == x
  {
    assert (" " + x + " ")[1..] == x + " ";
    assert TrimStart(" " + x + " ") == x + " ";
    assert (x + " ")[..|x|] == x;
  }

  /** A constant-style name normalises to itself. */
  lemma NormalizeName(n: string)
    requires UpperSnake(n)
    requires |n| > 0 ==> !IsWhitespace(n[0]) && !IsWhitespace(n[|n| - 1])
    ensures NormalizeTypeKey(n) == n
  {
    TrimTrimmed(n);
    var u := Upper(n);
    forall i | 0 <= i < |n| ensures u[i] == n[i] && n[i] != ' ' {
      assert UpperSnake(n);
    }
    assert u == n;
    var r := ReplaceChar(u, ' ', '_');
    assert forall i :: 0 <= i < |n| ==> r[i] == n[i];
    assert r == n;
  }

  /** A constant-style name spelled lower-case, with spaces and padded, normalises to the name. */
  lemma NormalizeSpacedName(n: string)
    requires UpperSnake(n) && |n| > 0 && n[0] != '_' && n[|n| - 1] != '_'
    ensures NormalizeTypeKey(" " + ReplaceChar(Lower(n), '_', ' ') + " ") == n
  {
    var inner := ReplaceChar(Lower(n), '_', ' ');
    assert !IsWhitespace(inner[0]) && !IsWhitespace(inner[|inner| - 1]);
    TrimPadded(inner);
    SpacedSpellingRoundTrip(n);
  }

  /** Constant names are capitals and underscores, starting and ending with a letter. */
  lemma NameShape(t: HazardType)
    ensures var n := TypeName(t); UpperSnake(n) && |n| > 0 && n[0] != '_' && n[|n| - 1] != '_'
  {
    match t
    case SPEED_BUMP =>
    case POTHOLE =>
    case RUMBLE_STRIP =>
    case SPEED_LIMIT_ZONE =>
  }

  /** Every name is found again by the lenient parser. */
  lemma FromStringName(t: HazardType)
    ensures FromString(TypeName(t)) == Some(t)
  {
    NameShape(t);
    NormalizeName(TypeName(t));
    TypeNameInjective(t, t);
  }

  /** Every name is found again by the lenient parser, and so is its lower-case,
      space-separated, padded spelling. */
  lemma FromStringAcceptsNames(t: HazardType)
    ensures FromString(TypeName(t)) == Some(t)
    ensures FromString(" " + ReplaceChar(Lower(TypeName(t)), '_', ' ') + " ") == Some(t)
  {
    FromStringName(t);
    NameShape(t);
    NormalizeSpacedName(TypeName(t));
    TypeNameInjective(t, t);
  }

  /** No constant name has two underscores in a row. */
  lemma NoDoubleUnderscore(t: HazardType, j: int)
    requires 0 <= j && j + 1 < |TypeName(t)|
    ensures !(TypeName(t)[j] == '_' && TypeName(t)[j + 1] == '_')
  {
  }

  /** Only a single space between words becomes an underscore: text with two spaces in a
      row (and nothing to trim at its ends) normalises to a key no constant is named, so
      the parser finds nothing. */
  lemma FromStringRejectsDoubleSpace(raw: string, i: nat)
    requires |raw| > 0 && !IsWhitespace(raw[0]) && !IsWhitespace(raw[|raw| - 1])
    requires i + 1 < |raw| && raw[i] == ' ' && raw[i + 1] == ' '
    ensures FromString(raw) == None
  {
    TrimTrimmed(raw);
    var k := NormalizeTypeKey(raw);
    assert k[i] == '_' && k[i + 1] == '_';
    forall t: HazardType ensures TypeName(t) != k {
      if TypeName(t) == k {
        NoDoubleUnderscore(t, i);
      }
    }
  }

  /** Names are distinct, so `valueOf` and `name` are inverse. */
  lemma TypeNameInjective(t: HazardType, u: HazardType)
    ensures TypeName(t) == TypeName(u) ==> t == u
    ensures ValueOf(TypeName(t)) == Some(t)
  {
  }

  /** Type names contain only capitals and underscores. */
  lemma TypeNameChars(t: HazardType, c: char)
    requires !('A' <= c <= 'Z') && c != '_'
    ensures c !in TypeName(t)
  {
  }

  /** A hazard. Besides the fields `Hazard.kt` declares, it carries the ones its callers
      read and write (heading and bearings, zone end points, id, update time, vote count);
      each has the default the callers rely on. */
  datatype Hazard = Hazard(
    hazardType: HazardType,
    lat: Double,
    lng: Double,
    bearingSide: string,
    directionality: string,
    active: bool,
    source: string,
    createdAt: Instant,
    speedLimitKph: Option<Int32>,
    zoneLengthMeters: Option<Int32>,
    reportedHeadingDeg: Double,
    userBearing: Option<Double>,
    roadBearing: Option<Double>,
    zoneStartLat: Option<Double>,
    zoneStartLng: Option<Double>,
    zoneEndLat: Option<Double>,
    zoneEndLng: Option<Double>,
    id: Option<string>,
    updatedAt: Option<Instant>,
    votesCount: Option<Int32>)

  /** A hazard with every optional field at its default. */
  function NewHazard(t: HazardType, lat: Double, lng: Double): (h: Hazard)
    ensures h.hazardType == t && h.lat == lat && h.lng == lng
    ensures h.active && h.source == "SEED" && h.createdAt == EPOCH
    ensures h.bearingSide == "UNKNOWN" && h.directionality == "UNKNOWN"
    ensures h.speedLimitKph.None? && h.zoneLengthMeters.None?
  {
    Hazard(t, lat, lng, "UNKNOWN", "UNKNOWN", true, "SEED", EPOCH, None, None,
           ZERO, None, None, None, None, None, None, None, None, None)
  }

  /** `targetPoint` (the alert manager and the drive screen define it alike): a speed-limit
      zone with both start coordinates is approached at its start, any other hazard at its
      own point. */
  function TargetPoint(h: Hazard): (Double, Double) {
    if h.hazardType == SPEED_LIMIT_ZONE && h.zoneStartLat.Some? && h.zoneStartLng.Some? then
      (h.zoneStartLat.value, h.zoneStartLng.value)
    else (h.lat, h.lng)
  }

  /** A hazard from the user's store, under the id the store gave it. */
  datatype UserHazard = UserHazard(id: string, hazard: Hazard)

  /** Outcome of loading the bundled seed file. */
  datatype SeedLoadResult = SeedLoadResult(loaded: bool, count: nat)
}

=== FILE: import_export.dfy ===
/** `ImportExportManager`: the 12-column hazard CSV that the app exports to a document and
    imports back, over the repository. The document, the clock and the database failure
    message are parameters. */
module ImportExport {
  import opened Wrappers
  import opened Text
  import opened Numbers
  import opened Seqs
  import opened Entities
  import SeedLoader
  import HazardDao
  import HazardRepository

  const HEADER_FIELDS: seq<string> :=
    ["type", "lat", "lon", "heading", "bearing_tolerance", "alert_radius", "speed_limit",
     "zone_end_lat", "zone_end_lon", "source", "created_at", "updated_at"]
  /** The header line the export writes first. */
  const HEADER: string := Join(HEADER_FIELDS, ',')
  const COLUMNS: nat := 12

  // ---------------------------------------------------------------------------------
  // Enum parsing

  /** `parseHazardType`: an enum name in any ASCII letter case, else one of the six spaced aliases in
      any case, else nothing. */
  function ParseHazardType(s: string): (r: Option<HazardType>)
    ensures forall t :: Upper(s) == TypeName(t) ==> r == Some(t)
    ensures (forall t :: Upper(s) != TypeName(t)) ==> r == SeedLoader.ParseHazardType(s)
    ensures r.None? <==> (forall t :: Upper(s) != TypeName(t)) && SeedLoader.ParseHazardType(s).None?
  {
    match TypeValueOf(Upper(s))
    case Some(t) => Some(t)
    case None => SeedLoader.ParseHazardType(s)
  }

  /** The six spaced aliases are accepted, in any ASCII letter case. */
  lemma ParseHazardTypeAliases(s: string)
    ensures Lower(s) == "speed bump" ==> ParseHazardType(s) == Some(SPEED_BUMP)
    ensures Lower(s) == "rumble strip" ==> ParseHazardType(s) == Some(RUMBLE_STRIP)
    ensures Lower(s) == "speed limit zone" ==> ParseHazardType(s) == Some(SPEED_LIMIT_ZONE)
    ensures Lower(s) == "pothole" ==> ParseHazardType(s) == Some(POTHOLE)
    ensures Lower(s) == "debris" ==> ParseHazardType(s) == Some(DEBRIS)
    ensures Lower(s) == "police" ==> ParseHazardType(s) == Some(POLICE)
  {
    var u := Upper(s);
    var l := Lower(s);
    if l == "speed bump" || l == "rumble strip" || l == "speed limit zone" {
      // the alias holds a space, which no enum name does
      var k := if l == "rumble strip" then 6 else 5;
      assert l[k] == ' ' && s[k] == ' ' && u[k] == ' ';
      forall t ensures u != TypeName(t) {
        NamesAreCaps(t, USER);
      }
    } else if l == "pothole" || l == "debris" || l == "police" {
      assert u[0] == UpperChar(s[0]) && l[0] == LowerChar(s[0]);
      assert u[1] == UpperChar(s[1]) && l[1] == LowerChar(s[1]);
    }
  }

  /** Every enum name parses to its constant. */
  lemma ParseHazardTypeName(t: HazardType)
    ensures ParseHazardType(TypeName(t)) == Some(t)
  {
    NamesUpper(t, USER);
  }

  /** `parseHazardSource`: an enum name in any ASCII letter case, IMPORT for anything else. */
  function ParseHazardSource(s: string): (r: HazardSource)
    ensures forall src :: Upper(s) == SourceName(src) ==> r == src
    ensures (forall src :: Upper(s) != SourceName(src)) ==> r == IMPORT
  {
    SourceValueOf(Upper(s)).GetOr(IMPORT)
  }

  // ---------------------------------------------------------------------------------
  // The codec

  /** The twelve fields of `buildCsvLine`, in header column order. */
  function CsvFields(h: Hazard): (r: seq<string>)
    ensures |r| == |HEADER_FIELDS|
  {
    [TypeName(h.hazardType), FormatDouble(h.lat), FormatDouble(h.lon), OptDoubleText(h.headingDeg),
     FormatDouble(h.bearingToleranceDeg), IntStr(h.alertRadiusM), OptIntText(h.speedLimitKph),
     OptDoubleText(h.zoneEndLat), OptDoubleText(h.zoneEndLon), SourceName(h.source),
     DateText(h.createdAt), DateText(h.updatedAt)]
  }

  /** `buildCsvLine`. */
  function BuildCsvLine(h: Hazard): string {
    Join(CsvFields(h), ',')
  }

  /** Twelve fields whose first and tenth hold no comma and whose others are numerals. */
  lemma FieldsClean(fs: seq<string>)
    requires |fs| == 12 && ',' !in fs[0] && ',' !in fs[9]
    requires forall i :: 1 <= i < 12 && i != 9 ==> NumeralText(fs[i])
    ensures NoSeparator(fs, ',')
  {
    forall i | 0 <= i < |fs| ensures ',' !in fs[i] {
      if i != 0 && i != 9 {
        NumeralExcludes(fs[i], ',');
      }
    }
  }

  /** No field of a built line holds a comma. */
  lemma CsvFieldsClean(h: Hazard)
    ensures NoSeparator(CsvFields(h), ',')
  {
    var name := TypeName(h.hazardType);
    var source := SourceName(h.source);
    assert ',' !in name && ',' !in source by {
      NamesUpper(h.hazardType, h.source);
    }
    var fs := [name, FormatDouble(h.lat), FormatDouble(h.lon), OptDoubleText(h.headingDeg),
               FormatDouble(h.bearingToleranceDeg), IntStr(h.alertRadiusM), OptIntText(h.speedLimitKph),
               OptDoubleText(h.zoneEndLat), OptDoubleText(h.zoneEndLon), source,
               DateText(h.createdAt), DateText(h.updatedAt)];
    FieldsClean(fs);
    assert fs == CsvFields(h);
  }

  /** A built line splits into exactly its twelve fields, in header column order, with ""
      standing for each absent optional. */
  lemma BuildCsvLineFields(h: Hazard)
    ensures var parts := Split(BuildCsvLine(h), ',');
      |parts| == COLUMNS && parts == CsvFields(h)
    ensures var parts := Split(BuildCsvLine(h), ',');
      (parts[3] == "" <==> h.headingDeg.None?) && (parts[6] == "" <==> h.speedLimitKph.None?)
      && (parts[7] == "" <==> h.zoneEndLat.None?) && (parts[8] == "" <==> h.zoneEndLon.None?)
  {
    CsvFieldsClean(h);
    SplitJoin(CsvFields(h), ',');
  }

  /** `getOrNull(i)?.takeIf { it.isNotBlank() }`. */
  function NonBlankField(parts: seq<string>, i: int): (r: Option<string>)
    ensures r.Some? <==> 0 <= i < |parts| && !IsBlank(parts[i])
    ensures r.Some? ==> r.value == parts[i]
  {
    match GetOrNull(parts, i)
    case Some(s) => if IsBlank(s) then None else Some(s)
    case None => None
  }

  /** A non-blank optional double field; null when absent, blank or not a number. */
  function OptionalDouble(parts: seq<string>, i: int): (r: Option<Double>)
    ensures r.Some? ==> 0 <= i < |parts| && ParseDouble(parts[i]) == r
    ensures r.None? ==> (NonBlankField(parts, i).None? || ParseDouble(parts[i]).None?)
  {
    match NonBlankField(parts, i)
    case Some(s) => ParseDouble(s)
    case None => None
  }

  /** `toIntOrNull()` as an `Int`. */
  function ParseInt32(s: string): (r: Option<Int32>)
    ensures r.Some? <==> ParseInt(s).Some?
    ensures r.Some? ==> r.value == ParseInt(s).value
  {
    match ParseInt(s)
    case Some(n) => Some(n)
    case None => None
  }

  /** A non-blank optional integer field; null when absent, blank or not an `Int`. */
  function OptionalInt(parts: seq<string>, i: int): (r: Option<Int32>)
    ensures r.Some? ==> 0 <= i < |parts| && ParseInt32(parts[i]) == r
    ensures r.None? ==> (NonBlankField(parts, i).None? || ParseInt32(parts[i]).None?)
  {
    match NonBlankField(parts, i)
    case Some(s) => ParseInt32(s)
    case None => None
  }

  /** `getOrNull(i)?.toFloatOrNull() ?: default`: blank text counts as unparsable. */
  function DoubleOr(parts: seq<string>, i: int, default: Double): (r: Double)
    ensures 0 <= i < |parts| && ParseDouble(parts[i]).Some? ==> r == ParseDouble(parts[i]).value
    ensures !(0 <= i < |parts| && ParseDouble(parts[i]).Some?) ==> r == default
  {
    match GetOrNull(parts, i)
    case Some(s) => ParseDouble(s).GetOr(default)
    case None => default
  }

  /** `getOrNull(i)?.toIntOrNull() ?: default`. */
  function IntOr(parts: seq<string>, i: int, default: Int32): (r: Int32)
    ensures 0 <= i < |parts| && ParseInt(parts[i]).Some? ==> r == ParseInt(parts[i]).value
    ensures !(0 <= i < |parts| && ParseInt(parts[i]).Some?) ==> r == default
  {
    match GetOrNull(parts, i)
    case Some(s) => ParseInt32(s).GetOr(default)
    case None => default
  }

  /** `getOrNull(i)?.let { parseDate(it) } ?: now`: a present field that does not parse
      also gives `now`, because `parseDate` itself falls back to the clock. */
  function DateOr(parts: seq<string>, i: int, now: Int64): (r: Int64)
    ensures 0 <= i < |parts| && ParseDate(parts[i]).Some? ==> r == ParseDate(parts[i]).value
    ensures !(0 <= i < |parts| && ParseDate(parts[i]).Some?) ==> r == now
  {
    match GetOrNull(parts, i)
    case Some(s) => ParseDate(s).GetOr(now)
    case None => now
  }

  /** The source column, trimmed, or "IMPORT" when the line is too short. */
  function SourceField(parts: seq<string>): (r: HazardSource)
    ensures |parts| <= 9 ==> r == IMPORT
    ensures |parts| > 9 ==> r == ParseHazardSource(Trim(parts[9]))
  {
    ParseHazardSource(match GetOrNull(parts, 9) case Some(s) => Trim(s) case None => "IMPORT")
  }

  /** `parseCsvLine` on the split fields. `now` is the clock the source reads for a
      missing or unparsable date. */
  function ParseFields(parts: seq<string>, now: Int64): (r: Option<Hazard>)
    ensures r.None? <==> (|parts| < 3 || ParseHazardType(Trim(parts[0])).None?
      || ParseDouble(Trim(parts[1])).None? || ParseDouble(Trim(parts[2])).None?)
    ensures r.Some? ==> (r.value.id == 0 && r.value.active
      && r.value.hazardType == ParseHazardType(Trim(parts[0])).value
      && r.value.lat == ParseDouble(Trim(parts[1])).value
      && r.value.lon == ParseDouble(Trim(parts[2])).value)
    ensures r.Some? ==> (r.value.bearingToleranceDeg == DoubleOr(parts, 4, DEFAULT_BEARING_TOLERANCE)
      && r.value.alertRadiusM == IntOr(parts, 5, DEFAULT_ALERT_RADIUS))
    ensures r.Some? ==> (r.value.headingDeg == OptionalDouble(parts, 3)
      && r.value.speedLimitKph == OptionalInt(parts, 6)
      && r.value.zoneEndLat == OptionalDouble(parts, 7)
      && r.value.zoneEndLon == OptionalDouble(parts, 8))
    ensures r.Some? ==> (r.value.source == SourceField(parts)
      && r.value.createdAt == DateOr(parts, 10, now) && r.value.updatedAt == DateOr(parts, 11, now))
  {
    if |parts| < 3 then None
    else
      match (ParseHazardType(Trim(parts[0])), ParseDouble(Trim(parts[1])), ParseDouble(Trim(parts[2])))
      case (Some(t), Some(lat), Some(lon)) =>
        Some(Hazard(0, t, lat, lon, OptionalDouble(parts, 3), DoubleOr(parts, 4, DEFAULT_BEARING_TOLERANCE),
                    IntOr(parts, 5, DEFAULT_ALERT_RADIUS), OptionalInt(parts, 6), OptionalDouble(parts, 7),
                    OptionalDouble(parts, 8), true, SourceField(parts), DateOr(parts, 10, now),
                    DateOr(parts, 11, now)))
      case _ => None
  }

  /** `parseCsvLine`: null for fewer than three fields or a bad type, lat or lon. */
  function ParseCsvLine(line: string, now: Int64): (r: Option<Hazard>)
    ensures var parts := Split(line, ',');
      r.None? <==> (|parts| < 3 || ParseHazardType(Trim(parts[0])).None?
        || ParseDouble(Trim(parts[1])).None? || ParseDouble(Trim(parts[2])).None?)
  {
    ParseFields(Split(line, ','), now)
  }

  // ---------------------------------------------------------------------------------
  // Round trip

  /** A time as the date text keeps it: rounded down to the whole second. */
  function WholeSecond(ms: Int64): (r: Int64)
    requires ms - ms % 1000 >= LONG_MIN
    ensures r <= ms < r + 1000 && r % 1000 == 0
  {
    ms - ms % 1000
  }

  /** Both times of the hazard have a whole second within `Long` range. */
  predicate DatesPrintable(h: Hazard) {
    h.createdAt - h.createdAt % 1000 >= LONG_MIN && h.updatedAt - h.updatedAt % 1000 >= LONG_MIN
  }

  /** What importing an exported hazard gives back: the id is left to the database, the
      row comes back active, and the times lose their milliseconds. */
  function Reimported(h: Hazard): (r: Hazard)
    requires DatesPrintable(h)
    ensures r.hazardType == h.hazardType && r.lat == h.lat && r.lon == h.lon && r.source == h.source
  {
    h.(id := 0, active := true, createdAt := WholeSecond(h.createdAt), updatedAt := WholeSecond(h.updatedAt))
  }

  lemma OptDoubleRoundTrip(parts: seq<string>, i: nat, d: Option<Double>)
    requires i < |parts| && parts[i] == OptDoubleText(d)
    ensures OptionalDouble(parts, i) == d
  {
    if d.Some? {
      NumeralTrimmed(FormatDouble(d.value));
      ParseFormatDouble(d.value);
    }
  }

  lemma OptIntRoundTrip(parts: seq<string>, i: nat, n: Option<Int32>)
    requires i < |parts| && parts[i] == OptIntText(n)
    ensures OptionalInt(parts, i) == n
  {
    if n.Some? {
      NumeralTrimmed(IntStr(n.value));
      ParseIntStr(n.value, INT_MIN, INT_MAX);
    }
  }

  /** Fields that parse to the hazard's own values assemble into its re-imported form. */
  lemma ParseFieldsOf(parts: seq<string>, now: Int64, h: Hazard)
    requires DatesPrintable(h) && |parts| >= 3
    requires ParseHazardType(Trim(parts[0])) == Some(h.hazardType)
    requires ParseDouble(Trim(parts[1])) == Some(h.lat) && ParseDouble(Trim(parts[2])) == Some(h.lon)
    requires OptionalDouble(parts, 3) == h.headingDeg
    requires DoubleOr(parts, 4, DEFAULT_BEARING_TOLERANCE) == h.bearingToleranceDeg
    requires IntOr(parts, 5, DEFAULT_ALERT_RADIUS) == h.alertRadiusM
    requires OptionalInt(parts, 6) == h.speedLimitKph
    requires OptionalDouble(parts, 7) == h.zoneEndLat && OptionalDouble(parts, 8) == h.zoneEndLon
    requires SourceField(parts) == h.source
    requires DateOr(parts, 10, now) == WholeSecond(h.createdAt) && DateOr(parts, 11, now) == WholeSecond(h.updatedAt)
    ensures ParseFields(parts, now) == Some(Reimported(h))
  {
  }

  /** A printed double reads back, trimmed or not. */
  lemma DoubleFieldRoundTrip(d: Double)
    ensures ParseDouble(Trim(FormatDouble(d))) == Some(d) && ParseDouble(FormatDouble(d)) == Some(d)
  {
    NumeralTrimmed(FormatDouble(d));
    ParseFormatDouble(d);
  }

  /** The type column reads back. */
  lemma TypeFieldRoundTrip(h: Hazard)
    ensures ParseHazardType(Trim(CsvFields(h)[0])) == Some(h.hazardType)
  {
    var s := CsvFields(h)[0];
    assert s == TypeName(h.hazardType);
    NamesAreCaps(h.hazardType, h.source);
    CapsFixed(s);
    ParseHazardTypeName(h.hazardType);
  }

  /** The source column reads back. */
  lemma SourceFieldRoundTrip(h: Hazard)
    ensures SourceField(CsvFields(h)) == h.source
  {
    var s := CsvFields(h)[9];
    assert s == SourceName(h.source);
    NamesAreCaps(h.hazardType, h.source);
    CapsFixed(s);
  }

  /** The date columns read back to the second. */
  lemma DateFieldsRoundTrip(h: Hazard, now: Int64)
    requires DatesPrintable(h)
    ensures DateOr(CsvFields(h), 10, now) == WholeSecond(h.createdAt)
    ensures DateOr(CsvFields(h), 11, now) == WholeSecond(h.updatedAt)
  {
    ParseDateText(h.createdAt);
    ParseDateText(h.updatedAt);
  }

  /** The tolerance column reads back. */
  lemma ToleranceFieldRoundTrip(h: Hazard)
    ensures DoubleOr(CsvFields(h), 4, DEFAULT_BEARING_TOLERANCE) == h.bearingToleranceDeg
  {
    assert CsvFields(h)[4] == FormatDouble(h.bearingToleranceDeg);
    ParseFormatDouble(h.bearingToleranceDeg);
  }

  /** The radius column reads back. */
  lemma RadiusFieldRoundTrip(h: Hazard)
    ensures IntOr(CsvFields(h), 5, DEFAULT_ALERT_RADIUS) == h.alertRadiusM
  {
    assert CsvFields(h)[5] == IntStr(h.alertRadiusM);
    ParseIntStr(h.alertRadiusM, INT_MIN, INT_MAX);
  }

  /** The coordinate columns read back. */
  lemma CoordinateFieldsRoundTrip(h: Hazard)
    ensures ParseDouble(Trim(CsvFields(h)[1])) == Some(h.lat)
    ensures ParseDouble(Trim(CsvFields(h)[2])) == Some(h.lon)
  {
    assert CsvFields(h)[1] == FormatDouble(h.lat) && CsvFields(h)[2] == FormatDouble(h.lon);
    DoubleFieldRoundTrip(h.lat);
    DoubleFieldRoundTrip(h.lon);
  }

  /** The optional columns read back with their null status. */
  lemma OptionalFieldsRoundTrip(h: Hazard)
    ensures OptionalDouble(CsvFields(h), 3) == h.headingDeg
    ensures OptionalInt(CsvFields(h), 6) == h.speedLimitKph
    ensures OptionalDouble(CsvFields(h), 7) == h.zoneEndLat
    ensures OptionalDouble(CsvFields(h), 8) == h.zoneEndLon
  {
    var parts := CsvFields(h);
    assert parts[3] == OptDoubleText(h.headingDeg) && parts[6] == OptIntText(h.speedLimitKph);
    assert parts[7] == OptDoubleText(h.zoneEndLat) && parts[8] == OptDoubleText(h.zoneEndLon);
    OptDoubleRoundTrip(parts, 3, h.headingDeg);
    OptIntRoundTrip(parts, 6, h.speedLimitKph);
    OptDoubleRoundTrip(parts, 7, h.zoneEndLat);
    OptDoubleRoundTrip(parts, 8, h.zoneEndLon);
  }

  /** The fields of a built line parse back to the hazard, up to what the format drops. */
  lemma ParseCsvFields(h: Hazard, now: Int64)
    requires DatesPrintable(h)
    ensures ParseFields(CsvFields(h), now) == Some(Reimported(h))
  {
    TypeFieldRoundTrip(h);
    SourceFieldRoundTrip(h);
    CoordinateFieldsRoundTrip(h);
    ToleranceFieldRoundTrip(h);
    RadiusFieldRoundTrip(h);
    OptionalFieldsRoundTrip(h);
    DateFieldsRoundTrip(h, now);
    ParseFieldsOf(CsvFields(h), now, h);
  }

  /** `parseCsvLine(buildCsvLine(h))` recovers the type, coordinates, every optional field
      with its null status, the tolerance, radius and source, and the times to the second. */
  lemma ParseBuiltLine(h: Hazard, now: Int64)
    requires DatesPrintable(h)
    ensures ParseCsvLine(BuildCsvLine(h), now) == Some(Reimported(h))
  {
    BuildCsvLineFields(h);
    ParseCsvFields(h, now);
  }

  // ---------------------------------------------------------------------------------
  // Import and export

  datatype ImportOutcome = ImportSuccess(added: nat, updated: nat, skipped: nat) | ImportError(message: string)
  datatype ExportOutcome = ExportSuccess(exportedCount: nat) | ExportError(message: string)

  /** What opening the chosen document gives: no stream (`openInputStream` returned null),
      its lines, or a failure with its message. */
  datatype Document = NoStream | Lines(lines: seq<string>) | Unreadable(message: string)

  /** The lines after the header. */
  function DataLines(doc: Document): (r: seq<string>)
    ensures doc.Lines? && |doc.lines| > 0 ==> r == doc.lines[1..]
    ensures !(doc.Lines? && |doc.lines| > 0) ==> r == []
  {
    if doc.Lines? && |doc.lines| > 0 then doc.lines[1..] else []
  }

  /** The hazards parsed from the data lines, in order. */
  function ParsedLines(lines: seq<string>, now: Int64): seq<Hazard> {
    FilterMap(lines, (line: string) => ParseCsvLine(line, now))
  }

  /** How many data lines parse to null. */
  function InvalidLines(lines: seq<string>, now: Int64): nat {
    CountNone(lines, (line: string) => ParseCsvLine(line, now))
  }

  /** Every data line is either imported or counted invalid. */
  lemma ParsedPlusInvalid(lines: seq<string>, now: Int64)
    ensures |ParsedLines(lines, now)| + InvalidLines(lines, now) == |lines|
  {
    FilterMapCount(lines, (line: string) => ParseCsvLine(line, now));
  }

  /** `importHazards(uri)`: the header is skipped, the parsed hazards go to the repository
      in one batch when there are any, and the invalid lines are added to its skipped
      count. `dbError` is the message of a database failure. */
  function ImportHazards(t: HazardDao.Table, doc: Document, now: Int64, dbError: string): (r: (HazardDao.Table, ImportOutcome))
    ensures doc.Unreadable? ==> r == (t, ImportError(doc.message))
    ensures r.1.ImportSuccess? ==> (r.1.updated == 0
      && r.1.added + r.1.skipped == |DataLines(doc)|
      && r.1.added == |ParsedLines(DataLines(doc), now)|)
    ensures r.1.ImportError? && !doc.Unreadable? ==> r.1.message == dbError && r.0 == t
    ensures r.1.ImportSuccess? && r.1.added > 0 ==>
      Some(r.0) == HazardRepository.ImportHazards(t, ParsedLines(DataLines(doc), now)).0
    ensures r.1.ImportSuccess? && r.1.added == 0 ==> r.0 == t
  {
    if doc.Unreadable? then (t, ImportError(doc.message))
    else
      var data := DataLines(doc);
      var hs := ParsedLines(data, now);
      var invalid := InvalidLines(data, now);
      ParsedPlusInvalid(data, now);
      if |hs| > 0 then
        match HazardRepository.ImportHazards(t, hs)
        case (None, _) => (t, ImportError(dbError))
        case (Some(u), res) => (u, ImportSuccess(res.added, res.updated, res.skipped + invalid))
      else (t, ImportSuccess(0, 0, invalid))
  }

  /** One built line per hazard, in order. */
  function CsvLines(hs: seq<Hazard>): (r: seq<string>)
    ensures |r| == |hs|
    ensures forall i :: 0 <= i < |hs| ==> r[i] == BuildCsvLine(hs[i])
  {
    if |hs| == 0 then [] else [BuildCsvLine(hs[0])] + CsvLines(hs[1..])
  }

  /** The lines `exportHazards(uri)` writes: the header, then one built line per hazard. */
  function ExportLines(hs: seq<Hazard>): (r: seq<string>)
    ensures |r| == |hs| + 1 && r[1..] == CsvLines(hs)
  {
    [HEADER] + CsvLines(hs)
  }

  /** Where the export goes: no stream (nothing is written), a stream, or a failure. */
  datatype Target = NoOutput | Output | OutputFails(message: string)

  /** `exportHazards(uri)` on the list the repository's export flow emits first, as with
      `first()`: the count is reported even when there was no stream to write to. */
  function ExportHazards(hs: seq<Hazard>, target: Target): (r: (Option<seq<string>>, ExportOutcome))
    ensures target.OutputFails? ==> r == (None, ExportError(target.message))
    ensures !target.OutputFails? ==> r.1 == ExportSuccess(|hs|)
    ensures r.0.Some? <==> target.Output?
    ensures r.0.Some? ==> r.0.value == ExportLines(hs)
  {
    match target
    case NoOutput => (None, ExportSuccess(|hs|))
    case Output => (Some(ExportLines(hs)), ExportSuccess(|hs|))
    case OutputFails(m) => (None, ExportError(m))
  }

  // ---------------------------------------------------------------------------------
  // The export as written: `collect` on a flow that never completes

  /** What a flow delivers to `collect`: a list, or its completion. */
  datatype FlowEvent = Emit(list: seq<Hazard>) | Complete

  /** A Room query flow emits a fresh list whenever the table changes and never completes. */
  predicate QueryFlow(events: seq<FlowEvent>) {
    forall i :: 0 <= i < |events| ==> events[i].Emit?
  }

  /** The lists emitted, one after another. */
  function Emitted(events: seq<FlowEvent>): seq<Hazard>
    requires QueryFlow(events)
    decreases |events|
  {
    if |events| == 0 then [] else events[0].list + Emitted(events[1..])
  }

  /** `collect { hazardList.addAll(it) }` after `events`, having gathered `acc`: the list
      gathered once the flow completes, `None` while `collect` still waits. */
  function Collect(events: seq<FlowEvent>, acc: seq<Hazard>): (r: Option<seq<Hazard>>)
    ensures r.Some? ==> |acc| <= |r.value| && r.value[..|acc|] == acc
    decreases |events|
  {
    if |events| == 0 then None
    else
      match events[0]
      case Complete => Some(acc)
      case Emit(l) =>
        var r := Collect(events[1..], acc + l);
        assert r.Some? ==> r.value[..|acc|] == (acc + l)[..|acc|];
        r
  }

  /** On a query flow `collect` never returns, however many lists arrive. */
  lemma {:induction false} CollectNeverReturns(events: seq<FlowEvent>, acc: seq<Hazard>)
    requires QueryFlow(events)
    ensures Collect(events, acc).None?
    decreases |events|
  {
    if |events| > 0 {
      assert events[0].Emit?;
      assert QueryFlow(events[1..]) by {
        forall i | 0 <= i < |events[1..]| ensures events[1..][i].Emit? { assert events[1..][i] == events[i + 1]; }
      }
      CollectNeverReturns(events[1..], acc + events[0].list);
    }
  }

  /** Were the flow to complete, every list it emitted would be appended in turn: a table
      emitted twice would be gathered twice. */
  lemma {:induction false} CollectGathersEmissions(events: seq<FlowEvent>, acc: seq<Hazard>)
    requires QueryFlow(events)
    ensures Collect(events + [Complete], acc) == Some(acc + Emitted(events))
    decreases |events|
  {
    if |events| > 0 {
      var rest := events[1..];
      assert QueryFlow(rest) by {
        forall i | 0 <= i < |rest| ensures rest[i].Emit? { assert rest[i] == events[i + 1]; }
      }
      assert (events + [Complete])[1..] == rest + [Complete];
      CollectGathersEmissions(rest, acc + events[0].list);
      Seqs.AppendAssoc(acc, events[0].list, Emitted(rest));
    } else {
      assert events + [Complete] == [Complete];
      assert acc + Emitted(events) == acc;
    }
  }

  /** Where `exportHazards(uri)` as written has got to: still inside `collect`, or done. */
  datatype ExportProgress = Collecting | Finished(file: Option<seq<string>>, outcome: ExportOutcome)

  /** `exportHazards(uri)` as written, after the repository's export flow has delivered
      `events`: the stream is opened and a result returned only once `collect` returns. */
  function ExportAsWritten(events: seq<FlowEvent>, target: Target): (r: ExportProgress)
    ensures r.Collecting? <==> Collect(events, []).None?
    ensures r.Finished? && !target.OutputFails? ==> r.outcome == ExportSuccess(|Collect(events, []).value|)
  {
    match Collect(events, [])
    case None => Collecting
    case Some(hs) =>
      var (file, outcome) := ExportHazards(hs, target);
      Finished(file, outcome)
  }

  /** As written, the export never ends on the repository's query flow: no file is written
      and no result, success or error, is reported. */
  lemma AsWrittenNeverFinishes(events: seq<FlowEvent>, target: Target)
    requires QueryFlow(events)
    ensures ExportAsWritten(events, target) == Collecting
  {
    CollectNeverReturns(events, []);
  }

  /** The re-imported form of each hazard, in order. */
  function ReimportedAll(hs: seq<Hazard>): (r: seq<Hazard>)
    requires forall i :: 0 <= i < |hs| ==> DatesPrintable(hs[i])
    ensures |r| == |hs|
  {
    if |hs| == 0 then [] else [Reimported(hs[0])] + ReimportedAll(hs[1..])
  }

  /** Parsing the built lines of a list gives its re-imported hazards, dropping none. */
  lemma {:induction false} ParseBuiltLines(hs: seq<Hazard>, now: Int64)
    requires forall i :: 0 <= i < |hs| ==> DatesPrintable(hs[i])
    ensures ParsedLines(CsvLines(hs), now) == ReimportedAll(hs)
    ensures InvalidLines(CsvLines(hs), now) == 0
    decreases |hs|
  {
    if |hs| > 0 {
      var lines := CsvLines(hs);
      ParseBuiltLine(hs[0], now);
      assert lines[1..] == CsvLines(hs[1..]);
      ParseBuiltLines(hs[1..], now);
    }
  }

  /** Importing a file the export wrote adds every exported hazard, skips none, and stores
      them as the repository's batch import of their re-imported forms. */
  lemma ExportThenImport(t: HazardDao.Table, hs: seq<Hazard>, now: Int64, dbError: string)
    requires forall i :: 0 <= i < |hs| ==> DatesPrintable(hs[i])
    requires ImportHazards(t, Lines(ExportHazards(hs, Output).0.value), now, dbError).1.ImportSuccess?
    ensures var out := ImportHazards(t, Lines(ExportHazards(hs, Output).0.value), now, dbError).1;
      out == ImportSuccess(|hs|, 0, 0)
    ensures |hs| > 0 ==>
      Some(ImportHazards(t, Lines(ExportHazards(hs, Output).0.value), now, dbError).0)
      == HazardRepository.ImportHazards(t, ReimportedAll(hs)).0
  {
    var doc := Lines(ExportHazards(hs, Output).0.value);
    var r := ImportHazards(t, doc, now, dbError);
    assert DataLines(doc) == CsvLines(hs) by {
      assert doc.lines == ExportLines(hs);
    }
    ParseBuiltLines(hs, now);
    assert r.1.added == |hs| && r.1.skipped == 0;
  }
}

=== FILE: json.dfy ===
/** JSON values as Python's `json` module and Android's `org.json` exchange them. */
module Json {

  /** A JSON value. Numbers are modelled as integers. */
  datatype Json =
    | JNull
    | JBool(b: bool)
    | JNumber(n: int)
    | JString(s: string)
    | JArray(items: seq<Json>)
    | JObject(fields: map<string, Json>)
}

=== FILE: locations_screen.dfy ===
/** Display helpers of the locations screen (`LocationsScreen`): the compass sector of a
    bearing and the display name of a hazard type. Bearings are real numbers; Kotlin's NaN
    is not modelled. */
module LocationsScreen {
  import opened Entities

  /** The eight sector names, clockwise from north. */
  const SECTORS: seq<string> := ["North", "Northeast", "East", "Southeast", "South", "Southwest", "West", "Northwest"]

  /** `getBearingDirection`: the eight 45° sectors, each half-open with its lower bound
      included, north covering everything at or above 337.5 and everything below 22.5.
      The source's fallback (the bearing's integer part and a degree sign) is reached by no
      real number, so it does not appear here. */
  function BearingDirection(b: real): (r: string)
    ensures r in SECTORS
    ensures r == "North" <==> b >= 337.5 || b < 22.5
    ensures r == "Northeast" <==> 22.5 <= b < 67.5
    ensures r == "East" <==> 67.5 <= b < 112.5
    ensures r == "Southeast" <==> 112.5 <= b < 157.5
    ensures r == "South" <==> 157.5 <= b < 202.5
    ensures r == "Southwest" <==> 202.5 <= b < 247.5
    ensures r == "West" <==> 247.5 <= b < 292.5
    ensures r == "Northwest" <==> 292.5 <= b < 337.5
  {
    if b >= 337.5 || b < 22.5 then "North"
    else if b < 67.5 then "Northeast"
    else if b < 112.5 then "East"
    else if b < 157.5 then "Southeast"
    else if b < 202.5 then "South"
    else if b < 247.5 then "Southwest"
    else if b < 292.5 then "West"
    else "Northwest"
  }

  /** The sector of a bearing in [0, 360) by arithmetic: shift by half a sector and divide. */
  function SectorIndex(b: real): (k: nat)
    requires 0.0 <= b < 360.0
    ensures k < 8
  {
    var s := ((b + 22.5) / 45.0).Floor;
    if s >= 8 then 0 else s
  }

  /** On a full turn the chained comparisons agree with the arithmetic sector. */
  lemma BearingMatchesSector(b: real)
    requires 0.0 <= b < 360.0
    ensures BearingDirection(b) == SECTORS[SectorIndex(b)]
  {
    var x := (b + 22.5) / 45.0;
    assert x * 45.0 == b + 22.5;
    var s := x.Floor;
    assert s as real <= x < s as real + 1.0;
  }

  /** `getHazardDisplayName`. */
  function DisplayName(t: HazardType): (r: string)
    ensures t == POLICE ==> r == "Police Checkpoint"
    ensures |r| > 0
  {
    match t
    case SPEED_BUMP => "Speed Bump"
    case RUMBLE_STRIP => "Rumble Strip"
    case POTHOLE => "Pothole"
    case DEBRIS => "Debris"
    case POLICE => "Police Checkpoint"
    case SPEED_LIMIT_ZONE => "Speed Limit Zone"
  }

  /** Distinct types have distinct display names. */
  lemma DisplayNameInjective(t: HazardType, u: HazardType)
    ensures DisplayName(t) == DisplayName(u) ==> t == u
  {
  }
}

=== FILE: locations_view_model.dfy ===
/** `LocationsViewModel`: the user's own hazards, newest first, out of the active hazards
    the repository lists, and the loading flag around a delete or an update. The order in
    which the database lists the active hazards is the input sequence's order. */
module LocationsViewModel {
  import opened Numbers
  import opened Entities
  import opened Seqs
  import HazardDao
  import HazardRepository

  predicate IsUser(h: Hazard) {
    h.source == USER
  }

  /** Newest first: creation times never increase along the list. */
  predicate NewestFirst(xs: seq<Hazard>) {
    forall i, j :: 0 <= i < j < |xs| ==> xs[i].createdAt >= xs[j].createdAt
  }

  /** An element no older than the head of a newest-first list may go ahead of it. */
  lemma AheadOfHead(y: Hazard, r: seq<Hazard>)
    requires NewestFirst(r) && (|r| > 0 ==> r[0].createdAt <= y.createdAt)
    ensures NewestFirst([y] + r)
  {
    var s := [y] + r;
    forall i, j | 0 <= i < j < |s| ensures s[i].createdAt >= s[j].createdAt {
      if i > 0 {
        assert s[i] == r[i - 1] && s[j] == r[j - 1];
      } else {
        assert s[j] == r[j - 1];
        assert r[0].createdAt >= r[j - 1].createdAt;
      }
    }
  }

  /** Places `x` ahead of the first element that is not newer than it, so that `x` stays
      ahead of the equal elements that followed it. */
  function Insert(x: Hazard, xs: seq<Hazard>): (r: seq<Hazard>)
    requires NewestFirst(xs)
    ensures |r| == |xs| + 1 && (r[0] == x || (|xs| > 0 && r[0] == xs[0]))
    ensures NewestFirst(r)
    ensures multiset(r) == multiset(xs) + multiset{x}
  {
    if |xs| == 0 || xs[0].createdAt <= x.createdAt then
      AheadOfHead(x, xs);
      [x] + xs
    else
      var rest := Insert(x, xs[1..]);
      assert xs == [xs[0]] + xs[1..];
      assert |xs| > 1 ==> xs[1..][0].createdAt <= xs[0].createdAt;
      AheadOfHead(xs[0], rest);
      [xs[0]] + rest
  }

  /** `sortedByDescending { it.createdAt }`: a stable sort, newest first. */
  function SortNewestFirst(xs: seq<Hazard>): (r: seq<Hazard>)
    ensures NewestFirst(r)
    ensures multiset(r) == multiset(xs)
  {
    if |xs| == 0 then []
    else
      assert xs == [xs[0]] + xs[1..];
      Insert(xs[0], SortNewestFirst(xs[1..]))
  }

  /** `userHazards`: the user's hazards among the active ones, newest first, none added and
      none lost. */
  function UserHazards(active: seq<Hazard>): (r: seq<Hazard>)
    ensures NewestFirst(r)
    ensures multiset(r) == multiset(Filter(active, IsUser))
  {
    SortNewestFirst(Filter(active, IsUser))
  }

  /** A hazard is listed exactly when it is active and the user's. */
  lemma UserHazardsMembers(active: seq<Hazard>, h: Hazard)
    ensures h in UserHazards(active) <==> h in active && IsUser(h)
  {
    var f := Filter(active, IsUser);
    assert h in UserHazards(active) <==> h in multiset(f);
    if h in f {
      var i :| 0 <= i < |f| && f[i] == h;
    }
  }

  /** The hazards created at time `t`, in order. */
  function CreatedAt(xs: seq<Hazard>, t: Int64): seq<Hazard> {
    Filter(xs, (h: Hazard) => h.createdAt == t)
  }

  /** Inserting an element older than `t` leaves the `t`-hazards as they were; one created
      at `t` goes to the front of them. */
  lemma {:induction false} InsertSameTime(x: Hazard, xs: seq<Hazard>, t: Int64)
    requires NewestFirst(xs)
    ensures CreatedAt(Insert(x, xs), t) == if x.createdAt == t then [x] + CreatedAt(xs, t) else CreatedAt(xs, t)
    decreases |xs|
  {
    if |xs| == 0 || xs[0].createdAt <= x.createdAt {
      if x.createdAt == t {
        // every element of xs is no newer than x, so none of them is newer than t
        assert CreatedAt([x] + xs, t) == [x] + CreatedAt(xs, t) by {
          assert ([x] + xs)[1..] == xs;
        }
      } else {
        assert ([x] + xs)[1..] == xs;
      }
    } else {
      InsertSameTime(x, xs[1..], t);
      var rest := Insert(x, xs[1..]);
      assert ([xs[0]] + rest)[1..] == rest;
      if x.createdAt == t {
        // xs[0] is newer than x, so it was not created at t
        assert xs[0].createdAt != t;
      }
    }
  }

  /** The sort is stable: hazards created at the same time keep their relative order. */
  lemma {:induction false} SortStable(xs: seq<Hazard>, t: Int64)
    ensures CreatedAt(SortNewestFirst(xs), t) == CreatedAt(xs, t)
    decreases |xs|
  {
    if |xs| > 0 {
      SortStable(xs[1..], t);
      InsertSameTime(xs[0], SortNewestFirst(xs[1..]), t);
    }
  }

  // ---------------------------------------------------------------------------------
  // Loading flag

  /** The screen's table and its loading flag. */
  datatype ViewState = ViewState(table: HazardDao.Table, isLoading: bool)

  /** How a launched repository call ends: the state it leaves, and whether the call's
      exception escapes the coroutine. The `try` has a `finally` but no `catch`, so a
      throwing call is rethrown after the flag is lowered. */
  datatype Completion = Completion(state: ViewState, rethrown: bool)

  /** `deleteHazard`: the flag is raised around the repository call and lowered in the
      `finally`, whether or not the call throws (`fails`); a throwing call leaves the table
      as it was and its exception escapes. */
  function DeleteHazard(s: ViewState, id: Int64, fails: bool): (r: Completion)
    ensures !r.state.isLoading
    ensures r.rethrown <==> fails
    ensures fails ==> r.state.table == s.table
    ensures !fails ==> id !in r.state.table.rows
    ensures !fails ==> forall k :: k != id ==>
      (k in r.state.table.rows <==> k in s.table.rows) && (k in s.table.rows ==> r.state.table.rows[k] == s.table.rows[k])
  {
    var loading := s.(isLoading := true);
    var table := if fails then loading.table else HazardRepository.DeleteHazard(loading.table, id);
    Completion(ViewState(table, false), fails)
  }

  /** `updateHazard`: as `deleteHazard`, around the repository's update stamped `now`. */
  function UpdateHazard(s: ViewState, h: Hazard, now: Int64, fails: bool): (r: Completion)
    ensures !r.state.isLoading
    ensures r.rethrown <==> fails
    ensures fails ==> r.state.table == s.table
    ensures !fails && h.id in s.table.rows ==> h.id in r.state.table.rows && r.state.table.rows[h.id] == h.(updatedAt := now)
    ensures !fails ==> forall k :: k != h.id && k in s.table.rows ==>
      k in r.state.table.rows && r.state.table.rows[k] == s.table.rows[k]
    ensures !fails && h.id !in s.table.rows ==> r.state.table == s.table
  {
    var loading := s.(isLoading := true);
    var table := if fails then loading.table else HazardRepository.UpdateHazard(loading.table, h, now);
    Completion(ViewState(table, false), fails)
  }
}

=== FILE: log_server.dfy ===
/** The debug logging server: a single-threaded HTTP server that keeps the most recent
    1000 log records posted by the app in memory, shows the newest 50 on an HTML dashboard,
    exports all of them as JSON and clears them on request. */
module LogServer {
  import opened Wrappers
  import opened Json
  import Numbers

  /** Most records kept; older ones are dropped first. */
  const CAPACITY: nat := 1000
  /** Records shown on the dashboard. */
  const DASHBOARD_SIZE: nat := 50
  /** The dashboard page asks the browser to reload itself after this many seconds. */
  const REFRESH_SECONDS: nat := 5

  /** A stored log record: the JSON object the client posted, plus the server's stamps. */
  type Record = map<string, Json>

  /** What reading and decoding a request body produced: the JSON value, or the text of
      the exception raised while reading the length header, the bytes or the JSON. */
  datatype Decoded = Parsed(value: Json) | Unreadable(reason: string)

  datatype Request = Request(verb: string, path: string, body: Decoded)

  /** One dashboard entry: the five fields shown, defaults filled in. */
  datatype Entry = Entry(level: string, timestamp: string, tag: string, message: string, clientIp: string)

  /** The dashboard page: total count, update time and the entries newest first. */
  datatype Dashboard = Dashboard(total: nat, updatedAt: string, refreshSeconds: nat, entries: seq<Entry>)

  datatype Body =
    | NoBody
    | JsonBody(value: Json)
    | StoreBody(records: seq<Record>)
    | HtmlPage(page: Dashboard)
    | ErrorPage(message: string)

  datatype Response = Response(status: nat, contentType: Option<string>, location: Option<string>, body: Body)

  /** The server's only state: the record store, oldest first. */
  datatype Server = Server(store: seq<Record>)

  /** The last `n` elements of `xs` (all of them when there are fewer). */
  function LastN<T>(xs: seq<T>, n: nat): (r: seq<T>)
    ensures |r| == if |xs| < n then |xs| else n
  {
    if |xs| <= n then xs else xs[|xs| - n..]
  }

  /** Appending keeps at most `CAPACITY` records by dropping the oldest one. */
  function Append(store: seq<Record>, r: Record): (s: seq<Record>)
    ensures |store| <= CAPACITY ==> s == LastN(store + [r], CAPACITY)
    ensures |store| <= CAPACITY ==> |s| <= CAPACITY
    ensures |s| > 0 && s[|s| - 1] == r
  {
    var grown := store + [r];
    if |grown| > CAPACITY then grown[1..] else grown
  }

  /** Appending records one after another. */
  function AppendAll(store: seq<Record>, rs: seq<Record>): seq<Record>
    decreases |rs|
  {
    if |rs| == 0 then store else AppendAll(Append(store, rs[0]), rs[1..])
  }

  /** However many records arrive, the store holds exactly the latest `CAPACITY` of
      everything it has seen, in arrival order. */
  lemma {:induction false} AppendAllKeepsLatest(store: seq<Record>, rs: seq<Record>)
    requires |store| <= CAPACITY
    ensures AppendAll(store, rs) == LastN(store + rs, CAPACITY)
    decreases |rs|
  {
    if |rs| > 0 {
      var next := Append(store, rs[0]);
      AppendAllKeepsLatest(next, rs[1..]);
      assert store + rs == (store + [rs[0]]) + rs[1..];
      var all := store + rs;
      assert next + rs[1..] == LastN(store + [rs[0]], CAPACITY) + rs[1..];
      assert LastN(next + rs[1..], CAPACITY) == LastN(all, CAPACITY);
    }
  }

  /** The field names the server writes into every record it accepts. */
  const SERVER_TIMESTAMP := "server_timestamp"
  const CLIENT_IP := "client_ip"

  /** Stamps a posted object with the server's time and the client's address, replacing
      any fields of the same name the client sent. */
  function Stamp(fields: map<string, Json>, now: string, clientIp: string): (r: Record)
    ensures r.Keys == fields.Keys + {SERVER_TIMESTAMP, CLIENT_IP}
    ensures r[SERVER_TIMESTAMP] == JString(now) && r[CLIENT_IP] == JString(clientIp)
    ensures forall k :: k in fields && k != SERVER_TIMESTAMP && k != CLIENT_IP ==> r[k] == fields[k]
  {
    fields[SERVER_TIMESTAMP := JString(now)][CLIENT_IP := JString(clientIp)]
  }

  /** Python's name for the type of a JSON value. */
  function TypeName(j: Json): string {
    match j
    case JNull => "NoneType"
    case JBool(_) => "bool"
    case JNumber(_) => "int"
    case JString(_) => "str"
    case JArray(_) => "list"
    case JObject(_) => "dict"
  }

  /** The `TypeError` text raised when a string key is assigned into a non-object value. */
  function AssignmentError(j: Json): string {
    if j.JArray? then "list indices must be integers or slices, not str"
    else "'" + TypeName(j) + "' object does not support item assignment"
  }

  /** Handling `POST /log`: a JSON object is stamped and appended and the answer is
      `{"status": "ok"}`; anything else is answered with 500 and stores nothing. */
  function Ingest(store: seq<Record>, body: Decoded, now: string, clientIp: string): (r: (seq<Record>, Response))
    ensures r.1.status == 200 <==> body.Parsed? && body.value.JObject?
    ensures r.1.status == 200 ==> r.0 == Append(store, Stamp(body.value.fields, now, clientIp))
    ensures r.1.status == 200 ==> r.1.body == JsonBody(JObject(map["status" := JString("ok")]))
    ensures r.1.status != 200 ==> r.0 == store && r.1.status == 500
  {
    match body
    case Unreadable(reason) =>
      (store, Response(500, None, None, ErrorPage("Error processing log: " + reason)))
    case Parsed(JObject(fields)) =>
      (Append(store, Stamp(fields, now, clientIp)),
       Response(200, Some("application/json"), None, JsonBody(JObject(map["status" := JString("ok")]))))
    case Parsed(other) =>
      (store, Response(500, None, None, ErrorPage("Error processing log: " + AssignmentError(other))))
  }

  /** How the dashboard prints a field value. Strings, integers, booleans and null read as
      Python's `str()` prints them; arrays and objects stand in as "[...]" and "{...}",
      where Python prints their full contents. */
  function Show(j: Json): string {
    match j
    case JString(s) => s
    case JNumber(n) => Numbers.IntStr(n)
    case JBool(b) => if b then "True" else "False"
    case JNull => "None"
    case JArray(_) => "[...]"
    case JObject(_) => "{...}"
  }

  /** `record.get(key, default)` shown as text. */
  function FieldOr(r: Record, key: string, default: string): (s: string)
    ensures key !in r ==> s == default
    ensures key in r && r[key].JString? ==> s == r[key].s
  {
    if key in r then Show(r[key]) else default
  }

  /** How one record appears on the dashboard. */
  function View(r: Record): Entry {
    Entry(FieldOr(r, "level", "INFO"), FieldOr(r, "timestamp", "N/A"), FieldOr(r, "tag", "Unknown"),
          FieldOr(r, "message", "No message"), FieldOr(r, CLIENT_IP, "Unknown"))
  }

  /** Reverses a sequence. */
  function Reverse<T>(xs: seq<T>): (r: seq<T>)
    ensures |r| == |xs|
    ensures forall i :: 0 <= i < |xs| ==> r[i] == xs[|xs| - 1 - i]
  {
    if |xs| == 0 then [] else Reverse(xs[1..]) + [xs[0]]
  }

  /** Applies `View` to every record. */
  function Views(rs: seq<Record>): (r: seq<Entry>)
    ensures |r| == |rs|
    ensures forall i :: 0 <= i < |rs| ==> r[i] == View(rs[i])
  {
    if |rs| == 0 then [] else [View(rs[0])] + Views(rs[1..])
  }

  /** The dashboard: the total count and the newest 50 records, newest first. */
  function RenderDashboard(store: seq<Record>, updatedAt: string): (d: Dashboard)
    ensures d.total == |store| && d.refreshSeconds == REFRESH_SECONDS
    ensures |d.entries| == if |store| < DASHBOARD_SIZE then |store| else DASHBOARD_SIZE
    ensures forall i :: 0 <= i < |d.entries| ==> d.entries[i] == View(store[|store| - 1 - i])
  {
    Dashboard(|store|, updatedAt, REFRESH_SECONDS, Views(Reverse(LastN(store, DASHBOARD_SIZE))))
  }

  /** The HTML fragment of one dashboard entry; the level doubles as the CSS class. */
  function EntryHtml(e: Entry): string {
    "<div class=\"log-entry " + e.level + "\"><strong>[" + e.timestamp + "] " + e.level
      + "</strong> - <code>" + e.tag + "</code> (" + e.clientIp + ")<br>" + e.message + "</div>"
  }

  /** Levels that have a style of their own on the dashboard. */
  const STYLED_LEVELS: set<string> := {"ERROR", "WARN", "INFO", "DEBUG"}

  /** The element opens with the `log-entry` class followed by the level, so a record is
      styled exactly when its level is one of the four styled levels. */
  lemma EntryClassIsLevel(e: Entry)
    ensures EntryHtml(e)[..22 + |e.level|] == "<div class=\"log-entry " + e.level
  {
  }

  /** Dispatching one request. `now` is the ISO timestamp stamped into posted records,
      `clock` the time of day shown on the dashboard. */
  function Handle(server: Server, req: Request, now: string, clientIp: string, clock: string): (r: (Server, Response))
    ensures req.verb == "POST" && req.path == "/log" ==>
      r == (Server(Ingest(server.store, req.body, now, clientIp).0), Ingest(server.store, req.body, now, clientIp).1)
    ensures req.verb == "GET" && req.path == "/" ==>
      r.0 == server && r.1.status == 200 && r.1.body == HtmlPage(RenderDashboard(server.store, clock))
    ensures req.verb == "GET" && req.path == "/logs" ==>
      r.0 == server && r.1.status == 200 && r.1.body == StoreBody(server.store)
    ensures req.verb == "GET" && req.path == "/clear" ==>
      r.0.store == [] && r.1.status == 302 && r.1.location == Some("/")
    ensures req.verb == "POST" && req.path != "/log" ==> r.0 == server && r.1.status == 404
    ensures req.verb == "GET" && req.path !in {"/", "/logs", "/clear"} ==> r.0 == server && r.1.status == 404
    ensures req.verb !in {"GET", "POST"} ==> r.0 == server && r.1.status == 501
  {
    if req.verb == "POST" then
      if req.path == "/log" then
        var (store', resp) := Ingest(server.store, req.body, now, clientIp);
        (Server(store'), resp)
      else (server, Response(404, None, None, ErrorPage("Endpoint not found")))
    else if req.verb == "GET" then
      if req.path == "/" then
        (server, Response(200, Some("text/html"), None, HtmlPage(RenderDashboard(server.store, clock))))
      else if req.path == "/logs" then
        (server, Response(200, Some("application/json"), None, StoreBody(server.store)))
      else if req.path == "/clear" then
        (Server([]), Response(302, None, Some("/"), NoBody))
      else (server, Response(404, None, None, ErrorPage("Endpoint not found")))
    else (server, Response(501, None, None, ErrorPage("Unsupported method")))
  }

  /** Posting a record and then reading the dashboard shows that record first, with the
      client's level, tag and message and the server's view of the client address. */
  lemma PostThenDashboard(server: Server, fields: map<string, Json>, now: string, ip: string, clock: string)
    requires |server.store| <= CAPACITY
    ensures var s1 := Handle(server, Request("POST", "/log", Parsed(JObject(fields))), now, ip, clock).0;
            var page := Handle(s1, Request("GET", "/", Parsed(JNull)), now, ip, clock).1.body.page;
            |page.entries| >= 1 && page.entries[0] == View(Stamp(fields, now, ip))
            && page.entries[0].clientIp == ip
  {
  }

  /** Handling a sequence of requests in order. */
  function Replay(server: Server, reqs: seq<Request>, now: string, ip: string, clock: string): Server
    decreases |reqs|
  {
    if |reqs| == 0 then server else Replay(Handle(server, reqs[0], now, ip, clock).0, reqs[1..], now, ip, clock)
  }

  /** No request sequence makes the store exceed its capacity. */
  lemma {:induction false} ReplayBounded(server: Server, reqs: seq<Request>, now: string, ip: string, clock: string)
    requires |server.store| <= CAPACITY
    ensures |Replay(server, reqs, now, ip, clock).store| <= CAPACITY
    decreases |reqs|
  {
    if |reqs| > 0 {
      ReplayBounded(Handle(server, reqs[0], now, ip, clock).0, reqs[1..], now, ip, clock);
    }
  }

  /** The handler as written: its constructor takes `log_storage or []`, so while the
      shared store is empty (falsy) every request works on a fresh list of its own that is
      dropped when the request ends. */
  function HandleAsWritten(shared: Server, req: Request, now: string, ip: string, clock: string): (r: (Server, Response))
    ensures |shared.store| > 0 ==> r == Handle(shared, req, now, ip, clock)
    ensures |shared.store| == 0 ==> r.0 == shared
  {
    if |shared.store| > 0 then Handle(shared, req, now, ip, clock)
    else (shared, Handle(Server([]), req, now, ip, clock).1)
  }

  function ReplayAsWritten(server: Server, reqs: seq<Request>, now: string, ip: string, clock: string): Server
    decreases |reqs|
  {
    if |reqs| == 0 then server
    else ReplayAsWritten(HandleAsWritten(server, reqs[0], now, ip, clock).0, reqs[1..], now, ip, clock)
  }

  /** As written, a server that starts empty stays empty whatever it is sent: every
      posted record is lost. */
  lemma {:induction false} AsWrittenLosesEveryRecord(reqs: seq<Request>, now: string, ip: string, clock: string)
    ensures ReplayAsWritten(Server([]), reqs, now, ip, clock) == Server([])
    decreases |reqs|
  {
    if |reqs| > 0 {
      AsWrittenLosesEveryRecord(reqs[1..], now, ip, clock);
    }
  }

  /** The concrete case: a post that is answered 200, yet the export that follows is empty. */
  lemma AsWrittenPostIsLost(now: string, ip: string, clock: string)
    ensures var post := HandleAsWritten(Server([]), Request("POST", "/log", Parsed(JObject(map[]))), now, ip, clock);
            post.1.status == 200
            && HandleAsWritten(post.0, Request("GET", "/logs", Parsed(JNull)), now, ip, clock).1.body == StoreBody([])
  {
  }

  /** With one shared store, a posted record is in the export that follows, last. */
  lemma SharedStoreKeepsPost(server: Server, fields: map<string, Json>, now: string, ip: string, clock: string)
    requires |server.store| <= CAPACITY
    ensures var s1 := Handle(server, Request("POST", "/log", Parsed(JObject(fields))), now, ip, clock).0;
            var rs := Handle(s1, Request("GET", "/logs", Parsed(JNull)), now, ip, clock).1.body.records;
            |rs| >= 1 && rs[|rs| - 1] == Stamp(fields, now, ip)
  {
  }
}

=== FILE: numbers.dfy ===
/** Numbers as the app reads and writes them: Kotlin's fixed-width integers with
    `toString`/`toIntOrNull`, doubles as the decimal numerals `toString` prints,
    `toInt`/`roundToInt`, `String.format("%.6f")`, and instants. */
module Numbers {
  import opened Wrappers
  import opened Text

  const INT_MIN: int := -0x8000_0000
  const INT_MAX: int := 0x7FFF_FFFF
  const LONG_MIN: int := -0x8000_0000_0000_0000
  const LONG_MAX: int := 0x7FFF_FFFF_FFFF_FFFF

  /** Kotlin `Int`. */
  type Int32 = x: int | -0x8000_0000 <= x <= 0x7FFF_FFFF

  /** Kotlin `Long`. */
  type Int64 = x: int | -0x8000_0000_0000_0000 <= x <= 0x7FFF_FFFF_FFFF_FFFF

  /** Two's-complement wrap-around of `Int` arithmetic. */
  function Wrap32(x: int): (r: Int32)
    ensures (r - x) % 0x1_0000_0000 == 0
    ensures INT_MIN <= x <= INT_MAX ==> r == x
  {
    (x - INT_MIN) % 0x1_0000_0000 + INT_MIN
  }

  /** Two's-complement wrap-around of `Long` arithmetic. */
  function Wrap64(x: int): (r: Int64)
    ensures (r - x) % 0x1_0000_0000_0000_0000 == 0
    ensures LONG_MIN <= x <= LONG_MAX ==> r == x
  {
    (x - LONG_MIN) % 0x1_0000_0000_0000_0000 + LONG_MIN
  }

  /** `coerceIn(lo, hi)`. */
  function Clamp(x: int, lo: int, hi: int): (r: int)
    requires lo <= hi
    ensures lo <= r <= hi
    ensures lo <= x <= hi ==> r == x
    ensures x < lo ==> r == lo
    ensures x > hi ==> r == hi
  {
    if x < lo then lo else if x > hi then hi else x
  }

  predicate IsDigit(c: char) {
    '0' <= c <= '9'
  }

  predicate AllDigits(s: string) {
    forall i :: 0 <= i < |s| ==> IsDigit(s[i])
  }

  function DigitValue(c: char): nat
    requires IsDigit(c)
  {
    c as int - '0' as int
  }

  function DigitChar(d: nat): char
    requires d < 10
  {
    ('0' as int + d) as char
  }

  /** Value of a string of decimal digits (the empty string reads as 0). */
  function DigitsValue(s: string): nat
    requires AllDigits(s)
  {
    if |s| == 0 then 0 else DigitsValue(s[..|s| - 1]) * 10 + DigitValue(s[|s| - 1])
  }

  /** Decimal digits of a natural number, without leading zeros. */
  function NatStr(n: nat): (r: string)
    ensures |r| >= 1 && AllDigits(r)
    ensures |r| > 1 ==> r[0] != '0'
  {
    if n < 10 then [DigitChar(n)] else NatStr(n / 10) + [DigitChar(n % 10)]
  }

  /** Reading back the digits of `NatStr` gives the number. */
  lemma {:induction false} NatStrValue(n: nat)
    ensures DigitsValue(NatStr(n)) == n
  {
    if n >= 10 {
      var s := NatStr(n);
      assert s[..|s| - 1] == NatStr(n / 10);
      NatStrValue(n / 10);
    }
  }

  /** Kotlin `Int.toString()` / `Long.toString()`. */
  function IntStr(n: int): (r: string)
    ensures |r| >= 1
    ensures NumeralText(r)
  {
    if n < 0 then "-" + NatStr(-n) else NatStr(n)
  }

  /** Text built only from digits, '-' and '.': holds no separator, quote or whitespace. */
  predicate NumeralText(s: string) {
    forall i :: 0 <= i < |s| ==> IsDigit(s[i]) || s[i] == '-' || s[i] == '.'
  }

  /** Numerals never contain a character other than digits, '-' and '.'. */
  lemma NumeralExcludes(s: string, c: char)
    requires NumeralText(s) && !IsDigit(c) && c != '-' && c != '.'
    ensures c !in s
  {
  }

  /** `toIntOrNull()` (bounds of `Int`) and `toLongOrNull()` (bounds of `Long`): an optional
      sign and at least one ASCII digit, nothing else, and the value within the bounds. */
  function ParseIntIn(s: string, lo: int, hi: int): (r: Option<int>)
    ensures r.Some? ==> lo <= r.value <= hi
    ensures r.Some? ==> |s| >= 1
  {
    if |s| == 0 then None
    else
      var body := if s[0] == '-' || s[0] == '+' then s[1..] else s;
      if |body| == 0 || !AllDigits(body) then None
      else
        var v: int := if s[0] == '-' then -(DigitsValue(body) as int) else DigitsValue(body);
        if lo <= v <= hi then Some(v) else None
  }

  /** `toIntOrNull()`. */
  function ParseInt(s: string): (r: Option<int>)
    ensures r.Some? ==> INT_MIN <= r.value <= INT_MAX
  {
    ParseIntIn(s, INT_MIN, INT_MAX)
  }

  /** `toLongOrNull()`. */
  function ParseLong(s: string): (r: Option<int>)
    ensures r.Some? ==> LONG_MIN <= r.value <= LONG_MAX
  {
    ParseIntIn(s, LONG_MIN, LONG_MAX)
  }

  /** Printing an integer and parsing it back returns it, inside the parser's bounds. */
  lemma ParseIntStr(n: int, lo: int, hi: int)
    requires lo <= n <= hi
    ensures ParseIntIn(IntStr(n), lo, hi) == Some(n)
  {
    var s := IntStr(n);
    if n < 0 {
      assert s[1..] == NatStr(-n);
      NatStrValue(-n);
    } else {
      NatStrValue(n);
    }
  }

  /** A Kotlin `Double` or `Float`, represented by the decimal numeral `toString()` prints
      for it: a sign, the integer part and the fraction digits. */
  datatype Decimal = Decimal(negative: bool, whole: nat, fraction: string)

  /** The shape `toString()` prints: at least one fraction digit, and no trailing zero
      unless the fraction is the single digit 0. */
  predicate Canonical(d: Decimal) {
    |d.fraction| >= 1 && AllDigits(d.fraction)
    && (|d.fraction| == 1 || d.fraction[|d.fraction| - 1] != '0')
  }

  type Double = d: Decimal | Canonical(d) witness Decimal(false, 0, "0")

  const ZERO: Double := Decimal(false, 0, "0")

  /** `Double.toString()` / `Float.toString()` for values printed without an exponent. */
  function FormatDouble(d: Double): (r: string)
    ensures NumeralText(r) && |r| >= 3
  {
    (if d.negative then "-" else "") + NatStr(d.whole) + "." + d.fraction
  }

  /** Java's number parsers ignore surrounding characters up to U+0020. */
  function StripControl(s: string): (r: string)
    decreases |s|
  {
    if |s| > 0 && s[0] as int <= 0x20 then StripControl(s[1..])
    else if |s| > 0 && s[|s| - 1] as int <= 0x20 then StripControl(s[..|s| - 1])
    else s
  }

  /** Fraction digits with trailing zeros dropped, keeping at least one digit. */
  function NormalFraction(f: string): (r: string)
    requires AllDigits(f)
    ensures Canonical(Decimal(false, 0, r))
  {
    var t := TrimEndChar(f, '0');
    if |t| == 0 then "0" else t
  }

  /** Canonical is a property of the fraction alone. */
  lemma FractionCanonical(negative: bool, whole: nat, f: string)
    requires Canonical(Decimal(false, 0, f))
    ensures Canonical(Decimal(negative, whole, f))
  {
  }

  /** An unsigned decimal numeral `digits[.digits]` with at least one digit. */
  function ParseUnsigned(body: string): (r: Option<(nat, string)>)
    ensures r.Some? ==> AllDigits(r.value.1)
  {
    match IndexOf(body, '.')
    case None =>
      if |body| >= 1 && AllDigits(body) then Some((DigitsValue(body), "")) else None
    case Some(i) =>
      var w := body[..i];
      var f := body[i + 1..];
      if AllDigits(w) && AllDigits(f) && |w| + |f| >= 1 then Some((DigitsValue(w), f)) else None
  }

  /** `toDoubleOrNull()` / `toFloatOrNull()` for plain decimal numerals: surrounding control
      characters and spaces are ignored, a sign is optional. */
  function ParseDouble(s: string): (r: Option<Double>)
  {
    var t := StripControl(s);
    if |t| == 0 then None
    else
      var body := if t[0] == '-' || t[0] == '+' then t[1..] else t;
      match ParseUnsigned(body)
      case None => None
      case Some(p) =>
        var d := Decimal(t[0] == '-', p.0, NormalFraction(p.1));
        assert Canonical(d) by { FractionCanonical(t[0] == '-', p.0, NormalFraction(p.1)); }
        Some(d)
  }

  /** The digits of a whole part, a point and fraction digits read back as those parts. */
  lemma UnsignedOfParts(whole: nat, f: string)
    requires AllDigits(f)
    ensures ParseUnsigned(NatStr(whole) + "." + f) == Some((whole, f))
  {
    var w := NatStr(whole);
    var body := w + "." + f;
    assert body[|w|] == '.';
    assert '.' !in w;
    assert body[..|w|] == w;
    assert IndexOf(body, '.') == Some(|w|);
    assert body[|w| + 1..] == f;
    NatStrValue(whole);
  }

  /** A canonical fraction is already normal. */
  lemma NormalOfCanonical(f: string)
    requires Canonical(Decimal(false, 0, f))
    ensures NormalFraction(f) == f
  {
    if |f| > 1 {
      assert TrimEndChar(f, '0') == f;
    }
  }

  /** A numeral with nothing to strip, an optional leading '-' and a readable body parses
      to the signed value of the body. */
  lemma ParseSigned(t: string, negative: bool, body: string, whole: nat, f: string)
    requires StripControl(t) == t && t == (if negative then "-" else "") + body
    requires |body| > 0 && body[0] != '-' && body[0] != '+'
    requires AllDigits(f) && ParseUnsigned(body) == Some((whole, f)) && NormalFraction(f) == f
    ensures ParseDouble(t) == Some(Decimal(negative, whole, f))
  {
    if negative {
      assert t[1..] == body;
    } else {
      assert t == body;
      assert t[0] != '-' && t[0] != '+';
    }
  }

  /** Printing a double and parsing it back returns it. */
  lemma ParseFormatDouble(d: Double)
    ensures ParseDouble(FormatDouble(d)) == Some(d)
  {
    var s := FormatDouble(d);
    var w := NatStr(d.whole);
    var body := w + "." + d.fraction;
    assert s == (if d.negative then "-" else "") + body;
    assert StripControl(s) == s;
    assert body[0] == w[0] && IsDigit(w[0]);
    UnsignedOfParts(d.whole, d.fraction);
    NormalOfCanonical(d.fraction);
    ParseSigned(s, d.negative, body, d.whole, d.fraction);
  }

  /** Value of fraction digits: 0.d1d2d3... */
  function FractionValue(f: string): (r: real)
    requires AllDigits(f)
    ensures 0.0 <= r < 1.0
  {
    if |f| == 0 then 0.0 else (DigitValue(f[0]) as real + FractionValue(f[1..])) / 10.0
  }

  /** The number a double denotes. */
  function Value(d: Double): real {
    var m := d.whole as real + FractionValue(d.fraction);
    if d.negative then -m else m
  }

  /** Truncation toward zero of a real number. */
  function TruncReal(x: real): int {
    if x >= 0.0 then x.Floor else -((-x).Floor)
  }

  /** `Double.toInt()` / `Float.toInt()`: truncation toward zero, saturating at the `Int` bounds. */
  function ToInt(x: real): (r: Int32)
    ensures x >= 0.0 ==> r >= 0
  {
    Clamp(TruncReal(x), INT_MIN, INT_MAX)
  }

  /** `roundToInt()`: the nearest integer, halves upward, saturating at the `Int` bounds. */
  function RoundToInt(x: real): (r: Int32)
    ensures INT_MIN as real <= x + 0.5 < INT_MAX as real ==> r as real <= x + 0.5 < r as real + 1.0
  {
    Clamp((x + 0.5).Floor, INT_MIN, INT_MAX)
  }

  /** The integer part of a double is its sign and whole digits. */
  lemma ToIntDouble(d: Double)
    requires d.whole <= INT_MAX
    ensures ToInt(Value(d)) == (if d.negative then -(d.whole as int) else d.whole as int)
  {
    var f := FractionValue(d.fraction);
    var m := d.whole as real + f;
    assert m.Floor == d.whole;
    if d.negative && m > 0.0 {
      assert Value(d) < 0.0;
    }
  }

  /** Digits `s` left-padded with zeros to width `n`. */
  function PadZeros(s: string, n: nat): (r: string)
    ensures |r| == if |s| >= n then |s| else n
    ensures AllDigits(s) ==> AllDigits(r)
    decreases n - |s|
  {
    if |s| >= n then s else PadZeros("0" + s, n)
  }

  /** The first `n` fraction digits of `f`, padded with zeros. */
  function FractionDigits(f: string, n: nat): (r: string)
    requires AllDigits(f)
    ensures |r| == n && AllDigits(r)
  {
    if n == 0 then ""
    else if |f| == 0 then "0" + FractionDigits(f, n - 1)
    else [f[0]] + FractionDigits(f[1..], n - 1)
  }

  /** `String.format("%.6f", x)`: the printed decimal digits rounded half-up to six places. */
  function Format6(d: Double): (r: string)
    ensures NumeralText(r)
  {
    var digits := FractionDigits(d.fraction, 7);
    var six := DigitsValue(digits[..6]) + (if DigitValue(digits[6]) >= 5 then 1 else 0);
    var carry := six == 1_000_000;
    var frac := if carry then 0 else six;
    (if d.negative then "-" else "") + NatStr(if carry then d.whole + 1 else d.whole)
      + "." + PadZeros(NatStr(frac), 6)
  }

  /** Text of an optional double: `toString()`, or "" for null. */
  function OptDoubleText(d: Option<Double>): (r: string)
    ensures r == "" <==> d.None?
    ensures NumeralText(r)
  {
    match d
    case None => ""
    case Some(x) => FormatDouble(x)
  }

  /** Text of an optional integer: `toString()`, or "" for null. */
  function OptIntText(n: Option<int>): (r: string)
    ensures r == "" <==> n.None?
    ensures NumeralText(r)
  {
    match n
    case None => ""
    case Some(x) => IntStr(x)
  }

  /** A point on the time line, as milliseconds from the epoch (within `Long` range). */
  datatype Instant = Instant(epochMillis: Int64)

  const EPOCH: Instant := Instant(0)

  /** The stand-in for ISO-8601 text (`Instant.toString()`): the millisecond count and a 'Z'. */
  function InstantText(t: Instant): (r: string)
  {
    IntStr(t.epochMillis) + "Z"
  }

  /** The stand-in for `Instant.parse`; `None` where the source would throw. */
  function ParseInstant(s: string): (r: Option<Instant>)
  {
    if |s| >= 2 && s[|s| - 1] == 'Z' then
      match ParseIntIn(s[..|s| - 1], LONG_MIN, LONG_MAX)
      case None => None
      case Some(ms) => Some(Instant(ms))
    else None
  }

  /** Printing an instant and parsing it back returns it. */
  lemma ParseInstantText(t: Instant)
    ensures ParseInstant(InstantText(t)) == Some(t)
  {
    var s := InstantText(t);
    assert s[..|s| - 1] == IntStr(t.epochMillis);
    ParseIntStr(t.epochMillis, LONG_MIN, LONG_MAX);
  }

  /** The instant text holds no separator or whitespace character. */
  lemma InstantTextExcludes(t: Instant, c: char)
    requires !IsDigit(c) && c != '-' && c != '.' && c != 'Z'
    ensures c !in InstantText(t)
  {
    assert NumeralText(IntStr(t.epochMillis));
  }

  /** The stand-in for `SimpleDateFormat("yyyy-MM-dd HH:mm:ss")` text: the whole seconds
      since the epoch, rounded down as the calendar fields are. */
  function DateText(ms: Int64): (r: string)
    ensures NumeralText(r) && |r| >= 1
  {
    IntStr(ms / 1000)
  }

  /** The stand-in for `SimpleDateFormat.parse(...).time`; `None` where the source throws. */
  function ParseDate(s: string): (r: Option<Int64>)
    ensures r.Some? ==> r.value % 1000 == 0
  {
    match ParseLong(s)
    case Some(n) => if LONG_MIN <= n * 1000 <= LONG_MAX then Some(n * 1000) else None
    case None => None
  }

  /** Printing a time and parsing it back loses only the milliseconds (for every time
      but the few within a second of `Long.MIN_VALUE`, whose whole second lies outside). */
  lemma ParseDateText(ms: Int64)
    requires ms - ms % 1000 >= LONG_MIN
    ensures ParseDate(DateText(ms)) == Some(ms - ms % 1000)
  {
    var q := ms / 1000;
    var m := ms % 1000;
    assert q * 1000 == ms - m && 0 <= m < 1000;
    assert LONG_MIN <= q <= LONG_MAX;
    ParseIntStr(q, LONG_MIN, LONG_MAX);
    assert ParseLong(DateText(ms)) == Some(q);
    assert LONG_MIN <= q * 1000 <= LONG_MAX;
  }

  /** Numerals need no trimming. */
  lemma NumeralTrimmed(s: string)
    requires NumeralText(s)
    ensures Trim(s) == s
    ensures |s| > 0 ==> !IsBlank(s)
  {
    TrimTrimmed(s);
  }
}

=== FILE: passenger_report.dfy ===
/** The passenger's report sheet (`PassengerReportSheet`): pressing Submit turns the chosen
    type, the "both directions" box, the zone's start and end and the device's last known
    position into a user hazard, stores it unless a twin is close by, and tells the user
    what happened. The position, the clock, the distance between two points and the store's
    write are inputs. */
module PassengerReport {
  import opened Wrappers
  import opened Numbers
  import opened Text
  import opened Hazards
  import HazardStore
  import SeedRepository

  /** The shortest speed-limit zone the sheet accepts, in metres. */
  const MIN_ZONE_METERS: int := 100

  type Point = (Double, Double)
  type Distance = (Double, Double, Double, Double) -> real

  /** The sheet's state when Submit is pressed. */
  datatype Form = Form(hazardType: HazardType, bothDirections: bool, speedText: string,
                       start: Option<Point>, end: Option<Point>)

  /** How a message reaches the user: the three alert styles, or a plain toast. */
  datatype Kind = Success | Warn | Error | Toast

  datatype Notice = Notice(kind: Kind, text: string)

  /** What Submit leads to before the store is asked: a refusal, or the hazard to store. */
  datatype Draft = Refused(notice: Notice) | Ready(hazard: Hazard)

  /** The direction a report applies in: both ways when the box is ticked, otherwise both
      ways for a speed-limit zone and one way for a spot hazard. */
  function DirectionalityFor(t: HazardType, both: bool): (r: string)
    ensures r == "BIDIRECTIONAL" <==> both || t == SPEED_LIMIT_ZONE
    ensures r == "ONE_WAY" <==> !both && t != SPEED_LIMIT_ZONE
  {
    if both then "BIDIRECTIONAL" else SeedRepository.DefaultDirectionality(t)
  }

  /** The speed field read with `toIntOrNull()`. */
  function SpeedOf(text: string): (r: Option<Int32>)
    ensures r.Some? <==> ParseInt(text).Some?
    ensures r.Some? ==> r.value == ParseInt(text).value
  {
    var p := ParseInt(text);
    if p.Some? then Some(p.value as Int32) else None
  }

  /** The zone's length: the distance from start to end, truncated to whole metres. */
  function ZoneLength(start: Point, end: Point, distance: Distance): Int32 {
    ToInt(distance(start.0, start.1, end.0, end.1))
  }

  const NO_LOCATION: Notice := Notice(Error, "Location unavailable")
  const NO_ENDS: Notice := Notice(Toast, "Set start and end of zone")
  const TOO_SHORT: Notice := Notice(Toast, "Zone too short (min 100m)")

  /** The hazard a report builds, before zone fields: at the position, active, from the
      user, created now. */
  function Base(form: Form, loc: Point, now: Instant): (h: Hazard)
    ensures h.hazardType == form.hazardType && h.lat == loc.0 && h.lng == loc.1
    ensures h.active && h.source == "USER" && h.createdAt == now
    ensures h.directionality == DirectionalityFor(form.hazardType, form.bothDirections)
    ensures h.speedLimitKph.None? && h.zoneLengthMeters.None?
    ensures h.zoneStartLat.None? && h.zoneStartLng.None? && h.zoneEndLat.None? && h.zoneEndLng.None?
  {
    NewHazard(form.hazardType, loc.0, loc.1).(
      active := true, directionality := DirectionalityFor(form.hazardType, form.bothDirections),
      source := "USER", createdAt := now)
  }

  /** The checks Submit makes before writing: a position is needed, and a speed-limit zone
      needs both ends set at least 100 m apart; only a zone carries the speed limit and the
      zone's length and ends. */
  function MakeDraft(form: Form, loc: Option<Point>, now: Instant, distance: Distance): (d: Draft)
    ensures loc.None? ==> d == Refused(NO_LOCATION)
    ensures form.hazardType != SPEED_LIMIT_ZONE ==> (d.Ready? <==> loc.Some?)
    ensures form.hazardType == SPEED_LIMIT_ZONE && loc.Some? ==>
              (d.Ready? <==> form.start.Some? && form.end.Some?
                             && ZoneLength(form.start.value, form.end.value, distance) >= MIN_ZONE_METERS)
    ensures form.hazardType == SPEED_LIMIT_ZONE && loc.Some? && (form.start.None? || form.end.None?)
            ==> d == Refused(NO_ENDS)
    ensures d.Ready? ==> loc.Some? && d.hazard.hazardType == form.hazardType
                         && d.hazard.lat == loc.value.0 && d.hazard.lng == loc.value.1
                         && d.hazard.active && d.hazard.source == "USER" && d.hazard.createdAt == now
                         && d.hazard.directionality == DirectionalityFor(form.hazardType, form.bothDirections)
    ensures d.Ready? && form.hazardType != SPEED_LIMIT_ZONE ==>
              d.hazard.speedLimitKph.None? && d.hazard.zoneLengthMeters.None?
              && d.hazard.zoneStartLat.None? && d.hazard.zoneStartLng.None?
              && d.hazard.zoneEndLat.None? && d.hazard.zoneEndLng.None?
    ensures d.Ready? && form.hazardType == SPEED_LIMIT_ZONE ==>
              d.hazard.speedLimitKph == SpeedOf(form.speedText)
              && d.hazard.zoneLengthMeters == Some(ZoneLength(form.start.value, form.end.value, distance))
              && d.hazard.zoneStartLat == Some(form.start.value.0) && d.hazard.zoneStartLng == Some(form.start.value.1)
              && d.hazard.zoneEndLat == Some(form.end.value.0) && d.hazard.zoneEndLng == Some(form.end.value.1)
  {
    if loc.None? then Refused(NO_LOCATION)
    else
      var h := Base(form, loc.value, now);
      if form.hazardType != SPEED_LIMIT_ZONE then Ready(h)
      else if form.start.None? || form.end.None? then Refused(NO_ENDS)
      else
        var s := form.start.value;
        var e := form.end.value;
        var length := ZoneLength(s, e, distance);
        if length < MIN_ZONE_METERS then Refused(TOO_SHORT)
        else
          Ready(h.(speedLimitKph := SpeedOf(form.speedText), zoneLengthMeters := Some(length),
                   zoneStartLat := Some(s.0), zoneStartLng := Some(s.1),
                   zoneEndLat := Some(e.0), zoneEndLng := Some(e.1)))
  }

  /** The type's name as the warning shows it: lower case, spaces for underscores. */
  function SpokenName(t: HazardType): (r: string)
    ensures |r| == |TypeName(t)|
    ensures forall i :: 0 <= i < |r| ==> r[i] != '_' && !('A' <= r[i] <= 'Z')
  {
    ReplaceChar(Lower(TypeName(t)), '_', ' ')
  }

  /** The message for each answer of the store. */
  function ResultNotice(t: HazardType, r: SeedRepository.AddResult): Notice {
    match r
    case ADDED => Notice(Success, "Reported " + TypeName(t))
    case DUPLICATE_NEARBY => Notice(Warn, "Similar " + SpokenName(t) + " within 30 m")
    case ERROR => Notice(Error, "Report failed")
  }

  /** The texts of the three messages differ, whatever the type's names are. */
  lemma TextsDiffer(name: string, spoken: string)
    ensures "Reported " + name != "Similar " + spoken + " within 30 m"
    ensures "Reported " + name != "Report failed"
    ensures "Similar " + spoken + " within 30 m" != "Report failed"
  {
    var added := "Reported " + name;
    var twin := "Similar " + spoken + " within 30 m";
    assert added[0] == 'R' && added[6] == 'e';
    assert twin[0] == 'S';
  }

  /** The three answers of the store read differently to the user: their texts are pairwise
      distinct, and so are their styles. */
  lemma ResultNoticesDistinct(t: HazardType)
    ensures ResultNotice(t, SeedRepository.ADDED).text != ResultNotice(t, SeedRepository.DUPLICATE_NEARBY).text
    ensures ResultNotice(t, SeedRepository.ADDED).text != ResultNotice(t, SeedRepository.ERROR).text
    ensures ResultNotice(t, SeedRepository.DUPLICATE_NEARBY).text != ResultNotice(t, SeedRepository.ERROR).text
    ensures ResultNotice(t, SeedRepository.ADDED).kind != ResultNotice(t, SeedRepository.DUPLICATE_NEARBY).kind
  {
    TextsDiffer(TypeName(t), SpokenName(t));
  }

  /** What one press of Submit leaves behind: the message shown, the store file, and whether
      the sheet closed. */
  datatype Submission = Submission(notice: Notice, file: HazardStore.File, dismissed: bool)

  /** Submit: a refused draft writes nothing and keeps the sheet open; a ready one goes
      through the store's de-duplicating add (twins within 30 m), the answer is announced and
      the sheet closes. */
  function Submit(form: Form, loc: Option<Point>, now: Instant, distance: Distance,
                  asset: SeedRepository.SeedAsset, f: HazardStore.File, disabled: set<string>,
                  seedTime: Instant, nowMillis: Int64, ok: bool): (s: Submission)
    ensures s.dismissed <==> MakeDraft(form, loc, now, distance).Ready?
    ensures !s.dismissed ==> s.file == f && s.notice == MakeDraft(form, loc, now, distance).notice
    ensures loc.None? ==> s.file == f && s.notice == NO_LOCATION
    ensures s.file != f ==> s.dismissed && s.notice.kind == Success
                            && s.file == HazardStore.Add(f, MakeDraft(form, loc, now, distance).hazard, nowMillis, true).0
    ensures s.dismissed ==> s.notice.kind != Toast
  {
    match MakeDraft(form, loc, now, distance)
    case Refused(n) => Submission(n, f, false)
    case Ready(h) =>
      var (r, g) := SeedRepository.AddUserHazardWithDedup(asset, f, disabled, h, SeedRepository.DEFAULT_DEDUP_METERS,
                                                          distance, seedTime, nowMillis, ok);
      Submission(ResultNotice(form.hazardType, r), g, true)
  }
}

=== FILE: proximity_alert_engine.dfy ===
/** `ProximityAlertEngine`: on each location update, the hazards in the look-ahead corridor
    that face the driver's way are visited nearest first, with hysteresis (an alert stays up
    until the driver is past the hazard), a five-minute suppression window and a two-second
    gap between announcements; at most one alert is shown. The corridor query and distances
    are parameters; the periodic cleanup is a separate step. */
module ProximityAlertEngine {
  import opened Wrappers
  import opened Numbers
  import opened Seqs
  import opened Entities
  import Text
  import TtsManager

  const SUPPRESSION_MS: int := 300_000
  const HYSTERESIS_CLEAR_METERS: int := 30
  const MIN_TTS_INTERVAL_MS: int := 2_000
  const BEYOND_DISTANCE_M: int := 100
  /** Hazard states not seen for longer than this are forgotten. */
  const STATE_RETENTION_MS: int := 600_000

  /** The per-hazard hysteresis record. */
  datatype HazardState = HazardState(lastDistance: int, lastSeenAt: int, alerted: bool, lastAlertAt: int)

  const FRESH: HazardState := HazardState(INT_MAX, 0, false, 0)

  /** An alert on display. */
  datatype AlertData = AlertData(hazardId: int, hazardType: HazardType, distance: int, message: string)

  /** The engine's fields: suppression stamps and hysteresis records by hazard id, the time of
      the last announcement and the alerts on display. */
  datatype Engine = Engine(
    recentlyAlerted: map<int, int>,
    hazardState: map<int, HazardState>,
    lastTts: int,
    activeAlerts: seq<AlertData>)

  const START: Engine := Engine(map[], map[], 0, [])

  /** `calculateWarnDistance`: the distance covered in 1.2 seconds at the current speed,
      scaled by the user's multiplier, truncated and clamped to [120, 600] metres. */
  function WarnDistance(speedKmh: real, multiplier: real): (r: int)
    ensures 120 <= r <= 600
    ensures var raw := ToInt((speedKmh / 3.6) * 1.2 * multiplier);
      (120 <= raw <= 600 ==> r == raw) && (raw < 120 ==> r == 120) && (raw > 600 ==> r == 600)
  {
    Clamp(ToInt((speedKmh / 3.6) * 1.2 * multiplier), 120, 600)
  }

  function AbsReal(x: real): real {
    if x < 0.0 then -x else x
  }

  /** `isCorrectDirection`: a hazard without a heading faces every way; otherwise the angle
      between the two bearings, taken the short way round, is within the hazard's tolerance. */
  predicate CorrectDirection(h: Hazard, userBearing: real) {
    match h.headingDeg
    case None => true
    case Some(hd) =>
      var diff := AbsReal(userBearing - Value(hd));
      (if diff <= 360.0 - diff then diff else 360.0 - diff) <= Value(h.bearingToleranceDeg)
  }

  /** The short-way angle between two bearings that differ by less than a full turn is at
      most 180 degrees, so a tolerance of 180 or more accepts every heading. */
  lemma WideToleranceAcceptsAll(h: Hazard, userBearing: real)
    requires h.headingDeg.Some? && AbsReal(userBearing - Value(h.headingDeg.value)) <= 360.0
    requires Value(h.bearingToleranceDeg) >= 180.0
    ensures CorrectDirection(h, userBearing)
  {
  }

  /** `isRecentlyAlerted`: stamped less than five minutes ago. */
  predicate RecentlyAlerted(e: Engine, id: int, now: int) {
    id in e.recentlyAlerted && now - e.recentlyAlerted[id] < SUPPRESSION_MS
  }

  /** `createAlertMessage`. */
  function AlertMessage(h: Hazard, distance: int): (r: string)
    ensures h.hazardType == SPEED_LIMIT_ZONE && h.speedLimitKph.Some? ==>
      r == "Entering " + IntStr(h.speedLimitKph.value) + " kilometer per hour zone."
    ensures h.hazardType != SPEED_LIMIT_ZONE || h.speedLimitKph.None? ==>
      exists lead :: r == lead + TtsManager.AheadIn(distance)
  {
    var d := TtsManager.AheadIn(distance);
    match h.hazardType
    case SPEED_BUMP => "Speed bump" + d
    case RUMBLE_STRIP => "Rumble strip" + d
    case POTHOLE => "Pothole" + d
    case DEBRIS => "Debris on road" + d
    case POLICE => "Police" + d
    case SPEED_LIMIT_ZONE =>
      match h.speedLimitKph
      case Some(limit) => "Entering " + IntStr(limit) + " kilometer per hour zone."
      case None => "Speed limit zone" + d
  }

  /** The lower-case spaced name the speech manager's builder recognises for each type. */
  function SpokenName(t: HazardType): string {
    match t
    case SPEED_BUMP => "speed bump"
    case RUMBLE_STRIP => "rumble strip"
    case POTHOLE => "pothole"
    case DEBRIS => "debris"
    case POLICE => "police"
    case SPEED_LIMIT_ZONE => "speed limit zone"
  }

  /** The engine's message is the speech manager's for the type's name in any ASCII letter case,
      except for a zone: the engine reads the limit as a speed, the builder the distance. */
  lemma MessageMatchesBuilder(h: Hazard, name: string, distance: int)
    requires Text.Lower(name) == SpokenName(h.hazardType)
    ensures h.hazardType != SPEED_LIMIT_ZONE ==> AlertMessage(h, distance) == TtsManager.HazardAlertMessage(name, distance)
    ensures h.hazardType == SPEED_LIMIT_ZONE && h.speedLimitKph.Some? ==>
      AlertMessage(h, distance) == TtsManager.HazardAlertMessage(name, h.speedLimitKph.value)
  {
    var n := Text.Lower(name);
    match h.hazardType
    case SPEED_BUMP =>
    case RUMBLE_STRIP =>
      assert |n| == 12;
    case POTHOLE =>
      assert |n| == 7;
    case DEBRIS =>
      assert |n| == 6;
    case POLICE =>
      assert |n| == 6 && n[0] == 'p';
    case SPEED_LIMIT_ZONE =>
      assert |n| == 16;
  }

  /** The hysteresis release: far enough past the warning distance, or beyond 100 m. */
  predicate Clears(distance: int, warn: int) {
    distance > warn + HYSTERESIS_CLEAR_METERS || distance > BEYOND_DISTANCE_M
  }

  /** Since the warning distance is at least 120 m, an alert clears exactly beyond 100 m. */
  lemma ClearsBeyond(distance: int, speedKmh: real, multiplier: real)
    ensures Clears(distance, WarnDistance(speedKmh, multiplier)) <==> distance > BEYOND_DISTANCE_M
  {
  }

  function StateOf(e: Engine, id: int): HazardState {
    if id in e.hazardState then e.hazardState[id] else FRESH
  }

  /** What visiting one hazard does: go on to the next hazard, or stop with the alert to show
      (`announced` when it was announced just now). */
  datatype Step = Next(engine: Engine) | Stop(engine: Engine, alert: AlertData, announced: bool)

  /** One turn of the loop of `processLocationUpdate` for hazard `h` at `distance` metres. */
  function Visit(e: Engine, h: Hazard, distance: int, now: int, warn: int, speechFails: bool): (r: Step)
    ensures var st := r.engine.hazardState;
      h.id in st && st[h.id].lastDistance == distance && st[h.id].lastSeenAt == now
    ensures forall id :: id != h.id ==> (id in r.engine.hazardState <==> id in e.hazardState)
    ensures forall id :: id != h.id && id in e.hazardState ==> r.engine.hazardState[id] == e.hazardState[id]
    ensures forall id :: id != h.id ==> (id in r.engine.recentlyAlerted <==> id in e.recentlyAlerted)
    ensures forall id :: id != h.id && id in e.recentlyAlerted ==> r.engine.recentlyAlerted[id] == e.recentlyAlerted[id]
    ensures r.engine.activeAlerts == e.activeAlerts
    ensures r.Stop? ==> r.alert == AlertData(h.id, h.hazardType, distance, AlertMessage(h, distance))
    // already alerted: kept while close, released (with its suppression) once past
    ensures StateOf(e, h.id).alerted ==>
      (r.Next? <==> Clears(distance, warn)) && (r.Stop? ==> !r.announced && r.engine.recentlyAlerted == e.recentlyAlerted)
    ensures StateOf(e, h.id).alerted && r.Next? ==> h.id !in r.engine.recentlyAlerted && !r.engine.hazardState[h.id].alerted
    // not alerted: announced exactly when unsuppressed, within range and after the speech gap
    ensures !StateOf(e, h.id).alerted ==>
      (r.Stop? <==> !RecentlyAlerted(e, h.id, now) && distance <= warn && now - e.lastTts >= MIN_TTS_INTERVAL_MS)
    ensures !StateOf(e, h.id).alerted && r.Stop? ==>
      && r.announced
      && h.id in r.engine.recentlyAlerted && r.engine.recentlyAlerted[h.id] == now
      && r.engine.hazardState[h.id].alerted && r.engine.hazardState[h.id].lastAlertAt == now
    ensures !StateOf(e, h.id).alerted && r.Next? ==> r.engine.recentlyAlerted == e.recentlyAlerted
    ensures r.engine.lastTts == (if r.Stop? && r.announced && !speechFails then now else e.lastTts)
  {
    var st := StateOf(e, h.id).(lastDistance := distance, lastSeenAt := now);
    if st.alerted then
      if Clears(distance, warn) then
        Next(e.(hazardState := e.hazardState[h.id := st.(alerted := false)],
                recentlyAlerted := e.recentlyAlerted - {h.id}))
      else
        Stop(e.(hazardState := e.hazardState[h.id := st]), AlertData(h.id, h.hazardType, distance, AlertMessage(h, distance)), false)
    else
      var suppressed := RecentlyAlerted(e, h.id, now);
      var canTts := now - e.lastTts >= MIN_TTS_INTERVAL_MS;
      if !suppressed && distance <= warn && canTts then
        Stop(e.(hazardState := e.hazardState[h.id := st.(alerted := true, lastAlertAt := now)],
                recentlyAlerted := e.recentlyAlerted[h.id := now],
                lastTts := if speechFails then e.lastTts else now),
             AlertData(h.id, h.hazardType, distance, AlertMessage(h, distance)), true)
      else
        Next(e.(hazardState := e.hazardState[h.id := st]))
  }

  /** A hazard on the visiting list with its whole-metre distance. */
  datatype Sighting = Sighting(h: Hazard, distance: int)

  /** Whether some sighting is of hazard `id`. */
  predicate Visits(ss: seq<Sighting>, id: int) {
    exists k :: 0 <= k < |ss| && ss[k].h.id == id
  }

  /** The loop of `processLocationUpdate`: visit the sightings in order until one stops. */
  function Scan(e: Engine, ss: seq<Sighting>, now: int, warn: int, speechFails: bool): (r: (Engine, seq<AlertData>))
    ensures |r.1| <= 1
    ensures r.0.activeAlerts == e.activeAlerts
    ensures |r.1| == 0 ==> r.0.lastTts == e.lastTts
    ensures forall id :: !Visits(ss, id) ==>
      (id in r.0.recentlyAlerted <==> id in e.recentlyAlerted) && (id in r.0.hazardState <==> id in e.hazardState)
    decreases |ss|
  {
    if |ss| == 0 then (e, [])
    else
      match Visit(e, ss[0].h, ss[0].distance, now, warn, speechFails)
      case Stop(e', a, _) => (e', [a])
      case Next(e') =>
        assert forall id :: Visits(ss[1..], id) ==> Visits(ss, id) by {
          forall id | Visits(ss[1..], id) ensures Visits(ss, id) {
            var k :| 0 <= k < |ss[1..]| && ss[1..][k].h.id == id;
            assert ss[k + 1].h.id == id;
          }
        }
        Scan(e', ss[1..], now, warn, speechFails)
  }

  /** The loop written as in the source, with `break` on the first alert. */
  method ScanLoop(e: Engine, ss: seq<Sighting>, now: int, warn: int, speechFails: bool) returns (e': Engine, alerts: seq<AlertData>)
    ensures (e', alerts) == Scan(e, ss, now, warn, speechFails)
    ensures |alerts| <= 1
  {
    e', alerts := e, [];
    var i := 0;
    while i < |ss|
      invariant 0 <= i <= |ss|
      invariant alerts == [] && Scan(e, ss, now, warn, speechFails) == Scan(e', ss[i..], now, warn, speechFails)
    {
      assert ss[i..][1..] == ss[i + 1..];
      match Visit(e', ss[i].h, ss[i].distance, now, warn, speechFails)
      case Stop(e2, a, _) =>
        e', alerts := e2, [a];
        return;
      case Next(e2) =>
        e' := e2;
      i := i + 1;
    }
  }

  /** The stale-state sweep after the loop: records not seen for ten minutes go. */
  function PruneStates(m: map<int, HazardState>, now: int): (r: map<int, HazardState>)
    ensures forall id :: id in r <==> id in m && now - m[id].lastSeenAt <= STATE_RETENTION_MS
    ensures forall id :: id in r ==> r[id] == m[id]
  {
    map id | id in m && now - m[id].lastSeenAt <= STATE_RETENTION_MS :: m[id]
  }

  /** The inputs of one update: the hazards the bounds query returned, the corridor test, the
      distance to each hazard and the user's bearing, speed and alert multiplier. */
  datatype Fix = Fix(
    nearby: seq<Hazard>,
    inCorridor: Hazard -> bool,
    distance: Hazard -> real,
    bearing: real,
    speedKmh: real,
    multiplier: real)

  /** The hazards worth visiting, nearest first. */
  function Relevant(f: Fix): (r: seq<Hazard>)
    ensures SortedBy(r, f.distance)
    ensures forall h :: h in r <==> h in f.nearby && f.inCorridor(h) && CorrectDirection(h, f.bearing)
  {
    var kept := Filter(f.nearby, (h: Hazard) => f.inCorridor(h) && CorrectDirection(h, f.bearing));
    var r := SortBy(kept, f.distance);
    assert forall h :: h in r <==> h in multiset(kept);
    r
  }

  function Sightings(f: Fix, hs: seq<Hazard>): (r: seq<Sighting>)
    ensures |r| == |hs| && forall k :: 0 <= k < |hs| ==> r[k] == Sighting(hs[k], ToInt(f.distance(hs[k])))
  {
    seq(|hs|, k requires 0 <= k < |hs| => Sighting(hs[k], ToInt(f.distance(hs[k]))))
  }

  /** `processLocationUpdate` (the revised version): the loop, then the stale-state sweep,
      then the shown alerts are replaced. */
  function ProcessLocationUpdate(e: Engine, f: Fix, now: int, speechFails: bool): (r: Engine)
    ensures |r.activeAlerts| <= 1
    ensures r.activeAlerts == [] ==> r.lastTts == e.lastTts
    ensures forall a :: a in r.activeAlerts ==> exists h :: h in Relevant(f) && a.hazardId == h.id
    ensures forall id :: id in r.hazardState ==> now - r.hazardState[id].lastSeenAt <= STATE_RETENTION_MS
  {
    var warn := WarnDistance(f.speedKmh, f.multiplier);
    var hs := Relevant(f);
    var (e1, alerts) := Scan(e, Sightings(f, hs), now, warn, speechFails);
    ScanNames(e, Sightings(f, hs), now, warn, speechFails);
    e1.(hazardState := PruneStates(e1.hazardState, now), activeAlerts := alerts)
  }

  /** The alert a scan shows is for one of the hazards it visited. */
  lemma {:induction false} ScanNames(e: Engine, ss: seq<Sighting>, now: int, warn: int, speechFails: bool)
    ensures forall a :: a in Scan(e, ss, now, warn, speechFails).1 ==> Visits(ss, a.hazardId)
    decreases |ss|
  {
    if |ss| > 0 {
      match Visit(e, ss[0].h, ss[0].distance, now, warn, speechFails)
      case Stop(_, _, _) =>
      case Next(e') =>
        ScanNames(e', ss[1..], now, warn, speechFails);
        forall a | a in Scan(e, ss, now, warn, speechFails).1
          ensures Visits(ss, a.hazardId)
        {
          var k :| 0 <= k < |ss[1..]| && ss[1..][k].h.id == a.hazardId;
          assert a.hazardId == ss[k + 1].h.id;
        }
    }
  }

  /** An announced hazard is not announced again while its record stays alerted: a later
      visit either keeps showing it without speaking or releases it. */
  lemma AlertedIsNotReannounced(e: Engine, h: Hazard, distance: int, now: int, warn: int, speechFails: bool)
    requires StateOf(e, h.id).alerted
    ensures var r := Visit(e, h, distance, now, warn, speechFails);
      r.engine.lastTts == e.lastTts && !(r.Stop? && r.announced)
  {
  }

  /** `cleanupOldAlerts`: drops exactly the suppression stamps older than five minutes. */
  function CleanupOldAlerts(e: Engine, now: int): (r: Engine)
    ensures forall id :: id in r.recentlyAlerted <==> id in e.recentlyAlerted && now - e.recentlyAlerted[id] <= SUPPRESSION_MS
    ensures forall id :: id in r.recentlyAlerted ==> r.recentlyAlerted[id] == e.recentlyAlerted[id]
    ensures r.hazardState == e.hazardState && r.lastTts == e.lastTts && r.activeAlerts == e.activeAlerts
  {
    e.(recentlyAlerted := map id | id in e.recentlyAlerted && now - e.recentlyAlerted[id] <= SUPPRESSION_MS :: e.recentlyAlerted[id])
  }

  /** Cleanup never changes whether a hazard counts as recently alerted. */
  lemma CleanupKeepsSuppression(e: Engine, id: int, now: int)
    ensures RecentlyAlerted(CleanupOldAlerts(e, now), id, now) <==> RecentlyAlerted(e, id, now)
  {
  }

  /** `clearAlert`: forgets the hazard's suppression and takes its alerts off display. */
  function ClearAlert(e: Engine, id: int): (r: Engine)
    ensures id !in r.recentlyAlerted
    ensures forall other :: other != id ==> (other in r.recentlyAlerted <==> other in e.recentlyAlerted)
    ensures forall other :: other != id && other in e.recentlyAlerted ==> r.recentlyAlerted[other] == e.recentlyAlerted[other]
    ensures forall a :: a in r.activeAlerts <==> a in e.activeAlerts && a.hazardId != id
    ensures r.hazardState == e.hazardState && r.lastTts == e.lastTts
  {
    e.(recentlyAlerted := e.recentlyAlerted - {id},
       activeAlerts := Filter(e.activeAlerts, (a: AlertData) => a.hazardId != id))
  }
}

=== FILE: remote_hazard_cache.dfy ===
/** `RemoteHazardCache.getNearby`: the hazards near the car come from the server at most
    every 15 seconds, unless the car has moved more than 200 m since the last fetch; between
    fetches, and whenever a fetch fails, the last good list is served. The clock, the
    distance between two points and the server's answer are inputs. The on-disk copy of the
    cache (its JSON file) is not modelled. */
module RemoteHazardCache {
  import opened Wrappers
  import opened Numbers
  import opened Text
  import opened Hazards
  import ApiClient

  const MOVE_METERS: real := 200.0
  const REFETCH_MS: int := 15000
  const PAGE_LIMIT: Int32 := 200

  /** A hazard as the listing endpoint describes it. */
  datatype HazardDto = HazardDto(
    id: string, hazardType: HazardType, lat: Double, lng: Double, directionality: string,
    reportedHeadingDeg: Option<Double>, active: bool, source: string,
    createdAt: string, updatedAt: string, speedLimitKph: Option<Int32>, zoneLengthMeters: Option<Int32>,
    zoneStartLat: Option<Double>, zoneStartLng: Option<Double>,
    zoneEndLat: Option<Double>, zoneEndLng: Option<Double>, votesCount: Int32)

  /** An instant field: unreadable text falls back to the epoch. */
  function InstantOr(text: string): (t: Instant)
    ensures ParseInstant(text).None? ==> t == EPOCH
  {
    ParseInstant(text).GetOr(EPOCH)
  }

  /** The mapping in `getNearby` from the server's record to the app's hazard. */
  function ToHazard(d: HazardDto): (h: Hazard)
    ensures h.id == Some(d.id) && h.hazardType == d.hazardType && h.lat == d.lat && h.lng == d.lng
    ensures h.reportedHeadingDeg == d.reportedHeadingDeg.GetOr(ZERO)
    ensures h.createdAt == InstantOr(d.createdAt) && h.updatedAt == Some(InstantOr(d.updatedAt))
    ensures h.userBearing.None? && h.votesCount == Some(d.votesCount)
  {
    NewHazard(d.hazardType, d.lat, d.lng).(
      id := Some(d.id), directionality := d.directionality,
      reportedHeadingDeg := d.reportedHeadingDeg.GetOr(ZERO), userBearing := None,
      active := d.active, source := d.source, createdAt := InstantOr(d.createdAt),
      speedLimitKph := d.speedLimitKph, zoneLengthMeters := d.zoneLengthMeters,
      zoneStartLat := d.zoneStartLat, zoneStartLng := d.zoneStartLng,
      zoneEndLat := d.zoneEndLat, zoneEndLng := d.zoneEndLng,
      updatedAt := Some(InstantOr(d.updatedAt)), votesCount := Some(d.votesCount))
  }

  /** Instants the server prints in the standard text form survive the mapping. */
  lemma ToHazardKeepsInstants(d: HazardDto, created: Instant, updated: Instant)
    requires d.createdAt == InstantText(created) && d.updatedAt == InstantText(updated)
    ensures ToHazard(d).createdAt == created && ToHazard(d).updatedAt == Some(updated)
  {
    ParseInstantText(created);
    ParseInstantText(updated);
  }

  function MapHazards(ds: seq<HazardDto>): (hs: seq<Hazard>)
    ensures |hs| == |ds|
    ensures forall i :: 0 <= i < |ds| ==> hs[i] == ToHazard(ds[i])
  {
    seq(|ds|, i requires 0 <= i < |ds| => ToHazard(ds[i]))
  }

  /** The fields of the cache object. */
  datatype Cache = Cache(lastFetchMs: int, lastLat: Option<Double>, lastLng: Option<Double>, hazards: seq<Hazard>)

  const EMPTY: Cache := Cache(0, None, None, [])

  /** One call: the new cache object, the list returned, and the listing request sent, if any. */
  datatype Nearby = Nearby(cache: Cache, result: seq<Hazard>, request: Option<ApiClient.Request>)

  type Distance = (Double, Double, Double, Double) -> real

  /** Whether a fetch is due: never fetched from a position, moved more than 200 m from it, or
      more than 15 s since the last fetch. */
  predicate NeedFetch(c: Cache, lat: Double, lng: Double, now: int, distance: Distance) {
    var moved := if c.lastLat.Some? && c.lastLng.Some? then distance(c.lastLat.value, c.lastLng.value, lat, lng) > MOVE_METERS else true;
    moved || now - c.lastFetchMs > REFETCH_MS
  }

  /** The anonymous first-page listing around the position. */
  function ListingRequest(baseUrl: string, lat: Double, lng: Double, radius: Int32): ApiClient.Request {
    ApiClient.RequestFor(baseUrl, ApiClient.ListHazards,
                         ApiClient.ListQuery(lat, lng, radius, PAGE_LIMIT, None, s => s),
                         ApiClient.Token(None), s => s)
  }

  /** `getNearby`. The throttle fields are written before the request goes out, so a failed
      request still holds the next fetch back; the list is replaced only by a successful
      answer. */
  function GetNearby(c: Cache, baseUrl: string, current: Option<(Double, Double)>, now: int,
                     distance: Distance, radius: Int32, answer: ApiClient.Result<seq<HazardDto>>): (n: Nearby)
    ensures n.result == n.cache.hazards
    ensures Trim(baseUrl) == "" || current.None? ==> n == Nearby(c, c.hazards, None)
    ensures n.request.Some? <==> Trim(baseUrl) != "" && current.Some? && NeedFetch(c, current.value.0, current.value.1, now, distance)
    ensures n.request.None? ==> n.cache == c
    ensures n.request.Some? ==> n.cache.lastFetchMs == now && n.cache.lastLat == Some(current.value.0)
                                && n.cache.lastLng == Some(current.value.1)
    ensures n.request.Some? ==> n.request.value.authorization.None?
    ensures n.cache.hazards != c.hazards ==> n.request.Some? && answer.Success? && n.cache.hazards == MapHazards(answer.value)
    ensures n.request.Some? && answer.Success? ==> n.cache.hazards == MapHazards(answer.value)
  {
    var base := Trim(baseUrl);
    if base == "" || current.None? then Nearby(c, c.hazards, None)
    else
      var lat := current.value.0;
      var lng := current.value.1;
      if !NeedFetch(c, lat, lng, now, distance) then Nearby(c, c.hazards, None)
      else
        var stamped := c.(lastLat := Some(lat), lastLng := Some(lng), lastFetchMs := now);
        var after := if answer.Success? then stamped.(hazards := MapHazards(answer.value)) else stamped;
        Nearby(after, after.hazards, Some(ListingRequest(base, lat, lng, radius)))
  }

  /** The throttle: right after a fetch, a call from within 200 m of the fetch position and
      within 15 s of it sends nothing and serves the list the fetch left, whatever the first
      answer was. */
  lemma ThrottleHoldsBack(c: Cache, baseUrl: string, lat: Double, lng: Double, now: int, later: int,
                          lat2: Double, lng2: Double, distance: Distance, radius: Int32,
                          answer: ApiClient.Result<seq<HazardDto>>, answer2: ApiClient.Result<seq<HazardDto>>)
    requires GetNearby(c, baseUrl, Some((lat, lng)), now, distance, radius, answer).request.Some?
    requires later - now <= REFETCH_MS && distance(lat, lng, lat2, lng2) <= MOVE_METERS
    ensures var first := GetNearby(c, baseUrl, Some((lat, lng)), now, distance, radius, answer);
            var second := GetNearby(first.cache, baseUrl, Some((lat2, lng2)), later, distance, radius, answer2);
            second.request.None? && second.result == first.result
  {
  }
}

=== FILE: remote_logger.dfy ===
/** The app's remote logger: builds a JSON log record and posts it to the debug logging
    server, when enabled. The HTTP post itself runs in the background and is not modelled;
    `Log` returns the request it would send. */
module RemoteLogger {
  import opened Wrappers
  import opened Json
  import LogServer

  const SERVER_URL := "http://10.0.2.2:8081/log"
  const SERVER_URL_DEVICE := "http://192.168.1.100:8081/log"

  /** The logger's two switches. */
  datatype Config = Config(enabled: bool, useDeviceUrl: bool)

  /** The parts of a throwable the logger sends: its `toString()` and its stack trace text. */
  datatype Throwable = Throwable(text: string, stackTrace: string)

  /** One outgoing POST: where it goes and the JSON object it carries. */
  datatype Outgoing = Outgoing(url: string, record: map<string, Json>)

  /** The emulator's host address unless the device address is switched on. */
  function ServerUrl(c: Config): (url: string)
    ensures url == SERVER_URL_DEVICE <==> c.useDeviceUrl
    ensures url == SERVER_URL <==> !c.useDeviceUrl
  {
    if c.useDeviceUrl then SERVER_URL_DEVICE else SERVER_URL
  }

  /** Both addresses post to the path the logging server accepts records on. */
  lemma ServerUrlPath(c: Config)
    ensures var u := ServerUrl(c); |u| >= 4 && u[|u| - 4..] == "/log"
  {
  }

  /** The record for one log call: timestamp, level, tag and message, plus the exception
      and its stack trace when a throwable is given. */
  function LogRecord(level: string, tag: string, message: string, t: Option<Throwable>, timestamp: string): (r: map<string, Json>)
    ensures t.None? ==> r.Keys == {"timestamp", "level", "tag", "message"}
    ensures t.Some? ==> r.Keys == {"timestamp", "level", "tag", "message", "exception", "stacktrace"}
    ensures r["timestamp"] == JString(timestamp) && r["level"] == JString(level)
    ensures r["tag"] == JString(tag) && r["message"] == JString(message)
    ensures t.Some? ==> r["exception"] == JString(t.value.text) && r["stacktrace"] == JString(t.value.stackTrace)
  {
    var base := map["timestamp" := JString(timestamp), "level" := JString(level),
                    "tag" := JString(tag), "message" := JString(message)];
    match t
    case None => base
    case Some(th) => base["exception" := JString(th.text)]["stacktrace" := JString(th.stackTrace)]
  }

  /** `log`: nothing is sent while the logger is disabled. */
  function Log(c: Config, level: string, tag: string, message: string, t: Option<Throwable>, timestamp: string): (r: Option<Outgoing>)
    ensures r.Some? <==> c.enabled
    ensures r.Some? ==> r.value.url == ServerUrl(c) && r.value.record == LogRecord(level, tag, message, t, timestamp)
  {
    if !c.enabled then None else Some(Outgoing(ServerUrl(c), LogRecord(level, tag, message, t, timestamp)))
  }

  /** The four level shortcuts `d`, `i`, `w` and `e`. */
  datatype Severity = D | I | W | E

  function LevelName(s: Severity): string {
    match s
    case D => "DEBUG"
    case I => "INFO"
    case W => "WARN"
    case E => "ERROR"
  }

  /** Each shortcut logs at its own level; only `w` and `e` carry a throwable. */
  function LogAt(c: Config, s: Severity, tag: string, message: string, t: Option<Throwable>, timestamp: string): (r: Option<Outgoing>)
    ensures r.Some? <==> c.enabled
    ensures r.Some? ==> "level" in r.value.record && r.value.record["level"] == JString(LevelName(s))
    ensures r.Some? && (s == D || s == I) ==> "exception" !in r.value.record
  {
    Log(c, LevelName(s), tag, message, if s == D || s == I then None else t, timestamp)
  }

  /** The four levels are distinct, and each is one the dashboard styles. */
  lemma LevelNamesStyled(s: Severity, s': Severity)
    ensures LevelName(s) in LogServer.STYLED_LEVELS
    ensures LevelName(s) == LevelName(s') ==> s == s'
  {
  }

  /** `"prefix$x"` followed by `sep + detail` when the optional detail is present. */
  function WithDetail(head: string, sep: string, detail: Option<string>, close: string): string {
    match detail
    case None => head
    case Some(d) => head + sep + d + close
  }

  function AppEventMessage(event: string, details: Option<string>): (m: string)
    ensures details.None? ==> m == "App Event: " + event
    ensures details.Some? ==> m == "App Event: " + event + " - " + details.value
  {
    WithDetail("App Event: " + event, " - ", details, "")
  }

  function ScreenViewMessage(screen: string, source: Option<string>): (m: string)
    ensures source.None? ==> m == "Screen View: " + screen
    ensures source.Some? ==> m == "Screen View: " + screen + " (from: " + source.value + ")"
  {
    WithDetail("Screen View: " + screen, " (from: ", source, ")")
  }

  function UserActionMessage(action: string, details: Option<string>): (m: string)
    ensures details.None? ==> m == "User Action: " + action
    ensures details.Some? ==> m == "User Action: " + action + " - " + details.value
  {
    WithDetail("User Action: " + action, " - ", details, "")
  }

  /** `logAppEvent`: INFO under tag "AppLifecycle". */
  function LogAppEvent(c: Config, event: string, details: Option<string>, timestamp: string): (r: Option<Outgoing>)
    ensures r.Some? <==> c.enabled
    ensures r.Some? ==> r.value.record == LogRecord("INFO", "AppLifecycle", AppEventMessage(event, details), None, timestamp)
  {
    LogAt(c, I, "AppLifecycle", AppEventMessage(event, details), None, timestamp)
  }

  /** `logScreenView`: INFO under tag "Navigation". */
  function LogScreenView(c: Config, screen: string, source: Option<string>, timestamp: string): (r: Option<Outgoing>)
    ensures r.Some? <==> c.enabled
    ensures r.Some? ==> r.value.record == LogRecord("INFO", "Navigation", ScreenViewMessage(screen, source), None, timestamp)
  {
    LogAt(c, I, "Navigation", ScreenViewMessage(screen, source), None, timestamp)
  }

  /** `logUserAction`: INFO under tag "UserAction". */
  function LogUserAction(c: Config, action: string, details: Option<string>, timestamp: string): (r: Option<Outgoing>)
    ensures r.Some? <==> c.enabled
    ensures r.Some? ==> r.value.record == LogRecord("INFO", "UserAction", UserActionMessage(action, details), None, timestamp)
  {
    LogAt(c, I, "UserAction", UserActionMessage(action, details), None, timestamp)
  }

  /** `logError`: ERROR under tag "AppError", with the throwable when given. */
  function LogError(c: Config, context: string, error: string, t: Option<Throwable>, timestamp: string): (r: Option<Outgoing>)
    ensures r.Some? <==> c.enabled
    ensures r.Some? ==> r.value.record == LogRecord("ERROR", "AppError", "Error in " + context + ": " + error, t, timestamp)
  {
    LogAt(c, E, "AppError", "Error in " + context + ": " + error, t, timestamp)
  }

  /** End to end: a record the logger sends, once the server accepts it, shows on the
      dashboard with the client's timestamp, level, tag and message and no default. */
  lemma LoggedRecordOnDashboard(c: Config, level: string, tag: string, message: string,
                                t: Option<Throwable>, timestamp: string, now: string, ip: string)
    requires c.enabled
    ensures var out := Log(c, level, tag, message, t, timestamp).value;
            LogServer.View(LogServer.Stamp(out.record, now, ip))
              == LogServer.Entry(level, timestamp, tag, message, ip)
  {
  }
}

=== FILE: seed_loader.dfy ===
/** Filling the database with the bundled seeds (`SeedLoader`): a positional CSV parse of
    "type,lat,lon" rows and the load-if-empty rule. The seed file and the clock are
    parameters. */
module SeedLoader {
  import opened Wrappers
  import opened Text
  import opened Numbers
  import opened Entities
  import HazardDao
  import opened Seqs

  /** What opening `seeds.csv` gives: nothing, or its lines with the index of the line
      whose read throws, if any. */
  datatype SeedFile = Missing | Opened(lines: seq<string>, failAt: Option<nat>)

  /** `parseHazardType`: the six spaced names, in any ASCII letter case. Enum spellings are refused. */
  function ParseHazardType(s: string): (r: Option<HazardType>)
    ensures r == Some(SPEED_BUMP) <==> Lower(s) == "speed bump"
    ensures r == Some(RUMBLE_STRIP) <==> Lower(s) == "rumble strip"
    ensures r == Some(POTHOLE) <==> Lower(s) == "pothole"
    ensures r == Some(DEBRIS) <==> Lower(s) == "debris"
    ensures r == Some(POLICE) <==> Lower(s) == "police"
    ensures r == Some(SPEED_LIMIT_ZONE) <==> Lower(s) == "speed limit zone"
  {
    var k := Lower(s);
    if k == "speed bump" then Some(SPEED_BUMP)
    else if k == "rumble strip" then Some(RUMBLE_STRIP)
    else if k == "pothole" then Some(POTHOLE)
    else if k == "debris" then Some(DEBRIS)
    else if k == "police" then Some(POLICE)
    else if k == "speed limit zone" then Some(SPEED_LIMIT_ZONE)
    else None
  }

  /** No spelling with an underscore is accepted, so the enum names such as "SPEED_BUMP"
      are refused. */
  lemma UnderscoreRefused(s: string, i: nat)
    requires i < |s| && s[i] == '_'
    ensures ParseHazardType(s).None?
  {
    var k := Lower(s);
    assert k[i] == '_';
    assert '_' in k;
    assert '_' !in "speed bump" && '_' !in "rumble strip" && '_' !in "pothole";
    assert '_' !in "debris" && '_' !in "police" && '_' !in "speed limit zone";
  }

  /** One row: at least three fields, a known trimmed type and numeric coordinates. The
      row becomes a seed with every other field at its default, created at `now`. */
  function ParseSeedRow(line: string, now: Int64): (r: Option<Hazard>)
    ensures var parts := Split(line, ',');
      r.Some? <==> (|parts| >= 3 && ParseHazardType(Trim(parts[0])).Some?
        && ParseDouble(Trim(parts[1])).Some? && ParseDouble(Trim(parts[2])).Some?)
    ensures r.Some? ==> var parts := Split(line, ',');
      r.value == NewHazard(ParseHazardType(Trim(parts[0])).value, ParseDouble(Trim(parts[1])).value,
                           ParseDouble(Trim(parts[2])).value, now)
  {
    var parts := Split(line, ',');
    if |parts| < 3 then None
    else
      match (ParseHazardType(Trim(parts[0])), ParseDouble(Trim(parts[1])), ParseDouble(Trim(parts[2])))
      case (Some(t), Some(lat), Some(lon)) => Some(NewHazard(t, lat, lon, now))
      case _ => None
  }

  /** The lines a reader gets through: all of them, or those before the line whose read throws. */
  function ReadLines(lines: seq<string>, failAt: Option<nat>): (r: seq<string>)
    ensures r <= lines
    ensures failAt.Some? && failAt.value < |lines| ==> |r| == failAt.value
  {
    match failAt case Some(k) => if k < |lines| then lines[..k] else lines case None => lines
  }

  /** A row after the header is a seed exactly when it parses as one. */
  lemma SeedRowsParsed(read: seq<string>, now: Int64)
    requires |read| > 0
    ensures forall h :: h in FilterMap(read[1..], (line: string) => ParseSeedRow(line, now)) <==>
      exists i :: 1 <= i < |read| && ParseSeedRow(read[i], now) == Some(h)
  {
    FilterMapTailMembers(read, (line: string) => ParseSeedRow(line, now));
  }

  /** `parseSeedsCsv`: the first line is skipped as a header; a read that throws ends the
      parse with the seeds found so far; a missing file gives none. */
  function ParseSeedsCsv(file: SeedFile, now: Int64): (r: seq<Hazard>)
    ensures file.Missing? ==> r == []
    ensures file.Opened? ==> forall h :: h in r <==>
      exists i :: 1 <= i < |ReadLines(file.lines, file.failAt)| &&
        ParseSeedRow(ReadLines(file.lines, file.failAt)[i], now) == Some(h)
  {
    match file
    case Missing => []
    case Opened(lines, failAt) =>
      var read := ReadLines(lines, failAt);
      if |read| == 0 then []
      else
        SeedRowsParsed(read, now);
        FilterMap(read[1..], (line: string) => ParseSeedRow(line, now))
  }

  /** Every parsed seed is an active seed row with a fresh-id request. */
  lemma ParsedAreSeeds(file: SeedFile, now: Int64)
    ensures forall h :: h in ParseSeedsCsv(file, now) ==> h.source == SEED && h.id == 0 && h.active
  {
    match file
    case Missing =>
    case Opened(lines, failAt) =>
      var read := ReadLines(lines, failAt);
      if |read| > 0 {
        var f := (line: string) => ParseSeedRow(line, now);
        var r := ParseSeedsCsv(file, now);
        forall h | h in r ensures h.source == SEED && h.id == 0 && h.active {
          var i :| 0 <= i < |r| && r[i] == h;
          FilterMapOrigin(read[1..], f, i);
        }
      }
  }

  /** A file whose read fails at line `k` yields the seeds of its first `k` lines. */
  lemma FailureKeepsPrefix(lines: seq<string>, k: nat, now: Int64)
    requires k < |lines|
    ensures ParseSeedsCsv(Opened(lines, Some(k)), now) == ParseSeedsCsv(Opened(lines[..k], None), now)
  {
  }

  /** `loadSeedsIfEmpty`: loads when the table holds no seed or when asked to replace them,
      deleting the old seeds first; the result is `None` when the insert fails, after the
      deletion has happened. */
  function LoadSeedsIfEmpty(t: HazardDao.Table, replaceExisting: bool, file: SeedFile, now: Int64): (r: (HazardDao.Table, bool))
    ensures !(HazardDao.GetSeedCount(t) == 0 || replaceExisting) ==> r == (t, true)
  {
    if HazardDao.GetSeedCount(t) == 0 || replaceExisting then
      var cleared := if replaceExisting then HazardDao.DeleteAllSeeds(t) else t;
      match HazardDao.UpsertAll(cleared, ParseSeedsCsv(file, now))
      case Some(u) => (u, true)
      case None => (cleared, false)
    else (t, true)
  }

  /** After a replacing load into a valid table, every seed row is one of the parsed seeds
      and no seed row from before survives; rows that are not seeds are kept. */
  lemma ReplaceDropsOldSeeds(t: HazardDao.Table, file: SeedFile, now: Int64)
    requires HazardDao.Valid(t)
    ensures var (u, ok) := LoadSeedsIfEmpty(t, true, file, now);
      (forall id :: id in u.rows && u.rows[id].source == SEED ==> id !in t.rows || t.rows[id].source != SEED)
      && (forall id :: id in t.rows && t.rows[id].source != SEED ==> id in u.rows && u.rows[id] == t.rows[id])
  {
    var cleared := HazardDao.DeleteAllSeeds(t);
    var seeds := ParseSeedsCsv(file, now);
    ParsedAreSeeds(file, now);
    assert forall i :: 0 <= i < |seeds| ==> seeds[i].id == 0 by {
      forall i | 0 <= i < |seeds| ensures seeds[i].id == 0 {
        assert seeds[i] in seeds;
      }
    }
    match HazardDao.UpsertAll(cleared, seeds)
    case None =>
    case Some(u) =>
      HazardDao.UpsertAllKeeps(cleared, seeds);
      HazardDao.UpsertAllNewIdsFresh(cleared, seeds);
  }

  /** The parsed seeds, by position: each is an active seed row asking for a fresh id. */
  lemma ParsedSeedsAt(file: SeedFile, now: Int64)
    ensures var seeds := ParseSeedsCsv(file, now);
      forall i :: 0 <= i < |seeds| ==> seeds[i].id == 0 && seeds[i].source == SEED && seeds[i].active
  {
    var seeds := ParseSeedsCsv(file, now);
    ParsedAreSeeds(file, now);
    forall i | 0 <= i < |seeds| ensures seeds[i].id == 0 && seeds[i].source == SEED && seeds[i].active {
      assert seeds[i] in seeds;
    }
  }

  /** A load into a valid table keeps it valid, keeps the rows that are not seeds, drops
      the old seeds when replacing, and when it runs and succeeds stores every parsed seed. */
  lemma LoadIntoValid(t: HazardDao.Table, replaceExisting: bool, file: SeedFile, now: Int64)
    requires HazardDao.Valid(t)
    ensures var (u, ok) := LoadSeedsIfEmpty(t, replaceExisting, file, now);
      HazardDao.Valid(u)
      && (forall id :: id in t.rows && t.rows[id].source != SEED ==> id in u.rows && u.rows[id] == t.rows[id])
      && (replaceExisting ==>
            forall id :: id in u.rows && u.rows[id].source == SEED ==> id !in t.rows || t.rows[id].source != SEED)
      && (ok && (replaceExisting || HazardDao.GetSeedCount(t) == 0) ==>
            var seeds := ParseSeedsCsv(file, now);
            forall i :: 0 <= i < |seeds| ==> exists id :: id in u.rows && u.rows[id] == seeds[i].(id := id))
  {
    if HazardDao.GetSeedCount(t) == 0 || replaceExisting {
      var cleared := if replaceExisting then HazardDao.DeleteAllSeeds(t) else t;
      var seeds := ParseSeedsCsv(file, now);
      ParsedSeedsAt(file, now);
      assert HazardDao.Valid(cleared);
      match HazardDao.UpsertAll(cleared, seeds)
      case None =>
      case Some(u) =>
        HazardDao.UpsertAllKeeps(cleared, seeds);
        HazardDao.UpsertAllStoresAll(cleared, seeds);
        if replaceExisting { ReplaceDropsOldSeeds(t, file, now); }
    }
  }

  /** What a load does to the table. Every row afterwards is an old row, unchanged, or a
      freshly parsed active seed, and a failed insert adds no row. In a valid table the
      table stays valid, rows that are not seeds are kept, a replacing load leaves no old
      seed row, and a load that runs and succeeds stores every parsed seed. */
  lemma LoadSeedsEffect(t: HazardDao.Table, replaceExisting: bool, file: SeedFile, now: Int64)
    ensures var (u, ok) := LoadSeedsIfEmpty(t, replaceExisting, file, now);
      (forall id :: id in u.rows ==>
         (id in t.rows && u.rows[id] == t.rows[id]) || (u.rows[id].source == SEED && u.rows[id].active))
      && (!ok ==> forall id :: id in u.rows ==> id in t.rows && u.rows[id] == t.rows[id])
    ensures HazardDao.Valid(t) ==> var (u, ok) := LoadSeedsIfEmpty(t, replaceExisting, file, now);
      HazardDao.Valid(u)
      && (forall id :: id in t.rows && t.rows[id].source != SEED ==> id in u.rows && u.rows[id] == t.rows[id])
      && (replaceExisting ==>
            forall id :: id in u.rows && u.rows[id].source == SEED ==> id !in t.rows || t.rows[id].source != SEED)
      && (ok && (replaceExisting || HazardDao.GetSeedCount(t) == 0) ==>
            var seeds := ParseSeedsCsv(file, now);
            forall i :: 0 <= i < |seeds| ==> exists id :: id in u.rows && u.rows[id] == seeds[i].(id := id))
  {
    if HazardDao.Valid(t) { LoadIntoValid(t, replaceExisting, file, now); }
    if HazardDao.GetSeedCount(t) == 0 || replaceExisting {
      var cleared := if replaceExisting then HazardDao.DeleteAllSeeds(t) else t;
      var seeds := ParseSeedsCsv(file, now);
      ParsedSeedsAt(file, now);
      match HazardDao.UpsertAll(cleared, seeds)
      case None =>
      case Some(u) =>
        HazardDao.UpsertAllOrigin(cleared, seeds);
    }
  }
}

=== FILE: seed_overrides.dfy ===
/** Seeds the user has switched off (`SeedOverrides`): a set of keys, one per seed, built
    from the seed's type and its coordinates printed to six decimals. */
module SeedOverrides {
  import opened Text
  import opened Numbers
  import opened Hazards

  /** `keyOf`: "TYPE|lat|lng" with both coordinates formatted by `%.6f`. */
  function KeyOf(h: Hazard): string {
    Join([TypeName(h.hazardType), Format6(h.lat), Format6(h.lng)], '|')
  }

  /** Two hazards share a key exactly when they agree on type and on both printed
      coordinates: the '|' separator never occurs inside a part. */
  lemma KeyOfIdentifies(a: Hazard, b: Hazard)
    ensures KeyOf(a) == KeyOf(b) <==>
      a.hazardType == b.hazardType && Format6(a.lat) == Format6(b.lat) && Format6(a.lng) == Format6(b.lng)
  {
    var pa := [TypeName(a.hazardType), Format6(a.lat), Format6(a.lng)];
    var pb := [TypeName(b.hazardType), Format6(b.lat), Format6(b.lng)];
    TypeNameChars(a.hazardType, '|');
    TypeNameChars(b.hazardType, '|');
    NumeralExcludes(Format6(a.lat), '|');
    NumeralExcludes(Format6(a.lng), '|');
    NumeralExcludes(Format6(b.lat), '|');
    NumeralExcludes(Format6(b.lng), '|');
    SplitJoin(pa, '|');
    SplitJoin(pb, '|');
    if KeyOf(a) == KeyOf(b) {
      assert pa == pb;
      TypeNameInjective(a.hazardType, b.hazardType);
    }
  }

  /** `isDisabled`. */
  predicate IsDisabled(disabled: set<string>, key: string) {
    key in disabled
  }

  /** `addOrRemove`: removes a present value, adds an absent one, and reports true in
      both cases. */
  function AddOrRemove(s: set<string>, value: string): (r: (set<string>, bool))
    ensures r.1
    ensures value in r.0 <==> value !in s
    ensures forall k :: k != value ==> (k in r.0 <==> k in s)
  {
    if value in s then (s - {value}, true) else (s + {value}, true)
  }

  /** `toggle`: flips the key's membership; since `addOrRemove` always reports true the
      new set is always written back. */
  function Toggle(disabled: set<string>, key: string): (r: set<string>)
    ensures IsDisabled(r, key) <==> !IsDisabled(disabled, key)
    ensures forall k :: k != key ==> (IsDisabled(r, k) <==> IsDisabled(disabled, k))
  {
    var (s, changed) := AddOrRemove(disabled, key);
    if !changed then disabled else s
  }

  /** Toggling the same key twice restores the set. */
  lemma ToggleTwice(disabled: set<string>, key: string)
    ensures Toggle(Toggle(disabled, key), key) == disabled
  {
    var once := Toggle(disabled, key);
    var twice := Toggle(once, key);
    assert forall k :: k in twice <==> k in disabled;
  }
}

=== FILE: seed_repository.dfy ===
/** Loading the bundled seed hazards (`SeedRepository`): a header-indexed CSV parse, the
    list of hazards the app shows, and adding a user hazard unless one of the same type is
    already close by. The asset, the store file and the clock are parameters; distances
    come from a given function. */
module SeedRepository {
  import opened Wrappers
  import opened Text
  import opened Numbers
  import opened Hazards
  import opened Seqs
  import HazardStore
  import SeedOverrides

  /** What opening `seeds.csv` gives: its lines, no such file, or another read failure. */
  datatype SeedAsset = Lines(lines: seq<string>) | Missing | Unreadable

  /** The positions of the columns the parser reads; -1 where the header lacks one. */
  datatype Columns = Columns(idxType: int, idxLat: int, idxLng: int, idxDirectionality: int,
                             idxSpeedKph: int, idxZoneLen: int)

  /** Header cells, trimmed and lower-cased. */
  function HeaderCells(header: string): (r: seq<string>)
    ensures |r| == |Split(header, ',')|
    ensures forall i :: 0 <= i < |r| ==> r[i] == Lower(Trim(Split(header, ',')[i]))
  {
    var cells := Split(header, ',');
    seq(|cells|, i requires 0 <= i < |cells| => Lower(Trim(cells[i])))
  }

  /** The column positions a header names; "lng" falls back to "lon". */
  function ColumnsOf(header: string): (r: Columns)
    ensures var cols := HeaderCells(header);
      r.idxType == FirstIndex(cols, "type") && r.idxLat == FirstIndex(cols, "lat")
      && (r.idxLng == if "lng" in cols then FirstIndex(cols, "lng") else FirstIndex(cols, "lon"))
  {
    var cols := HeaderCells(header);
    var lng := FirstIndex(cols, "lng");
    Columns(FirstIndex(cols, "type"), FirstIndex(cols, "lat"),
            if lng == -1 then FirstIndex(cols, "lon") else lng,
            FirstIndex(cols, "directionality"), FirstIndex(cols, "speedlimitkph"),
            FirstIndex(cols, "zonelengthmeters"))
  }

  /** The directionality a seed gets when its row gives none. */
  function DefaultDirectionality(t: HazardType): string {
    if t == SPEED_LIMIT_ZONE then "BIDIRECTIONAL" else "ONE_WAY"
  }

  /** The directionality column's value when present and not blank, else the default. */
  function Directionality(c: Columns, parts: seq<string>, t: HazardType): (r: string)
    ensures var cell := GetOrNull(parts, c.idxDirectionality);
      r == if c.idxDirectionality >= 0 && cell.Some? && !IsBlank(cell.value) then cell.value
           else DefaultDirectionality(t)
  {
    if c.idxDirectionality >= 0 then
      var v := GetOrNull(parts, c.idxDirectionality).GetOr("");
      if IsBlank(v) then DefaultDirectionality(t) else v
    else DefaultDirectionality(t)
  }

  /** An optional whole-number column. */
  function IntColumn(idx: int, parts: seq<string>): Option<Int32> {
    if idx >= 0 then
      match GetOrNull(parts, idx)
      case Some(v) => (match ParseInt(v) case Some(n) => Some(n as Int32) case None => None)
      case None => None
    else None
  }

  /** The hazard of a row's fields: nothing without a known type or numeric coordinates.
      A seed is active, from "SEED", created at `now`, with zero bearings. */
  function SeedOf(c: Columns, parts: seq<string>, now: Instant): (r: Option<Hazard>)
    ensures r.Some? <==>
      (GetOrNull(parts, c.idxType).Some? && FromString(parts[c.idxType]).Some?
       && GetOrNull(parts, c.idxLat).Some? && ParseDouble(parts[c.idxLat]).Some?
       && GetOrNull(parts, c.idxLng).Some? && ParseDouble(parts[c.idxLng]).Some?)
    ensures r.Some? ==>
      r.value.hazardType == FromString(parts[c.idxType]).value
      && r.value.lat == ParseDouble(parts[c.idxLat]).value
      && r.value.lng == ParseDouble(parts[c.idxLng]).value
      && r.value.directionality == Directionality(c, parts, r.value.hazardType)
      && r.value.source == "SEED" && r.value.active && r.value.createdAt == now
  {
    match (GetOrNull(parts, c.idxType), GetOrNull(parts, c.idxLat), GetOrNull(parts, c.idxLng))
    case (Some(ts), Some(las), Some(lns)) =>
      (match (FromString(ts), ParseDouble(las), ParseDouble(lns))
       case (Some(t), Some(lat), Some(lng)) =>
         Some(NewHazard(t, lat, lng).(
           directionality := Directionality(c, parts, t),
           reportedHeadingDeg := ZERO, userBearing := Some(ZERO), roadBearing := Some(ZERO),
           speedLimitKph := IntColumn(c.idxSpeedKph, parts),
           zoneLengthMeters := IntColumn(c.idxZoneLen, parts),
           createdAt := now))
       case _ => None)
    case _ => None
  }

  /** One data row, trimmed; a blank row gives nothing. */
  function ParseSeedRow(c: Columns, line: string, now: Instant): (r: Option<Hazard>)
    ensures IsBlank(line) ==> r.None?
    ensures !IsBlank(line) ==> r == SeedOf(c, Split(Trim(line), ','), now)
  {
    TrimEmptyIffBlank(line);
    if Trim(line) == "" then None else SeedOf(c, Split(Trim(line), ','), now)
  }

  /** The hazards of the data rows, in file order. */
  function ParseSeedRows(c: Columns, rows: seq<string>, now: Instant): (r: seq<Hazard>)
    ensures |r| <= |rows|
  {
    FilterMap(rows, (line: string) => ParseSeedRow(c, line, now))
  }

  /** Every parsed seed comes from a row, and is an active "SEED" hazard created at `now`. */
  lemma ParsedSeeds(c: Columns, rows: seq<string>, now: Instant)
    ensures forall h :: h in ParseSeedRows(c, rows, now) ==>
      h.source == "SEED" && h.active && h.createdAt == now
      && exists j :: 0 <= j < |rows| && ParseSeedRow(c, rows[j], now) == Some(h)
  {
    var f := (line: string) => ParseSeedRow(c, line, now);
    var r := ParseSeedRows(c, rows, now);
    forall h | h in r
      ensures h.source == "SEED" && h.active && h.createdAt == now
      ensures exists j :: 0 <= j < |rows| && ParseSeedRow(c, rows[j], now) == Some(h)
    {
      var i :| 0 <= i < |r| && r[i] == h;
      FilterMapOrigin(rows, f, i);
      var j :| 0 <= j < |rows| && f(rows[j]) == Some(r[i]);
      assert ParseSeedRow(c, rows[j], now) == Some(h);
    }
  }

  /** `loadSeeds`: the first line is the header (empty when the file is); a missing file is
      an empty seed set, any other failure an unloaded one. */
  function LoadSeeds(asset: SeedAsset, now: Instant): (r: (SeedLoadResult, seq<Hazard>))
    ensures r.0.count == |r.1|
    ensures asset.Missing? ==> r == (SeedLoadResult(true, 0), [])
    ensures asset.Unreadable? ==> r == (SeedLoadResult(false, 0), [])
    ensures r.0.loaded <==> !asset.Unreadable?
  {
    match asset
    case Missing => (SeedLoadResult(true, 0), [])
    case Unreadable => (SeedLoadResult(false, 0), [])
    case Lines(lines) =>
      var hazards := ParseSeedLines(lines, now);
      (SeedLoadResult(true, |hazards|), hazards)
  }

  /** The seeds of a readable file: the first line is the header (empty when the file is),
      the rest are data rows. */
  function ParseSeedLines(lines: seq<string>, now: Instant): (r: seq<Hazard>)
    ensures |lines| <= 1 ==> r == []
  {
    if |lines| == 0 then [] else ParseSeedRows(ColumnsOf(lines[0]), lines[1..], now)
  }

  /** The fields of a seed row "TYPE,lat,lng". */
  function SeedFields(t: HazardType, lat: Double, lng: Double): seq<string> {
    [TypeName(t), FormatDouble(lat), FormatDouble(lng)]
  }

  /** Three comma-free fields, the line starting and ending in a visible character: the
      joined line needs no trimming, is not blank and splits back into the fields. */
  lemma ThreeFieldLine(a: string, b: string, c: string)
    requires ',' !in a && ',' !in b && ',' !in c
    requires |a| > 0 && !IsWhitespace(a[0]) && |c| > 0 && !IsWhitespace(c[|c| - 1])
    ensures var line := Join([a, b, c], ',');
      Trim(line) == line && !IsBlank(line) && Split(line, ',') == [a, b, c]
  {
    var parts := [a, b, c];
    var line := Join(parts, ',');
    SplitJoin(parts, ',');
    assert parts[1..] == [b, c] && parts[1..][1..] == [c];
    assert Join(parts[1..], ',') == b + [','] + c;
    assert line == a + [','] + b + [','] + c;
    assert line[0] == a[0];
    assert line[|line| - 1] == c[|c| - 1];
    TrimTrimmed(line);
  }

  /** Such a row needs no trimming, is not blank and splits back into its fields. */
  lemma SeedLineShape(t: HazardType, lat: Double, lng: Double)
    ensures var line := Join(SeedFields(t, lat, lng), ',');
      Trim(line) == line && !IsBlank(line) && Split(line, ',') == SeedFields(t, lat, lng)
  {
    var name := TypeName(t);
    var last := FormatDouble(lng);
    TypeNameChars(t, ',');
    NumeralExcludes(FormatDouble(lat), ',');
    NumeralExcludes(last, ',');
    NameShape(t);
    assert !IsWhitespace(name[0]);
    assert NumeralText(last);
    assert !IsWhitespace(last[|last| - 1]);
    ThreeFieldLine(name, FormatDouble(lat), last);
  }

  /** Three cells that read as a type and two coordinates, under the columns type, lat, lng,
      give that hazard with the default directionality. */
  lemma SeedOfCells(parts: seq<string>, t: HazardType, lat: Double, lng: Double, now: Instant)
    requires |parts| == 3 && FromString(parts[0]) == Some(t)
    requires ParseDouble(parts[1]) == Some(lat) && ParseDouble(parts[2]) == Some(lng)
    ensures var r := SeedOf(Columns(0, 1, 2, -1, -1, -1), parts, now);
      r.Some? && r.value.hazardType == t && r.value.lat == lat && r.value.lng == lng
      && r.value.directionality == DefaultDirectionality(t)
  {
    assert GetOrNull(parts, 0) == Some(parts[0]);
    assert GetOrNull(parts, 1) == Some(parts[1]);
    assert GetOrNull(parts, 2) == Some(parts[2]);
  }

  /** The fields of such a row under the columns type, lat, lng give back the type and the
      coordinates, with the default directionality. */
  lemma SeedOfFields(t: HazardType, lat: Double, lng: Double, now: Instant)
    ensures var r := SeedOf(Columns(0, 1, 2, -1, -1, -1), SeedFields(t, lat, lng), now);
      r.Some? && r.value.hazardType == t && r.value.lat == lat && r.value.lng == lng
      && r.value.directionality == DefaultDirectionality(t)
  {
    var parts := SeedFields(t, lat, lng);
    FromStringName(t);
    ParseFormatDouble(lat);
    ParseFormatDouble(lng);
    SeedOfCells(parts, t, lat, lng, now);
  }

  /** A seed row written as "TYPE,lat,lng" under the columns type, lat, lng parses back to
      that type and those coordinates with the default directionality. */
  lemma SeedRowRoundTrip(t: HazardType, lat: Double, lng: Double, now: Instant)
    ensures var line := Join(SeedFields(t, lat, lng), ',');
      var r := ParseSeedRow(Columns(0, 1, 2, -1, -1, -1), line, now);
      r.Some? && r.value.hazardType == t && r.value.lat == lat && r.value.lng == lng
      && r.value.directionality == DefaultDirectionality(t)
  {
    SeedLineShape(t, lat, lng);
    SeedOfFields(t, lat, lng, now);
  }

  /** `activeHazards`: the active seeds not switched off, then the active user hazards. */
  function ActiveHazards(seeds: seq<Hazard>, users: seq<UserHazard>, disabled: set<string>): (r: seq<Hazard>)
    ensures forall h :: h in r <==>
      (h in seeds && h.active && !SeedOverrides.IsDisabled(disabled, SeedOverrides.KeyOf(h)))
      || (h.active && exists u :: u in users && u.hazard == h)
  {
    var userHazards := seq(|users|, i requires 0 <= i < |users| => users[i].hazard);
    assert forall h :: (exists u :: u in users && u.hazard == h) <==> h in userHazards by {
      forall h | h in userHazards ensures exists u :: u in users && u.hazard == h {
        var i :| 0 <= i < |userHazards| && userHazards[i] == h;
        assert users[i] in users;
      }
      forall h, u | u in users && u.hazard == h ensures h in userHazards {
        var i :| 0 <= i < |users| && users[i] == u;
        assert userHazards[i] == h;
      }
    }
    Shown(seeds, userHazards, (h: Hazard) => h.active && !SeedOverrides.IsDisabled(disabled, SeedOverrides.KeyOf(h)))
  }

  /** The seeds `shown` lets through, then the active hazards of the user's list. */
  function Shown(seeds: seq<Hazard>, userHazards: seq<Hazard>, shown: Hazard -> bool): (r: seq<Hazard>)
    ensures forall h :: h in r <==> (h in seeds && shown(h)) || (h in userHazards && h.active)
  {
    Filter(seeds, shown) + Filter(userHazards, (h: Hazard) => h.active)
  }

  datatype AddResult = ADDED | DUPLICATE_NEARBY | ERROR

  const DEFAULT_DEDUP_METERS: real := 30.0

  /** Some hazard of the list has the type of `h` and lies strictly within `threshold`. */
  predicate HasNearbyTwin(existing: seq<Hazard>, h: Hazard, threshold: real,
                          dist: (Double, Double, Double, Double) -> real) {
    exists e :: e in existing && e.hazardType == h.hazardType && dist(e.lat, e.lng, h.lat, h.lng) < threshold
  }

  /** `addUserHazardWithDedup`: refuses a hazard with a nearby twin among the visible ones
      and writes nothing; otherwise appends it to the store, `ok` telling whether the write
      succeeded. */
  function AddUserHazardWithDedup(asset: SeedAsset, f: HazardStore.File, disabled: set<string>,
                                  h: Hazard, threshold: real, dist: (Double, Double, Double, Double) -> real,
                                  seedTime: Instant, nowMillis: Int64, ok: bool): (r: (AddResult, HazardStore.File))
    ensures var existing := ActiveHazards(LoadSeeds(asset, seedTime).1, HazardStore.List(f), disabled);
      (r.0 == DUPLICATE_NEARBY <==> HasNearbyTwin(existing, h, threshold, dist))
      && (r.0 == ADDED <==> !HasNearbyTwin(existing, h, threshold, dist) && ok)
      && (r.0 != ADDED ==> r.1 == f)
      && (r.0 == ADDED ==> r.1 == HazardStore.Add(f, h, nowMillis, true).0)
  {
    var existing := ActiveHazards(LoadSeeds(asset, seedTime).1, HazardStore.List(f), disabled);
    if HasNearbyTwin(existing, h, threshold, dist) then (DUPLICATE_NEARBY, f)
    else
      var (g, written) := HazardStore.Add(f, h, nowMillis, ok);
      (if written then ADDED else ERROR, g)
  }
}

=== FILE: seqs.dfy ===
/** Generic list operations of the Kotlin standard library: `filter`, `mapNotNull`,
    `getOrNull`, `minByOrNull` and the running-best scans written as loops. */
module Seqs {
  import opened Wrappers

  /** Appending is associative. */
  lemma AppendAssoc<T>(a: seq<T>, b: seq<T>, c: seq<T>)
    ensures a + b + c == a + (b + c)
  {
  }

  /** The tail's elements are the sequence's, one place on. */
  lemma TailIndex<T>(s: seq<T>, k: nat)
    requires k + 1 < |s|
    ensures s[1..][k] == s[k + 1]
  {
  }

  /** Kotlin's `filter`: the elements satisfying `p`, in order. */
  function Filter<T>(xs: seq<T>, p: T -> bool): (r: seq<T>)
    ensures |r| <= |xs|
    ensures forall i :: 0 <= i < |r| ==> p(r[i]) && r[i] in xs
    ensures forall x :: x in xs && p(x) ==> x in r
  {
    if |xs| == 0 then [] else (if p(xs[0]) then [xs[0]] else []) + Filter(xs[1..], p)
  }

  /** Kotlin's `mapNotNull`: the present results of `f`, in order. */
  function FilterMap<A, B>(xs: seq<A>, f: A -> Option<B>): (r: seq<B>)
    ensures |r| <= |xs|
  {
    if |xs| == 0 then []
    else (match f(xs[0]) case Some(y) => [y] case None => []) + FilterMap(xs[1..], f)
  }

  /** `mapNotNull` distributes over concatenation. */
  lemma {:induction false} FilterMapAppend<A, B>(a: seq<A>, b: seq<A>, f: A -> Option<B>)
    ensures FilterMap(a + b, f) == FilterMap(a, f) + FilterMap(b, f)
    decreases |a|
  {
    if |a| > 0 {
      var head: seq<B> := match f(a[0]) case Some(y) => [y] case None => [];
      assert (a + b)[0] == a[0];
      assert (a + b)[1..] == a[1..] + b;
      assert FilterMap(a + b, f) == head + FilterMap(a[1..] + b, f);
      assert FilterMap(a, f) == head + FilterMap(a[1..], f);
      FilterMapAppend(a[1..], b, f);
    } else {
      assert a + b == b;
    }
  }

  /** An element that `f` maps to `y` adds `y` at the end of `mapNotNull`. */
  lemma FilterMapSnoc<A, B>(a: seq<A>, x: A, f: A -> Option<B>, y: B)
    requires f(x) == Some(y)
    ensures FilterMap(a + [x], f) == FilterMap(a, f) + [y]
  {
    FilterMapAppend(a, [x], f);
    assert [x][1..] == [];
  }

  /** Every result of `mapNotNull` comes from some input. */
  lemma {:induction false} FilterMapOrigin<A, B>(xs: seq<A>, f: A -> Option<B>, i: nat)
    requires i < |FilterMap(xs, f)|
    ensures exists j :: 0 <= j < |xs| && f(xs[j]) == Some(FilterMap(xs, f)[i])
    decreases |xs|
  {
    var head := match f(xs[0]) case Some(y) => [y] case None => [];
    if i < |head| {
      assert f(xs[0]) == Some(FilterMap(xs, f)[i]);
    } else {
      FilterMapOrigin(xs[1..], f, i - |head|);
      var j :| 0 <= j < |xs[1..]| && f(xs[1..][j]) == Some(FilterMap(xs[1..], f)[i - |head|]);
      assert f(xs[j + 1]) == Some(FilterMap(xs, f)[i]);
    }
  }

  /** Every element that `f` maps to a value contributes that value. */
  lemma {:induction false} FilterMapComplete<A, B>(xs: seq<A>, f: A -> Option<B>, j: nat)
    requires j < |xs| && f(xs[j]).Some?
    ensures f(xs[j]).value in FilterMap(xs, f)
    decreases |xs|
  {
    if j > 0 {
      FilterMapComplete(xs[1..], f, j - 1);
      assert xs[1..][j - 1] == xs[j];
    }
  }

  /** With the first element skipped, a value is kept exactly when some later element maps to it. */
  lemma FilterMapTailMembers<A, B>(xs: seq<A>, f: A -> Option<B>)
    requires |xs| > 0
    ensures forall y :: y in FilterMap(xs[1..], f) <==> exists i :: 1 <= i < |xs| && f(xs[i]) == Some(y)
  {
    var r := FilterMap(xs[1..], f);
    forall y | y in r ensures exists i :: 1 <= i < |xs| && f(xs[i]) == Some(y) {
      var k :| 0 <= k < |r| && r[k] == y;
      FilterMapOrigin(xs[1..], f, k);
      var j :| 0 <= j < |xs[1..]| && f(xs[1..][j]) == Some(r[k]);
      assert f(xs[j + 1]) == Some(y);
    }
    forall y, i | 1 <= i < |xs| && f(xs[i]) == Some(y) ensures y in r {
      assert xs[1..][i - 1] == xs[i];
      FilterMapComplete(xs[1..], f, i - 1);
    }
  }

  /** The pieces `f` makes of each element, joined in order; the element at index `k` is
      numbered `start + k`. */
  function FlatMapFrom<A, B>(f: (nat, A) -> seq<B>, xs: seq<A>, start: nat): seq<B>
    decreases |xs|
  {
    if |xs| == 0 then [] else f(start, xs[0]) + FlatMapFrom(f, xs[1..], start + 1)
  }

  /** Every element of the joined pieces comes from the piece of one element: the `k`-th,
      at position `m` within its piece. */
  lemma {:induction false} FlatMapFromOrigin<A, B>(f: (nat, A) -> seq<B>, xs: seq<A>, start: nat, j: nat)
    returns (k: nat, m: nat)
    requires j < |FlatMapFrom(f, xs, start)|
    ensures k < |xs| && m < |f(start + k, xs[k])|
    ensures FlatMapFrom(f, xs, start)[j] == f(start + k, xs[k])[m]
    decreases |xs|
  {
    var head := f(start, xs[0]);
    var later := FlatMapFrom(f, xs[1..], start + 1);
    if j < |head| {
      k, m := 0, j;
    } else {
      var k', m' := FlatMapFromOrigin(f, xs[1..], start + 1, j - |head|);
      assert xs[1..][k'] == xs[k' + 1];
      assert start + 1 + k' == start + (k' + 1);
      k, m := k' + 1, m';
    }
  }

  /** `getOrNull(i)`. */
  function GetOrNull<T>(parts: seq<T>, i: int): (r: Option<T>)
    ensures r.Some? <==> 0 <= i < |parts|
    ensures r.Some? ==> r.value == parts[i]
  {
    if 0 <= i < |parts| then Some(parts[i]) else None
  }

  /** How many elements `f` maps to nothing. */
  function CountNone<A, B>(xs: seq<A>, f: A -> Option<B>): nat {
    if |xs| == 0 then 0 else (if f(xs[0]).None? then 1 else 0) + CountNone(xs[1..], f)
  }

  /** Every element is either kept by `mapNotNull` or counted as dropped. */
  lemma {:induction false} FilterMapCount<A, B>(xs: seq<A>, f: A -> Option<B>)
    ensures |FilterMap(xs, f)| + CountNone(xs, f) == |xs|
    decreases |xs|
  {
    if |xs| > 0 {
      FilterMapCount(xs[1..], f);
    }
  }

  /** `minByOrNull` on a non-empty list: the position of the first element whose key is
      least (a later element replaces the current one only when its key is strictly smaller). */
  function MinBy<T>(xs: seq<T>, key: T -> real): (i: nat)
    requires |xs| > 0
    ensures i < |xs|
    ensures forall j :: 0 <= j < |xs| ==> key(xs[i]) <= key(xs[j])
    ensures forall j :: 0 <= j < i ==> key(xs[j]) > key(xs[i])
  {
    if |xs| == 1 then 0
    else
      var k := 1 + MinBy(xs[1..], key);
      assert forall j :: 1 <= j < |xs| ==> xs[j] == xs[1..][j - 1];
      if key(xs[k]) < key(xs[0]) then k else 0
  }

  /** A scan of the positions below `n` that keeps a running best: the first position
      satisfying `p` whose key is least among those satisfying `p` (a later position replaces
      the best only when its key is strictly smaller). */
  function FirstMin(n: nat, p: nat -> bool, key: nat -> real): (r: Option<nat>)
    ensures r.None? <==> forall j :: 0 <= j < n ==> !p(j)
    ensures r.Some? ==> r.value < n && p(r.value)
    ensures r.Some? ==> forall j :: 0 <= j < n && p(j) ==> key(r.value) <= key(j)
    ensures r.Some? ==> forall j :: 0 <= j < r.value && p(j) ==> key(j) > key(r.value)
  {
    if n == 0 then None
    else
      var best := FirstMin(n - 1, p, key);
      if !p(n - 1) then best
      else if best.None? || key(n - 1) < key(best.value) then Some(n - 1)
      else best
  }

  /** Keys never decrease along the sequence. */
  predicate SortedBy<T>(xs: seq<T>, key: T -> real) {
    forall i, j :: 0 <= i < j < |xs| ==> key(xs[i]) <= key(xs[j])
  }

  /** A sorted sequence stays sorted with an element in front whose key is at most the
      first one's. */
  lemma SortedCons<T>(y: T, ys: seq<T>, key: T -> real)
    requires SortedBy(ys, key) && (|ys| > 0 ==> key(y) <= key(ys[0]))
    ensures SortedBy([y] + ys, key)
  {
    var r := [y] + ys;
    forall i, j | 0 <= i < j < |r| ensures key(r[i]) <= key(r[j]) {
      if i == 0 {
        assert r[j] == ys[j - 1];
        assert key(ys[0]) <= key(ys[j - 1]);
      } else {
        assert r[i] == ys[i - 1] && r[j] == ys[j - 1];
      }
    }
  }

  /** Places `x` ahead of the first element whose key is not smaller than its own. */
  function InsertBy<T>(x: T, xs: seq<T>, key: T -> real): (r: seq<T>)
    requires SortedBy(xs, key)
    ensures |r| == |xs| + 1 && (r[0] == x || (|xs| > 0 && r[0] == xs[0]))
    ensures SortedBy(r, key)
    ensures multiset(r) == multiset(xs) + multiset{x}
  {
    if |xs| == 0 || key(x) <= key(xs[0]) then
      SortedCons(x, xs, key);
      [x] + xs
    else
      var rest := InsertBy(x, xs[1..], key);
      assert xs == [xs[0]] + xs[1..];
      assert |xs| > 1 ==> key(xs[0]) <= key(xs[1..][0]);
      SortedCons(xs[0], rest, key);
      [xs[0]] + rest
  }

  /** Kotlin's `sortedBy`: a stable sort, smallest key first. */
  function SortBy<T>(xs: seq<T>, key: T -> real): (r: seq<T>)
    ensures SortedBy(r, key)
    ensures multiset(r) == multiset(xs)
  {
    if |xs| == 0 then []
    else
      assert xs == [xs[0]] + xs[1..];
      InsertBy(xs[0], SortBy(xs[1..], key), key)
  }
}

=== FILE: settings_fragment.dfy ===
/** The data and preference rules of the settings screen (`SettingsFragment`): the
    19-column export of seeds and user hazards, the spinner positions that stand for the
    audio-focus mode and the speed curve, and the number fields with their fallbacks. */
module SettingsFragment {
  import opened Wrappers
  import opened Text
  import opened Numbers
  import opened Hazards
  import opened AppPrefs
  import SeedOverrides
  import CommunityVotes
  import HazardStore

  // ---------------------------------------------------------------------------------
  // Export

  const EXPORT_HEADER_FIELDS: seq<string> :=
    ["type", "lat", "lng", "source", "active", "directionality", "reportedHeadingDeg",
     "userBearing", "createdAt", "updatedAt", "speedLimitKph", "zoneLengthMeters",
     "zoneStartLat", "zoneStartLng", "zoneEndLat", "zoneEndLng", "id", "votes", "votesCount"]

  /** Text of an optional instant: `toString()`, or "" for null. */
  function OptInstantText(t: Option<Instant>): (r: string)
    ensures r == "" <==> t.None?
  {
    match t
    case None => ""
    case Some(x) => InstantText(x)
  }

  /** `writeHazardRow`: the row's fields in header order. The active column is the override
      when one is given; the id falls back to `fallbackId` and then to ""; the vote count
      column falls back to `votes`. */
  function ExportRow(h: Hazard, activeOverride: Option<bool>, votes: Int32, fallbackId: Option<string>): (r: seq<string>)
    ensures |r| == |EXPORT_HEADER_FIELDS|
  {
    [TypeName(h.hazardType), FormatDouble(h.lat), FormatDouble(h.lng), h.source,
     HazardStore.BoolText(activeOverride.GetOr(h.active)), h.directionality,
     FormatDouble(h.reportedHeadingDeg), OptDoubleText(h.userBearing), InstantText(h.createdAt),
     OptInstantText(h.updatedAt), OptIntText(h.speedLimitKph), OptIntText(h.zoneLengthMeters),
     OptDoubleText(h.zoneStartLat), OptDoubleText(h.zoneStartLng), OptDoubleText(h.zoneEndLat),
     OptDoubleText(h.zoneEndLng), h.id.GetOr(fallbackId.GetOr("")), IntStr(votes),
     IntStr(h.votesCount.GetOr(votes))]
  }

  /** A seed's row: written active only when it is active and not switched off, with the
      vote count stored under its key. */
  function SeedRow(h: Hazard, disabled: set<string>, votes: CommunityVotes.Votes): seq<string> {
    var key := SeedOverrides.KeyOf(h);
    ExportRow(h, Some(h.active && !SeedOverrides.IsDisabled(disabled, key)), CommunityVotes.GetVotes(votes, key), None)
  }

  /** A user hazard's row: its own active flag, the vote count under its key, and the
      store's id when the hazard carries none. */
  function UserRow(u: UserHazard, votes: CommunityVotes.Votes): seq<string> {
    ExportRow(u.hazard, None, CommunityVotes.GetVotes(votes, SeedOverrides.KeyOf(u.hazard)), Some(u.id))
  }

  /** The seeds' rows, in order. */
  function SeedRows(seeds: seq<Hazard>, disabled: set<string>, votes: CommunityVotes.Votes): (r: seq<seq<string>>)
    ensures |r| == |seeds|
    ensures forall i :: 0 <= i < |seeds| ==> r[i] == SeedRow(seeds[i], disabled, votes)
  {
    seq(|seeds|, i requires 0 <= i < |seeds| => SeedRow(seeds[i], disabled, votes))
  }

  /** The user hazards' rows, in order. */
  function UserRows(users: seq<UserHazard>, votes: CommunityVotes.Votes): (r: seq<seq<string>>)
    ensures |r| == |users|
    ensures forall i :: 0 <= i < |users| ==> r[i] == UserRow(users[i], votes)
  {
    seq(|users|, i requires 0 <= i < |users| => UserRow(users[i], votes))
  }

  /** The export file's rows: the header, every seed, then every user hazard. */
  function ExportRows(seeds: seq<Hazard>, users: seq<UserHazard>, disabled: set<string>, votes: CommunityVotes.Votes): (r: seq<seq<string>>)
    ensures |r| == 1 + |seeds| + |users| && r[0] == EXPORT_HEADER_FIELDS
    ensures r[1..1 + |seeds|] == SeedRows(seeds, disabled, votes)
    ensures r[1 + |seeds|..] == UserRows(users, votes)
  {
    var a, b := SeedRows(seeds, disabled, votes), UserRows(users, votes);
    assert ([EXPORT_HEADER_FIELDS] + a + b)[1..1 + |a|] == a;
    assert ([EXPORT_HEADER_FIELDS] + a + b)[1 + |a|..] == b;
    [EXPORT_HEADER_FIELDS] + a + b
  }

  /** Every row of the export, the header included, has the header's width. */
  lemma ExportRowsWidth(seeds: seq<Hazard>, users: seq<UserHazard>, disabled: set<string>, votes: CommunityVotes.Votes)
    ensures var r := ExportRows(seeds, users, disabled, votes);
      forall i :: 0 <= i < |r| ==> |r[i]| == |EXPORT_HEADER_FIELDS|
  {
    var r := ExportRows(seeds, users, disabled, votes);
    forall i | 0 <= i < |r|
      ensures |r[i]| == |EXPORT_HEADER_FIELDS|
    {
      if i == 0 {
      } else if i <= |seeds| {
        assert r[i] == r[1..1 + |seeds|][i - 1] == SeedRow(seeds[i - 1], disabled, votes);
      } else {
        assert r[i] == r[1 + |seeds|..][i - 1 - |seeds|] == UserRow(users[i - 1 - |seeds|], votes);
      }
    }
  }

  /** The lines written: each row joined with commas. */
  function ExportFile(seeds: seq<Hazard>, users: seq<UserHazard>, disabled: set<string>, votes: CommunityVotes.Votes): (r: seq<string>)
    ensures |r| == 1 + |seeds| + |users|
  {
    var rows := ExportRows(seeds, users, disabled, votes);
    seq(|rows|, i requires 0 <= i < |rows| => Join(rows[i], ','))
  }

  /** The status line after an export. */
  function ExportStatus(seedsLoaded: bool, seedCount: nat, userCount: nat): (r: string)
    ensures seedsLoaded ==> r == "Exported " + IntStr(seedCount + userCount) + " hazards (seeds + user)"
    ensures !seedsLoaded ==> r == "Export completed (seed load status: failed)"
  {
    if seedsLoaded then "Exported " + IntStr(seedCount + userCount) + " hazards (seeds + user)"
    else "Export completed (seed load status: failed)"
  }

  /** Text the app writes for a hazard holds no comma except in the free-text fields. */
  predicate CommaFree(h: Hazard, fallbackId: Option<string>) {
    ',' !in h.source && ',' !in h.directionality && ',' !in h.id.GetOr(fallbackId.GetOr(""))
  }

  /** Nineteen columns hold no comma when the text ones hold none and the rest are numerals. */
  lemma ColumnsClean(c0: string, c1: string, c2: string, c3: string, c4: string, c5: string, c6: string,
                     c7: string, c8: string, c9: string, c10: string, c11: string, c12: string, c13: string,
                     c14: string, c15: string, c16: string, c17: string, c18: string)
    requires ',' !in c0 && ',' !in c3 && ',' !in c4 && ',' !in c5 && ',' !in c8 && ',' !in c9 && ',' !in c16
    requires NumeralText(c1) && NumeralText(c2) && NumeralText(c6) && NumeralText(c7)
    requires NumeralText(c10) && NumeralText(c11) && NumeralText(c12) && NumeralText(c13)
    requires NumeralText(c14) && NumeralText(c15) && NumeralText(c17) && NumeralText(c18)
    ensures NoSeparator([c0, c1, c2, c3, c4, c5, c6, c7, c8, c9, c10, c11, c12, c13, c14, c15, c16, c17, c18], ',')
  {
    var fs := [c0, c1, c2, c3, c4, c5, c6, c7, c8, c9, c10, c11, c12, c13, c14, c15, c16, c17, c18];
    forall i | 0 <= i < |fs| ensures ',' !in fs[i] {
      if i !in {0, 3, 4, 5, 8, 9, 16} {
        NumeralExcludes(fs[i], ',');
      }
    }
  }

  /** No column of a row holds a comma when its free-text fields do not. */
  lemma ExportRowClean(h: Hazard, activeOverride: Option<bool>, votes: Int32, fallbackId: Option<string>)
    requires CommaFree(h, fallbackId)
    ensures NoSeparator(ExportRow(h, activeOverride, votes, fallbackId), ',')
  {
    var name := TypeName(h.hazardType);
    var created := InstantText(h.createdAt);
    var updated := OptInstantText(h.updatedAt);
    var active := HazardStore.BoolText(activeOverride.GetOr(h.active));
    assert ',' !in name by {
      TypeNameChars(h.hazardType, ',');
    }
    assert ',' !in created by {
      InstantTextExcludes(h.createdAt, ',');
    }
    assert ',' !in updated by {
      if h.updatedAt.Some? {
        InstantTextExcludes(h.updatedAt.value, ',');
      }
    }
    assert ',' !in active;
    ColumnsClean(name, FormatDouble(h.lat), FormatDouble(h.lng), h.source, active, h.directionality,
                 FormatDouble(h.reportedHeadingDeg), OptDoubleText(h.userBearing), created, updated,
                 OptIntText(h.speedLimitKph), OptIntText(h.zoneLengthMeters),
                 OptDoubleText(h.zoneStartLat), OptDoubleText(h.zoneStartLng), OptDoubleText(h.zoneEndLat),
                 OptDoubleText(h.zoneEndLng), h.id.GetOr(fallbackId.GetOr("")), IntStr(votes),
                 IntStr(h.votesCount.GetOr(votes)));
  }

  /** Every written row splits back into 19 fields, the same columns as the header, when
      its free-text fields hold no comma; the active column tells whether the row is on. */
  lemma ExportLineColumns(h: Hazard, activeOverride: Option<bool>, votes: Int32, fallbackId: Option<string>)
    requires CommaFree(h, fallbackId)
    ensures var cols := Split(Join(ExportRow(h, activeOverride, votes, fallbackId), ','), ',');
      |cols| == |EXPORT_HEADER_FIELDS| == 19
      && cols == ExportRow(h, activeOverride, votes, fallbackId)
      && (cols[4] == "true" <==> activeOverride.GetOr(h.active))
  {
    ExportRowClean(h, activeOverride, votes, fallbackId);
    SplitJoin(ExportRow(h, activeOverride, votes, fallbackId), ',');
    ActiveColumn(h, activeOverride, votes, fallbackId);
  }

  /** The active column is the override, else the hazard's own flag, as "true" or "false". */
  lemma ActiveColumn(h: Hazard, activeOverride: Option<bool>, votes: Int32, fallbackId: Option<string>)
    ensures ExportRow(h, activeOverride, votes, fallbackId)[4] == HazardStore.BoolText(activeOverride.GetOr(h.active))
  {
  }

  /** A seed that is switched off is written inactive, whatever its own flag. */
  lemma DisabledSeedExportedInactive(h: Hazard, disabled: set<string>, votes: CommunityVotes.Votes)
    requires SeedOverrides.KeyOf(h) in disabled && CommaFree(h, None)
    ensures var cols := Split(Join(SeedRow(h, disabled, votes), ','), ',');
      |cols| == 19 && cols[4] == "false"
  {
    var key := SeedOverrides.KeyOf(h);
    var n := CommunityVotes.GetVotes(votes, key);
    assert SeedRow(h, disabled, votes) == ExportRow(h, Some(false), n, None) by {
      assert SeedOverrides.IsDisabled(disabled, key);
    }
    ExportLineColumns(h, Some(false), n, None);
    ActiveColumn(h, Some(false), n, None);
  }

  // ---------------------------------------------------------------------------------
  // Spinners

  /** The audio-focus spinner's position for a stored mode: 1 for "EXCLUSIVE", else 0. */
  function FocusPosition(mode: string): (r: nat)
    ensures r <= 1 && (r == 1 <==> mode == "EXCLUSIVE")
  {
    if mode == "EXCLUSIVE" then 1 else 0
  }

  /** The mode stored when the audio-focus spinner is moved. */
  function FocusFromPosition(position: int): (r: string)
    ensures r == "EXCLUSIVE" || r == "DUCK"
    ensures r == "EXCLUSIVE" <==> position == 1
  {
    if position == 1 then "EXCLUSIVE" else "DUCK"
  }

  /** The speed-curve spinner's position: CONSERVATIVE 0, AGGRESSIVE 2, anything else 1. */
  function CurvePosition(curve: string): (r: nat)
    ensures r <= 2
    ensures r == 0 <==> curve == "CONSERVATIVE"
    ensures r == 2 <==> curve == "AGGRESSIVE"
  {
    if curve == "CONSERVATIVE" then 0 else if curve == "AGGRESSIVE" then 2 else 1
  }

  /** The curve stored when the speed-curve spinner is moved. */
  function CurveFromPosition(position: int): (r: string)
    ensures r in {"CONSERVATIVE", "NORMAL", "AGGRESSIVE"}
    ensures r == "CONSERVATIVE" <==> position == 0
    ensures r == "AGGRESSIVE" <==> position == 2
  {
    if position == 0 then "CONSERVATIVE" else if position == 2 then "AGGRESSIVE" else "NORMAL"
  }

  /** Moving a spinner stores the value that shows it at the same position again, and each
      stored value is shown at the position that stores it. */
  lemma SpinnersRoundTrip(focusPos: nat, curvePos: nat, mode: string, curve: string)
    ensures focusPos <= 1 ==> FocusPosition(FocusFromPosition(focusPos)) == focusPos
    ensures mode in {"DUCK", "EXCLUSIVE"} ==> FocusFromPosition(FocusPosition(mode)) == mode
    ensures curvePos <= 2 ==> CurvePosition(CurveFromPosition(curvePos)) == curvePos
    ensures curve in {"CONSERVATIVE", "NORMAL", "AGGRESSIVE"} ==> CurveFromPosition(CurvePosition(curve)) == curve
  {
  }

  /** An unknown stored curve is shown as NORMAL. */
  lemma UnknownCurveShowsNormal(curve: string)
    requires curve !in {"CONSERVATIVE", "AGGRESSIVE"}
    ensures CurveFromPosition(CurvePosition(curve)) == "NORMAL"
  {
  }

  /** Selecting a spinner position writes the preference, and reading the preference back
      puts the spinner at that position. */
  lemma SpinnerThroughPrefs(p: Prefs, focusPos: nat, curvePos: nat)
    requires focusPos <= 1 && curvePos <= 2
    ensures FocusPosition(GetAudioFocusMode(SetAudioFocusMode(p, FocusFromPosition(focusPos)))) == focusPos
    ensures CurvePosition(GetSpeedCurve(SetSpeedCurve(p, CurveFromPosition(curvePos)))) == curvePos
  {
  }

  /** With nothing stored, the spinners show DUCK and NORMAL. */
  lemma SpinnerDefaults()
    ensures FocusPosition(GetAudioFocusMode(map[])) == 0
    ensures CurvePosition(GetSpeedCurve(map[])) == 1
  {
    Defaults();
  }

  // ---------------------------------------------------------------------------------
  // Number fields

  const DEFAULT_CLUSTER_SPEED_KPH: Int32 := 50

  /** The cluster speed field: the typed `Int`, else 50. */
  function ClusterSpeedInput(text: string): (r: Int32)
    ensures ParseInt(text).Some? ==> r == ParseInt(text).value
    ensures ParseInt(text).None? ==> r == DEFAULT_CLUSTER_SPEED_KPH
  {
    match ParseInt(text)
    case Some(v) => v
    case None => DEFAULT_CLUSTER_SPEED_KPH
  }

  /** Saving the default mute: the typed `Int`, else 20, is stored and reported. */
  function SaveDefaultMute(p: Prefs, text: string): (r: (Prefs, string))
    ensures var v := if ParseInt(text).Some? then ParseInt(text).value else DEFAULT_MUTE_MINUTES as int;
      GetDefaultMuteMinutes(r.0) == v && r.1 == "Default mute set to " + IntStr(v) + " minutes"
    ensures OnlyChanged(p, r.0, {KEY_DEFAULT_MUTE_MIN})
  {
    var v: Int32 := match ParseInt(text) case Some(n) => n case None => DEFAULT_MUTE_MINUTES;
    (SetDefaultMuteMinutes(p, v), "Default mute set to " + IntStr(v) + " minutes")
  }

  /** Saving the zone settings: both messages as typed, and the repeat interval as the
      typed `Long`, else 60000. */
  function SaveZoneConfig(p: Prefs, enter: string, exit: string, repeatText: string): (r: (Prefs, string))
    ensures GetZoneEnter(r.0) == enter && GetZoneExit(r.0) == exit
    ensures ParseLong(repeatText).Some? ==> GetZoneRepeatMs(r.0) == ParseLong(repeatText).value
    ensures ParseLong(repeatText).None? ==> GetZoneRepeatMs(r.0) == DEFAULT_ZONE_REPEAT_MS
    ensures r.1 == "Zone settings saved"
    ensures OnlyChanged(p, r.0, {KEY_ZONE_ENTER, KEY_ZONE_EXIT, KEY_ZONE_REPEAT_MS})
  {
    var repeat: Int64 := match ParseLong(repeatText) case Some(n) => n case None => DEFAULT_ZONE_REPEAT_MS;
    (SetZoneConfig(p, enter, exit, repeat), "Zone settings saved")
  }
}

=== FILE: settings_import.dfy ===
/** The settings screen's CSV import (`importFromCsvText`): the first non-blank line is a
    header, every later non-blank line is a row whose cells are found by header name
    through a list of aliases, and each row is either imported (merging its vote count and
    emitting a store action) or skipped with a numbered reason. The clock and the zoned
    date-time parser are parameters. */
module SettingsImport {
  import opened Wrappers
  import opened Text
  import opened Numbers
  import opened Hazards
  import SeedOverrides
  import CommunityVotes
  import Seqs

  // ---------------------------------------------------------------------------------
  // Lines and header

  /** The file's lines with trailing carriage returns dropped. */
  function CleanLines(raw: seq<string>): (r: seq<string>)
    ensures |r| == |raw|
    ensures forall i :: 0 <= i < |raw| ==> r[i] == TrimEndChar(raw[i], '\r')
  {
    seq(|raw|, i requires 0 <= i < |raw| => TrimEndChar(raw[i], '\r'))
  }

  /** `indexOfFirst { it.isNotBlank() }`, from position `from` on. */
  function FirstNonBlank(lines: seq<string>, from: nat): (r: Option<nat>)
    requires from <= |lines|
    ensures r.Some? ==> from <= r.value < |lines| && !IsBlank(lines[r.value])
    decreases |lines| - from
  {
    if from == |lines| then None
    else if !IsBlank(lines[from]) then Some(from)
    else FirstNonBlank(lines, from + 1)
  }

  /** The lines `FirstNonBlank` passes over are blank, and it finds nothing exactly when
      all of them are. */
  lemma {:induction false} FirstNonBlankSkips(lines: seq<string>, from: nat)
    requires from <= |lines|
    ensures FirstNonBlank(lines, from).Some? ==> forall i :: from <= i < FirstNonBlank(lines, from).value ==> IsBlank(lines[i])
    ensures FirstNonBlank(lines, from).None? <==> forall i :: from <= i < |lines| ==> IsBlank(lines[i])
    decreases |lines| - from
  {
    if from < |lines| && IsBlank(lines[from]) {
      FirstNonBlankSkips(lines, from + 1);
    }
  }

  /** `count { it.isNotBlank() }`. */
  function CountNonBlank(lines: seq<string>): (r: nat)
    ensures r <= |lines|
  {
    if |lines| == 0 then 0
    else (if IsBlank(lines[0]) then 0 else 1) + CountNonBlank(lines[1..])
  }

  /** No line counts exactly when every line is blank. */
  lemma {:induction false} CountNonBlankZero(lines: seq<string>)
    ensures CountNonBlank(lines) == 0 <==> forall i :: 0 <= i < |lines| ==> IsBlank(lines[i])
  {
    if |lines| > 0 {
      CountNonBlankZero(lines[1..]);
      assert forall i :: 1 <= i < |lines| ==> lines[i] == lines[1..][i - 1];
    }
  }

  /** The header's names, each trimmed. */
  function TrimAll(parts: seq<string>): (r: seq<string>)
    ensures |r| == |parts|
    ensures forall i :: 0 <= i < |parts| ==> r[i] == Trim(parts[i])
  {
    seq(|parts|, i requires 0 <= i < |parts| => Trim(parts[i]))
  }

  /** `mapIndexed { i, name -> name.lowercase() to i }.toMap()`: each lower-cased name maps
      to its column, a later column overwriting an earlier one of the same name. */
  function IndexByName(header: seq<string>): map<string, nat> {
    if |header| == 0 then map[]
    else
      var n := |header| - 1;
      IndexByName(header[..n])[Lower(header[n]) := n]
  }

  /** Every column's lower-cased name is a key of the index. */
  lemma {:induction false} IndexHasName(header: seq<string>, j: nat)
    requires j < |header|
    ensures Lower(header[j]) in IndexByName(header)
  {
    var n := |header| - 1;
    if j < n {
      IndexHasName(header[..n], j);
      assert header[..n][j] == header[j];
    }
  }

  /** Every key of the index names a column that holds it. */
  lemma {:induction false} IndexPointsAtName(header: seq<string>, k: string)
    requires k in IndexByName(header)
    ensures IndexByName(header)[k] < |header| && Lower(header[IndexByName(header)[k]]) == k
  {
    var n := |header| - 1;
    if Lower(header[n]) != k {
      IndexPointsAtName(header[..n], k);
      assert header[..n][IndexByName(header[..n])[k]] == header[IndexByName(header[..n])[k]];
    }
  }

  /** Of two columns with the same lower-cased name, the later one wins. */
  lemma {:induction false} IndexLastWins(header: seq<string>, k: string, j: nat)
    requires k in IndexByName(header) && IndexByName(header)[k] < j < |header|
    ensures Lower(header[j]) != k
  {
    var n := |header| - 1;
    var prev := IndexByName(header[..n]);
    if Lower(header[n]) != k {
      assert k in prev && IndexByName(header)[k] == prev[k];
      if j < n {
        IndexLastWins(header[..n], k, j);
        assert header[..n][j] == header[j];
      }
    }
  }

  // ---------------------------------------------------------------------------------
  // Cells

  /** The trimmed cell under one header name, when that column exists in the row and the
      cell is not empty. */
  function Cell(index: map<string, nat>, cols: seq<string>, key: string): (r: Option<string>)
    ensures r.Some? ==> r.value != ""
  {
    var k := Lower(key);
    if k in index && index[k] < |cols| && Trim(cols[index[k]]) != "" then Some(Trim(cols[index[k]]))
    else None
  }

  /** A key finds the cell under the last header column whose name equals it up to case. */
  lemma CellByHeader(header: seq<string>, cols: seq<string>, key: string, c: nat)
    requires c < |header| && Lower(header[c]) == Lower(key)
    requires forall j :: c < j < |header| ==> Lower(header[j]) != Lower(key)
    ensures Cell(IndexByName(header), cols, key) ==
      if c < |cols| && Trim(cols[c]) != "" then Some(Trim(cols[c])) else None
  {
    var index := IndexByName(header);
    var k := Lower(key);
    IndexHasName(header, c);
    IndexPointsAtName(header, k);
    var m := index[k];
    if m < c {
      IndexLastWins(header, k, c);
      assert false;
    }
    assert m == c;
  }

  /** `valueFor`: the first alias, in the order given, whose cell holds something. */
  function ValueFor(index: map<string, nat>, cols: seq<string>, keys: seq<string>): Option<string> {
    if |keys| == 0 then None
    else match Cell(index, cols, keys[0])
      case Some(v) => Some(v)
      case None => ValueFor(index, cols, keys[1..])
  }

  /** `ValueFor` finds nothing exactly when no alias's cell holds something. */
  lemma {:induction false} ValueForNone(index: map<string, nat>, cols: seq<string>, keys: seq<string>)
    ensures ValueFor(index, cols, keys).None? <==> forall j :: 0 <= j < |keys| ==> Cell(index, cols, keys[j]).None?
  {
    if |keys| > 0 && Cell(index, cols, keys[0]).None? {
      ValueForNone(index, cols, keys[1..]);
      assert forall j :: 1 <= j < |keys| ==> keys[j] == keys[1..][j - 1];
    }
  }

  /** The alias `ValueFor` answers with is the first one whose cell holds something. */
  lemma {:induction false} ValueForFirst(index: map<string, nat>, cols: seq<string>, keys: seq<string>, j: nat)
    requires j < |keys| && Cell(index, cols, keys[j]).Some?
    requires forall i :: 0 <= i < j ==> Cell(index, cols, keys[i]).None?
    ensures ValueFor(index, cols, keys) == Cell(index, cols, keys[j])
  {
    if j > 0 {
      var rest := keys[1..];
      assert Cell(index, cols, keys[0]).None?;
      assert ValueFor(index, cols, keys) == ValueFor(index, cols, rest);
      assert rest[j - 1] == keys[j];
      forall i | 0 <= i < j - 1
        ensures Cell(index, cols, rest[i]).None?
      {
        assert rest[i] == keys[i + 1];
      }
      ValueForFirst(index, cols, rest, j - 1);
    }
  }

  // ---------------------------------------------------------------------------------
  // Rows

  /** The aliases each field is looked up under, in order. */
  const LNG_KEYS: seq<string> := ["lng", "lon", "long"]
  const HEADING_KEYS: seq<string> := ["reportedHeadingDeg", "reported_heading_deg", "reportedheadingdeg"]
  const BEARING_KEYS: seq<string> := ["userBearing", "userbearing"]
  const CREATED_KEYS: seq<string> := ["createdAt", "created_at"]
  const UPDATED_KEYS: seq<string> := ["updatedAt", "updated_at"]
  const SPEED_KEYS: seq<string> := ["speedLimitKph", "speed_limit_kph", "speedlimitkph"]
  const ZONE_LENGTH_KEYS: seq<string> := ["zoneLengthMeters", "zone_length_meters", "zonelengthmeters"]
  const ZONE_START_LAT_KEYS: seq<string> := ["zoneStartLat", "zone_start_lat", "zonestartlat"]
  const ZONE_START_LNG_KEYS: seq<string> := ["zoneStartLng", "zone_start_lng", "zonestartlng"]
  const ZONE_END_LAT_KEYS: seq<string> := ["zoneEndLat", "zone_end_lat", "zoneendlat"]
  const ZONE_END_LNG_KEYS: seq<string> := ["zoneEndLng", "zone_end_lng", "zoneendlng"]
  const VOTES_COUNT_KEYS: seq<string> := ["votesCount", "votes_count"]

  /** The message of the exception `HazardType.valueOf` throws for an unknown name. */
  const NO_CONSTANT: string := "No enum constant com.roadwatch.data.HazardType."

  /** What a row yields: a hazard and the row's vote count, or the reason it is skipped. */
  datatype RowResult = Parsed(hazard: Hazard, votes: Int32) | Rejected(reason: string)

  /** `?.toDoubleOrNull()` (and `?.toFloatOrNull()`). */
  function OptDouble(v: Option<string>): (r: Option<Double>)
    ensures r.Some? ==> v.Some? && ParseDouble(v.value) == r
  {
    match v
    case None => None
    case Some(s) => ParseDouble(s)
  }

  /** `?.toIntOrNull()`. */
  function OptInt(v: Option<string>): (r: Option<Int32>)
    ensures r.Some? ==> v.Some? && ParseInt(v.value) == Some(r.value as int)
    ensures v.Some? && ParseInt(v.value).Some? ==> r.Some?
  {
    match v
    case None => None
    case Some(s) =>
      match ParseInt(s)
      case None => None
      case Some(n) => Some(n)
  }

  /** The creation time: an ISO instant, else the zoned `yyyy-MM-dd HH:mm:ss.SSSSSS Z` form,
      else the current time; the current time too when the cell is absent. */
  function CreatedAt(v: Option<string>, now: Instant, zoned: string -> Option<Instant>): (r: Instant)
    ensures v.None? ==> r == now
    ensures v.Some? && ParseInstant(v.value).Some? ==> r == ParseInstant(v.value).value
  {
    match v
    case None => now
    case Some(s) =>
      match ParseInstant(s)
      case Some(t) => t
      case None => zoned(s).GetOr(now)
  }

  /** The update time: an ISO instant, else the creation time. */
  function UpdatedAt(v: Option<string>, createdAt: Instant): (r: Instant)
    ensures v.Some? && ParseInstant(v.value).Some? ==> r == ParseInstant(v.value).value
    ensures (v.None? || ParseInstant(v.value).None?) ==> r == createdAt
  {
    match v
    case None => createdAt
    case Some(s) => ParseInstant(s).GetOr(createdAt)
  }

  /** The active flag: "true" in any ASCII letter case or "1" when present, true when absent. */
  function ActiveOf(v: Option<string>): (r: bool)
    ensures v.None? ==> r
    ensures v.Some? ==> (r <==> Lower(v.value) == "true" || v.value == "1")
  {
    match v
    case None => true
    case Some(s) => Lower(s) == "true" || s == "1"
  }

  /** The hazard a row describes, once its type and coordinates are known. */
  function RowHazard(index: map<string, nat>, cols: seq<string>, t: HazardType, lat: Double, lng: Double,
                     votes: Int32, now: Instant, zoned: string -> Option<Instant>): (h: Hazard)
  {
    var source := ValueFor(index, cols, ["source"]);
    var directionality := ValueFor(index, cols, ["directionality"]);
    var createdAt := CreatedAt(ValueFor(index, cols, CREATED_KEYS), now, zoned);
    Hazard(
      hazardType := t,
      lat := lat,
      lng := lng,
      bearingSide := "UNKNOWN",
      directionality := if directionality.Some? then Upper(directionality.value) else "UNKNOWN",
      active := ActiveOf(ValueFor(index, cols, ["active"])),
      source := if source.Some? then Upper(source.value) else "USER",
      createdAt := createdAt,
      speedLimitKph := OptInt(ValueFor(index, cols, SPEED_KEYS)),
      zoneLengthMeters := OptInt(ValueFor(index, cols, ZONE_LENGTH_KEYS)),
      reportedHeadingDeg := OptDouble(ValueFor(index, cols, HEADING_KEYS)).GetOr(ZERO),
      userBearing := OptDouble(ValueFor(index, cols, BEARING_KEYS)),
      roadBearing := None,
      zoneStartLat := OptDouble(ValueFor(index, cols, ZONE_START_LAT_KEYS)),
      zoneStartLng := OptDouble(ValueFor(index, cols, ZONE_START_LNG_KEYS)),
      zoneEndLat := OptDouble(ValueFor(index, cols, ZONE_END_LAT_KEYS)),
      zoneEndLng := OptDouble(ValueFor(index, cols, ZONE_END_LNG_KEYS)),
      id := ValueFor(index, cols, ["id"]),
      updatedAt := Some(UpdatedAt(ValueFor(index, cols, UPDATED_KEYS), createdAt)),
      votesCount := Some(OptInt(ValueFor(index, cols, VOTES_COUNT_KEYS)).GetOr(votes)))
  }

  /** One row of the import: the type is required and must name a constant once
      upper-cased; lat and lng (or lon, or long) are required and must be numbers; every
      other cell is optional. */
  function ParseRow(index: map<string, nat>, cols: seq<string>, now: Instant, zoned: string -> Option<Instant>): (r: RowResult)
    ensures ValueFor(index, cols, ["type"]).None? ==> r == Rejected("Missing type")
    ensures r.Parsed? ==> TypeName(r.hazard.hazardType) == Upper(ValueFor(index, cols, ["type"]).value)
    ensures r.Parsed? ==> OptDouble(ValueFor(index, cols, ["lat"])) == Some(r.hazard.lat)
    ensures r.Parsed? ==> OptDouble(ValueFor(index, cols, LNG_KEYS)) == Some(r.hazard.lng)
    ensures r.Rejected? ==> r.reason in {"Missing type", "Invalid lat", "Invalid lng"} || StartsWith(r.reason, NO_CONSTANT)
    ensures r.Parsed? ==> r.hazard.source == (if ValueFor(index, cols, ["source"]).None? then "USER"
                                             else Upper(ValueFor(index, cols, ["source"]).value))
    ensures r.Parsed? && ValueFor(index, cols, ["active"]).None? ==> r.hazard.active
    ensures r.Parsed? && ValueFor(index, cols, ["directionality"]).None? ==> r.hazard.directionality == "UNKNOWN"
    ensures r.Parsed? && OptInt(ValueFor(index, cols, ["votes"])).None? ==> r.votes == 0
    ensures r.Parsed? && OptInt(ValueFor(index, cols, VOTES_COUNT_KEYS)).None? ==> r.hazard.votesCount == Some(r.votes)
    ensures r.Parsed? && ValueFor(index, cols, CREATED_KEYS).None? ==> r.hazard.createdAt == now
    ensures r.Parsed? && ValueFor(index, cols, UPDATED_KEYS).None? ==> r.hazard.updatedAt == Some(r.hazard.createdAt)
    ensures r.Parsed? ==> r.hazard.bearingSide == "UNKNOWN" && r.hazard.roadBearing.None?
  {
    match ValueFor(index, cols, ["type"])
    case None => Rejected("Missing type")
    case Some(typeName) =>
      match ValueOf(Upper(typeName))
      case None => Rejected(NO_CONSTANT + Upper(typeName))
      case Some(t) =>
        match OptDouble(ValueFor(index, cols, ["lat"]))
        case None => Rejected("Invalid lat")
        case Some(lat) =>
          match OptDouble(ValueFor(index, cols, LNG_KEYS))
          case None => Rejected("Invalid lng")
          case Some(lng) =>
            var votes := OptInt(ValueFor(index, cols, ["votes"])).GetOr(0);
            Parsed(RowHazard(index, cols, t, lat, lng, votes, now, zoned), votes)
  }

  // ---------------------------------------------------------------------------------
  // Applying rows

  /** A write the import asks of the stores. `upsertByKey` and `setDisabled` are called by
      the source but defined nowhere in it, so they are recorded rather than performed. */
  datatype Action = UpsertByKey(key: string, hazard: Hazard) | SetDisabled(key: string, disabled: bool)

  /** A user hazard is upserted under its key; any other source only switches the seed on
      or off to match the row's active flag. */
  function StoreAction(h: Hazard, keyOf: Hazard -> string): (a: Action)
    ensures a.key == keyOf(h)
    ensures a.UpsertByKey? <==> h.source == "USER"
    ensures a.UpsertByKey? ==> a.hazard == h
    ensures a.SetDisabled? ==> (a.disabled <==> !h.active)
  {
    var key := keyOf(h);
    if h.source == "USER" then UpsertByKey(key, h) else SetDisabled(key, !h.active)
  }

  /** The vote merge: the local count is overwritten only by a strictly larger one, and
      never lowered; the voted marks are left alone. */
  function MergeVotes(s: CommunityVotes.Votes, key: string, votes: Int32): (r: CommunityVotes.Votes)
    ensures votes <= CommunityVotes.GetVotes(s, key) ==> r == s
    ensures votes > CommunityVotes.GetVotes(s, key) ==> CommunityVotes.GetVotes(r, key) == if votes < 0 then 0 else votes
    ensures CommunityVotes.GetVotes(r, key) >= CommunityVotes.GetVotes(s, key)
    ensures CommunityVotes.GetVotes(r, key) >= votes
    ensures r.voted == s.voted
    ensures CommunityVotes.OthersUnchanged(s, r, key)
  {
    if votes > CommunityVotes.GetVotes(s, key) then CommunityVotes.SetVotes(s, key, votes) else s
  }

  /** The counters, failure lines, vote counts and store actions accumulated so far. */
  datatype Progress = Progress(processed: nat, imported: nat, skipped: nat, failures: seq<string>,
                               votes: CommunityVotes.Votes, actions: seq<Action>)

  /** The start of the failure line for the 1-based file line `n`. */
  function RowPrefix(n: nat): string {
    "Row " + IntStr(n) + ": "
  }

  /** No vote count went down and no voted mark changed. */
  ghost predicate VotesGrew(s: CommunityVotes.Votes, r: CommunityVotes.Votes) {
    r.voted == s.voted && forall k :: CommunityVotes.GetVotes(r, k) >= CommunityVotes.GetVotes(s, k)
  }

  /** Records one non-blank row's outcome: a rejected row is counted as skipped with a
      failure line naming its file line; a parsed row is counted as imported, merges its
      vote count under its key and asks for its store action. */
  function Apply(p: Progress, lineNumber: nat, res: RowResult, keyOf: Hazard -> string): (r: Progress)
    ensures r.processed == p.processed + 1 && r.imported + r.skipped == p.imported + p.skipped + 1
    ensures r.imported >= p.imported && r.skipped >= p.skipped
    ensures |r.failures| >= |p.failures| && r.failures[..|p.failures|] == p.failures
    ensures |r.failures| - |p.failures| == r.skipped - p.skipped
    ensures res.Rejected? ==> r.skipped == p.skipped + 1 && r.failures == p.failures + [RowPrefix(lineNumber) + res.reason]
    ensures |r.actions| >= |p.actions| && r.actions[..|p.actions|] == p.actions
    ensures |r.actions| - |p.actions| == r.imported - p.imported
    ensures res.Parsed? ==> r.imported == p.imported + 1 && r.actions == p.actions + [StoreAction(res.hazard, keyOf)]
    ensures VotesGrew(p.votes, r.votes)
  {
    match res
    case Rejected(reason) =>
      p.(processed := p.processed + 1, skipped := p.skipped + 1,
         failures := p.failures + [RowPrefix(lineNumber) + reason])
    case Parsed(h, votes) =>
      p.(processed := p.processed + 1, imported := p.imported + 1,
         votes := MergeVotes(p.votes, keyOf(h), votes),
         actions := p.actions + [StoreAction(h, keyOf)])
  }

  /** One data line, numbered `lineNumber` in the file: a blank line is passed over; any
      other is handed to the line parser (in `ImportCsv`, `RowParser` of the header). */
  function Step(p: Progress, parse: string -> RowResult, keyOf: Hazard -> string, lineNumber: nat, raw: string): (r: Progress)
    ensures IsBlank(raw) ==> r == p
    ensures !IsBlank(raw) ==> r == Apply(p, lineNumber, parse(raw), keyOf)
  {
    if IsBlank(raw) then p
    else Apply(p, lineNumber, parse(raw), keyOf)
  }

  /** `forEachIndexed` over the data lines, the first of which is line `firstLine` of the
      file: every non-blank line is processed once and ends up imported or skipped. */
  function ProcessRows(p: Progress, parse: string -> RowResult, keyOf: Hazard -> string, data: seq<string>, firstLine: nat): (r: Progress)
    ensures r.processed == p.processed + CountNonBlank(data)
    ensures r.imported + r.skipped == p.imported + p.skipped + CountNonBlank(data)
    ensures r.imported >= p.imported && r.skipped >= p.skipped
    ensures |r.failures| >= |p.failures| && r.failures[..|p.failures|] == p.failures
    ensures |r.failures| - |p.failures| == r.skipped - p.skipped
    ensures |r.actions| >= |p.actions| && r.actions[..|p.actions|] == p.actions
    ensures |r.actions| - |p.actions| == r.imported - p.imported
    ensures VotesGrew(p.votes, r.votes)
    decreases |data|
  {
    if |data| == 0 then p
    else ProcessRows(Step(p, parse, keyOf, firstLine, data[0]), parse, keyOf, data[1..], firstLine + 1)
  }

  /** The failure line one data line adds, stated on its own: none for a blank line or
      an accepted row, otherwise the line's prefix followed by the parser's reason. */
  function RowFailure(parse: string -> RowResult, lineNumber: nat, raw: string): (r: seq<string>)
    ensures |r| <= 1
    ensures |r| == 1 ==> !IsBlank(raw) && StartsWith(r[0], RowPrefix(lineNumber))
  {
    if IsBlank(raw) then []
    else match parse(raw)
      case Rejected(reason) => PrefixStarts(RowPrefix(lineNumber), reason); [RowPrefix(lineNumber) + reason]
      case Parsed(_, _) => []
  }

  /** The failure lines a run of data lines adds: their own, in file order. */
  function RejectedLines(parse: string -> RowResult, data: seq<string>, firstLine: nat): seq<string>
  {
    Seqs.FlatMapFrom((n: nat, raw: string) => RowFailure(parse, n, raw), data, firstLine)
  }

  /** A step adds exactly the failure line of its own row. */
  lemma StepFailures(p: Progress, parse: string -> RowResult, keyOf: Hazard -> string, lineNumber: nat, raw: string)
    ensures Step(p, parse, keyOf, lineNumber, raw).failures == p.failures + RowFailure(parse, lineNumber, raw)
  {
    var q := Step(p, parse, keyOf, lineNumber, raw);
    if !IsBlank(raw) {
      var res := parse(raw);
      if res.Parsed? {
        assert q.skipped == p.skipped;
        assert q.failures == q.failures[..|p.failures|];
      }
    }
  }

  /** The failure lines of a run of rows are the earlier ones followed by the rows'
      rejections, in order: nothing else is added and nothing recorded is changed. */
  lemma {:induction false} RowsFailures(p: Progress, parse: string -> RowResult, keyOf: Hazard -> string,
                                        data: seq<string>, firstLine: nat)
    ensures ProcessRows(p, parse, keyOf, data, firstLine).failures == p.failures + RejectedLines(parse, data, firstLine)
    decreases |data|
  {
    if |data| > 0 {
      var q := Step(p, parse, keyOf, firstLine, data[0]);
      StepFailures(p, parse, keyOf, firstLine, data[0]);
      RowsFailures(q, parse, keyOf, data[1..], firstLine + 1);
      var own := RowFailure(parse, firstLine, data[0]);
      var later := RejectedLines(parse, data[1..], firstLine + 1);
      Seqs.AppendAssoc(p.failures, own, later);
    }
  }

  /** Every rejection line names the file line of a non-blank row: the `off`-th data line. */
  lemma RejectedLineRow(parse: string -> RowResult, data: seq<string>, firstLine: nat, j: nat)
    returns (off: nat)
    requires j < |RejectedLines(parse, data, firstLine)|
    ensures off < |data| && !IsBlank(data[off])
    ensures StartsWith(RejectedLines(parse, data, firstLine)[j], RowPrefix(firstLine + off))
  {
    var fail := (n: nat, raw: string) => RowFailure(parse, n, raw);
    var m;
    off, m := Seqs.FlatMapFromOrigin(fail, data, firstLine, j);
    var own := RowFailure(parse, firstLine + off, data[off]);
    assert fail(firstLine + off, data[off]) == own;
    assert RejectedLines(parse, data, firstLine)[j] == own[0];
  }

  /** Every failure line the rows add names the file line of a non-blank row: the
      `off`-th data line. */
  lemma FailureRow(p: Progress, parse: string -> RowResult, keyOf: Hazard -> string,
                   data: seq<string>, firstLine: nat, i: nat) returns (off: nat)
    requires |p.failures| <= i < |ProcessRows(p, parse, keyOf, data, firstLine).failures|
    ensures off < |data| && !IsBlank(data[off])
    ensures StartsWith(ProcessRows(p, parse, keyOf, data, firstLine).failures[i], RowPrefix(firstLine + off))
  {
    var added := RejectedLines(parse, data, firstLine);
    RowsFailures(p, parse, keyOf, data, firstLine);
    off := RejectedLineRow(parse, data, firstLine, i - |p.failures|);
    assert (p.failures + added)[i] == added[i - |p.failures|];
  }

  // ---------------------------------------------------------------------------------
  // The whole import

  const NO_ROWS: string := "No rows imported"

  /** The status line after a non-empty import; the skipped count and the error file are
      mentioned only when some row was skipped. */
  function Summary(imported: nat, total: nat, skipped: nat): (r: string)
    ensures StartsWith(r, "Imported " + IntStr(imported) + " of " + IntStr(total) + " rows.")
    ensures skipped == 0 <==> |r| == |"Imported " + IntStr(imported) + " of " + IntStr(total) + " rows."|
  {
    var head := "Imported " + IntStr(imported) + " of " + IntStr(total) + " rows.";
    var tail := if skipped == 0 then "" else " Skipped " + IntStr(skipped) + ". See files/imports/last_import_errors.txt";
    assert (head + tail)[..|head|] == head;
    head + tail
  }

  /** What the import leaves behind: the status line, the row counts, the failure lines and
      the error file's text (written only when some row failed), the merged vote counts,
      and the store actions in row order. */
  datatype Report = Report(status: string, total: nat, imported: nat, skipped: nat, failures: seq<string>,
                           errorLog: Option<string>, votes: CommunityVotes.Votes, actions: seq<Action>)

  /** Nothing imported: the status says so and no store changes. */
  function NothingImported(votes: CommunityVotes.Votes): (r: Report)
    ensures r.status == NO_ROWS && r.total == 0 && r.votes == votes && r.actions == [] && r.errorLog.None?
  {
    Report(NO_ROWS, 0, 0, 0, [], None, votes, [])
  }

  /** For each header, the parser of the rows under it. */
  type ParserFor = seq<string> -> (seq<string> -> RowResult)

  /** The row parser for a header: `ParseRow` against the header's index of names. */
  function RowParser(header: seq<string>, now: Instant, zoned: string -> Option<Instant>): seq<string> -> RowResult {
    var index := IndexByName(header);
    cols => ParseRow(index, cols, now, zoned)
  }

  /** A data line as the row parser sees it: trimmed and split at commas into at most
      `width` cells, the last of which keeps any further commas. */
  function LineParser(parse: seq<string> -> RowResult, width: nat): string -> RowResult
    requires width >= 1
  {
    raw => parse(SplitLimit(Trim(raw), ',', width))
  }

  /** The rows after the header line `hi`, each parsed against the header's names; the
      first of them is line `hi + 2` of the file, counting from 1. */
  function ImportRows(lines: seq<string>, hi: nat, votes: CommunityVotes.Votes, parserFor: ParserFor, keyOf: Hazard -> string): (p: Progress)
    requires hi < |lines|
    ensures p.imported + p.skipped == CountNonBlank(lines[hi + 1..])
    ensures |p.failures| == p.skipped && |p.actions| == p.imported
    ensures VotesGrew(votes, p.votes)
  {
    var header := TrimAll(Split(lines[hi], ','));
    ProcessRows(Progress(0, 0, 0, [], votes, []), LineParser(parserFor(header), |header|), keyOf, lines[hi + 1..], hi + 2)
  }

  /** `importFromCsvText` over the file's lines. `zoned` parses the zoned date-time
      pattern, and `now` is the clock reading used for every missing creation time. */
  function ImportCsv(raw: seq<string>, votes: CommunityVotes.Votes, now: Instant,
                     zoned: string -> Option<Instant>): (r: Report)
    ensures r.total == 0 ==> r == NothingImported(votes)
    ensures r.total > 0 ==> r.status == Summary(r.imported, r.total, r.skipped)
    ensures r.imported + r.skipped == r.total
    ensures |r.failures| == r.skipped && |r.actions| == r.imported
    ensures r.errorLog.Some? <==> r.skipped > 0
    ensures VotesGrew(votes, r.votes)
  {
    ImportLines(CleanLines(raw), votes, RowParsers(now, zoned), SeedOverrides.KeyOf)
  }

  /** The row parser of each header, for a clock reading and a zoned date-time parser. */
  function RowParsers(now: Instant, zoned: string -> Option<Instant>): ParserFor {
    header => RowParser(header, now, zoned)
  }

  /** The import over lines already rid of their trailing carriage returns. */
  function ImportLines(lines: seq<string>, votes: CommunityVotes.Votes, parserFor: ParserFor, keyOf: Hazard -> string): (r: Report)
    ensures r.total == 0 ==> r == NothingImported(votes)
    ensures r.total > 0 ==> r.status == Summary(r.imported, r.total, r.skipped)
    ensures r.imported + r.skipped == r.total
    ensures |r.failures| == r.skipped && |r.actions| == r.imported
    ensures r.errorLog.Some? <==> r.skipped > 0
    ensures VotesGrew(votes, r.votes)
    ensures FirstNonBlank(lines, 0).None? ==> r.total == 0
    ensures FirstNonBlank(lines, 0).Some? ==> r.total == CountNonBlank(lines[FirstNonBlank(lines, 0).value + 1..])
  {
    match FirstNonBlank(lines, 0)
    case None => NothingImported(votes)
    case Some(hi) => ImportAfter(lines, hi, votes, parserFor, keyOf)
  }

  /** The import once the header is found at line `hi`: nothing when no row follows it,
      otherwise the report of the rows. */
  function ImportAfter(lines: seq<string>, hi: nat, votes: CommunityVotes.Votes, parserFor: ParserFor,
                       keyOf: Hazard -> string): (r: Report)
    requires hi < |lines|
    ensures r.total == CountNonBlank(lines[hi + 1..])
    ensures r.total == 0 ==> r == NothingImported(votes)
    ensures r.total > 0 ==> r.status == Summary(r.imported, r.total, r.skipped)
    ensures r.imported + r.skipped == r.total
    ensures |r.failures| == r.skipped && |r.actions| == r.imported
    ensures r.errorLog.Some? <==> r.skipped > 0
    ensures VotesGrew(votes, r.votes)
  {
    var total := CountNonBlank(lines[hi + 1..]);
    if total == 0 then NothingImported(votes)
    else
      var p := ImportRows(lines, hi, votes, parserFor, keyOf);
      Finish(p, total)
  }

  /** The report of rows that were all processed: the summary line, the counts, and the
      error file's text when some row failed. */
  function Finish(p: Progress, total: nat): (r: Report)
    ensures r.status == Summary(p.imported, total, p.skipped)
    ensures r.total == total && r.imported == p.imported && r.skipped == p.skipped
    ensures r.failures == p.failures && r.votes == p.votes && r.actions == p.actions
    ensures r.errorLog.Some? <==> p.skipped > 0
    ensures r.errorLog.Some? ==> r.errorLog.value == Join(p.failures, '\n')
  {
    Report(Summary(p.imported, total, p.skipped), total, p.imported, p.skipped, p.failures,
           if p.skipped == 0 then None else Some(Join(p.failures, '\n')), p.votes, p.actions)
  }

  /** Dropping trailing carriage returns does not change whether a line is blank. */
  lemma CleanBlank(s: string)
    ensures IsBlank(TrimEndChar(s, '\r')) <==> IsBlank(s)
  {
    var c := TrimEndChar(s, '\r');
    if IsBlank(c) {
      forall i | 0 <= i < |s| ensures IsWhitespace(s[i]) {
        if i < |c| {
          assert s[i] == c[i];
        }
      }
    }
  }

  /** Blank lines before position `k` do not count. */
  lemma {:induction false} CountSkipsBlank(lines: seq<string>, k: nat)
    requires k <= |lines| && forall i :: 0 <= i < k ==> IsBlank(lines[i])
    ensures CountNonBlank(lines) == CountNonBlank(lines[k..])
    decreases k
  {
    if k > 0 {
      CountSkipsBlank(lines[1..], k - 1);
      assert lines[1..][k - 1..] == lines[k..];
    }
  }

  /** Cleaning the lines keeps the count of non-blank ones. */
  lemma {:induction false} CountClean(raw: seq<string>)
    ensures CountNonBlank(CleanLines(raw)) == CountNonBlank(raw)
    decreases |raw|
  {
    if |raw| > 0 {
      CountClean(raw[1..]);
      CleanBlank(raw[0]);
      assert CleanLines(raw)[1..] == CleanLines(raw[1..]);
    }
  }

  /** The non-blank lines after the first non-blank one are all the non-blank lines but one. */
  lemma CountAfterHeader(lines: seq<string>)
    ensures FirstNonBlank(lines, 0).None? ==> CountNonBlank(lines) == 0
    ensures FirstNonBlank(lines, 0).Some? ==>
              CountNonBlank(lines[FirstNonBlank(lines, 0).value + 1..]) == CountNonBlank(lines) - 1
  {
    FirstNonBlankSkips(lines, 0);
    match FirstNonBlank(lines, 0)
    case None =>
      CountNonBlankZero(lines);
    case Some(hi) =>
      CountSkipsBlank(lines, hi);
      assert lines[hi..][1..] == lines[hi + 1..];
  }

  /** The import's row total is the number of non-blank lines after the header, the first
      of them: one less than all non-blank lines, or none; this holds whatever the rows'
      parser is. */
  lemma LinesTotal(raw: seq<string>, votes: CommunityVotes.Votes, parserFor: ParserFor, keyOf: Hazard -> string)
    ensures ImportLines(CleanLines(raw), votes, parserFor, keyOf).total
            == if CountNonBlank(raw) == 0 then 0 else CountNonBlank(raw) - 1
  {
    var lines := CleanLines(raw);
    var r := ImportLines(lines, votes, parserFor, keyOf);
    CountClean(raw);
    CountAfterHeader(lines);
    if FirstNonBlank(lines, 0).None? {
      assert r.total == 0 && CountNonBlank(raw) == 0;
    } else {
      assert r.total == CountNonBlank(lines) - 1;
    }
  }

  /** `importFromCsvText` counts as rows the non-blank lines after the header. */
  lemma ImportTotal(raw: seq<string>, votes: CommunityVotes.Votes, now: Instant, zoned: string -> Option<Instant>)
    ensures ImportCsv(raw, votes, now, zoned).total == if CountNonBlank(raw) == 0 then 0 else CountNonBlank(raw) - 1
  {
    var parserFor := RowParsers(now, zoned);
    assert ImportCsv(raw, votes, now, zoned) == ImportLines(CleanLines(raw), votes, parserFor, SeedOverrides.KeyOf);
    LinesTotal(raw, votes, parserFor, SeedOverrides.KeyOf);
  }

  /** A failure of the rows after header line `hi` names, 1-based, a non-blank line after it. */
  lemma RowsFailureLine(lines: seq<string>, hi: nat, votes: CommunityVotes.Votes, parserFor: ParserFor, keyOf: Hazard -> string, i: nat)
    returns (j: nat)
    requires hi < |lines| && i < |ImportRows(lines, hi, votes, parserFor, keyOf).failures|
    ensures hi < j < |lines| && !IsBlank(lines[j])
    ensures StartsWith(ImportRows(lines, hi, votes, parserFor, keyOf).failures[i], RowPrefix(j + 1))
  {
    var header := TrimAll(Split(lines[hi], ','));
    var data := lines[hi + 1..];
    var off := FailureRow(Progress(0, 0, 0, [], votes, []), LineParser(parserFor(header), |header|), keyOf, data, hi + 2, i);
    j := hi + 1 + off;
    assert data[off] == lines[j];
  }

  /** The failures of an import are those of the rows after its header. */
  lemma ImportFailures(lines: seq<string>, votes: CommunityVotes.Votes, parserFor: ParserFor, keyOf: Hazard -> string)
    requires |ImportLines(lines, votes, parserFor, keyOf).failures| > 0
    ensures FirstNonBlank(lines, 0).Some?
    ensures ImportLines(lines, votes, parserFor, keyOf).failures
            == ImportRows(lines, FirstNonBlank(lines, 0).value, votes, parserFor, keyOf).failures
  {
    var hi := FirstNonBlank(lines, 0).value;
    assert ImportLines(lines, votes, parserFor, keyOf) == ImportAfter(lines, hi, votes, parserFor, keyOf);
  }

  /** Every failure line names, 1-based, a non-blank line of the file after the header,
      whatever the rows' parser is. */
  lemma LinesFailureLine(raw: seq<string>, votes: CommunityVotes.Votes, parserFor: ParserFor, keyOf: Hazard -> string, i: nat)
    returns (j: nat)
    requires i < |ImportLines(CleanLines(raw), votes, parserFor, keyOf).failures|
    ensures j < |raw| && !IsBlank(raw[j])
    ensures FirstNonBlank(CleanLines(raw), 0).Some? && FirstNonBlank(CleanLines(raw), 0).value < j
    ensures StartsWith(ImportLines(CleanLines(raw), votes, parserFor, keyOf).failures[i], RowPrefix(j + 1))
  {
    var lines := CleanLines(raw);
    ImportFailures(lines, votes, parserFor, keyOf);
    j := RowsFailureLine(lines, FirstNonBlank(lines, 0).value, votes, parserFor, keyOf, i);
    CleanBlank(raw[j]);
  }
}

=== FILE: text.dfy ===
/** String operations of the Kotlin standard library that the app relies on:
    whitespace trimming, ASCII case mapping, `split`, `joinToString` and substring search. */
module Text {
  import opened Wrappers

  /** Kotlin's `Char.isWhitespace()`: Java whitespace plus the Unicode space separators. */
  predicate IsWhitespace(c: char) {
    var n := c as int;
    (9 <= n <= 13) || (0x1C <= n <= 0x20) || n == 0xA0 || n == 0x1680
    || (0x2000 <= n <= 0x200A) || n == 0x2028 || n == 0x2029 || n == 0x202F
    || n == 0x205F || n == 0x3000
  }

  /** Kotlin's `isBlank()`. */
  predicate IsBlank(s: string) {
    forall i :: 0 <= i < |s| ==> IsWhitespace(s[i])
  }

  /** Drops leading whitespace. */
  function TrimStart(s: string): (r: string)
    ensures |r| <= |s| && r == s[|s| - |r|..]
    ensures |r| > 0 ==> !IsWhitespace(r[0])
    ensures forall i :: 0 <= i < |s| - |r| ==> IsWhitespace(s[i])
  {
    if |s| > 0 && IsWhitespace(s[0]) then TrimStart(s[1..]) else s
  }

  /** Drops trailing whitespace. */
  function TrimEnd(s: string): (r: string)
    ensures |r| <= |s| && r == s[..|r|]
    ensures |r| > 0 ==> !IsWhitespace(r[|r| - 1])
    ensures forall i :: |r| <= i < |s| ==> IsWhitespace(s[i])
  {
    if |s| > 0 && IsWhitespace(s[|s| - 1]) then TrimEnd(s[..|s| - 1]) else s
  }

  /** Kotlin's `trim()`: the longest infix with no whitespace at either end. */
  function Trim(s: string): (r: string)
  {
    TrimEnd(TrimStart(s))
  }

  /** Kotlin's `trimEnd(c)` for a single character. */
  function TrimEndChar(s: string, c: char): (r: string)
    ensures |r| <= |s| && r == s[..|r|]
    ensures |r| > 0 ==> r[|r| - 1] != c
    ensures forall i :: |r| <= i < |s| ==> s[i] == c
  {
    if |s| > 0 && s[|s| - 1] == c then TrimEndChar(s[..|s| - 1], c) else s
  }

  /** A trimmed string is empty exactly when the input was blank. */
  lemma TrimEmptyIffBlank(s: string)
    ensures Trim(s) == "" <==> IsBlank(s)
  {
  }

  /** Trimming a string that has no whitespace at its ends changes nothing. */
  lemma TrimTrimmed(s: string)
    requires |s| > 0 ==> !IsWhitespace(s[0]) && !IsWhitespace(s[|s| - 1])
    ensures Trim(s) == s
  {
  }

  /** ASCII upper-casing of one character. */
  function UpperChar(c: char): char {
    if 'a' <= c <= 'z' then (c as int - 32) as char else c
  }

  /** ASCII lower-casing of one character. */
  function LowerChar(c: char): char {
    if 'A' <= c <= 'Z' then (c as int + 32) as char else c
  }

  /** `uppercase()` on the ASCII letters; other characters, including non-ASCII letters
      that Kotlin would map (such as 'ſ' to 'S'), are left as they are. */
  function Upper(s: string): (r: string)
    ensures |r| == |s|
    ensures forall i :: 0 <= i < |s| ==> r[i] == UpperChar(s[i])
  {
    if |s| == 0 then "" else [UpperChar(s[0])] + Upper(s[1..])
  }

  /** `lowercase()` on the ASCII letters; other characters are left as they are. */
  function Lower(s: string): (r: string)
    ensures |r| == |s|
    ensures forall i :: 0 <= i < |s| ==> r[i] == LowerChar(s[i])
  {
    if |s| == 0 then "" else [LowerChar(s[0])] + Lower(s[1..])
  }

  /** `replace(a, b)` for single characters. */
  function ReplaceChar(s: string, a: char, b: char): (r: string)
    ensures |r| == |s|
    ensures forall i :: 0 <= i < |s| ==> r[i] == (if s[i] == a then b else s[i])
  {
    if |s| == 0 then "" else [if s[0] == a then b else s[0]] + ReplaceChar(s[1..], a, b)
  }

  /** `replaceFirstChar { it.uppercase() }`. */
  function CapitalizeFirst(s: string): (r: string)
    ensures |r| == |s|
    ensures |s| > 0 ==> r[0] == UpperChar(s[0]) && r[1..] == s[1..]
  {
    if |s| == 0 then s else [UpperChar(s[0])] + s[1..]
  }

  /** `startsWith(p)`. */
  predicate StartsWith(s: string, p: string) {
    |p| <= |s| && s[..|p|] == p
  }

  /** A string starts with any piece it is built from at its front. */
  lemma PrefixStarts(p: string, s: string)
    ensures StartsWith(p + s, p)
  {
    assert (p + s)[..|p|] == p;
  }

  /** `contains(t)`: `t` occurs as a contiguous piece of `s`. */
  predicate Contains(s: string, t: string)
    decreases |s|
  {
    StartsWith(s, t) || (|s| > 0 && Contains(s[1..], t))
  }

  /** An occurrence at a known position is found by `Contains`. */
  lemma ContainsAt(s: string, t: string, i: nat)
    requires i + |t| <= |s| && s[i..i + |t|] == t
    ensures Contains(s, t)
    decreases i
  {
    if i > 0 {
      assert s[1..][i - 1..i - 1 + |t|] == s[i..i + |t|];
      ContainsAt(s[1..], t, i - 1);
    }
  }

  /** Whatever `Contains` finds lies at some position. */
  lemma ContainsWitness(s: string, t: string) returns (i: nat)
    requires Contains(s, t)
    ensures i + |t| <= |s| && s[i..i + |t|] == t
    decreases |s|
  {
    if StartsWith(s, t) {
      i := 0;
    } else {
      var j := ContainsWitness(s[1..], t);
      i := j + 1;
      assert s[i..i + |t|] == s[1..][j..j + |t|];
    }
  }

  /** Every occurrence of a search string in `p + s` that starts inside `p` but
      cannot start at any of `p`'s positions leaves only occurrences inside `s`. */
  lemma ContainsAfterPrefix(p: string, s: string, t: string)
    requires |t| > 0
    requires forall i :: 0 <= i < |p| ==> p[i] != t[0]
    ensures Contains(p + s, t) <==> Contains(s, t)
  {
    if Contains(p + s, t) {
      var i := ContainsWitness(p + s, t);
      assert (p + s)[i] == t[0];
      assert i >= |p|;
      assert s[i - |p|..i - |p| + |t|] == (p + s)[i..i + |t|];
      ContainsAt(s, t, i - |p|);
    }
    if Contains(s, t) {
      var i := ContainsWitness(s, t);
      assert (p + s)[|p| + i..|p| + i + |t|] == s[i..i + |t|];
      ContainsAt(p + s, t, |p| + i);
    }
  }

  /** Position of the first occurrence of `c`. */
  function IndexOf(s: string, c: char): (r: Option<nat>)
    ensures r.Some? ==> r.value < |s| && s[r.value] == c && c !in s[..r.value]
    ensures r.None? ==> c !in s
  {
    if |s| == 0 then None
    else if s[0] == c then Some(0)
    else match IndexOf(s[1..], c)
      case None => None
      case Some(i) => Some(i + 1)
  }

  /** `indexOf(x)` on a list: the first position holding `x`, or -1. */
  function FirstIndex<T(==)>(xs: seq<T>, x: T): (r: int)
    ensures -1 <= r < |xs|
    ensures r >= 0 ==> xs[r] == x && x !in xs[..r]
    ensures r == -1 <==> x !in xs
  {
    if |xs| == 0 then -1
    else if xs[0] == x then 0
    else
      var i := FirstIndex(xs[1..], x);
      if i == -1 then -1 else i + 1
  }

  /** Kotlin's `split(d)`: every occurrence of `d` separates two fields, empty fields kept. */
  function Split(s: string, d: char): (r: seq<string>)
    ensures |r| >= 1
    decreases |s|
  {
    if |s| == 0 then [""]
    else if s[0] == d then [""] + Split(s[1..], d)
    else
      var rest := Split(s[1..], d);
      [[s[0]] + rest[0]] + rest[1..]
  }

  /** Kotlin's `split(d, limit = n)`: at most `n` fields, the last one holding the rest. */
  function SplitLimit(s: string, d: char, n: nat): (r: seq<string>)
    requires n >= 1
    ensures 1 <= |r| <= n
    decreases n
  {
    if n == 1 then [s]
    else match IndexOf(s, d)
      case None => [s]
      case Some(i) => [s[..i]] + SplitLimit(s[i + 1..], d, n - 1)
  }

  /** `joinToString(d)`. */
  function Join(parts: seq<string>, d: char): string
  {
    if |parts| == 0 then ""
    else if |parts| == 1 then parts[0]
    else parts[0] + [d] + Join(parts[1..], d)
  }

  /** No part of the list contains the separator. */
  predicate NoSeparator(parts: seq<string>, d: char) {
    forall i :: 0 <= i < |parts| ==> d !in parts[i]
  }

  /** The fields of `split` never contain the separator. */
  lemma {:induction false} SplitFieldsClean(s: string, d: char)
    ensures NoSeparator(Split(s, d), d)
    decreases |s|
  {
    if |s| > 0 {
      SplitFieldsClean(s[1..], d);
    }
  }

  /** A string without the separator splits into itself. */
  lemma {:induction false} SplitNoSeparator(a: string, d: char)
    requires d !in a
    ensures Split(a, d) == [a]
    decreases |a|
  {
    if |a| > 0 {
      assert d !in a[1..];
      SplitNoSeparator(a[1..], d);
      assert [a[0]] + a[1..] == a;
    }
  }

  /** Splitting peels off a separator-free first field. */
  lemma {:induction false} SplitCons(a: string, d: char, b: string)
    requires d !in a
    ensures Split(a + [d] + b, d) == [a] + Split(b, d)
    decreases |a|
  {
    if |a| == 0 {
      assert (a + [d] + b)[1..] == b;
    } else {
      assert (a + [d] + b)[1..] == a[1..] + [d] + b;
      assert d !in a[1..];
      SplitCons(a[1..], d, b);
      assert [a[0]] + a[1..] == a;
    }
  }

  /** `split` undoes `joinToString` when no field contains the separator. */
  lemma {:induction false} SplitJoin(parts: seq<string>, d: char)
    requires |parts| >= 1 && NoSeparator(parts, d)
    ensures Split(Join(parts, d), d) == parts
    decreases |parts|
  {
    if |parts| == 1 {
      SplitNoSeparator(parts[0], d);
    } else {
      assert d !in parts[0];
      SplitCons(parts[0], d, Join(parts[1..], d));
      SplitJoin(parts[1..], d);
      assert [parts[0]] + parts[1..] == parts;
    }
  }

  /** `joinToString` undoes `split`: splitting loses nothing. */
  lemma {:induction false} JoinSplit(s: string, d: char)
    ensures Join(Split(s, d), d) == s
    decreases |s|
  {
    if |s| > 0 {
      JoinSplit(s[1..], d);
      var rest := Split(s[1..], d);
      if s[0] == d {
        assert s == [d] + s[1..];
      } else if |rest| == 1 {
        assert s == [s[0]] + rest[0];
      } else {
        assert Join(rest, d) == rest[0] + [d] + Join(rest[1..], d);
        assert ([[s[0]] + rest[0]] + rest[1..])[1..] == rest[1..];
        assert s == [s[0]] + s[1..];
      }
    }
  }

  /** The first occurrence is where `IndexOf` points. */
  lemma IndexOfFirst(s: string, c: char, k: nat)
    requires k < |s| && s[k] == c && c !in s[..k]
    ensures IndexOf(s, c) == Some(k)
  {
    assert s[..k + 1][k] == c;
  }

  /** A field without the separator, then the separator: `split(d, limit)` cuts it off first. */
  lemma SplitLimitCons(a: string, rest: string, d: char, n: nat)
    requires n > 1 && d !in a
    ensures SplitLimit(a + [d] + rest, d, n) == [a] + SplitLimit(rest, d, n - 1)
  {
    var s := a + [d] + rest;
    assert s[..|a|] == a && s[|a|] == d && s[|a| + 1..] == rest;
    IndexOfFirst(s, d, |a|);
  }

  /** Text without the separator is one field. */
  lemma SplitLimitSingle(s: string, d: char, n: nat)
    requires n >= 1 && d !in s
    ensures SplitLimit(s, d, n) == [s]
  {
    if n > 1 {
      assert IndexOf(s, d).None?;
    }
  }

  /** A separator-free field ahead of a line that splits into `tail` adds itself in front. */
  lemma SplitAfterField(a: string, rest: string, tail: seq<string>, d: char, n: nat)
    requires n > 1 && d !in a && SplitLimit(rest, d, n - 1) == tail
    ensures SplitLimit(a + [d] + rest, d, n) == [a] + tail
  {
    SplitLimitCons(a, rest, d, n);
  }

  /** The parts after the first hold no separator either. */
  lemma NoSeparatorTail(parts: seq<string>, d: char)
    requires |parts| >= 1 && NoSeparator(parts, d)
    ensures d !in parts[0] && NoSeparator(parts[1..], d)
  {
    var tail := parts[1..];
    forall i | 0 <= i < |tail| ensures d !in tail[i] {
      assert tail[i] == parts[i + 1];
    }
  }

  /** With a limit of at least the number of fields, `split(d, limit)` undoes `joinToString`. */
  lemma {:induction false} SplitLimitJoin(parts: seq<string>, d: char, n: nat)
    requires |parts| >= 1 && n >= |parts| && NoSeparator(parts, d)
    ensures SplitLimit(Join(parts, d), d, n) == parts
    decreases |parts|
  {
    if |parts| == 1 {
      SplitLimitSingle(parts[0], d, n);
    } else {
      var tail := parts[1..];
      var joined := Join(tail, d);
      NoSeparatorTail(parts, d);
      SplitLimitJoin(tail, d, n - 1);
      assert Join(parts, d) == parts[0] + [d] + joined;
      SplitAfterField(parts[0], joined, tail, d, n);
      assert parts == [parts[0]] + tail;
    }
  }
}

=== FILE: tts_manager.dfy ===
/** `TextToSpeechManager`: the three stored speech preferences with their defaults, the
    speak-and-vibrate gate of `speakAlert`, and the companion message builders. The speech
    engine, audio focus and the vibrator are effects the model only names. */
module TtsManager {
  import opened Wrappers
  import opened Numbers
  import opened Text

  /** The stored preferences; an absent entry reads as its default. */
  datatype TtsPrefs = TtsPrefs(voice: Option<bool>, vibration: Option<bool>, alertDistance: Option<real>)

  const UNSET: TtsPrefs := TtsPrefs(None, None, None)

  /** `voiceEnabled`: on unless switched off. */
  function VoiceEnabled(p: TtsPrefs): (r: bool)
    ensures p.voice.None? ==> r
  {
    p.voice.GetOr(true)
  }

  /** `vibrationEnabled`: on unless switched off. */
  function VibrationEnabled(p: TtsPrefs): (r: bool)
    ensures p.vibration.None? ==> r
  {
    p.vibration.GetOr(true)
  }

  /** `alertDistance`: the warning-distance multiplier, 1.0 unless set. */
  function AlertDistance(p: TtsPrefs): (r: real)
    ensures p.alertDistance.None? ==> r == 1.0
  {
    p.alertDistance.GetOr(1.0)
  }

  function SetVoiceEnabled(p: TtsPrefs, enabled: bool): (r: TtsPrefs)
    ensures VoiceEnabled(r) == enabled
    ensures VibrationEnabled(r) == VibrationEnabled(p) && AlertDistance(r) == AlertDistance(p)
  {
    p.(voice := Some(enabled))
  }

  function SetVibrationEnabled(p: TtsPrefs, enabled: bool): (r: TtsPrefs)
    ensures VibrationEnabled(r) == enabled
    ensures VoiceEnabled(r) == VoiceEnabled(p) && AlertDistance(r) == AlertDistance(p)
  {
    p.(vibration := Some(enabled))
  }

  function SetAlertDistance(p: TtsPrefs, distance: real): (r: TtsPrefs)
    ensures AlertDistance(r) == distance
    ensures VoiceEnabled(r) == VoiceEnabled(p) && VibrationEnabled(r) == VibrationEnabled(p)
  {
    p.(alertDistance := Some(distance))
  }

  /** What `speakAlert` asks of the device: an utterance (flushing the queue) named by the
      hazard id, and a half-second vibration. */
  datatype Effect = Utter(text: string, utteranceId: string) | Vibrate(millis: nat)

  /** `speakAlert`: speaks when voice is on and vibrates when vibration is on, each
      independently of the other. */
  function SpeakAlert(p: TtsPrefs, message: string, hazardId: int): (r: seq<Effect>)
    ensures Utter(message, IntStr(hazardId)) in r <==> VoiceEnabled(p)
    ensures Vibrate(500) in r <==> VibrationEnabled(p)
    ensures |r| <= 2
    ensures forall x :: x in r ==> x == Utter(message, IntStr(hazardId)) || x == Vibrate(500)
  {
    (if VoiceEnabled(p) then [Utter(message, IntStr(hazardId))] else [])
      + (if VibrationEnabled(p) then [Vibrate(500)] else [])
  }

  /** With nothing stored, an alert is both spoken and felt. */
  lemma DefaultsSpeakAndVibrate(message: string, hazardId: int)
    ensures SpeakAlert(UNSET, message, hazardId) == [Utter(message, IntStr(hazardId)), Vibrate(500)]
  {
  }

  /** The phrase ending every distance message. */
  function AheadIn(distance: int): string {
    " ahead in " + IntStr(distance) + " meters."
  }

  /** `createHazardAlertMessage`: the lower-cased type name picks the sentence; for a speed
      limit zone the number is read as a speed, and any other name is a generic hazard. */
  function HazardAlertMessage(hazardType: string, distance: int): (r: string)
    ensures Lower(hazardType) == "speed limit zone" ==> r == "Entering " + IntStr(distance) + " kilometer per hour zone."
    ensures Lower(hazardType) != "speed limit zone" ==> exists lead :: r == lead + AheadIn(distance)
    ensures !(Lower(hazardType) in KNOWN_NAMES) ==> r == "Hazard" + AheadIn(distance)
  {
    var name := Lower(hazardType);
    if name == "speed bump" then "Speed bump" + AheadIn(distance)
    else if name == "rumble strip" then "Rumble strip" + AheadIn(distance)
    else if name == "pothole" then "Pothole" + AheadIn(distance)
    else if name == "debris" then "Debris on road" + AheadIn(distance)
    else if name == "police" then "Police" + AheadIn(distance)
    else if name == "speed limit zone" then "Entering " + IntStr(distance) + " kilometer per hour zone."
    else "Hazard" + AheadIn(distance)
  }

  /** The six names the builder recognises. */
  const KNOWN_NAMES: set<string> := {"speed bump", "rumble strip", "pothole", "debris", "police", "speed limit zone"}

  /** The builder ignores ASCII letter case. */
  lemma MessageIgnoresCase(a: string, b: string, distance: int)
    requires Lower(a) == Lower(b)
    ensures HazardAlertMessage(a, distance) == HazardAlertMessage(b, distance)
  {
  }

  /** `createSpeedLimitExitMessage`. */
  function SpeedLimitExitMessage(speedLimit: int): string {
    "Exiting " + IntStr(speedLimit) + " kilometer per hour zone."
  }

  /** Entering and leaving messages for the same limit differ only in their first word. */
  lemma EnterExitPair(name: string, limit: int)
    requires Lower(name) == "speed limit zone"
    ensures HazardAlertMessage(name, limit)[|"Entering"|..] == SpeedLimitExitMessage(limit)[|"Exiting"|..]
  {
    var tail := " " + IntStr(limit) + " kilometer per hour zone.";
    assert HazardAlertMessage(name, limit) == "Entering" + tail;
    assert SpeedLimitExitMessage(limit) == "Exiting" + tail;
  }
}

=== FILE: wrappers.dfy ===
/** The optional-value datatype the whole model uses in place of Kotlin's nullable types
    and Python's `None`. */
module Wrappers {

  datatype Option<+T> = None | Some(value: T) {

    /** The value, or `default` when absent (Kotlin's `?:`). */
    function GetOr(default: T): T {
      match this
      case Some(v) => v
      case None => default
    }
  }
}
